=== FILE: README.md ===
# Dream of One — rule layer in Dafny

Dream of One is a Unity social-simulation game. The player walks a dreamlike
city under a cover identity: a name, an affiliation and a role, plus lists of
places and topics the cover allows. The city has its own laws (dream laws).
NPCs watch what the player says and does. They remember it, gossip about it
and file reports. Suspicion and exposure build up. Once enough reports
arrive, the police open a case. They assemble a case bundle and reach a verdict.

This project models the deterministic rules behind that loop. Each rule
becomes a pure Dafny function or a short method, with a contract that states
what the game relies on. The model covers:

- **Event stream.** The bounded world event log, the event records, the
  presenter that forwards records to the UI, and the artifacts that evidence
  events leave behind.
- **Cover.** The cover profile and its status, the cover-test database, and
  the lucid-cover definition databases (first entry wins). The cover
  snapshot used to check that two runs agree is also modelled.
- **Dream laws.** The law database, the speech detectors, the evaluator
  that turns a law and a context into a violation, the applier that turns a
  violation into suspicion and events, and the violation response.
- **NPC minds.** NPC context and memory, persona and speech cooldowns, the
  witness statement, the hypothesis tracker, fallback dialogue, the dialogue
  line limiter, gossip, and the society brain with its JSON plan reader and
  memory.
- **Institutions.** Reports and report consumption, the case bundle and its
  builder, the case view filter, the verdict, the bundle formatter,
  organisation routines and the organisation catalog, and the NPC role routine.
- **World helpers.** The spatial blackboard, suspicion and global
  suspicion, exposure, zones, interior portals with their failsafe, player
  stuck recovery and vertical motion, the incident hint, the world build
  report, localization, identifiers and enum names, the semantic shaper,
  the session director and the loop verifier.
- **Skill validator.** The front-matter check of the repository's skill
  validator (`scripts/skills/validate_skills.py`).

The model has one module per source file. `Wrappers`, `Seqs`, `Text`,
`Numeric` and `Events` hold the shared option/result types and the
sequence, text, rounding and event-record definitions. Clocks, random draws,
GUIDs and scene queries become parameters. Floating-point quantities
are `real`.

## Model

| member | source | states |
|---|---|---|
| FirstWinsDatabase.FirstMatch | draem-of-one/Assets/Scripts/LucidCover/DreamLawDatabase.cs:34-55 | reference meaning of "first wins": the earliest slot whose id equals the key ignoring case, and no earlier slot matches; none only when no slot matches |
| FirstWinsDatabase.LookupIsFirstMatch | draem-of-one/Assets/Scripts/LucidCover/DreamLawDatabase.cs:34-55 | the case-insensitive table built by skipping missing entries, empty ids and ids already present holds exactly the first matching definition of each id |
| FirstWinsDatabase.FirstMatchAt | draem-of-one/Assets/Scripts/LucidCover/DreamLawDatabase.cs:34-55 | a matching slot with no earlier match is the first match |
| FirstWinsDatabase.FirstMatchNone | draem-of-one/Assets/Scripts/LucidCover/DreamLawDatabase.cs:34-55 | a list with no matching slot has no first match |
| FirstWinsDatabase.TryGet | draem-of-one/Assets/Scripts/LucidCover/DreamLawDatabase.cs:22-32 | an empty id finds nothing; a found definition is the first listed one whose id matches ignoring case; nothing is found only when none matches |
| FirstWinsDatabase.IgnoresCase | draem-of-one/Assets/Scripts/LucidCover/DreamLawDatabase.cs:44 | ids that differ only in letter case find the same definition |
| DreamLawDatabase.TryGet | draem-of-one/Assets/Scripts/LucidCover/DreamLawDatabase.cs:22-55 | an empty id finds nothing; a found law is listed, has a non-empty id equal ignoring case, and no earlier entry matches; nothing is found only when no entry matches |
| DreamLawEvaluator.SelectFirstTriggeredDetector | draem-of-one/Assets/Scripts/LucidCover/DreamLawEvaluator.cs:98-115 | the detector returned is listed, fires, and no earlier listed detector fires; "" exactly when none fires |
| DreamLawEvaluator.ToEventSeverity | draem-of-one/Assets/Scripts/LucidCover/DreamLawEvaluator.cs:129-147 | the band is in 0..3, 0 exactly for non-positive severity, at least 2 exactly from 0.55, and 3 exactly from 0.85 |
| DreamLawEvaluator.SeverityMonotone | draem-of-one/Assets/Scripts/LucidCover/DreamLawEvaluator.cs:129-147 | a more severe law never gets a lower band |
| DreamLawEvaluator.Scale | draem-of-one/Assets/Scripts/LucidCover/DreamLawEvaluator.cs:66-69 | without the station boost a delta is unchanged; with it, it is the delta times the station multiplier rounded to the nearest integer, ties to even |
| DreamLawEvaluator.BoostBounds | draem-of-one/Assets/Scripts/LucidCover/DreamLawEvaluator.cs:66-69 | a boosted delta keeps its sign, never shrinks in size and at most doubles |
| DreamLawEvaluator.Evaluate1 | draem-of-one/Assets/Scripts/LucidCover/DreamLawEvaluator.cs:48-72 | a law yields a hit exactly when it is present, in scope and one of its detectors fires; the hit names that law, a firing listed detector, the boost exactly in a station context for the two weighted laws, the scaled deltas and the severity band |
| DreamLawEvaluator.Evaluate | draem-of-one/Assets/Scripts/LucidCover/DreamLawEvaluator.cs:18-74 | at most one hit per law |
| DreamLawEvaluator.EvaluateExact | draem-of-one/Assets/Scripts/LucidCover/DreamLawEvaluator.cs:46-73 | every hit is the hit of some listed law, and every law that yields a hit contributes it |
| DreamLawEvaluator.EvaluateAppend | draem-of-one/Assets/Scripts/LucidCover/DreamLawEvaluator.cs:46-73 | evaluating two stretches of the law list gives their hits one after the other, in database order |
| DreamLawEvaluator.SilentUnlessBreak | draem-of-one/Assets/Scripts/LucidCover/DreamLawEvaluator.cs:18-74 | with an empty utterance, only a Break act can produce hits, and each such hit comes from the dream-talk detector |
| DreamLawSpeechDetectors.KeywordsFor | draem-of-one/Assets/Scripts/LucidCover/DreamLawSpeechDetectors.cs:76-112 | a detector id has a keyword list exactly when it names one of the four speech detectors ignoring case; dream talk selects the dream-talk keywords |
| DreamLawSpeechDetectors.ContainsAny | draem-of-one/Assets/Scripts/LucidCover/DreamLawSpeechDetectors.cs:114-136 | true exactly when the text is non-empty and contains some non-empty keyword ignoring case |
| DreamLawSpeechDetectors.IsTriggered | draem-of-one/Assets/Scripts/LucidCover/DreamLawSpeechDetectors.cs:76-112 | an empty or unknown id never fires; dream talk always fires on a Break; otherwise a speech detector fires exactly when the utterance mentions one of its keywords; nothing fires on silence except dream talk on a Break |
| DreamLawSpeechDetectors.IdIgnoresCase | draem-of-one/Assets/Scripts/LucidCover/DreamLawSpeechDetectors.cs:78-105 | detector ids differing only in letter case behave the same |
| DreamLawSpeechDetectors.MirrorExample | draem-of-one/Assets/Scripts/LucidCover/DreamLawSpeechDetectors.cs:76-136 | "Mirror?" trips the reality-test detector despite the capital, and dream talk does not fire on silence outside a Break |
| DreamLawViolationApplier.StatementRecord | draem-of-one/Assets/Scripts/LucidCover/DreamLawViolationApplier.cs:75-96 | the statement record has the given id, is by the witness about the player, cites the law as rule and topic and the detector as source, and clamps severity to 1..3 |
| DreamLawViolationApplier.ViolationRecord | draem-of-one/Assets/Scripts/LucidCover/DreamLawViolationApplier.cs:98-115 | the violation record is by the witness about the player, carries the suspicion delta, clamps severity to 0..3, and its note cites the detector, the statement and the station boost |
| DreamLawViolationApplier.ApplyHit | draem-of-one/Assets/Scripts/LucidCover/DreamLawViolationApplier.cs:54-119 | a hit writes a statement then a violation, then an exposure update exactly when an exposure system exists, whose new state is that system's AddExposure result and stays valid |
| DreamLawViolationApplier.CountAppend | draem-of-one/Assets/Scripts/LucidCover/DreamLawViolationApplier.cs:20-52 | counting records of a type over two stretches adds the counts |
| DreamLawViolationApplier.OneOfEachKind | draem-of-one/Assets/Scripts/LucidCover/DreamLawViolationApplier.cs:54-119 | the records of one hit hold exactly one statement and one violation |
| DreamLawViolationApplier.ApplyHits | draem-of-one/Assets/Scripts/LucidCover/DreamLawViolationApplier.cs:47-50 | n hits write between 2n and 3n records, exactly n statements and n violations, the first pair citing the first hit's statement id |
| DreamLawViolationApplier.ApplySpeech | draem-of-one/Assets/Scripts/LucidCover/DreamLawViolationApplier.cs:20-52 | no database or no log gives nothing; otherwise the hits are the evaluator's, each writes its statement and violation in order with "Witness"/"Citizen" standing in for a missing witness, and a valid exposure state stays valid |
| CoverProfile.RejectionNeedsList | draem-of-one/Assets/Scripts/Core/CoverProfile.cs:44-62 | a place or topic is turned away exactly when it is non-empty, the list is non-empty and the list does not name it |
| CoverProfile.Configure | draem-of-one/Assets/Scripts/Core/CoverProfile.cs:74-114 | an empty name, affiliation or role keeps the previous one; each of the four lists is replaced by the given one, a missing one becoming empty |
| CoverProfile.ConfigureDecidesPlaces | draem-of-one/Assets/Scripts/Core/CoverProfile.cs:44-52 | after configuring, whether a place is allowed depends only on the new place list and not on the earlier profile |
| CoverStatus.Awake | draem-of-one/Assets/Scripts/Core/CoverStatus.cs:43-71 | a cover with no allowed places is given the studio-intern cover; any other state is left as it was |
| CoverStatus.Probability | draem-of-one/Assets/Scripts/Core/CoverStatus.cs:144-149 | the outsider probability always lies in [0, 1] |
| CoverStatus.ProbabilityMonotone | draem-of-one/Assets/Scripts/Core/CoverStatus.cs:144-149 | more outsiderness or more global suspicion never lowers the probability |
| CoverStatus.Recalculate | draem-of-one/Assets/Scripts/Core/CoverStatus.cs:144-149 | recalculating refreshes only the probability and always notifies listeners |
| CoverStatus.Update | draem-of-one/Assets/Scripts/Core/CoverStatus.cs:89-98 | with zero outsiderness a frame does nothing; otherwise outsiderness decays, never below zero, and the status stays in range |
| CoverStatus.DefaultDeltaPositive | draem-of-one/Assets/Scripts/Core/CoverStatus.cs:107-129 | with positive amounts, an event adds outsiderness exactly when it is a violation, a taboo topic, a place off the cover or a topic off the cover |
| CoverStatus.ApplyDelta | draem-of-one/Assets/Scripts/Core/CoverStatus.cs:137-142 | the delta is recorded and outsiderness becomes the sum clamped to [0, 100], leaving the status in range |
| CoverStatus.HandleEvent | draem-of-one/Assets/Scripts/Core/CoverStatus.cs:100-135 | events of other actors and events adding nothing change nothing; a player event with a positive delta applies it, so outsiderness never falls |
| CoverStatus.RunStaysValid | draem-of-one/Assets/Scripts/Core/CoverStatus.cs:89-135 | any interleaving of frames and events keeps outsiderness in [0, 100] and the probability in [0, 1] |
| CoverTestDatabase.TryGet | draem-of-one/Assets/Scripts/LucidCover/CoverTestDatabase.cs:22-55 | an empty id finds nothing; a found test is listed, has a non-empty id equal ignoring case, and no earlier entry matches; nothing is found only when no entry matches |
| DialogueLineLimiter.NoDoubleSpaceIffNotContains | draem-of-one/Assets/Scripts/Core/DialogueLineLimiter.cs:13 | the loop's stopping test (no "  " substring) is the same as no two adjacent spaces |
| DialogueLineLimiter.CollapseSpaces | draem-of-one/Assets/Scripts/Core/DialogueLineLimiter.cs:13-16 | reference meaning of space normalisation: every run of spaces becomes one space, nothing is added, the first character is kept |
| DialogueLineLimiter.ReplaceDoubleSpace | draem-of-one/Assets/Scripts/Core/DialogueLineLimiter.cs:15 | one replacement pass never lengthens the text and strictly shortens text that still holds a double space |
| DialogueLineLimiter.ReplacePreservesCollapse | draem-of-one/Assets/Scripts/Core/DialogueLineLimiter.cs:15 | a replacement pass does not change what the collapse of the text is |
| DialogueLineLimiter.CollapseFixesClean | draem-of-one/Assets/Scripts/Core/DialogueLineLimiter.cs:13-16 | text without double spaces is already collapsed |
| DialogueLineLimiter.CollapseIsClean | draem-of-one/Assets/Scripts/Core/DialogueLineLimiter.cs:13-16 | collapsed text has no double spaces |
| DialogueLineLimiter.NormalizeSpaces | draem-of-one/Assets/Scripts/Core/DialogueLineLimiter.cs:13-16 | repeating the replacement until no double space remains terminates with the collapse of the input |
| DialogueLineLimiter.BreaksToSpaces | draem-of-one/Assets/Scripts/Core/DialogueLineLimiter.cs:12 | after replacing carriage returns and line feeds by spaces no line break remains and the length is unchanged |
| DialogueLineLimiter.NormalizedShape | draem-of-one/Assets/Scripts/Core/DialogueLineLimiter.cs:12-16 | the normalised text has no line breaks, no double spaces, no leading white space, and is empty exactly when the input is blank |
| DialogueLineLimiter.ClampLine | draem-of-one/Assets/Scripts/Core/DialogueLineLimiter.cs:5-24 | blank input or a non-positive cap gives ""; otherwise a non-empty prefix of the normalised text of length min(cap, length), with no line breaks, no double spaces and no leading white space |
| DialogueLineLimiter.Cap | draem-of-one/Assets/Scripts/Core/DialogueLineLimiter.cs:18-23 | the cut keeps exactly the first min(n, length) characters and keeps a clean line clean |
| DialogueLineLimiter.CapInCodeUnits | draem-of-one/Assets/Scripts/Core/DialogueLineLimiter.cs:18-23 | for text inside the Basic Multilingual Plane the cut keeps exactly min(n, Length) UTF-16 code units, as `Substring(0, n)` does |
| DialogueLineLimiter.ClampLineInCodeUnits | draem-of-one/Assets/Scripts/Core/DialogueLineLimiter.cs:5-24 | measured in UTF-16 code units the line is at most twice the cap, and within the cap for input inside the Basic Multilingual Plane |
| DialogueLineLimiter.ExampleTrim | draem-of-one/Assets/Tests/EditMode/DialogueLineLimiterTests.cs:9-13 | trimming "  hello world  " gives "hello world" |
| DialogueLineLimiter.ExampleBreaks | draem-of-one/Assets/Tests/EditMode/DialogueLineLimiterTests.cs:9-13 | the test input's line feed becomes a space |
| DialogueLineLimiter.ExampleNormalized | draem-of-one/Assets/Tests/EditMode/DialogueLineLimiterTests.cs:9-13 | the test input normalises to "hello world" |
| DialogueLineLimiter.ExampleCollapse | draem-of-one/Assets/Tests/EditMode/DialogueLineLimiterTests.cs:9-13 | "hello world" has nothing to collapse |
| DialogueLineLimiter.ExampleJoinsLines | draem-of-one/Assets/Tests/EditMode/DialogueLineLimiterTests.cs:9-13 | clamping "  hello\nworld  " to 100 characters gives "hello world" |
| EnumNames.FindNameSound | draem-of-one/Assets/Scripts/Core/Identifiers.cs:62 | a name found is the name of a listed member, equal to the text ignoring case |
| EnumNames.FindNameComplete | draem-of-one/Assets/Scripts/Core/Identifiers.cs:62 | whenever some member's name equals the text ignoring case, the parse succeeds |
| EnumNames.FindOwnName | draem-of-one/Assets/Scripts/Core/Identifiers.cs:62 | with case-distinct names, parsing a member's own name gives back that member |
| EnumNames.SkipToName | draem-of-one/Assets/Scripts/Core/Identifiers.cs:62 | a name first matched at some position parses to the member at that position |
| EventLogPresenter.Present | draem-of-one/Assets/Scripts/Core/EventLogPresenter.cs:58-65 | a record pops up as a toast exactly when its severity is at least 2 or it is a verdict |
| EventLogPresenter.PresentAll | draem-of-one/Assets/Scripts/Core/EventLogPresenter.cs:56-72 | one UI line per forwarded record, in order |
| EventLogPresenter.StartIndex | draem-of-one/Assets/Scripts/Core/EventLogPresenter.cs:48-53 | the start index lies within the buffer and, for a cursor inside the buffer's lifetime window, points at the record with that lifetime number |
| EventLogPresenter.Forward | draem-of-one/Assets/Scripts/Core/EventLogPresenter.cs:55-72 | the loop forwards the contiguous records from the start index, min(remaining, max(1, per-frame budget)) of them |
| EventLogPresenter.UpdateAsWritten | draem-of-one/Assets/Scripts/Core/EventLogPresenter.cs:37-75 | without a log or a UI nothing happens; otherwise the lines are the next records from the start index within the budget, and the cursor moves by the forwarded count capped at the lifetime total |
| EventLogPresenter.Update | draem-of-one/Assets/Scripts/Core/EventLogPresenter.cs:37-75 | as UpdateAsWritten, except that the next frame's start index is exactly past the records forwarded, and the cursor stays within the lifetime total |
| EventLogPresenter.CursorSkipsForwarded | draem-of-one/Assets/Scripts/Core/EventLogPresenter.cs:49-74 | with the corrected cursor a following frame starts right after what was forwarded |
| EventLogPresenter.AsWrittenRepeatsRecords | draem-of-one/Assets/Scripts/Core/EventLogPresenter.cs:49-74 | with five records logged, two evicted and a cursor at zero, the cursor as written leaves the next start index at 0 again |
| ExposureSystem.Awake | draem-of-one/Assets/Scripts/Core/ExposureSystem.cs:45-55 | afterwards the maximum is positive, the exposed threshold lies in [1, max] and attention in [0, exposed]; already-normalised settings are kept; nothing else changes |
| ExposureSystem.ExposedImpliesAttention | draem-of-one/Assets/Scripts/Core/ExposureSystem.cs:47-49 | once normalised, an exposed player also has the station's attention |
| ExposureSystem.ExposureRecord | draem-of-one/Assets/Scripts/Core/ExposureSystem.cs:96-111 | the record is an exposure update about the player by the actor or "System", cites the law as rule and as topic (or "Exposure"), carries the delta and has severity 2 exactly at or above attention |
| ExposureSystem.SetExposure | draem-of-one/Assets/Scripts/Core/ExposureSystem.cs:78-114 | the stored value is the value clamped to [0, max], listeners are notified, only the exposure changes, and a record is written exactly when asked and a log exists |
| ExposureSystem.ResetExposure | draem-of-one/Assets/Scripts/Core/ExposureSystem.cs:57-60 | exposure returns to zero, listeners are notified and nothing is logged |
| ExposureSystem.AddExposure | draem-of-one/Assets/Scripts/Core/ExposureSystem.cs:62-76 | a zero delta, or one the clamp absorbs, changes nothing and notifies nobody; otherwise the clamped sum is set and logged; positive deltas never lower and negative ones never raise exposure |
| ExposureSystem.StaysInRange | draem-of-one/Assets/Scripts/Core/ExposureSystem.cs:62-76 | exposure stays in [0, max] whatever series of deltas arrives |
| FallbackDialogue.GetResponse | game/Assets/Scripts/Gameplay/FallbackDialogueProvider.cs:7-24 | the greeting reply is given exactly when the line contains a greeting word; otherwise the neutral reply; never a hint or a suspicion change |
| FallbackDialogue.RulesAreIgnored | game/Assets/Scripts/Gameplay/FallbackDialogueProvider.cs:7-24 | the reply does not depend on the confirmed rules |
| FallbackDialogue.SubstringGreeting | game/Assets/Scripts/Gameplay/FallbackDialogueProvider.cs:17 | the test is an ordinal substring test: "this" counts as a greeting, "Hi" does not |
| ArtifactRegistry.TryAddFromEvent | draem-of-one/Assets/Scripts/Core/ArtifactRegistry.cs:27-55 | a record is accepted exactly when it is present, has an id, has one of the eleven artifact types and its id is new; an accepted record is appended and its id remembered, anything else leaves the registry as it was; a registry whose id set mirrors a duplicate-free list stays so |
| ArtifactRegistry.AddAll | draem-of-one/Assets/Scripts/Core/ArtifactRegistry.cs:27-55 | offering a whole stream of events keeps the registry consistent (id set equals the artifacts' ids, no id twice) |
| ArtifactRegistry.IdsAreAdmissible | draem-of-one/Assets/Scripts/Core/ArtifactRegistry.cs:27-55 | after a stream the known ids are the old ones plus exactly the ids of the stream's admissible events |
| ArtifactRegistry.ArtifactsComeFromEvents | draem-of-one/Assets/Scripts/Core/ArtifactRegistry.cs:27-55 | every artifact after a stream was already there or was made from an admissible event of the stream |
| ArtifactRegistry.ArtifactsStay | draem-of-one/Assets/Scripts/Core/ArtifactRegistry.cs:27-55 | the registry only grows: no artifact is ever dropped |
| ArtifactRegistry.FirstEventWins | draem-of-one/Assets/Scripts/Core/ArtifactRegistry.cs:27-55 | for each id not yet known, the artifact of the first admissible event carrying it is the one kept |
| ArtifactRegistry.TicketKeptZoneIgnored | draem-of-one/Assets/Tests/EditMode/ArtifactRegistryTests.cs:10-48 | a ticket event becomes the single artifact with its id and type; a zone-entry event is refused and leaves no artifact |
| ViolationResponse.LastDelta | draem-of-one/Assets/Scripts/Core/ViolationResponseSystem.cs:155-168 | a delta is configured for a rule exactly when some entry names it, and it is the last such entry's delta |
| ViolationResponse.BuildLookup | draem-of-one/Assets/Scripts/Core/ViolationResponseSystem.cs:155-168 | the empty rule id never enters the lookup |
| ViolationResponse.BuildLookupIsLast | draem-of-one/Assets/Scripts/Core/ViolationResponseSystem.cs:155-168 | for each non-empty rule id the lookup holds exactly the last configured delta, and holds the id only when some entry names it |
| ViolationResponse.NewResponder | draem-of-one/Assets/Scripts/Core/ViolationResponseSystem.cs:46-59 | a fresh responder looks deltas up from the configured list, keeps its witnesses, and defaults to 20 without distance fall-off |
| ViolationResponse.GetDelta | draem-of-one/Assets/Scripts/Core/ViolationResponseSystem.cs:114-122 | a non-empty known rule id gets its configured delta; any other gets the default |
| ViolationResponse.ConfigureRuleDelta | draem-of-one/Assets/Scripts/Core/ViolationResponseSystem.cs:192-200 | an empty id changes nothing; otherwise that rule now gets the new delta and every other rule keeps its own |
| ViolationResponse.RegisterWitness | draem-of-one/Assets/Scripts/Core/ViolationResponseSystem.cs:184-190 | a missing or already listed witness changes nothing; a new one is appended, so the list never holds a witness twice |
| ViolationResponse.AppliedDelta | draem-of-one/Assets/Scripts/Core/ViolationResponseSystem.cs:95-100 | without distance fall-off every witness receives the rule's delta unscaled |
| ViolationResponse.Visit | draem-of-one/Assets/Scripts/Core/ViolationResponseSystem.cs:101-111 | a null slot or a destroyed NPC is skipped; otherwise that NPC alone is raised, and at most one record and one filing result |
| ViolationResponse.VisitAll | draem-of-one/Assets/Scripts/Core/ViolationResponseSystem.cs:101-111 | the set of NPCs is unchanged and there is at most one record and one filing per slot |
| ViolationResponse.VisitAllOnce | draem-of-one/Assets/Scripts/Core/ViolationResponseSystem.cs:101-111 | a violation with an id raises each listed NPC exactly once, even when it is listed twice, and leaves unlisted NPCs alone |
| ViolationResponse.HandleViolation | draem-of-one/Assets/Scripts/Core/ViolationResponseSystem.cs:87-112 | a non-positive delta changes nothing; otherwise each listed witness is raised in list order by the applied delta, unlisted NPCs are untouched, and there is at most one record and one filing per witness |
| ViolationResponse.Untouched | draem-of-one/Assets/Scripts/Core/ViolationResponseSystem.cs:101-111 | an NPC that is not a listed witness is never touched |
| ViolationResponse.HandleEvent | draem-of-one/Assets/Scripts/Core/ViolationResponseSystem.cs:77-85 | only ViolationDetected records trigger a response |
| ViolationResponse.RepeatedViolationIgnored | draem-of-one/Assets/Scripts/Core/ViolationResponseSystem.cs:101-111 | handling the same violation twice changes no NPC the second time |
| WorldEventLog.EmptyLog | draem-of-one/Assets/Scripts/Core/WorldEventLog.cs:37-40 | a new log is empty, has counted nothing and satisfies the buffer invariant |
| WorldEventLog.InferCategory | draem-of-one/Assets/Scripts/Core/WorldEventLog.cs:150-163 | zone entries and exits are Zone, suspicion updates Suspicion, reports Report, interrogations and verdicts Verdict, and every other type Rule |
| WorldEventLog.Stamp | draem-of-one/Assets/Scripts/Core/WorldEventLog.cs:47-49 | a stored record always has an id, keeps its own when it had one, carries the time and the derived category, and is otherwise unchanged |
| WorldEventLog.RecordEvent | draem-of-one/Assets/Scripts/Core/WorldEventLog.cs:45-70 | the total grows by one; the buffer keeps its invariant and holds the newest records that fit, ending with the stamped new one when the buffer is not empty |
| WorldEventLog.RecordZoneEvent | draem-of-one/Assets/Scripts/Core/WorldEventLog.cs:75-88 | the total grows by one and, when the buffer can hold anything, the newest record is the enter or exit of the actor in the zone, in the Zone category with an unknown role and the zone type as note |
| WorldEventLog.GetRecent | draem-of-one/Assets/Scripts/Core/WorldEventLog.cs:93-102 | a non-positive count gives nothing; otherwise the newest min(count, size) records, oldest first |
| WorldEventLog.ViolationGetsIdAndRule | draem-of-one/Assets/Tests/EditMode/WorldEventLogTests.cs:11-40 | a recorded violation without an id gets one and is filed under Rule |
| ZoneInteractable.Enter | draem-of-one/Assets/Scripts/Core/ZoneInteractable.cs:90-102 | only the player counts: it is now inside and becomes the last actor, with the Player role |
| ZoneInteractable.Exit | draem-of-one/Assets/Scripts/Core/ZoneInteractable.cs:104-114 | only the player counts, and it is no longer inside |
| ZoneInteractable.Topic | draem-of-one/Assets/Scripts/Core/ZoneInteractable.cs:139-140 | the topic is the override, else the rule, else the place; it is empty only when all of those and the zone are empty |
| ZoneInteractable.EmitViolation | draem-of-one/Assets/Scripts/Core/ZoneInteractable.cs:127-158 | a record exists exactly when a log is present; it carries the last actor and role, the configured type, category, rule, severity and note, the zone, and the resolved place and topic |
| ZoneInteractable.Interact | draem-of-one/Assets/Scripts/Core/ZoneInteractable.cs:203-210 | the time is stamped, the actor and role are replaced only by non-empty values, nothing else changes, and the record is emitted from the new state |
| ZoneInteractable.TryInteract | draem-of-one/Assets/Scripts/Core/ZoneInteractable.cs:116-125 | a press does nothing unless the player is inside and the cooldown has passed; a record results exactly when it goes through and a log is present |
| ZoneInteractable.CooldownBlocksRepeat | draem-of-one/Assets/Scripts/Core/ZoneInteractable.cs:192-210 | after a press goes through, another records again exactly when the cooldown has passed since it |
| ZoneInteractable.Configure | draem-of-one/Assets/Scripts/Core/ZoneInteractable.cs:160-175 | the log and zone are replaced; empty rule and prompt overrides are ignored; nothing else changes |
| ZoneInteractable.ConfigureEvent | draem-of-one/Assets/Scripts/Core/ZoneInteractable.cs:177-185 | every later record has the configured type, category, note and severity, and non-empty place and topic overrides; rule, zone and presence are untouched |
| ZoneInteractable.Summary | draem-of-one/Assets/Scripts/Core/ZoneInteractable.cs:212-215 | the summary splits into "Zone:", the zone id, " Rule:" and the rule id, so both can be read back by position |
| ZoneInteractable.PressLogsOneViolation | draem-of-one/Assets/Tests/EditMode/ZoneInteractableTests.cs:10-36 | with the player inside a Queue zone under rule R4, one press logs exactly one violation with that rule and zone |
| Localization.AllKeysComplete | draem-of-one/Assets/Scripts/Localization/LocalizationManager.cs:257 | the key list names every localization key |
| Localization.FindKeySound | draem-of-one/Assets/Scripts/Localization/LocalizationManager.cs:257 | a key found by name has that name |
| Localization.FindKeyComplete | draem-of-one/Assets/Scripts/Localization/LocalizationManager.cs:257 | a name that some key has is always found |
| Localization.ParseKey | draem-of-one/Assets/Scripts/Localization/LocalizationManager.cs:257 | a parsed key's name is the row's key text without surrounding white space |
| Localization.ParseKeyNone | draem-of-one/Assets/Scripts/Localization/LocalizationManager.cs:257 | parsing fails only when no key has that name |
| Localization.Parsed | draem-of-one/Assets/Scripts/Localization/LocalizationManager.cs:250-264 | one parsed row per table row, carrying the key it names and the language's column |
| Localization.Fold | draem-of-one/Assets/Scripts/Localization/LocalizationManager.cs:250-267 | no key is ever mapped to an empty value |
| Localization.FoldIsLastValue | draem-of-one/Assets/Scripts/Localization/LocalizationManager.cs:250-267 | the fold maps a key exactly when some usable row names it, to the value of the last such row |
| Localization.FoldSnoc | draem-of-one/Assets/Scripts/Localization/LocalizationManager.cs:250-267 | one more row updates the table by that row alone |
| Localization.ParsedSnoc | draem-of-one/Assets/Scripts/Localization/LocalizationManager.cs:250-264 | one more table row adds exactly its parsed row |
| Localization.BuildMap | draem-of-one/Assets/Scripts/Localization/LocalizationManager.cs:242-270 | no key is ever mapped to an empty value |
| Localization.BuildMapIsLastSupplied | draem-of-one/Assets/Scripts/Localization/LocalizationManager.cs:242-270 | the table maps a key exactly when some row supplies it, to the value of the last row that does |
| Localization.SkippedRow | draem-of-one/Assets/Scripts/Localization/LocalizationManager.cs:252-264 | a row with a blank or unknown key or an empty value leaves the table unchanged |
| Localization.LaterRowWins | draem-of-one/Assets/Scripts/Localization/LocalizationManager.cs:262-265 | a later row for a key overwrites the earlier value |
| Localization.SetLanguage | draem-of-one/Assets/Scripts/Localization/LocalizationManager.cs:129-148 | switching sets the current language, keeps the rows and the English fallback, and rebuilds the current table from that language's column |
| Localization.Load | draem-of-one/Assets/Scripts/Localization/LocalizationManager.cs:106-118 | after loading, English is the fallback table and the saved language is current with its own table |
| Localization.Get | draem-of-one/Assets/Scripts/Localization/LocalizationManager.cs:150-163 | the text is never empty: the current language's value, else the English one, else the key name |
| Localization.Format | draem-of-one/Assets/Scripts/Localization/LocalizationManager.cs:165-174 | with no arguments the template text is returned unchanged |
| Localization.StaticText | draem-of-one/Assets/Scripts/Localization/LocalizationManager.cs:205-213 | the static lookup is never empty: the key name without a manager, the manager's text otherwise |
| Localization.LanguageIndex | draem-of-one/Assets/Scripts/Localization/LocalizationManager.cs:120-127 | four languages, numbered below 4 |
| Localization.NextLanguage | draem-of-one/Assets/Scripts/Localization/LocalizationManager.cs:120-127 | the next language is one place on in the cycle |
| Localization.CycleLanguage | draem-of-one/Assets/Scripts/Localization/LocalizationManager.cs:120-127 | cycling moves to the next language, always a different one |
| Localization.CycleFourTimes | draem-of-one/Assets/Scripts/Localization/LocalizationManager.cs:120-127 | four cycles return to the starting language |
| Localization.ShortCode | draem-of-one/Assets/Scripts/Localization/LocalizationManager.cs:188-198 | every short code is two characters long |
| Localization.ShortCodeInjective | draem-of-one/Assets/Scripts/Localization/LocalizationManager.cs:188-198 | different languages have different short codes |
| LoopVerifier.IsLoopComplete | draem-of-one/Assets/Scripts/Core/LoopVerifier.cs:85-94 | complete exactly when violation, report and verdict were all seen and the earliest and latest lie within the time limit |
| LoopVerifier.Stage | draem-of-one/Assets/Scripts/Core/LoopVerifier.cs:55-83 | violations mark stage 1, reports and rumors stage 2, verdicts stage 3, all else nothing |
| LoopVerifier.HandleEvent | draem-of-one/Assets/Scripts/Core/LoopVerifier.cs:55-83 | an announced verifier ignores everything; otherwise the event's stage is stamped and completion is announced exactly when the loop is then complete |
| LoopVerifier.AnnouncedAtMostOnce | draem-of-one/Assets/Scripts/Core/LoopVerifier.cs:55-83 | a series of events announces completion at most once, and never after it already has |
| LoopVerifier.NoLoopWithoutViolation | draem-of-one/Assets/Scripts/Core/LoopVerifier.cs:55-94 | a fresh verifier announces nothing on an event that is not a violation |
| LucidCoverDeterminism.NormalizeNote | draem-of-one/Assets/Editor/LucidCoverDeterminismDebugMenu.cs:208-229 | an empty note stays empty, a note without "stmt=" (any case) is unchanged, and one with it comes out masked |
| LucidCoverDeterminism.Mask | draem-of-one/Assets/Editor/LucidCoverDeterminismDebugMenu.cs:216-228 | the text before the tag is kept, the tag and its id become "stmt=*", and what follows starts at the next ";" |
| LucidCoverDeterminism.LowerTag | draem-of-one/Assets/Editor/LucidCoverDeterminismDebugMenu.cs:216 | the tag and its mask are already lower case |
| LucidCoverDeterminism.SemicolonAt | draem-of-one/Assets/Editor/LucidCoverDeterminismDebugMenu.cs:220 | the ";" search from a position finds the first ";" after it |
| LucidCoverDeterminism.NoSemicolon | draem-of-one/Assets/Editor/LucidCoverDeterminismDebugMenu.cs:220-226 | the ";" search finds nothing when none follows |
| LucidCoverDeterminism.FirstTagAt | draem-of-one/Assets/Editor/LucidCoverDeterminismDebugMenu.cs:216 | the tag search finds the first occurrence |
| LucidCoverDeterminism.TagStaysFirst | draem-of-one/Assets/Editor/LucidCoverDeterminismDebugMenu.cs:216-228 | replacing the text after the first tag keeps that tag first |
| LucidCoverDeterminism.MaskedIsFixed | draem-of-one/Assets/Editor/LucidCoverDeterminismDebugMenu.cs:208-229 | a note whose first tag is already masked is left alone |
| LucidCoverDeterminism.NormalizeIdempotent | draem-of-one/Assets/Editor/LucidCoverDeterminismDebugMenu.cs:208-229 | masking twice is masking once |
| LucidCoverDeterminism.SpeechIdsArePlain | draem-of-one/Assets/Editor/LucidCoverDeterminismDebugMenu.cs:200 | no speech detector id contains "=", so it can never look like a tag |
| LucidCoverDeterminism.DetectorNamesArePlain | draem-of-one/Assets/Editor/LucidCoverDeterminismDebugMenu.cs:200 | the four detector names contain no "=" |
| LucidCoverDeterminism.SameSigns | draem-of-one/Assets/Editor/LucidCoverDeterminismDebugMenu.cs:200 | case folding neither creates nor removes an "=" |
| LucidCoverDeterminism.ViolationTagFirst | draem-of-one/Assets/Editor/LucidCoverDeterminismDebugMenu.cs:208-229 | the statement tag of a violation note is the note's first tag |
| LucidCoverDeterminism.ViolationNoteMasked | draem-of-one/Assets/Editor/LucidCoverDeterminismDebugMenu.cs:208-229 | the masked violation note does not depend on the statement id |
| LucidCoverDeterminism.NoteShape | draem-of-one/Assets/Editor/LucidCoverDeterminismDebugMenu.cs:208-229 | a violation note is its detector head, the tag, the statement id and the suffix |
| LucidCoverDeterminism.NoteMasked | draem-of-one/Assets/Editor/LucidCoverDeterminismDebugMenu.cs:216-228 | masking a note whose first tag cites an id without ";" replaces just that id |
| LucidCoverDeterminism.MaskAt | draem-of-one/Assets/Editor/LucidCoverDeterminismDebugMenu.cs:216-228 | masking replaces the first tag and its id, up to the next ";", by the mask |
| LucidCoverDeterminism.Keys | draem-of-one/Assets/Editor/LucidCoverDeterminismDebugMenu.cs:153-206 | one key per logged event, in order |
| LucidCoverDeterminism.KeysAppend | draem-of-one/Assets/Editor/LucidCoverDeterminismDebugMenu.cs:153-206 | the keys of two stretches of log are the keys of each, one after the other |
| LucidCoverDeterminism.From | draem-of-one/Assets/Editor/LucidCoverDeterminismDebugMenu.cs:153-206 | a missing exposure system reads as -1; one key per hit and per event, in order |
| LucidCoverDeterminism.HitsDeterministic | draem-of-one/Assets/Editor/LucidCoverDeterminismDebugMenu.cs:123-138 | walking the same hits under two statement-id generators logs the same keys and ends in the same exposure |
| LucidCoverDeterminism.OneHitSameKeys | draem-of-one/Assets/Editor/LucidCoverDeterminismDebugMenu.cs:123-138 | one hit logged under two plain statement ids gives the same keys and exposure |
| LucidCoverDeterminism.SameKeysByParts | draem-of-one/Assets/Editor/LucidCoverDeterminismDebugMenu.cs:153-206 | lists agreeing on the keys of their first two records and equal afterwards have the same keys |
| LucidCoverDeterminism.StatementKeySame | draem-of-one/Assets/Editor/LucidCoverDeterminismDebugMenu.cs:153-206 | a statement record's key ignores its statement id |
| LucidCoverDeterminism.ViolationKeySame | draem-of-one/Assets/Editor/LucidCoverDeterminismDebugMenu.cs:153-206 | a violation record's key ignores the statement id it cites, once masked |
| LucidCoverDeterminism.HitTailSame | draem-of-one/Assets/Editor/LucidCoverDeterminismDebugMenu.cs:123-138 | past its statement and violation a hit's records and exposure ignore the statement id |
| LucidCoverDeterminism.HitsArePlain | draem-of-one/Assets/Editor/LucidCoverDeterminismDebugMenu.cs:123-138 | no hit the evaluator produces has an "=" in its detector id |
| LucidCoverDeterminism.ApplyDeterministic | draem-of-one/Assets/Editor/LucidCoverDeterminismDebugMenu.cs:123-138 | applying the same speech twice yields the same hits, event keys and exposure |
| LucidCoverDeterminism.RunIsDeterministic | draem-of-one/Assets/Editor/LucidCoverDeterminismDebugMenu.cs:17-46 | replaying the same speech from a reset exposure gives equal snapshots, so the check passes |
| NpcContext.Awake | draem-of-one/Assets/Scripts/NPC/NpcContext.cs:42-55 | the memory capacity is clamped to between one and five and nothing else changes |
| NpcContext.TopicCooldown | draem-of-one/Assets/Scripts/NPC/NpcContext.cs:118-131 | evidence and procedure halve the cooldown, severity 2 and up cuts it to 70 percent, else it is the full cooldown, never above it |
| NpcContext.PruneMemory | draem-of-one/Assets/Scripts/NPC/NpcContext.cs:102-116 | the kept entries are the newest min(fresh, capacity) entries still within the memory lifetime |
| NpcContext.Fresh | draem-of-one/Assets/Scripts/NPC/NpcContext.cs:104-110 | the fresh entries are exactly those within the memory lifetime, in order |
| NpcContext.RaiseFor | draem-of-one/Assets/Scripts/NPC/NpcContext.cs:94-99 | suspicion rises exactly for rule, gossip and evidence entries with a suspicion component, naming the entry's topic and event, never negative for non-negative inputs |
| NpcContext.ReceiveEntry | draem-of-one/Assets/Scripts/NPC/NpcContext.cs:57-100 | a seen event, a cooling topic or a cooling actor is turned away unchanged; an accepted entry is remembered and pruned, so the memory grows past neither its capacity nor its earlier size, and the capacity is unchanged |
| NpcContext.DuplicateRejected | draem-of-one/Assets/Scripts/NPC/NpcContext.cs:57-100 | an accepted entry with an id is turned away when it arrives again |
| NpcContext.TopicCooldownRejects | draem-of-one/Assets/Scripts/NPC/NpcContext.cs:57-100 | a second entry on the same topic inside the cooldown is turned away |
| NpcLogInjector.Awake | draem-of-one/Assets/Scripts/NPC/NpcLogInjector.cs:51-57 | the limits are raised to at least 3 near, 5 in-view and 1 overheard entries, larger settings being kept |
| NpcLogInjector.Priority | draem-of-one/Assets/Scripts/NPC/NpcLogInjector.cs:198-208 | evidence ranks 4, procedure 3, rule 2, gossip 1 and everything else 0 |
| NpcLogInjector.Candidates | draem-of-one/Assets/Scripts/NPC/NpcLogInjector.cs:138-149 | the candidates are exactly the board's entries that pass the severity filter, none added |
| NpcLogInjector.Insert | draem-of-one/Assets/Scripts/NPC/NpcLogInjector.cs:151-161 | inserting into a priority-sorted list keeps it sorted and adds exactly the one entry |
| NpcLogInjector.ConsSorted | draem-of-one/Assets/Scripts/NPC/NpcLogInjector.cs:151-161 | an entry that goes before every entry of a sorted list can head it |
| NpcLogInjector.HeadBeforeAll | draem-of-one/Assets/Scripts/NPC/NpcLogInjector.cs:151-161 | an entry going before a list and before a new entry goes before any rearrangement of the two |
| NpcLogInjector.SortByPriority | draem-of-one/Assets/Scripts/NPC/NpcLogInjector.cs:151-161 | the sorted candidates are a permutation of the candidates, higher priority first and newer first within a priority |
| NpcLogInjector.CollectEntries | draem-of-one/Assets/Scripts/NPC/NpcLogInjector.cs:136-167 | the output keeps what it had and gains min(candidates, room left) entries, sorted, drawn from the candidates without repetition, each passing the severity filter |
| NpcLogInjector.SortedPrefix | draem-of-one/Assets/Scripts/NPC/NpcLogInjector.cs:163-166 | the first k sorted candidates are sorted and drawn from the candidates |
| NpcLogInjector.TakenOutrankRest | draem-of-one/Assets/Scripts/NPC/NpcLogInjector.cs:151-166 | every entry taken goes before every candidate left out |
| NpcLogInjector.RememberDebugLine | draem-of-one/Assets/Scripts/NPC/NpcLogInjector.cs:178-196 | empty text is skipped; otherwise "npc: text" cut to 120 characters is queued last and only the 12 newest lines stay |
| NpcLogInjector.Truncate | draem-of-one/Assets/Scripts/NPC/NpcLogInjector.cs:186-189 | the cut keeps the first min(length, n) characters |
| NpcLogInjector.TruncateInCodeUnits | draem-of-one/Assets/Scripts/NPC/NpcLogInjector.cs:186-189 | for text inside the Basic Multilingual Plane the cut keeps exactly min(Length, n) UTF-16 code units, as `Substring(0, n)` does |
| NpcPersona.NpcId | draem-of-one/Assets/Scripts/NPC/NpcPersona.cs:33 | the configured id, or the object's name when it is empty |
| NpcPersona.Role | draem-of-one/Assets/Scripts/NPC/NpcPersona.cs:34 | never empty: the configured role, or "Citizen" |
| NpcPersona.Configure | draem-of-one/Assets/Scripts/NPC/NpcPersona.cs:39-60 | each non-empty argument replaces its field; empty ones keep the old value; the name, cooldown and last speaking time are untouched |
| NpcPersona.ConfigureIdempotent | draem-of-one/Assets/Scripts/NPC/NpcPersona.cs:39-60 | configuring twice with the same arguments is configuring once, and configuring with nothing changes nothing |
| NpcPersona.MarkSpoke | draem-of-one/Assets/Scripts/NPC/NpcPersona.cs:67-70 | the speaking time is remembered and the id, role and cooldown stay the same |
| NpcPersona.CooldownAfterSpeaking | draem-of-one/Assets/Scripts/NPC/NpcPersona.cs:62-70 | after speaking the NPC may speak again exactly once the cooldown has elapsed, so never at once with a positive cooldown |
| NpcPersona.FreshPersonaMaySpeak | draem-of-one/Assets/Scripts/NPC/NpcPersona.cs:24-37 | a new persona is a citizen named after its object and may speak from the start under the default cooldown |
| NpcRoleRoutine.ResolveAnchorsForRole | draem-of-one/Assets/Scripts/NPC/NpcRoleRoutine.cs:148-181 | police roles walk to the station, store roles to the store, park roles to the park, cafe roles to the cafe, studio roles to the studio, None to the fallback list |
| NpcRoleRoutine.RouteMatchesWitnessPlace | draem-of-one/Assets/Scripts/NPC/NpcRoleRoutine.cs:148-181 | the one place a working role walks to is the place a witness of that role names |
| NpcRoleRoutine.FoundAnchors | draem-of-one/Assets/Scripts/NPC/NpcRoleRoutine.cs:116-129 | the route is never longer than the targets, holds only named anchors found in the scene, and includes every found target anchor |
| NpcRoleRoutine.RouteSources | draem-of-one/Assets/Scripts/NPC/NpcRoleRoutine.cs:116-129 | one target position per route entry, each a valid position |
| NpcRoleRoutine.FoundAnchorsInOrder | draem-of-one/Assets/Scripts/NPC/NpcRoleRoutine.cs:116-129 | the route is exactly the names of the targets that have a scene name and are found, in target order: entry k names the target at an increasing position, and a position is used exactly when its target is kept |
| NpcRoleRoutine.AllFoundKeepsOrder | draem-of-one/Assets/Scripts/NPC/NpcRoleRoutine.cs:117-129 | with every landmark present, the route names each target in order |
| NpcRoleRoutine.DisablePatrolIfNeeded | draem-of-one/Assets/Scripts/NPC/NpcRoleRoutine.cs:134-146 | the simple patrol stays on exactly when it was on and not both asked to be disabled and replaced by a non-empty route |
| NpcRoleRoutine.BuildRoute | draem-of-one/Assets/Scripts/NPC/NpcRoleRoutine.cs:104-132 | without the anchor root the route is empty; otherwise it is the found anchors of the role's targets; the walking position is unchanged |
| NpcRoleRoutine.Configure | draem-of-one/Assets/Scripts/NPC/NpcRoleRoutine.cs:90-102 | a missing list only empties the route; a given one becomes the route, restarts at its first stop and schedules the next move after a dwell |
| NpcRoleRoutine.MoveNext | draem-of-one/Assets/Scripts/NPC/NpcRoleRoutine.cs:183-216 | an empty route gives no stop; otherwise a stop of the route, the drawn one when randomised or the next one in order, and the next move is scheduled after a dwell |
| NpcRoleRoutine.Update | draem-of-one/Assets/Scripts/NPC/NpcRoleRoutine.cs:57-88 | a move happens exactly for a ready agent outside any interior with a route, once the dwell has passed and it has arrived |
| NpcRoleRoutine.Walk | draem-of-one/Assets/Scripts/NPC/NpcRoleRoutine.cs:183-216 | ordered moves keep the route and the routine valid |
| NpcRoleRoutine.WalkIsCyclic | draem-of-one/Assets/Scripts/NPC/NpcRoleRoutine.cs:183-216 | after k ordered moves the position has advanced k stops round the route, and the stops taken are the route read cyclically |
| NpcRoleRoutine.FullLapIsRoute | draem-of-one/Assets/Scripts/NPC/NpcRoleRoutine.cs:183-216 | one lap from the first stop takes exactly the route and ends at the first stop |
| NpcWitnessStatement.RangeMonotone | draem-of-one/Assets/Scripts/NPC/NpcWitnessStatement.cs:108-117 | a larger interaction range admits everyone a smaller one does |
| NpcWitnessStatement.ResolveStatementType | draem-of-one/Assets/Scripts/NPC/NpcWitnessStatement.cs:167-180 | a procedure entry gets an explanation, gossip a rebuttal, anything else a statement |
| NpcWitnessStatement.ResolvePlaceId | draem-of-one/Assets/Scripts/NPC/NpcWitnessStatement.cs:153-165 | a role has no home place exactly when it is None, a citizen, tourist, resident, student, courier or facility technician |
| NpcWitnessStatement.BuildStatementNote | draem-of-one/Assets/Scripts/NPC/NpcWitnessStatement.cs:182-201 | the note is the newest entry's text, or the role's stock testimony, clamped to one line of at most the configured length |
| NpcWitnessStatement.Closest | draem-of-one/Assets/Scripts/NPC/NpcWitnessStatement.cs:132-148 | the nearest present zone, at least as near as every other; none exactly when no zone is present |
| NpcWitnessStatement.Interact | draem-of-one/Assets/Scripts/NPC/NpcWitnessStatement.cs:59-94 | nothing happens unless interaction is possible; otherwise one testimony of the resolved type by the NPC, in the nearest zone or else at its role's place, carrying the newest entry's topic, source and trust, its severity clamped to 0..3 and its text clamped to one line as the note (or the role's stock testimony), and the interaction time is stamped |
| NpcWitnessStatement.NoZoneUsesRolePlace | draem-of-one/Assets/Scripts/NPC/NpcWitnessStatement.cs:75-76 | with no zone in the scene the testimony names the speaker's home place, or none for roles without one |
| NpcWitnessStatement.CooldownBlocksRepeat | draem-of-one/Assets/Scripts/NPC/NpcWitnessStatement.cs:44-94 | asking twice within the cooldown yields one testimony |
| NpcWitnessStatement.Summary | draem-of-one/Assets/Scripts/NPC/NpcWitnessStatement.cs:96-100 | a witness without a persona describes itself as "Witness:Witness" |
| OrganizationCatalog.Add | draem-of-one/Assets/Scripts/Core/OrganizationCatalog.cs:118-126 | an empty id is skipped; otherwise the definition is stored under its id and every other id is untouched |
| OrganizationCatalog.LastWith | draem-of-one/Assets/Scripts/Core/OrganizationCatalog.cs:118-126 | reference meaning of "later wins": the last definition carrying an id, present exactly when some definition carries it |
| OrganizationCatalog.AddAllIsLastWins | draem-of-one/Assets/Scripts/Core/OrganizationCatalog.cs:24-105 | adding in order maps an id exactly when it was mapped or defined, to the last definition carrying it; untouched ids keep their value |
| OrganizationCatalog.DefinesCons | draem-of-one/Assets/Scripts/Core/OrganizationCatalog.cs:118-126 | a list defines an id when its head or its tail does |
| OrganizationCatalog.LastWithCons | draem-of-one/Assets/Scripts/Core/OrganizationCatalog.cs:118-126 | the last match in a list is the last match in its tail, unless the tail has none |
| OrganizationCatalog.TryGet | draem-of-one/Assets/Scripts/Core/OrganizationCatalog.cs:107-116 | an empty id is never found; otherwise exactly the stored ids are found, with their definition |
| OrganizationCatalog.AuthoredIds | draem-of-one/Assets/Scripts/Core/OrganizationCatalog.cs:24-105 | the authored ids, one per definition, in order |
| OrganizationCatalog.LastWithDistinct | draem-of-one/Assets/Scripts/Core/OrganizationCatalog.cs:118-126 | with distinct ids each definition is the only one with its id |
| OrganizationCatalog.AuthoredDistinct | draem-of-one/Assets/Scripts/Core/OrganizationCatalog.cs:24-105 | the authored definitions have distinct ids |
| OrganizationCatalog.Retrievable | draem-of-one/Assets/Scripts/Core/OrganizationCatalog.cs:107-126 | with distinct non-empty ids every added definition is retrievable by its id |
| OrganizationCatalog.AuthoredRetrievable | draem-of-one/Assets/Scripts/Core/OrganizationCatalog.cs:24-116 | every authored organisation is retrievable by its exact id |
| OrganizationCatalog.NotRetrievable | draem-of-one/Assets/Scripts/Core/OrganizationCatalog.cs:107-126 | an id no definition carries is not retrievable |
| OrganizationCatalog.LookupIsCaseSensitive | draem-of-one/Assets/Scripts/Core/OrganizationCatalog.cs:107-116 | the lookup is case-sensitive: "studio" names no organisation |
| GlobalSuspicion.NewSystem | draem-of-one/Assets/Scripts/Core/GlobalSuspicionSystem.cs:17-19 | a new system tracks no component and G is 0 |
| GlobalSuspicion.SumBounds | draem-of-one/Assets/Scripts/Core/GlobalSuspicionSystem.cs:56-60 | a sum of levels each in [0, 1] lies between 0 and the number of components |
| GlobalSuspicion.SetGlobalSuspicion | draem-of-one/Assets/Scripts/Core/GlobalSuspicionSystem.cs:67-76 | the new value is stored and broadcast exactly when it differs from the old one |
| GlobalSuspicion.Average | draem-of-one/Assets/Scripts/Core/GlobalSuspicionSystem.cs:49-65 | G always lies in [0, 1] and is 0 with no tracked component |
| GlobalSuspicion.AverageUnclamped | draem-of-one/Assets/Scripts/Core/GlobalSuspicionSystem.cs:56-63 | with every level in [0, 1] the clamp never bites: G times the count is the sum |
| GlobalSuspicion.UniformAverage | draem-of-one/Assets/Scripts/Core/GlobalSuspicionSystem.cs:49-65 | when every tracked NPC sits at the same level, G is that level |
| GlobalSuspicion.SumUniform | draem-of-one/Assets/Scripts/Core/GlobalSuspicionSystem.cs:56-60 | n equal levels sum to n times the level |
| GlobalSuspicion.Recalculate | draem-of-one/Assets/Scripts/Core/GlobalSuspicionSystem.cs:49-65 | the tracked set is unchanged, G becomes the clamped average and a broadcast happens exactly when it changed |
| GlobalSuspicion.Register | draem-of-one/Assets/Scripts/Core/GlobalSuspicionSystem.cs:26-33 | a component already tracked changes nothing; a new one is appended and G recomputed; never tracked twice |
| GlobalSuspicion.Unregister | draem-of-one/Assets/Scripts/Core/GlobalSuspicionSystem.cs:38-44 | an unknown component changes nothing; a tracked one is removed and G recomputed |
| GlobalSuspicion.UnregisterForgets | draem-of-one/Assets/Scripts/Core/GlobalSuspicionSystem.cs:38-44 | after unregistering, the component is no longer tracked and no component is tracked twice |
| GlobalSuspicion.RegisterUnregister | draem-of-one/Assets/Scripts/Core/GlobalSuspicionSystem.cs:26-44 | registering a new component and unregistering it again restores the system |
| GossipSystem.TopicKey | draem-of-one/Assets/Scripts/Core/GossipSystem.cs:357-360 | the key is the place alone for an empty topic and "place:topic" otherwise |
| GossipSystem.BuildTrustLookup | draem-of-one/Assets/Scripts/Core/GossipSystem.cs:273-286 | the lookup holds exactly the non-None roles listed, each weight at least 0.1 |
| GossipSystem.LastTrustWins | draem-of-one/Assets/Scripts/Core/GossipSystem.cs:273-286 | the last entry for a role decides its weight, floored at 0.1 |
| GossipSystem.Awake | draem-of-one/Assets/Scripts/Core/GossipSystem.cs:65-78 | waking builds the trust lookup from the entries and changes nothing else |
| GossipSystem.TrustWeight | draem-of-one/Assets/Scripts/Core/GossipSystem.cs:288-301 | None and roles without an entry weigh 1; others weigh their lookup entry |
| GossipSystem.TrustFloor | draem-of-one/Assets/Scripts/Core/GossipSystem.cs:273-301 | once the lookup is built every role weighs at least 0.1 |
| GossipSystem.EmitRumor | draem-of-one/Assets/Scripts/Core/GossipSystem.cs:138-173 | with no speaker, no listener or no log nothing happens; otherwise one severity-1 rumor by the speaker about the source's topic and place, trust in [0, 1], and the rumor time is stamped under its topic key |
| GossipSystem.Update | draem-of-one/Assets/Scripts/Core/GossipSystem.cs:96-116 | nothing happens before the cooldown, with an empty queue or before the oldest rumor is due; otherwise the oldest rumor leaves the queue and at most one record is written |
| GossipSystem.TryConfirmRumor | draem-of-one/Assets/Scripts/Core/GossipSystem.cs:175-211 | without a log or a rumor on the key nothing happens; otherwise the key is consumed and one severity-2 confirmation is written exactly when the rumor is at most 180 seconds old |
| GossipSystem.VerdictOutcome | draem-of-one/Assets/Scripts/Core/GossipSystem.cs:226-227 | a note naming expulsion or strengthened suspicion confirms; failing those, one naming "no charge" debunks |
| GossipSystem.ApplyVerdict | draem-of-one/Assets/Scripts/Core/GossipSystem.cs:213-271 | an undecided verdict or an unrumored topic changes nothing; otherwise the key is consumed and a confirmation, or a debunking followed by a rebuttal, carries the verdict note |
| GossipSystem.HandleEvent | draem-of-one/Assets/Scripts/Core/GossipSystem.cs:118-136 | violations are queued for later release, evidence, CCTV and tickets try to confirm, verdicts apply, anything else is ignored |
| GossipSystem.FifoRelease | draem-of-one/Assets/Scripts/Core/GossipSystem.cs:96-136 | two violations queued back to back wait in the order they were reported |
| GossipSystem.RumorThenEvidence | draem-of-one/Assets/Scripts/Core/GossipSystem.cs:138-211 | a rumor spread at some time is confirmed by evidence on the same topic and place arriving within 180 seconds |
| HypothesisTracker.LogClue | game/Assets/Scripts/Core/HypothesisTracker.cs:16-36 | an empty or confirmed rule is ignored; otherwise its count rises by one and it is confirmed once the count reaches the requirement; confirmed rules stay confirmed with frozen counts |
| HypothesisTracker.CountsFreezeAtConfirmation | game/Assets/Scripts/Core/HypothesisTracker.cs:16-36 | k clues about one rule leave its count at min(k, requirement) and confirm it exactly once k reaches the requirement |
| Identifiers.ParseOrganizationId | draem-of-one/Assets/Scripts/Core/Identifiers.cs:55-68 | blank text is None; any other result names the trimmed text ignoring case |
| Identifiers.ParseOrganizationComplete | draem-of-one/Assets/Scripts/Core/Identifiers.cs:55-68 | every organization's name, in any case and with surrounding white space, parses back to a named organization |
| Identifiers.KoreanAlias | draem-of-one/Assets/Scripts/Core/Identifiers.cs:78-111 | an alias names one of the seven roles that have a Korean spelling |
| Identifiers.ParseRoleId | draem-of-one/Assets/Scripts/Core/Identifiers.cs:70-119 | blank text is None; a Korean alias wins; otherwise any result names the trimmed text ignoring case |
| Identifiers.ParseRoleComplete | draem-of-one/Assets/Scripts/Core/Identifiers.cs:70-119 | text naming a role other than None, in any case, parses to some role |
| Identifiers.OnlyNoneIsNamedNone | draem-of-one/Assets/Scripts/Core/Identifiers.cs:113 | no role but None is named "None" in any case |
| Identifiers.AliasParses | draem-of-one/Assets/Scripts/Core/Identifiers.cs:77-111 | an alias without surrounding white space parses to its role |
| Identifiers.KoreanAliases | draem-of-one/Assets/Scripts/Core/Identifiers.cs:78-111 | the Korean words for police, officer, investigator and citizen parse to those roles |
| Identifiers.PoliceAlias | draem-of-one/Assets/Scripts/Core/Identifiers.cs:78-81 | the Korean word for police parses to Police |
| Identifiers.OfficerAlias | draem-of-one/Assets/Scripts/Core/Identifiers.cs:83-86 | the Korean word for officer parses to Officer |
| Identifiers.InvestigatorAlias | draem-of-one/Assets/Scripts/Core/Identifiers.cs:88-91 | the Korean word for investigator parses to Investigator |
| Identifiers.CitizenAlias | draem-of-one/Assets/Scripts/Core/Identifiers.cs:108-111 | the Korean word for citizen parses to Citizen |
| Identifiers.ToAnchorName | draem-of-one/Assets/Scripts/Core/Identifiers.cs:142-153 | exactly the None anchor has no scene name |
| Identifiers.ParseAnchorId | draem-of-one/Assets/Scripts/Core/Identifiers.cs:121-140 | blank text is None and "StudioBuilding_L1", in any case, is the studio's first floor |
| Identifiers.AnchorRoundTrip | draem-of-one/Assets/Scripts/Core/Identifiers.cs:121-153 | every anchor but None parses back from its scene name |
| Identifiers.StoreBuildingParses | draem-of-one/Assets/Scripts/Core/Identifiers.cs:134-137 | "StoreBuilding" parses to the store |
| Identifiers.CafeParses | draem-of-one/Assets/Scripts/Core/Identifiers.cs:134-137 | "Cafe" parses to the cafe |
| Identifiers.NamedAnchor | draem-of-one/Assets/Scripts/Core/Identifiers.cs:128-137 | a clean scene name first matched at a member position parses to that member |
| SocietyBrain.IsSkillAllowed | draem-of-one/Assets/Scripts/Society/SocietyBrain.cs:425-441 | a skill is allowed exactly when it is non-empty and some list entry equals it ignoring case; an empty list allows nothing |
| SocietyBrain.ResolveRoleDefinition | draem-of-one/Assets/Scripts/Society/SocietyBrain.cs:211-233 | a role is found exactly when some present entry's id matches ignoring case, and it is the first such entry |
| SocietyBrain.ResolveAllowedSkills | draem-of-one/Assets/Scripts/Society/SocietyBrain.cs:195-209 | the list is never empty: the matching role's own list when it has one, and the three default skills otherwise, including when there is no persona |
| SocietyBrain.DefaultsAllowSpeech | draem-of-one/Assets/Scripts/Society/SocietyBrain.cs:195-209 | roles without skill lists fall back to the defaults, which allow speaking in any letter case and never the empty skill |
| SocietyBrain.ObserveAll | draem-of-one/Assets/Scripts/Society/SocietyBrain.cs:157-190 | the seen ids only grow, by non-empty ids of the fetched records, and there is at most one observation per record |
| SocietyBrain.ObservationsAreAccepted | draem-of-one/Assets/Scripts/Society/SocietyBrain.cs:157-190 | the observations are exactly the texts of the records not skipped, in log order |
| SocietyBrain.AcceptedAreFresh | draem-of-one/Assets/Scripts/Society/SocietyBrain.cs:165-174 | no observed record was seen before or is the NPC's own utterance, and each comes from the fetched records |
| SocietyBrain.AcceptedIdsDistinct | draem-of-one/Assets/Scripts/Society/SocietyBrain.cs:165-179 | no id is observed twice in one pass |
| SocietyBrain.CollectObservations | draem-of-one/Assets/Scripts/Society/SocietyBrain.cs:148-193 | a zero request yields nothing; otherwise at most the clamped count (never above 32) of the newest records are observed, and no seen id is forgotten |
| SocietyBrain.ExecuteSpeak | draem-of-one/Assets/Scripts/Society/SocietyBrain.cs:344-366 | speaking succeeds exactly when the text is not blank, a log is present and the persona is off cooldown; the log then receives the trimmed, non-empty utterance at severity 0 from the NPC, and the persona is marked as having spoken |
| SocietyBrain.ExecuteMoveToAnchor | draem-of-one/Assets/Scripts/Society/SocietyBrain.cs:368-396 | moving succeeds exactly when the agent can navigate and the named anchor exists, the park being the default anchor |
| SocietyBrain.ExecuteFileReport | draem-of-one/Assets/Scripts/Society/SocietyBrain.cs:398-412 | filing succeeds exactly when a report manager is present; the report names the NPC and never has an empty rule id |
| SocietyBrain.TryExecuteAction | draem-of-one/Assets/Scripts/Society/SocietyBrain.cs:329-342 | only the three exact skill names do anything, and only speaking changes the persona |
| SocietyBrain.WrongCaseNeverRuns | draem-of-one/Assets/Scripts/Society/SocietyBrain.cs:329-342 | "speak" passes the case-insensitive allow-list but runs nothing, because dispatch is case-sensitive |
| SocietyBrain.FirstSuccess | draem-of-one/Assets/Scripts/Society/SocietyBrain.cs:310-326 | the loop succeeds exactly when some attempted action succeeds, and its effect is that of the first one |
| SocietyBrain.FallbackLineIsTrimmed | draem-of-one/Assets/Scripts/Society/SocietyBrain.cs:414-423 | the stock line has no surrounding white space, so it is said as written |
| SocietyBrain.Fallback | draem-of-one/Assets/Scripts/Society/SocietyBrain.cs:414-423 | the fallback leaves memory alone and can only say the stock line |
| SocietyBrain.ExecutePlan | draem-of-one/Assets/Scripts/Society/SocietyBrain.cs:276-327 | no plan means the fallback; a memory note is stored with the MEM prefix; a top-level speak is said only if speaking is allowed and then hides the actions; otherwise the first of the first two actions that succeeds decides the effect |
| SocietyBrain.OnlyTwoActionsCount | draem-of-one/Assets/Scripts/Society/SocietyBrain.cs:309 | a plan's third action never changes the outcome |
| SocietyBrain.HandleReply | draem-of-one/Assets/Scripts/Society/SocietyBrain.cs:130-144 | a reply with no JSON object, including an empty one, leads to the fallback; otherwise the parsed plan is executed |
| SocietyBrain.Decide | draem-of-one/Assets/Scripts/Society/SocietyBrain.cs:100-146 | before the decision time nothing happens; afterwards the next decision is scheduled one interval plus jitter later, the new observations are collected, seen ids are kept, and an outcome comes at once exactly when planning is switched off |
| SocietyBrain.RememberAll | draem-of-one/Assets/Scripts/Society/SocietyBrain.cs:115-121 | each observation is added to memory with the OBS prefix, in order |
| SocietyJson.TryExtractJsonObject | draem-of-one/Assets/Scripts/Society/SocietyJson.cs:10-37 | an empty reply fails as empty and any other failure reports missing braces; success holds exactly when the first opening brace comes before the last closing brace, and the object is the text between them inclusive |
| SocietyJson.TrimmedObject | draem-of-one/Assets/Scripts/Society/SocietyJson.cs:29 | trimming a brace-delimited slice removes nothing |
| SocietyJson.ObjectIsBraced | draem-of-one/Assets/Scripts/Society/SocietyJson.cs:21-36 | an extracted object opens with an opening brace and closes with a closing brace |
| SocietyJson.FoundIffBracePair | draem-of-one/Assets/Scripts/Society/SocietyJson.cs:21-27 | an object is found exactly when some opening brace precedes some closing brace anywhere in the reply |
| SocietyJson.NoisyReply | draem-of-one/Assets/Scripts/Society/SocietyJson.cs:10-37 | prose around an object is dropped, and a closing brace before the only opening brace is no object |
| SocietyMemory.Newest | draem-of-one/Assets/Scripts/Society/SocietyMemory.cs:42-51 | the newest n entries are a suffix of the list of length min(size, n) |
| SocietyMemory.Prune | draem-of-one/Assets/Scripts/Society/SocietyMemory.cs:42-51 | the capacity is clamped to 4..64, an in-range capacity is kept, and only the newest entries within it remain |
| SocietyMemory.Add | draem-of-one/Assets/Scripts/Society/SocietyMemory.cs:19-28 | a blank note changes nothing; any other note is trimmed and appended, and only the newest entries within the clamped capacity remain |
| SocietyMemory.AddKeepsNewest | draem-of-one/Assets/Scripts/Society/SocietyMemory.cs:19-51 | after a real note the memory is within capacity, ends with the trimmed note, and before it holds the newest older notes that fit |
| SocietyMemory.KeepsNewest | draem-of-one/Assets/Scripts/Society/SocietyMemory.cs:19-51 | after any run of notes the memory holds exactly the newest capacity-many of its old entries followed by the trimmed non-blank notes |
| SocietyMemory.BuildSummary | draem-of-one/Assets/Scripts/Society/SocietyMemory.cs:30-40 | an empty memory reads "None."; otherwise the newest lines, at least one and at most all, joined by newlines |
| CaseBundle.Score | draem-of-one/Assets/Scripts/Core/CaseBundle.cs:20-29 | the score is never negative, is zero exactly when the report, violation, evidence and procedure buckets are all empty, and is at least twice the reports, three times the evidence and once the violations |
| CaseBundle.GossipIrrelevant | draem-of-one/Assets/Scripts/Core/CaseBundle.cs:20-29 | gossip and the witness buckets (statements, explanations, rebuttals) never change the score |
| CaseBundle.ScoreMonotone | draem-of-one/Assets/Scripts/Core/CaseBundle.cs:20-29 | growing any scored bucket never lowers the score |
| CaseBundleBuilder.NewBuilder | draem-of-one/Assets/Scripts/Core/CaseBundleBuilder.cs:14-18 | the window is the requested one when it is at least ten, and ten otherwise |
| CaseBundleBuilder.Select | draem-of-one/Assets/Scripts/Core/CaseBundleBuilder.cs:39-93 | reference meaning of a bucket: a record is in it exactly when it is in the records, passes the attached-id/topic and place filters and its type belongs to that bucket |
| CaseBundleBuilder.SelectAppend | draem-of-one/Assets/Scripts/Core/CaseBundleBuilder.cs:39-93 | selecting from two stretches of log is selecting from each in turn, so buckets keep log order |
| CaseBundleBuilder.BucketsDisjoint | draem-of-one/Assets/Scripts/Core/CaseBundleBuilder.cs:59-92 | no record lands in two different buckets |
| CaseBundleBuilder.Add | draem-of-one/Assets/Scripts/Core/CaseBundleBuilder.cs:59-92 | appending to one bucket leaves every other bucket and the case fields unchanged |
| CaseBundleBuilder.Step | draem-of-one/Assets/Scripts/Core/CaseBundleBuilder.cs:41-92 | one loop iteration appends the record to exactly the bucket of its type when it passes the filters, and to no bucket otherwise |
| CaseBundleBuilder.SelectSnoc | draem-of-one/Assets/Scripts/Core/CaseBundleBuilder.cs:39-93 | one more record extends each bucket's selection by that record exactly when the record is kept for that bucket |
| CaseBundleBuilder.FilledStep | draem-of-one/Assets/Scripts/Core/CaseBundleBuilder.cs:39-93 | a bundle whose buckets equal the reference selections of a prefix still does after one loop step on the next record |
| CaseBundleBuilder.Header | draem-of-one/Assets/Scripts/Core/CaseBundleBuilder.cs:22-28 | the starting bundle carries the report's case fields, has empty buckets (the selections of no records) and scores zero |
| CaseBundleBuilder.Build | draem-of-one/Assets/Scripts/Core/CaseBundleBuilder.cs:20-97 | the loop fills every bucket with exactly its reference selection over the recent records, copies the case fields from the report, and a missing log gives an empty bundle of score zero |
| CaseBundleBuilder.OnlyRecentConsidered | draem-of-one/Assets/Scripts/Core/CaseBundleBuilder.cs:36 | only records from the newest `recentWindow` of the log can reach a bucket |
| CaseBundleBuilder.PlaceFilter | draem-of-one/Assets/Scripts/Core/CaseBundleBuilder.cs:54-57 | with a case place, every bucketed record is at that place |
| CaseBundleBuilder.TopicFilter | draem-of-one/Assets/Scripts/Core/CaseBundleBuilder.cs:46-52 | with attached ids and a topic, an unattached record of another topic is never bucketed |
| CaseBundleBuilder.BuildDeterministic | draem-of-one/Assets/Scripts/Core/CaseBundleBuilder.cs:20-97 | two bundles filled from the same records and report are equal and score the same |
| CaseBundleFormatter.AllSectionsListed | draem-of-one/Assets/Scripts/Core/CaseBundleFormatter.cs:64-79 | the section table names every detail section the summary can print |
| CaseBundleFormatter.Sections | draem-of-one/Assets/Scripts/Core/CaseBundleFormatter.cs:64-79 | a section is printed exactly when the filter is All or the filter owning that section; no section twice |
| CaseBundleFormatter.DetailLines | draem-of-one/Assets/Scripts/Core/CaseBundleFormatter.cs:141-163 | a section prints one line per record for the first min(max, count) records, each line describing the record at that position |
| CaseBundleFormatter.DetailsCounted | draem-of-one/Assets/Scripts/Core/CaseBundleFormatter.cs:64-79 | the detail block has exactly as many lines as the capped record counts of the shown sections add up to |
| CaseBundleFormatter.DetailsCapped | draem-of-one/Assets/Scripts/Core/CaseBundleFormatter.cs:64-79 | no section prints more than three detail lines |
| CaseBundleFormatter.CollectRules | draem-of-one/Assets/Scripts/Core/CaseBundleFormatter.cs:119-139 | the rule set grows by exactly the non-empty rule ids of the records, keeps what it had, and never holds a duplicate or an empty id |
| CaseBundleFormatter.Rules | draem-of-one/Assets/Scripts/Core/CaseBundleFormatter.cs:91-94 | the rules collected are exactly the distinct non-empty rule ids of the violation, evidence and report records |
| CaseBundleFormatter.RuleSummary | draem-of-one/Assets/Scripts/Core/CaseBundleFormatter.cs:84-117 | the rules line is absent exactly when no violation, evidence or report record names a rule |
| CaseBundleFormatter.ListedRules | draem-of-one/Assets/Scripts/Core/CaseBundleFormatter.cs:103-116 | at most four rules are listed, distinct, non-empty and each named by some violation, evidence or report record |
| CaseBundleFormatter.CountItems | draem-of-one/Assets/Scripts/Core/CaseBundleFormatter.cs:40-56 | the counts line always starts with reports, violations and evidence and shows later buckets only with a positive count |
| CaseBundleFormatter.Optional | draem-of-one/Assets/Scripts/Core/CaseBundleFormatter.cs:41-56 | an optional count item appears exactly when its count is positive |
| CaseBundleFormatter.OptionalCountsShown | draem-of-one/Assets/Scripts/Core/CaseBundleFormatter.cs:41-56 | procedures, statements, explanations and rebuttals each appear in the counts line exactly when their bucket is non-empty |
| CaseBundleFormatter.FilterLabel | draem-of-one/Assets/Scripts/Core/CaseBundleFormatter.cs:165-175 | every filter has a non-empty label, the key name of its own filter label when no localization manager exists |
| CaseBundleFormatter.BuildSummary | draem-of-one/Assets/Scripts/Core/CaseBundleFormatter.cs:9-82 | a missing bundle gives the empty summary; a present one begins with the localized title and with its whole head (title line, counts line, filter label and the filter's name), and ends with the detail lines of exactly the sections the filter shows |
| CaseBundleFormatter.SummaryHead | draem-of-one/Assets/Scripts/Core/CaseBundleFormatter.cs:16-60 | the head of the summary begins with the title line |
| CaseBundleFormatter.Heading | draem-of-one/Assets/Scripts/Core/CaseBundleFormatter.cs:17-28 | the title line starts with the localized title and is only the title for a bundle with no place and no topic |
| CaseBundleFormatter.EvidenceDetails | draem-of-one/Assets/Scripts/Core/CaseBundleFormatter.cs:65-68 | the evidence filter lists the first three evidence records, under the evidence label, and nothing else |
| CaseBundleFormatter.WitnessDetails | draem-of-one/Assets/Scripts/Core/CaseBundleFormatter.cs:74-79 | the witness filter lists up to two statements, then up to two explanations, then up to two rebuttals, and nothing else |
| CaseBundleFormatter.AllDetailsCons | draem-of-one/Assets/Scripts/Core/CaseBundleFormatter.cs:64-79 | the shown sections contribute their lines in print order, each section's before the next |
| CaseVerdict.VerdictFor | draem-of-one/Assets/Scripts/Core/CaseVerdict.cs:13-30 | the four score bands: expelled from 6, suspicion 3 to 5, deferred at exactly 2, cleared below 2, never "dream citizen" |
| CaseVerdict.DetermineVerdict | draem-of-one/Assets/Scripts/Core/CaseVerdict.cs:5-31 | the verdict is "dream citizen" exactly when the bundle is missing, with reason "too few records"; otherwise it is the score's band and the reason is "신고{reports}/증거{evidence}/위반{violations}" |
| CaseVerdict.ReasonReadsCounts | draem-of-one/Assets/Scripts/Core/CaseVerdict.cs:14 | two bundles with the same reason have the same numbers of reports, evidence and violations, so the reason determines the three counts |
| CaseVerdict.VerdictExamples | draem-of-one/Assets/Scripts/Core/CaseVerdict.cs:5-31 | two reports and one evidence record expel with reason "신고2/증거1/위반0"; a lone violation clears with "신고0/증거0/위반1" |
| CaseVerdict.ReportsOnlyBands | draem-of-one/Assets/Scripts/Core/CaseVerdict.cs:13-30 | with reports alone, none clears, one defers, two strengthen suspicion and three or more expel |
| CaseVerdict.EvidenceWeighsMost | draem-of-one/Assets/Scripts/Core/CaseVerdict.cs:13-30 | one evidence record, alone or with one report, strengthens suspicion; with two or more reports it expels |
| CaseVerdict.VerdictMonotone | draem-of-one/Assets/Scripts/Core/CaseVerdict.cs:15-30 | a higher score never earns a milder verdict |
| CaseVerdict.MoreRecordsNoMilder | draem-of-one/Assets/Scripts/Core/CaseVerdict.cs:5-31 | a bundle with at least as many reports, violations, evidence and procedures never earns a milder verdict |
| CaseVerdict.LabelInjective | draem-of-one/Assets/Scripts/Core/CaseVerdict.cs:10-30 | the five verdict labels are pairwise distinct |
| CaseViewFilter.Next | draem-of-one/Assets/Scripts/Core/CaseViewFilter.cs:13-22 | the next filter always differs from the current one |
| CaseViewFilter.NextAdvancesIndex | draem-of-one/Assets/Scripts/Core/CaseViewFilter.cs:13-22 | each step moves one place round the cycle All, Evidence, Violations, Witnesses |
| CaseViewFilter.NextFourIsIdentity | draem-of-one/Assets/Scripts/Core/CaseViewFilter.cs:13-22 | four steps return to the starting filter |
| CaseViewFilter.NextInjective | draem-of-one/Assets/Scripts/Core/CaseViewFilter.cs:13-22 | two different filters never step to the same one |
| CaseViewFilter.NextSurjective | draem-of-one/Assets/Scripts/Core/CaseViewFilter.cs:13-22 | every filter is reached by stepping from some filter |
| OrganizationRoutine.RoutineOf | draem-of-one/Assets/Scripts/Core/OrganizationRoutineSystem.cs:174-348 | every authored routine's violation rules name one of that routine's own counters |
| OrganizationRoutine.AnchorNeeded | draem-of-one/Assets/Scripts/Core/OrganizationRoutineSystem.cs:200-348 | the studio, the store and the park run without an anchor; the other five stay idle when their anchor is missing |
| OrganizationRoutine.StudioRoutine | draem-of-one/Assets/Scripts/Core/OrganizationRoutineSystem.cs:174-198 | the studio has four stages (Kanban, patch notes, approval, RC insert) and runs without an anchor |
| OrganizationRoutine.StoreRoutine | draem-of-one/Assets/Scripts/Core/OrganizationRoutineSystem.cs:200-218 | the store has three stages and runs without an anchor |
| OrganizationRoutine.ParkRoutine | draem-of-one/Assets/Scripts/Core/OrganizationRoutineSystem.cs:220-237 | the park has three stages and runs without an anchor |
| OrganizationRoutine.StationRoutine | draem-of-one/Assets/Scripts/Core/OrganizationRoutineSystem.cs:239-261 | the station has three stages and needs its anchor |
| OrganizationRoutine.CafeRoutine | draem-of-one/Assets/Scripts/Core/OrganizationRoutineSystem.cs:263-285 | the cafe has three stages and needs its anchor |
| OrganizationRoutine.DeliveryRoutine | draem-of-one/Assets/Scripts/Core/OrganizationRoutineSystem.cs:287-306 | the delivery bay has two stages and needs its anchor |
| OrganizationRoutine.FacilityRoutine | draem-of-one/Assets/Scripts/Core/OrganizationRoutineSystem.cs:308-327 | the facility has two stages and needs its anchor |
| OrganizationRoutine.MediaRoutine | draem-of-one/Assets/Scripts/Core/OrganizationRoutineSystem.cs:329-348 | the media crew has two stages and needs its anchor |
| OrganizationRoutine.RecordOf | draem-of-one/Assets/Scripts/Core/OrganizationRoutineSystem.cs:381-402 | the actor doubles as the role; the topic is the rule id, or the note when there is no rule; CCTV stills, tickets and violations have severity 2 and everything else 1 |
| OrganizationRoutine.EmitViolationEvery | draem-of-one/Assets/Scripts/Core/OrganizationRoutineSystem.cs:365-379 | a non-positive interval changes nothing; otherwise the counter is bumped, and a citizen violation is recorded exactly when the bumped counter is a multiple of the interval |
| OrganizationRoutine.EveryNth | draem-of-one/Assets/Scripts/Core/OrganizationRoutineSystem.cs:365-379 | a run of bumps records one violation for each multiple of the interval it crosses |
| OrganizationRoutine.Advance | draem-of-one/Assets/Scripts/Core/OrganizationRoutineSystem.cs:174-348 | an idle organisation keeps its state; a working one moves to the next stage round its cycle, and no counter goes down |
| OrganizationRoutine.Fire | draem-of-one/Assets/Scripts/Core/OrganizationRoutineSystem.cs:174-348 | an idle organisation writes nothing; a working one writes the current stage's record, followed by the stage's violation exactly when it is due |
| OrganizationRoutine.StudioCycle | draem-of-one/Assets/Scripts/Core/OrganizationRoutineSystem.cs:174-198 | each studio firing moves one stage round its four-stage cycle, anchored or not |
| OrganizationRoutine.Steps | draem-of-one/Assets/Scripts/Core/OrganizationRoutineSystem.cs:174-348 | repeated firings keep the state well-formed for its routine |
| OrganizationRoutine.StepCycles | draem-of-one/Assets/Scripts/Core/OrganizationRoutineSystem.cs:174-348 | after k anchored firings the stage has moved k places round the cycle, and the schedule is unchanged |
| OrganizationRoutine.NextFiring | draem-of-one/Assets/Scripts/Core/OrganizationRoutineSystem.cs:174-348 | firing from stage a mod n lands on stage (a + 1) mod n |
| OrganizationRoutine.RecordsPerFiring | draem-of-one/Assets/Scripts/Core/OrganizationRoutineSystem.cs:174-348 | k anchored firings write between k and 2k records |
| OrganizationRoutine.FireLength | draem-of-one/Assets/Scripts/Core/OrganizationRoutineSystem.cs:174-348 | an anchored firing writes one or two records |
| OrganizationRoutine.Awake | draem-of-one/Assets/Scripts/Core/OrganizationRoutineSystem.cs:99-115 | the eight first firings are staggered 4, 6, ..., 18 seconds after start-up |
| OrganizationRoutine.SteppedFrame | draem-of-one/Assets/Scripts/Core/OrganizationRoutineSystem.cs:117-172 | stepping one organisation depends only on that organisation's own state |
| OrganizationRoutine.UpdateStates | draem-of-one/Assets/Scripts/Core/OrganizationRoutineSystem.cs:117-172 | a visit keeps the system well-formed and leaves the log, the intervals and the routines alone |
| OrganizationRoutine.UpdateRecords | draem-of-one/Assets/Scripts/Core/OrganizationRoutineSystem.cs:117-172 | visiting the remaining organisations writes at most two records each |
| OrganizationRoutine.UpdateSteps | draem-of-one/Assets/Scripts/Core/OrganizationRoutineSystem.cs:117-172 | visiting from organisation i on leaves those before i unchanged and steps each later one independently |
| OrganizationRoutine.StepsCombine | draem-of-one/Assets/Scripts/Core/OrganizationRoutineSystem.cs:117-172 | stepping organisation i, then visiting those after it, is the same as visiting from i |
| OrganizationRoutine.DueVisit | draem-of-one/Assets/Scripts/Core/OrganizationRoutineSystem.cs:117-172 | visiting a due organisation replaces its state by its stepped one |
| OrganizationRoutine.Update | draem-of-one/Assets/Scripts/Core/OrganizationRoutineSystem.cs:117-172 | without a log nothing happens; otherwise every organisation ends in its independently stepped state, and at most 16 records are written |
| OrganizationRoutine.Rescheduled | draem-of-one/Assets/Scripts/Core/OrganizationRoutineSystem.cs:117-172 | a due organisation is next due one interval after now; one not yet due is untouched |
| PlayerStuckRecovery.UpdateStuckTimer | draem-of-one/Assets/Scripts/Core/PlayerStuckRecovery.cs:5-20 | a frame without side contact, without enough input or with enough movement resets the timer; a stuck frame adds the frame time; the timer never goes negative |
| PlayerStuckRecovery.ShouldRecover | draem-of-one/Assets/Scripts/Core/PlayerStuckRecovery.cs:22-42 | never on an unstuck frame; on a stuck one, exactly when the timer has reached the recovery delay |
| PlayerStuckRecovery.StuckFramesAccumulate | draem-of-one/Assets/Scripts/Core/PlayerStuckRecovery.cs:5-42 | pressing into a wall for k frames accumulates k frame times, and recovery fires once that reaches the delay |
| PlayerStuckRecovery.EditModeCases | draem-of-one/Assets/Tests/EditMode/PlayerStuckRecoveryTests.cs:9-67 | the four edit-mode cases: reset without contact, accumulation, recovery after the delay, none while moving |
| PlayerVerticalMotion.UpdateVerticalVelocity | draem-of-one/Assets/Scripts/Core/PlayerVerticalMotion.cs:7-29 | airborne players gain gravity times the frame time; grounded players snap to the ground speed when falling; a jump launches at the square root of -2 times the height times gravity |
| PlayerVerticalMotion.JumpReachesHeight | draem-of-one/Assets/Scripts/Core/PlayerVerticalMotion.cs:7-29 | with a true square root, the launch speed rises exactly to the jump height under constant gravity |
| PlayerVerticalMotion.EditModeCases | draem-of-one/Assets/Tests/EditMode/PlayerVerticalMotionTests.cs:10-55 | the snap, airborne and jump edit-mode cases |
| PortalFailsafe.ShouldReturn | draem-of-one/Assets/Scripts/Core/PortalFailsafe.cs:5-13 | an actor returns only when inside, only with an exterior fallback, and then exactly when its time inside has reached the limit |
| PortalFailsafe.ReturnIsMonotone | draem-of-one/Assets/Scripts/Core/PortalFailsafe.cs:5-13 | staying inside longer never cancels a return |
| PortalFailsafe.EditModeCases | draem-of-one/Assets/Tests/EditMode/PortalFailsafeTests.cs:9-44 | the three edit-mode cases: outside, no fallback, over the limit |
| ReportManager.LiveReports | draem-of-one/Assets/Scripts/Core/ReportManager.cs:167-176 | the live reports are exactly those still inside the window, none added |
| ReportManager.LiveReportsAppend | draem-of-one/Assets/Scripts/Core/ReportManager.cs:167-176 | pruning distributes over concatenation, so order is kept |
| ReportManager.PruneExpiredReports | draem-of-one/Assets/Scripts/Core/ReportManager.cs:167-176 | the backwards removal loop leaves exactly the live reports, in their order |
| ReportManager.PruneStep | draem-of-one/Assets/Scripts/Core/ReportManager.cs:167-176 | one step of the backwards loop keeps the prefix in place and prunes one more entry |
| ReportManager.LiveCons | draem-of-one/Assets/Scripts/Core/ReportManager.cs:167-176 | pruning a list is its head, if live, followed by the pruned tail |
| ReportManager.Prune | draem-of-one/Assets/Scripts/Core/ReportManager.cs:167-176 | only the report list changes, and it becomes its live part |
| ReportManager.FileReport | draem-of-one/Assets/Scripts/Core/ReportManager.cs:69-95 | the new report is queued and the queue pruned, so every queued report is live; the log receives a ReportFiled record |
| ReportManager.ReportRecord | draem-of-one/Assets/Scripts/Core/ReportManager.cs:82-93 | the record names the citizen as actor and the rule, with severity 2, category Report and the suspicion snapshot rounded in its note |
| ReportManager.CanTrigger | draem-of-one/Assets/Scripts/Core/ReportManager.cs:144-165 | within the cooldown nothing changes and the answer is no; otherwise the queue is pruned, and the answer is yes exactly when enough live reports remain and the global suspicion, if known, is at least 0.3 |
| ReportManager.EventIdsAppend | draem-of-one/Assets/Scripts/Core/ReportManager.cs:131-134 | collecting event ids over one more report adds its id when it has one |
| ReportManager.CollectEnvelope | draem-of-one/Assets/Scripts/Core/ReportManager.cs:124-135 | the reporters are the distinct non-empty reporter ids of the taken reports, listed in first-seen order as FirstSeen reads them; the attached ids are their non-empty event ids in order, up to the cap |
| ReportManager.TryConsumeReport | draem-of-one/Assets/Scripts/Core/ReportManager.cs:105-142 | fails exactly when an interrogation cannot start; on success the newest quorum of live reports leaves the queue and becomes the envelope (reporters in first-seen order, event ids up to the cap), the cooldown restarts, and the reason is high global suspicion exactly when that level is known |
| ReportManager.EventIdsNonEmpty | draem-of-one/Assets/Scripts/Core/ReportManager.cs:131-134 | an attached event id is never empty |
| ReportManager.RetryBlockedByCooldown | draem-of-one/Assets/Scripts/Core/ReportManager.cs:105-165 | right after a consumption, with a positive cooldown, no second interrogation can start |
| ReportManager.ExampleTwoReporters | draem-of-one/Assets/Tests/EditMode/ReportManagerTests.cs:10-29 | two reports from NPC-A and NPC-B with a quorum of two yield an envelope naming exactly those two citizens |
| ReportManager.OneReportFiled | draem-of-one/Assets/Tests/EditMode/ReportManagerTests.cs:18 | after NPC-A reports, the queue holds that one report |
| ReportManager.TwoReportsFiled | draem-of-one/Assets/Tests/EditMode/ReportManagerTests.cs:18-19 | after NPC-B also reports at the same moment, the queue holds both reports |
| ReportManager.AllLive | draem-of-one/Assets/Scripts/Core/ReportManager.cs:167-176 | pruning a queue whose reports are all live changes nothing |
| ReportManager.ReportersOfTwo | draem-of-one/Assets/Tests/EditMode/ReportManagerTests.cs:21-27 | an envelope drawn from both reports names exactly NPC-A and NPC-B |
| SpatialBlackboard.BoardId | draem-of-one/Assets/Scripts/Core/SpatialBlackboard.cs:31 | the configured id when it is set, the object's name otherwise |
| SpatialBlackboard.Configure | draem-of-one/Assets/Scripts/Core/SpatialBlackboard.cs:35-40 | the id and default lifetime are replaced, the capacity is at least one and equals the request when that is positive, and stored entries are untouched |
| SpatialBlackboard.TtlOf | draem-of-one/Assets/Scripts/Core/SpatialBlackboard.cs:64-76 | evidence, procedure and gossip each have their own lifetime; every other category uses the default |
| SpatialBlackboard.Prune | draem-of-one/Assets/Scripts/Core/SpatialBlackboard.cs:60-83 | exactly the entries still within their category's lifetime are kept, none added |
| SpatialBlackboard.PruneAppend | draem-of-one/Assets/Scripts/Core/SpatialBlackboard.cs:60-83 | pruning works piecewise, so the kept entries stay in their order |
| SpatialBlackboard.PruneIdempotent | draem-of-one/Assets/Scripts/Core/SpatialBlackboard.cs:60-83 | pruning again at the same time removes nothing more |
| SpatialBlackboard.AddEntry | draem-of-one/Assets/Scripts/Core/SpatialBlackboard.cs:42-52 | only the entries change; a board within capacity stays within it; nothing but old entries and the newly stamped one can be present; a new entry with a non-negative lifetime ends the list |
| SpatialBlackboard.PruneAddsLast | draem-of-one/Assets/Scripts/Core/SpatialBlackboard.cs:42-83 | pruning after an append prunes the old entries and keeps the new one exactly when it is live |
| SpatialBlackboard.GetEntries | draem-of-one/Assets/Scripts/Core/SpatialBlackboard.cs:54-58 | the entries returned are those stored on the board afterwards, and they are exactly the live ones |
| SpatialBlackboard.GetEntriesStable | draem-of-one/Assets/Scripts/Core/SpatialBlackboard.cs:54-58 | reading twice at the same time gives the same entries |
| SpatialBlackboard.SameTtls | draem-of-one/Assets/Scripts/Core/SpatialBlackboard.cs:60-83 | pruning depends on the lifetimes configured, not on what is stored |
| SuspicionComponent.NpcId | draem-of-one/Assets/Scripts/NPC/SuspicionComponent.cs:50 | the configured id when set, the object's name otherwise |
| SuspicionComponent.Normalized | draem-of-one/Assets/Scripts/NPC/SuspicionComponent.cs:49 | the normalised level lies in 0..1, and for a maximum of at least one it scales back to the level |
| SuspicionComponent.Decay | draem-of-one/Assets/Scripts/NPC/SuspicionComponent.cs:62-71 | a level at or below zero is left alone; otherwise only the level changes, and with non-negative decay it falls without going below zero |
| SuspicionComponent.UpdateRecord | draem-of-one/Assets/Scripts/NPC/SuspicionComponent.cs:87-99 | the SuspicionUpdated record names the NPC as a citizen with the rule and the delta, at severity 2 exactly when the level has reached the report threshold and 0 otherwise |
| SuspicionComponent.TryReport | draem-of-one/Assets/Scripts/NPC/SuspicionComponent.cs:108-124 | a report is filed exactly when a report manager is present, none has been filed yet, the level has reached the threshold and the cooldown has passed; filing latches the component and remembers the time |
| SuspicionComponent.AddSuspicion | draem-of-one/Assets/Scripts/NPC/SuspicionComponent.cs:76-124 | a repeat of the last event id does nothing; otherwise the level moves by the delta within 0..max and a record is logged exactly when a log is present; a report is filed exactly when a report manager is present, the latch is clear, the new level reaches the threshold and the cooldown since the last report has passed, and then it carries this NPC, the rule, the new level and the event id and latches and stamps the time; otherwise only the level and event id change |
| SuspicionComponent.ResetAfterInterrogation | draem-of-one/Assets/Scripts/NPC/SuspicionComponent.cs:126-132 | the level returns to zero and the report latch and its time are cleared, leaving a valid component |
| SuspicionComponent.OneReportBetweenResets | draem-of-one/Assets/Scripts/NPC/SuspicionComponent.cs:76-124 | once a report has been filed, no series of additions files another until a reset |
| SuspicionComponent.AtMostOneReport | draem-of-one/Assets/Scripts/NPC/SuspicionComponent.cs:76-124 | from any state a series of additions files at most one report, and none from a latched component |
| SuspicionComponent.ResetReenablesReport | draem-of-one/Assets/Scripts/NPC/SuspicionComponent.cs:76-132 | after a reset, any fresh addition that reaches the threshold files a report by this NPC for that event, latches and stamps the time, once the cooldown from the cleared time has passed |
| SuspicionComponent.DefaultReportsAgainAfterReset | draem-of-one/Assets/Scripts/NPC/SuspicionComponent.cs:76-132 | a latched NPC at 80 does not report on a +60 event, but after a reset the same event files a report |
| TextSurfaceDatabase.TryGet | draem-of-one/Assets/Scripts/LucidCover/TextSurfaceDatabase.cs:22-55 | an empty id finds nothing; a hit is the first present surface whose non-empty id equals the request ignoring case; a miss means no present surface has such an id |
| SemanticShaper.ToText | draem-of-one/Assets/Scripts/Core/SemanticShaper.cs:15-139 | the rendered line is at most 80 characters, has no line break and no double space, and does not start with white space |
| SemanticShaper.NoteSuffixRule | draem-of-one/Assets/Scripts/Core/SemanticShaper.cs:128-136 | a note is appended in parentheses unless the type's template already quotes it; a located type without that suffix ends with its location; with no note the line is the headline plus the location |
| SemanticShaper.LocationFallback | draem-of-one/Assets/Scripts/Core/SemanticShaper.cs:141-153 | a located line names the place id when there is one and otherwise the zone id; with neither, no bracket is added |
| SemanticShaper.UnlocatedIgnoresPlace | draem-of-one/Assets/Scripts/Core/SemanticShaper.cs:61-63 | an utterance or an untemplated type reads the same wherever it happened |
| SemanticShaper.UtteranceLine | draem-of-one/Assets/Scripts/Core/SemanticShaper.cs:61-63 | an utterance reads "actor: note" and nothing else |
| SemanticShaper.FallbackLine | draem-of-one/Assets/Scripts/Core/SemanticShaper.cs:124-136 | a type without a template reads its type name followed by 이벤트, with the note in parentheses when there is one |
| SemanticShaper.LineDependsOnDisplayedFields | draem-of-one/Assets/Scripts/Core/SemanticShaper.cs:15-153 | only the type, actor, zone, place, rule and note decide the line |
| SessionDirector.EndSession | draem-of-one/Assets/Scripts/Core/SessionDirector.cs:136-153 | an ended session keeps its first reason; ending a live session records the reason and freezes the actors |
| SessionDirector.Tick | draem-of-one/Assets/Scripts/Core/SessionDirector.cs:101-120 | a live session's clock advances by the frame time; reaching the duration ends it for the time limit, and only otherwise does a global suspicion at the threshold end it as critical |
| SessionDirector.VerdictReason | draem-of-one/Assets/Scripts/Core/SessionDirector.cs:130-131 | the reason is "Verdict: " followed by the verdict note, or by the default text when the note is empty |
| SessionDirector.ProcessEvent | draem-of-one/Assets/Scripts/Core/SessionDirector.cs:122-134 | a missing record or an ended session changes nothing; a verdict ends the session exactly when ending on verdicts is switched on, and no event moves the clock |
| SessionDirector.ResetSession | draem-of-one/Assets/Scripts/Core/SessionDirector.cs:211-217 | the session is live again with no reason, a zero clock and unfrozen actors, keeping its duration |
| SessionDirector.EndedIsFinal | draem-of-one/Assets/Scripts/Core/SessionDirector.cs:101-136 | no frame or event changes an ended session |
| SessionDirector.ClockMonotone | draem-of-one/Assets/Scripts/Core/SessionDirector.cs:101-120 | frames of non-negative length never wind the clock back |
| ValidateSkills.SplitOn | scripts/skills/validate_skills.py:37-38 | splitting at newlines gives at least one piece, none containing a newline, and joining the pieces with newlines restores the text |
| ValidateSkills.SplitOnJoin | scripts/skills/validate_skills.py:31-38 | splitting a text joined at a newline splits each half |
| ValidateSkills.Lines | scripts/skills/validate_skills.py:31 | an empty text has no lines |
| ValidateSkills.LinesAfterBlock | scripts/skills/validate_skills.py:31 | a final newline ends the last line instead of starting an empty one, so a body adds its own lines after the block's |
| ValidateSkills.FirstWhere | scripts/skills/validate_skills.py:35-36 | the result is the first position from the start index whose line is a delimiter, and none means there is no such line |
| ValidateSkills.SplitFrontmatter | scripts/skills/validate_skills.py:27-41 | a text not starting with three dashes gives no frontmatter; no frontmatter always comes with the whole text; frontmatter is found exactly when the text starts with three dashes, its first line strips to them and a later line does too, and then there is a later line |
| ValidateSkills.UnclosedBlockIsBody | scripts/skills/validate_skills.py:35-41 | an opened block that no later delimiter line closes gives no frontmatter and the whole text as body |
| ValidateSkills.FourDashesAreNoDelimiter | scripts/skills/validate_skills.py:28-33 | a text opening with four dashes passes the prefix test but has no frontmatter, because its first line does not strip to three dashes |
| ValidateSkills.FrontmatterRoundTrip | scripts/skills/validate_skills.py:27-41 | writing a block without delimiter lines between two --- lines, followed by a body, and splitting again gives back the block and the body |
| ValidateSkills.DelimitedRoundTrip | scripts/skills/validate_skills.py:27-41 | the round trip holds for any delimiter line that starts with three dashes and strips to them |
| ValidateSkills.SplitKnownLines | scripts/skills/validate_skills.py:35-39 | a text whose lines are a delimiter, a block, the delimiter and the rest splits into the joined block and the joined rest |
| ValidateSkills.CheckBlock | scripts/skills/validate_skills.py:44-74 | no block gives only the missing-frontmatter message; a YAML error only the invalid-YAML message; a non-mapping only the mapping message; otherwise the name and description messages appear exactly when those fields are missing, not strings, or blank |
| ValidateSkills.EmptyBlockGivesBothFieldErrors | scripts/skills/validate_skills.py:54-72 | an empty or null block is read as an empty mapping, so both field messages are reported |
| ValidateSkills.LessEqTotal | scripts/skills/validate_skills.py:24 | path order compares any two paths |
| ValidateSkills.Insert | scripts/skills/validate_skills.py:24 | inserting into a sorted list keeps it sorted and adds exactly the new file |
| ValidateSkills.SortFiles | scripts/skills/validate_skills.py:23-24 | the files come out in path order and are a permutation of those found |
| ValidateSkills.AllErrorsEmpty | scripts/skills/validate_skills.py:82-87 | the files yield no messages exactly when every file validates cleanly |
| ValidateSkills.RunChecks | scripts/skills/validate_skills.py:77-95 | a missing skills directory fails with no messages; otherwise the messages are those of the files in path order, and the status is 1 exactly when some file has a message |
| InteriorPortal.SwitchComponent | draem-of-one/Assets/Scripts/Core/InteriorPortal.cs:196-208 | a missing component is left alone; going in remembers its state and switches it off; coming out restores the remembered state |
| InteriorPortal.SetNpcInside | draem-of-one/Assets/Scripts/Core/InteriorPortal.cs:194-237 | going in, each present agent, patrol and police controller is switched off and its prior state saved; coming out, each is restored to its saved state; missing ones stay missing; only the saved states of the traveller record change |
| InteriorPortal.Teleport | draem-of-one/Assets/Scripts/Core/InteriorPortal.cs:100-164 | without a link nothing happens; within the cooldown, unless forced, the actor only gains a traveller record; otherwise the actor arrives as Arrived states |
| InteriorPortal.Arrive | draem-of-one/Assets/Scripts/Core/InteriorPortal.cs:118-164 | the actor is marked inside as the destination says, stamped with the time, given an exterior fallback and a failsafe on going in, moved to the spawn point unless an enabled agent fails to warp; an NPC going in has its controllers switched off (states saved) and is scheduled to return exactly when the return delay is positive, and one coming out gets its saved controllers back |
| InteriorPortal.ReturnAfterDelay | draem-of-one/Assets/Scripts/Core/InteriorPortal.cs:176-185 | an actor no longer inside is left alone; one still inside is forced back through the portal |
| InteriorPortal.ForceBypassesCooldown | draem-of-one/Assets/Scripts/Core/InteriorPortal.cs:113-116 | within the cooldown a forced teleport through a linked portal still stamps the time and sets inside as the destination says, while an unforced one leaves the actor where it was with no return scheduled |
| InteriorPortal.InAndOutRestoresComponents | draem-of-one/Assets/Scripts/Core/InteriorPortal.cs:145-237 | going in and coming back out restores an NPC's agent, patrol and police controllers to their earlier states, and it is no longer inside |
| InteriorPortal.EnteringArmsFailsafe | draem-of-one/Assets/Scripts/Core/InteriorPortal.cs:145-153 | after entering, the failsafe sends the actor back exactly once its time inside reaches the limit |
| IncidentHintProvider.OrgOfName | draem-of-one/Assets/Scripts/UI/IncidentHintProvider.cs:71-91 | names containing Store, Studio, Park, then Station or Police map to those organisations in that priority order, and anything else maps to none |
| IncidentHintProvider.PrefixOrg | draem-of-one/Assets/Scripts/UI/IncidentHintProvider.cs:116-132 | the Store_, Studio_, Park_ and Police_ prefixes, checked in that order, name the organisation, and no other entry does |
| IncidentHintProvider.FirstPrefixOrg | draem-of-one/Assets/Scripts/UI/IncidentHintProvider.cs:113-135 | the first interactable with a known prefix decides, and none means no interactable has one |
| IncidentHintProvider.InferOrgKey | draem-of-one/Assets/Scripts/UI/IncidentHintProvider.cs:93-136 | an incident id that names an organisation decides; otherwise the first prefixed interactable does |
| IncidentHintProvider.FirstFiled | draem-of-one/Assets/Scripts/UI/IncidentHintProvider.cs:50-68 | the result is the earliest item filed under the key, and none means no item is |
| IncidentHintProvider.IndexIsFirstFiled | draem-of-one/Assets/Scripts/UI/IncidentHintProvider.cs:41-69 | the table holds a key exactly when some item is filed under it, and then holds the first such item |
| IncidentHintProvider.BuildHint | draem-of-one/Assets/Scripts/UI/IncidentHintProvider.cs:13-39 | a hint appears exactly when the anchor names an organisation whose first incident has a non-blank description, and it reads "Incident: " followed by that description |
| IncidentHintProvider.LandmarkOrgs | draem-of-one/Assets/Scripts/UI/IncidentHintProvider.cs:71-91 | the store, park and station landmarks name their organisations, and the cafe names none |
| WorldBuildReport.AddWarning | draem-of-one/Assets/Scripts/World/WorldBuildReport.cs:18-26 | an empty message is dropped; otherwise it is appended and the errors are untouched |
| WorldBuildReport.AddError | draem-of-one/Assets/Scripts/World/WorldBuildReport.cs:28-36 | an empty message is dropped; otherwise it is appended, the warnings are untouched, and the report has errors exactly when it had some or the message is not empty |
| WorldBuildReport.NonEmpty | draem-of-one/Assets/Scripts/World/WorldBuildReport.cs:28-36 | the kept messages are exactly the non-empty ones |
| WorldBuildReport.ErrorsAreNonEmptyMessages | draem-of-one/Assets/Scripts/World/WorldBuildReport.cs:28-36 | reporting errors one by one appends exactly the non-empty messages in order, so the report has errors exactly when it had some or some message was non-empty |
| WorldBuildReport.OneOfEach | draem-of-one/Assets/Tests/EditMode/WorldBuildReportTests.cs:9-27 | one warning and one error are each counted once, and a fresh report has none |
| ArtifactRegistry.AddLast | draem-of-one/Assets/Scripts/Core/ArtifactRegistry.cs:27-55 | offering one more event is one more TryAddFromEvent on the registry built so far |
| CaseBundleBuilder.StepKeepsFilled | draem-of-one/Assets/Scripts/Core/CaseBundleBuilder.cs:36-90 | one loop iteration keeps the case header and files one more record into its buckets |
| CaseViewFilter.Index | draem-of-one/Assets/Scripts/Core/CaseViewFilter.cs:13-22 | each filter has one of four positions in the cycle |
| Numeric.RoundToInt | draem-of-one/Assets/Scripts/LucidCover/DreamLawEvaluator.cs:68-69 | the result is within a half of the input, and an exact half goes to the even neighbour |
| Numeric.RoundAwayFromZero | draem-of-one/Assets/Scripts/Core/ReportManager.cs:91 | the result is within a half of the input, and an exact half goes away from zero |
| InteriorPortal.TryTeleport | draem-of-one/Assets/Scripts/Core/InteriorPortal.cs:68-98 | nothing happens without a link or for an actor that is neither the player nor an NPC; otherwise the teleport runs, and only an NPC going in can be scheduled to return |

## Left out

- Unity plumbing: scene objects, physics, navigation meshes, rendering, cameras, input, coroutines and component lookups. The model takes what the rules read from them (positions, enabled flags, whether a warp succeeded) as parameters.
- UI, HUD, fonts, debug overlays and editor tooling are presentation or asset automation. Of the editor code, only the note normalisation and snapshot equality of the lucid-cover determinism check are modelled.
- The police controller is a navigation-driven state machine. Its verdict rule is the one in `CaseVerdict`, which is modelled.
- Legacy copies under `game/` and the controllers, perception and suspicion manager that depend on them: earlier versions of logic modelled from the `draem-of-one` tree, or view-cone geometry.
- The JSON-lines writer of the world event log, event replay, the LLM HTTP client, the JSON plan parser (`SocietyJson.TryParsePlan` takes the parse as a parameter) and `yaml.safe_load` (an abstract parse result): file, network and library I/O.
- Resource loading for localization tables and incident hints, saved language preferences, and the skill validator's directory walk are I/O; their results are parameters.
- `Time.time`, `Guid.NewGuid` and `Random.Range` are clock, identity and randomness sources; they are parameters.
- Floating-point rounding: `float` is `real`. `Mathf.RoundToInt` is rounding half to even. The `{x:0}` number format is rounding half away from zero. Square roots are a function parameter.
- Distance falloff, nearest-NPC and nearest-zone searches, cardinal directions, the jump curve and view cones are geometry. The falloff is the `distanceFactor` parameter of `ViolationResponse`.
- Case folding is ASCII only; full Unicode case tables are not modelled. `Text.IsWhiteSpace` is the full set `char.IsWhiteSpace` accepts.
- ValidateSkills.SplitFrontmatter: strips delimiter lines with `Text.IsWhiteSpace`, whereas Python's `str.strip` also removes U+001C to U+001F, so a delimiter line padded with those characters is not recognised here.
- DialogueLineLimiter.ClampLine: the cap counts characters (Unicode scalar values) where `string.Length` counts UTF-16 code units. A character outside the Basic Multilingual Plane counts once instead of twice, so the bound holds in code units only for text inside that plane; beyond it `ClampLineInCodeUnits` proves at most twice the cap.
- DialogueLineLimiter.Cap: cuts between characters where `Substring(0, n)` cuts at code unit `n`, so the model never leaves a lone high surrogate; `CapInCodeUnits` proves the two cuts agree inside the Basic Multilingual Plane.
- SemanticShaper.ToText: its 80-character bound is in characters, not UTF-16 code units, for the reason given under `DialogueLineLimiter.ClampLine`.
- NpcWitnessStatement.BuildStatementNote: its length bound is in characters, not UTF-16 code units, for the reason given under `DialogueLineLimiter.ClampLine`.
- NpcLogInjector.RememberDebugLine: the 120 cap is in characters, not UTF-16 code units, for the reason given under `NpcLogInjector.Truncate`.
- NpcLogInjector.Truncate: cuts between characters where `Substring(0, n)` cuts at code unit `n`; `TruncateInCodeUnits` proves the two cuts agree inside the Basic Multilingual Plane.
- DreamLawViolationApplier.ApplyHit: `ExposureSystem` finds its own `WorldEventLog` (ExposureSystem.cs:51-54) while `ApplyHit` is handed one; the model assumes the scene has a single event log, so the exposure record lands in the same list after the statement and the violation.
- `Enum.TryParse` also accepts numeric and comma-separated names. `Identifiers` and `Localization` model only the name form.
- Python `splitlines` also splits on `\r` and other separators. `ValidateSkills` splits on `\n` only.
- `HashSet` iteration order in the case bundle's rule summary is unspecified. It is modelled as first-seen order, and the lemmas state the rules as a set.
- `List.Sort` is unstable for equal keys. `NpcLogInjector` states sortedness and permutation only, not the order of ties.
- Fields the sources use but their record types here do not declare are added to the model: `EventRecord` topic, place, source and trust; `CaseBundle` statements, explanations and rebuttals; `ReportEnvelope` topic, place and zone; the `Exposure` event category.
- The artifact registry test calls a three-argument add; the model follows the registry as written.
- The skill validator follows the code. It checks that `name` and `description` are non-blank strings. A stricter variant with a key whitelist, a name pattern, reserved words and length limits is described for the validator but is not in the code.
- GlobalSuspicion.SetGlobalSuspicion: compares with exact inequality where the source uses `Mathf.Approximately`.
- ExposureSystem.SetExposure: requires a non-negative maximum, which `Awake` establishes before any call; the other exposure operations carry the same requirement.
- NpcContext.PruneMemory: requires a non-negative memory capacity, which `Awake` clamps; with a negative one `RemoveRange` would throw.
- ReportManager.TryConsumeReport: requires a non-negative report count; with a negative one the take count is negative and the start index lies past the end of the queue, so `RemoveRange(startIndex, takeCount)` (ReportManager.cs:139) would throw.
- NpcWitnessStatement.Summary: states only the no-persona case. The persona case is the persona's role, whose contract is in `NpcPersona`.
- ValidateSkills.Lines: states only the empty case. Its partner lemma `LinesAfterBlock` states how a written block splits.
- ValidateSkills.FrontmatterRoundTrip: holds only for blocks without delimiter lines and bodies without a trailing newline, which `splitlines` would drop.
- InteriorPortal.ReturnAfterDelay: the coroutine's wait is abstracted; the function is the step taken when the delay ends.
- SessionDirector: the end-of-session summary text, freezing and restoring actors, and the UI are not modelled; the session's state machine is.

## Findings

| source | as written | input that shows it | evidently intended | confidence | as-written member | corrected member |
|---|---|---|---|---|---|---|
| draem-of-one/Assets/Scripts/Core/EventLogPresenter.cs:49-74 | When more records were dropped than the cursor has seen, the start index is clamped to 0. The cursor then becomes the old cursor plus the records processed, which does not count the dropped ones. | Three records buffered, five logged in total (two dropped), cursor 0, two records per frame. This frame forwards buffer records 0 and 1 and sets the cursor to 2. The next frame's start index is 2 - 2 = 0, so records 0 and 1 are forwarded again. | The cursor is the dropped count plus the start index plus the records processed, so the next frame starts right after the last forwarded record. | not executed | EventLogPresenter.UpdateAsWritten, EventLogPresenter.AsWrittenRepeatsRecords | EventLogPresenter.Update, EventLogPresenter.CursorSkipsForwarded |

=== FILE: artifact_registry.dfy ===
/** `ArtifactRegistry`: evidence-bearing events (CCTV stills, tickets,
    approvals and the like) become artifacts the player can inspect, one per
    event id. A missing record is `None`; artifact positions are not
    modelled. */
module ArtifactRegistry {
  import opened Wrappers
  import opened Events

  /** The event types that leave an artifact behind. */
  const ArtifactTypes: set<EventType> := {
    CctvCaptured, TicketIssued, EvidenceCaptured, ApprovalGranted, RcInserted, TaskStarted,
    TaskCompleted, LabelChanged, QueueUpdated, SeatClaimed, NoiseObserved
  }

  /** An artifact: the event it came from and what it says. */
  datatype Artifact = Artifact(id: string, sourceEvent: EventType, topic: string, placeId: string, summary: string)

  datatype Registry = Registry(artifacts: seq<Artifact>, ids: set<string>)

  const Empty := Registry([], {})

  predicate DistinctIds(s: seq<Artifact>) {
    forall i, j :: 0 <= i < j < |s| ==> s[i].id != s[j].id
  }

  /** The id set mirrors the list, and no id appears twice in it. */
  predicate Valid(reg: Registry) {
    reg.ids == (set a | a in reg.artifacts :: a.id) && DistinctIds(reg.artifacts)
  }

  /** An event the registry accepts when its id is new. */
  predicate Admissible(rec: EventRecord) {
    rec.id != "" && rec.eventType in ArtifactTypes
  }

  function ArtifactOf(rec: EventRecord): Artifact {
    Artifact(rec.id, rec.eventType, rec.topic, rec.placeId, rec.note)
  }

  /** `TryAddFromEvent`: a present record with an id, an artifact type and
      an id not seen before is appended; anything else leaves the registry
      as it was. */
  function TryAddFromEvent(reg: Registry, rec: Option<EventRecord>): (res: (bool, Registry))
    ensures res.0 <==> rec.Some? && Admissible(rec.value) && rec.value.id !in reg.ids
    ensures res.0 ==> res.1 == Registry(reg.artifacts + [ArtifactOf(rec.value)], reg.ids + {rec.value.id})
    ensures !res.0 ==> res.1 == reg
    ensures Valid(reg) ==> Valid(res.1)
  {
    if rec.None? || rec.value.id == "" then (false, reg)
    else if rec.value.eventType !in ArtifactTypes then (false, reg)
    else if rec.value.id in reg.ids then (false, reg)
    else
      var a := ArtifactOf(rec.value);
      var reg' := Registry(reg.artifacts + [a], reg.ids + {rec.value.id});
      assert Valid(reg) ==> reg'.ids == (set x | x in reg'.artifacts :: x.id);
      (true, reg')
  }

  /** Offering every event of a stream, oldest first. */
  function AddAll(reg: Registry, es: seq<EventRecord>): (r: Registry)
    ensures Valid(reg) ==> Valid(r)
    decreases |es|
  {
    if es == [] then reg else TryAddFromEvent(AddAll(reg, es[..|es| - 1]), Some(es[|es| - 1])).1
  }

  /** The ids of the admissible events of a stream. */
  function AdmissibleIds(es: seq<EventRecord>): set<string> {
    set e | e in es && Admissible(e) :: e.id
  }

  /** The first admissible event with a given id. */
  predicate FirstOfId(es: seq<EventRecord>, i: int) {
    0 <= i < |es| && Admissible(es[i]) && forall j :: 0 <= j < i ==> !(Admissible(es[j]) && es[j].id == es[i].id)
  }

  /** Offering one more event: the registry after a stream extended by `e`. */
  lemma AddLast(reg: Registry, es: seq<EventRecord>, e: EventRecord)
    ensures AddAll(reg, es + [e]) == TryAddFromEvent(AddAll(reg, es), Some(e)).1
  {
    assert (es + [e])[..|es|] == es;
  }

  /** A stream leaves exactly its admissible ids behind. */
  lemma {:induction false} IdsAreAdmissible(reg: Registry, es: seq<EventRecord>)
    requires Valid(reg)
    ensures AddAll(reg, es).ids == reg.ids + AdmissibleIds(es)
    decreases |es|
  {
    if es != [] {
      var init := es[..|es| - 1];
      var e := es[|es| - 1];
      assert es == init + [e];
      IdsAreAdmissible(reg, init);
      AddLast(reg, init, e);
      assert AdmissibleIds(es) == AdmissibleIds(init) + (if Admissible(e) then {e.id} else {});
    }
  }

  /** Every new artifact comes from an admissible event of the stream. */
  lemma {:induction false} ArtifactsComeFromEvents(reg: Registry, es: seq<EventRecord>)
    requires Valid(reg)
    ensures forall a :: a in AddAll(reg, es).artifacts ==>
      a in reg.artifacts || exists i :: 0 <= i < |es| && Admissible(es[i]) && a == ArtifactOf(es[i])
    decreases |es|
  {
    if es != [] {
      var n := |es|;
      var init := es[..n - 1];
      var e := es[n - 1];
      assert es == init + [e];
      ArtifactsComeFromEvents(reg, init);
      AddLast(reg, init, e);
      var prev := AddAll(reg, init);
      forall a | a in AddAll(reg, es).artifacts
        ensures a in reg.artifacts || exists i :: 0 <= i < n && Admissible(es[i]) && a == ArtifactOf(es[i])
      {
        if a !in prev.artifacts {
          assert Admissible(e) && a == ArtifactOf(es[n - 1]);
        } else if a !in reg.artifacts {
          var i :| 0 <= i < n - 1 && Admissible(init[i]) && a == ArtifactOf(init[i]);
          assert es[i] == init[i];
        }
      }
    }
  }

  /** Artifacts already in the registry stay there. */
  lemma {:induction false} ArtifactsStay(reg: Registry, es: seq<EventRecord>)
    ensures forall a :: a in reg.artifacts ==> a in AddAll(reg, es).artifacts
    decreases |es|
  {
    if es != [] {
      ArtifactsStay(reg, es[..|es| - 1]);
    }
  }

  /** The first admissible event of each id new to the registry is the one
      kept. */
  lemma {:induction false} FirstEventWins(reg: Registry, es: seq<EventRecord>)
    requires Valid(reg)
    ensures forall i :: FirstOfId(es, i) && es[i].id !in reg.ids ==> ArtifactOf(es[i]) in AddAll(reg, es).artifacts
    decreases |es|
  {
    if es != [] {
      var n := |es|;
      var init := es[..n - 1];
      var e := es[n - 1];
      assert es == init + [e];
      FirstEventWins(reg, init);
      AddLast(reg, init, e);
      forall i | FirstOfId(es, i) && es[i].id !in reg.ids
        ensures ArtifactOf(es[i]) in AddAll(reg, es).artifacts
      {
        if i < n - 1 {
          assert FirstOfId(init, i);
        } else {
          IdsAreAdmissible(reg, init);
          assert e.id !in AdmissibleIds(init);
        }
      }
    }
  }

  /** The two registry cases of the edit-mode tests: a ticket becomes the
      first artifact, a zone entry is ignored. */
  lemma TicketKeptZoneIgnored()
    ensures var r := TryAddFromEvent(Empty, Some(EventRecord(id := "evt-1", eventType := TicketIssued,
                                                            topic := "R_QUEUE", placeId := "Store", note := "ticket")));
      r.0 && |r.1.artifacts| == 1 && r.1.artifacts[0].id == "evt-1" && r.1.artifacts[0].sourceEvent == TicketIssued
    ensures var r := TryAddFromEvent(Empty, Some(EventRecord(id := "evt-2", eventType := EnteredZone,
                                                            topic := "Zone", placeId := "Park")));
      !r.0 && r.1.artifacts == []
  {
  }
}

=== FILE: case_bundle.dfy ===
/** `CaseBundle`: the buckets of log records gathered for one case, and the
    score the verdict is read from. */
module CaseBundle {
  import opened Events

  /** The record buckets the builder fills; `statements`, `explanations` and
      `rebuttals` are the witness buckets the builder and formatter use. */
  datatype CaseBundle = CaseBundle(
    caseId: string := "",
    topic: string := "",
    placeId: string := "",
    zoneId: string := "",
    reports: seq<EventRecord> := [],
    violations: seq<EventRecord> := [],
    evidence: seq<EventRecord> := [],
    procedures: seq<EventRecord> := [],
    statements: seq<EventRecord> := [],
    explanations: seq<EventRecord> := [],
    rebuttals: seq<EventRecord> := [],
    gossip: seq<EventRecord> := [])

  /** `RecalculateScore`: reports weigh 2, violations 1, evidence 3, and any
      procedure at all adds a single point. */
  function Score(b: CaseBundle): (score: int)
    ensures score >= 0
    ensures score == 0 <==> b.reports == [] && b.violations == [] && b.evidence == [] && b.procedures == []
    ensures score >= 2 * |b.reports| && score >= 3 * |b.evidence| && score >= |b.violations|
  {
    2 * |b.reports| + |b.violations| + 3 * |b.evidence| + (if |b.procedures| > 0 then 1 else 0)
  }

  /** Gossip (and the witness buckets) never change the score. */
  lemma GossipIrrelevant(b: CaseBundle, gossip: seq<EventRecord>, statements: seq<EventRecord>,
                         explanations: seq<EventRecord>, rebuttals: seq<EventRecord>)
    ensures Score(b.(gossip := gossip, statements := statements, explanations := explanations,
                     rebuttals := rebuttals)) == Score(b)
  {
  }

  /** Growing any bucket never lowers the score. */
  lemma ScoreMonotone(a: CaseBundle, b: CaseBundle)
    requires |a.reports| <= |b.reports| && |a.violations| <= |b.violations|
    requires |a.evidence| <= |b.evidence| && |a.procedures| <= |b.procedures|
    ensures Score(a) <= Score(b)
  {
  }
}

=== FILE: case_bundle_builder.dfy ===
/** `CaseBundleBuilder`: gathers the recent log records that belong to a
    report into the buckets of a `CaseBundle`. */
module CaseBundleBuilder {
  import opened Wrappers
  import opened Numeric
  import opened Events
  import opened WorldEventLog
  import opened ReportManager
  import opened CaseBundle
  import opened Seqs

  const DefaultWindow := 40
  const MinimumWindow := 10

  /** A builder over an optional log (the source tolerates a null log). */
  datatype Builder = Builder(log: Option<Log>, recentWindow: int)

  /** The constructor: the window is raised to at least ten records. */
  function NewBuilder(log: Option<Log>, window: int := DefaultWindow): (b: Builder)
    ensures b.log == log && b.recentWindow >= MinimumWindow
    ensures window >= MinimumWindow ==> b.recentWindow == window
    ensures window < MinimumWindow ==> b.recentWindow == MinimumWindow
  {
    Builder(log, Max(MinimumWindow, window))
  }

  datatype Bucket = ReportBucket | ViolationBucket | EvidenceBucket | ProcedureBucket | StatementBucket
                  | ExplanationBucket | RebuttalBucket | GossipBucket

  /** The bucket an event type is filed under; other types are ignored. */
  function BucketOf(t: EventType): Option<Bucket> {
    match t
    case ReportFiled => Some(ReportBucket)
    case ViolationDetected => Some(ViolationBucket)
    case CctvCaptured => Some(EvidenceBucket)
    case EvidenceCaptured => Some(EvidenceBucket)
    case TicketIssued => Some(EvidenceBucket)
    case TaskStarted => Some(ProcedureBucket)
    case TaskCompleted => Some(ProcedureBucket)
    case ApprovalGranted => Some(ProcedureBucket)
    case RcInserted => Some(ProcedureBucket)
    case StatementGiven => Some(StatementBucket)
    case ExplanationGiven => Some(ExplanationBucket)
    case RebuttalGiven => Some(RebuttalBucket)
    case RumorShared => Some(GossipBucket)
    case RumorConfirmed => Some(GossipBucket)
    case RumorDebunked => Some(GossipBucket)
    case _ => None
  }

  /** The case fields copied from the report (empty for no report). */
  function CaseTopic(report: Option<ReportEnvelope>): string {
    if report.Some? then report.value.topic else ""
  }

  function CasePlace(report: Option<ReportEnvelope>): string {
    if report.Some? then report.value.placeId else ""
  }

  /** Whether a record passes the report's filters: with attached ids, an
      unattached record must share the case topic (when there is one); with
      a case place, the record must be at that place. */
  predicate Considered(report: Option<ReportEnvelope>, r: EventRecord) {
    var attached := if report.Some? then report.value.attachedEventIds else [];
    var topicMismatch := |attached| > 0 && r.id !in attached && CaseTopic(report) != "" && r.topic != CaseTopic(report);
    var placeMismatch := CasePlace(report) != "" && r.placeId != CasePlace(report);
    !topicMismatch && !placeMismatch
  }

  /** Whether a record lands in the bucket `kind`, as a function of the record. */
  function Keeps(report: Option<ReportEnvelope>, kind: Bucket): EventRecord -> bool {
    r => Considered(report, r) && BucketOf(r.eventType) == Some(kind)
  }

  /** Reference definition of a bucket: the considered records of that kind,
      in log order. */
  function Select(records: seq<EventRecord>, report: Option<ReportEnvelope>, kind: Bucket): (picked: seq<EventRecord>)
    ensures |picked| <= |records|
    ensures forall r :: r in picked <==> r in records && Considered(report, r) && BucketOf(r.eventType) == Some(kind)
  {
    FilterMembers(Keeps(report, kind), records);
    Filter(Keeps(report, kind), records)
  }

  /** Selection distributes over concatenation, so buckets keep log order. */
  lemma SelectAppend(a: seq<EventRecord>, b: seq<EventRecord>, report: Option<ReportEnvelope>, kind: Bucket)
    ensures Select(a + b, report, kind) == Select(a, report, kind) + Select(b, report, kind)
  {
    FilterAppend(Keeps(report, kind), a, b);
  }

  /** No record is filed in two buckets. */
  lemma BucketsDisjoint(records: seq<EventRecord>, report: Option<ReportEnvelope>, k1: Bucket, k2: Bucket, r: EventRecord)
    requires k1 != k2
    ensures !(r in Select(records, report, k1) && r in Select(records, report, k2))
  {
  }

  /** The contents of one bucket of a bundle. */
  function Get(b: CaseBundle, kind: Bucket): seq<EventRecord> {
    match kind
    case ReportBucket => b.reports
    case ViolationBucket => b.violations
    case EvidenceBucket => b.evidence
    case ProcedureBucket => b.procedures
    case StatementBucket => b.statements
    case ExplanationBucket => b.explanations
    case RebuttalBucket => b.rebuttals
    case GossipBucket => b.gossip
  }

  /** Appending a record to one bucket. */
  function Add(b: CaseBundle, kind: Bucket, r: EventRecord): (b': CaseBundle)
    ensures forall k :: Get(b', k) == Get(b, k) + (if k == kind then [r] else [])
    ensures b'.caseId == b.caseId && b'.topic == b.topic && b'.placeId == b.placeId && b'.zoneId == b.zoneId
  {
    match kind
    case ReportBucket => b.(reports := b.reports + [r])
    case ViolationBucket => b.(violations := b.violations + [r])
    case EvidenceBucket => b.(evidence := b.evidence + [r])
    case ProcedureBucket => b.(procedures := b.procedures + [r])
    case StatementBucket => b.(statements := b.statements + [r])
    case ExplanationBucket => b.(explanations := b.explanations + [r])
    case RebuttalBucket => b.(rebuttals := b.rebuttals + [r])
    case GossipBucket => b.(gossip := b.gossip + [r])
  }

  /** Each bucket of a built bundle is its reference selection. */
  predicate Filled(b: CaseBundle, records: seq<EventRecord>, report: Option<ReportEnvelope>) {
    forall k :: Get(b, k) == Select(records, report, k)
  }

  /** One iteration of the builder's loop. */
  function Step(b: CaseBundle, report: Option<ReportEnvelope>, r: EventRecord): (b': CaseBundle)
    ensures forall k :: Get(b', k) == Get(b, k) + (if Considered(report, r) && BucketOf(r.eventType) == Some(k) then [r] else [])
    ensures b'.caseId == b.caseId && b'.topic == b.topic && b'.placeId == b.placeId && b'.zoneId == b.zoneId
  {
    if Considered(report, r) && BucketOf(r.eventType).Some? then Add(b, BucketOf(r.eventType).value, r) else b
  }

  lemma SelectSnoc(records: seq<EventRecord>, report: Option<ReportEnvelope>, kind: Bucket, r: EventRecord)
    ensures Select(records + [r], report, kind)
         == Select(records, report, kind) + (if Considered(report, r) && BucketOf(r.eventType) == Some(kind) then [r] else [])
  {
    SelectAppend(records, [r], report, kind);
    assert [r][1..] == [];
  }

  lemma FilledStep(b: CaseBundle, records: seq<EventRecord>, report: Option<ReportEnvelope>, r: EventRecord)
    requires Filled(b, records, report)
    ensures Filled(Step(b, report, r), records + [r], report)
  {
    forall k {
      SelectSnoc(records, report, k, r);
    }
  }

  /** The records the builder reads: the last `recentWindow` of the log. */
  function Recent(builder: Builder): seq<EventRecord> {
    if builder.log.Some? then GetRecent(builder.log.value, builder.recentWindow) else []
  }

  /** The case fields a bundle copies from its report. */
  predicate HeadedBy(b: CaseBundle, report: Option<ReportEnvelope>) {
    b.caseId == (if report.Some? then report.value.reportId else "")
    && b.topic == CaseTopic(report) && b.placeId == CasePlace(report)
    && b.zoneId == (if report.Some? then report.value.zoneId else "")
  }

  /** The bundle the builder starts from: the case fields, empty buckets. */
  function Header(report: Option<ReportEnvelope>): (b: CaseBundle)
    ensures HeadedBy(b, report) && Filled(b, [], report) && Score(b) == 0
  {
    CaseBundle(caseId := if report.Some? then report.value.reportId else "",
               topic := CaseTopic(report),
               placeId := CasePlace(report),
               zoneId := if report.Some? then report.value.zoneId else "")
  }

  /** One iteration keeps the case fields and fills the buckets for one
      more record. */
  lemma StepKeepsFilled(b: CaseBundle, recent: seq<EventRecord>, i: nat, report: Option<ReportEnvelope>)
    requires i < |recent| && HeadedBy(b, report) && Filled(b, recent[..i], report)
    ensures HeadedBy(Step(b, report, recent[i]), report) && Filled(Step(b, report, recent[i]), recent[..i + 1], report)
  {
    assert recent[..i + 1] == recent[..i] + [recent[i]];
    FilledStep(b, recent[..i], report, recent[i]);
  }

  /** `Build`: the source's single pass over the recent records. */
  method Build(builder: Builder, report: Option<ReportEnvelope>) returns (bundle: CaseBundle)
    ensures bundle.caseId == (if report.Some? then report.value.reportId else "")
    ensures bundle.topic == CaseTopic(report) && bundle.placeId == CasePlace(report)
    ensures bundle.zoneId == (if report.Some? then report.value.zoneId else "")
    ensures Filled(bundle, Recent(builder), report)
    ensures builder.log.None? ==> Score(bundle) == 0
  {
    bundle := Header(report);
    if builder.log.None? {
      return;
    }
    var recent := GetRecent(builder.log.value, builder.recentWindow);
    assert recent[..0] == [];
    var i := 0;
    while i < |recent|
      invariant 0 <= i <= |recent|
      invariant HeadedBy(bundle, report) && Filled(bundle, recent[..i], report)
    {
      StepKeepsFilled(bundle, recent, i, report);
      bundle := Step(bundle, report, recent[i]);
      i := i + 1;
    }
    assert recent[..i] == recent;
  }

  /** Only the last `recentWindow` records can reach a bucket. */
  lemma OnlyRecentConsidered(builder: Builder, report: Option<ReportEnvelope>, kind: Bucket, r: EventRecord)
    requires builder.log.Some?
    requires r in Select(Recent(builder), report, kind)
    ensures r in builder.log.value.events[|builder.log.value.events| - |Recent(builder)|..]
    ensures |Recent(builder)| <= Max(builder.recentWindow, 0)
  {
  }

  /** With a case place, every bucketed record is at that place. */
  lemma PlaceFilter(records: seq<EventRecord>, report: Option<ReportEnvelope>, kind: Bucket, r: EventRecord)
    requires CasePlace(report) != "" && r in Select(records, report, kind)
    ensures r.placeId == CasePlace(report)
  {
  }

  /** With attached ids and a topic, an unattached record with another topic
      is never bucketed. */
  lemma TopicFilter(records: seq<EventRecord>, report: ReportEnvelope, kind: Bucket, r: EventRecord)
    requires |report.attachedEventIds| > 0 && report.topic != ""
    requires r.id !in report.attachedEventIds && r.topic != report.topic
    ensures r !in Select(records, Some(report), kind)
  {
  }

  /** The buckets are fully determined by the records and the report, so
      building twice from the same log and report gives the same bundle and
      the same score. */
  lemma BuildDeterministic(b1: CaseBundle, b2: CaseBundle, records: seq<EventRecord>, report: Option<ReportEnvelope>)
    requires Filled(b1, records, report) && Filled(b2, records, report)
    requires b1.caseId == b2.caseId && b1.topic == b2.topic && b1.placeId == b2.placeId && b1.zoneId == b2.zoneId
    ensures b1 == b2 && Score(b1) == Score(b2)
  {
    assert Get(b1, ReportBucket) == Get(b2, ReportBucket);
    assert Get(b1, ViolationBucket) == Get(b2, ViolationBucket);
    assert Get(b1, EvidenceBucket) == Get(b2, EvidenceBucket);
    assert Get(b1, ProcedureBucket) == Get(b2, ProcedureBucket);
    assert Get(b1, StatementBucket) == Get(b2, StatementBucket);
    assert Get(b1, ExplanationBucket) == Get(b2, ExplanationBucket);
    assert Get(b1, RebuttalBucket) == Get(b2, RebuttalBucket);
    assert Get(b1, GossipBucket) == Get(b2, GossipBucket);
  }
}

=== FILE: case_bundle_formatter.dfy ===
/** `CaseBundleFormatter`: the multi-line case summary the HUD shows. Label
    texts come from the localization tables (`instance` is the optional
    localization manager). The rule summary iterates a hash set in the
    source; here the rules are listed in first-seen order. */
module CaseBundleFormatter {
  import opened Wrappers
  import opened Numeric
  import opened Text
  import opened Seqs
  import opened Events
  import opened CaseBundle
  import opened CaseViewFilter
  import L = Localization

  /** The detail sections, in the order the summary prints them. */
  datatype Section = EvidenceSection | ViolationSection | ReportSection
                   | StatementSection | ExplanationSection | RebuttalSection

  /** The filter that shows a section on its own. */
  function Owner(s: Section): Filter {
    match s
    case EvidenceSection => Filter.Evidence
    case ViolationSection => Violations
    case ReportSection => Violations
    case StatementSection => Witnesses
    case ExplanationSection => Witnesses
    case RebuttalSection => Witnesses
  }

  const AllSections := [EvidenceSection, ViolationSection, ReportSection, StatementSection, ExplanationSection, RebuttalSection]

  lemma AllSectionsListed()
    ensures forall s :: s in AllSections
  {
    forall s ensures s in AllSections {
      match s
      case EvidenceSection =>
      case ViolationSection =>
      case ReportSection =>
      case StatementSection =>
      case ExplanationSection =>
      case RebuttalSection =>
    }
  }

  /** The sections a filter shows, in print order. */
  function Sections(f: Filter): (shown: seq<Section>)
    ensures NoDuplicates(shown)
    ensures forall s :: s in shown <==> f == All || Owner(s) == f
  {
    match f
    case All => AllSectionsListed(); AllSections
    case Evidence => [EvidenceSection]
    case Violations => [ViolationSection, ReportSection]
    case Witnesses => [StatementSection, ExplanationSection, RebuttalSection]
  }

  /** How many records a section lists at most. */
  function Cap(s: Section): nat {
    if s == EvidenceSection || s == ViolationSection then 3 else 2
  }

  function SectionKey(s: Section): L.Key {
    match s
    case EvidenceSection => L.CaseSummaryEvidenceLabel
    case ViolationSection => L.CaseSummaryViolationsLabel
    case ReportSection => L.CaseSummaryReportsLabel
    case StatementSection => L.CaseSummaryStatementsLabel
    case ExplanationSection => L.CaseSummaryExplanationsLabel
    case RebuttalSection => L.CaseSummaryRebuttalsLabel
  }

  function SectionRecords(b: CaseBundle, s: Section): seq<EventRecord> {
    match s
    case EvidenceSection => b.evidence
    case ViolationSection => b.violations
    case ReportSection => b.reports
    case StatementSection => b.statements
    case ExplanationSection => b.explanations
    case RebuttalSection => b.rebuttals
  }

  /** One detail line: `label: [rule] actor(role) -> Type (note)`, with `-`
      for a missing rule, no parentheses for a missing role and the type
      name for a missing note. */
  function DetailLine(heading: string, r: EventRecord): string {
    var actor := if r.actorRole == "" then r.actorId else r.actorId + "(" + r.actorRole + ")";
    var rule := if r.ruleId == "" then "-" else r.ruleId;
    var note := if r.note == "" then TypeName(r.eventType) else r.note;
    heading + ": [" + rule + "] " + actor + " -> " + TypeName(r.eventType) + " (" + note + ")"
  }

  /** `AppendDetailLines`: the first `max` records of a list, one line each. */
  function DetailLines(heading: string, records: seq<EventRecord>, max: nat): (lines: seq<string>)
    ensures |lines| == Min(max, |records|)
    ensures forall i :: 0 <= i < |lines| ==> lines[i] == DetailLine(heading, records[i])
  {
    seq(Min(max, |records|), i requires 0 <= i < Min(max, |records|) => DetailLine(heading, records[i]))
  }

  /** The detail lines of every shown section, in print order. */
  function AllDetails(b: CaseBundle, sections: seq<Section>, instance: Option<L.Manager>): seq<string> {
    if |sections| == 0 then []
    else
      DetailLines(L.StaticText(instance, SectionKey(sections[0])), SectionRecords(b, sections[0]), Cap(sections[0]))
      + AllDetails(b, sections[1..], instance)
  }

  /** The number of detail lines the shown sections hold. */
  function DetailCount(b: CaseBundle, sections: seq<Section>): nat {
    if |sections| == 0 then 0
    else Min(Cap(sections[0]), |SectionRecords(b, sections[0])|) + DetailCount(b, sections[1..])
  }

  lemma {:induction false} DetailsCounted(b: CaseBundle, sections: seq<Section>, instance: Option<L.Manager>)
    ensures |AllDetails(b, sections, instance)| == DetailCount(b, sections)
  {
    if |sections| > 0 {
      DetailsCounted(b, sections[1..], instance);
    }
  }

  /** No section lists more than its cap, whatever the filter. */
  lemma {:induction false} DetailsCapped(b: CaseBundle, sections: seq<Section>)
    ensures DetailCount(b, sections) <= 3 * |sections|
  {
    if |sections| > 0 {
      DetailsCapped(b, sections[1..]);
    }
  }

  /** The lines one section contributes. */
  function SectionLines(b: CaseBundle, s: Section, instance: Option<L.Manager>): seq<string> {
    DetailLines(L.StaticText(instance, SectionKey(s)), SectionRecords(b, s), Cap(s))
  }

  lemma AllDetailsCons(b: CaseBundle, s: Section, rest: seq<Section>, instance: Option<L.Manager>)
    ensures AllDetails(b, [s] + rest, instance) == SectionLines(b, s, instance) + AllDetails(b, rest, instance)
  {
    assert ([s] + rest)[1..] == rest;
  }

  /** The evidence filter lists the first three evidence records and
      nothing else. */
  lemma EvidenceDetails(b: CaseBundle, instance: Option<L.Manager>)
    ensures AllDetails(b, Sections(Filter.Evidence), instance)
         == DetailLines(L.StaticText(instance, L.CaseSummaryEvidenceLabel), b.evidence, 3)
  {
    AllDetailsCons(b, EvidenceSection, [], instance);
    assert [EvidenceSection] + [] == Sections(Filter.Evidence);
  }

  /** The witness filter lists up to two statements, two explanations and
      two rebuttals, in that order. */
  lemma WitnessDetails(b: CaseBundle, instance: Option<L.Manager>)
    ensures AllDetails(b, Sections(Witnesses), instance)
         == DetailLines(L.StaticText(instance, L.CaseSummaryStatementsLabel), b.statements, 2)
          + DetailLines(L.StaticText(instance, L.CaseSummaryExplanationsLabel), b.explanations, 2)
          + DetailLines(L.StaticText(instance, L.CaseSummaryRebuttalsLabel), b.rebuttals, 2)
  {
    AllDetailsCons(b, RebuttalSection, [], instance);
    AllDetailsCons(b, ExplanationSection, [RebuttalSection], instance);
    AllDetailsCons(b, StatementSection, [ExplanationSection, RebuttalSection], instance);
    assert [RebuttalSection] + [] == [RebuttalSection];
    assert [ExplanationSection] + [RebuttalSection] == [ExplanationSection, RebuttalSection];
    assert [StatementSection] + [ExplanationSection, RebuttalSection] == Sections(Witnesses);
  }

  /** `CollectRules`: add the non-empty rule ids of `records` not seen yet. */
  function CollectRules(seen: seq<string>, records: seq<EventRecord>): (rules: seq<string>)
    requires NoDuplicates(seen) && "" !in seen
    ensures NoDuplicates(rules) && "" !in rules
    ensures |rules| >= |seen| && rules[..|seen|] == seen
    ensures forall id :: id in rules <==> id in seen || exists r :: r in records && r.ruleId == id && id != ""
    decreases |records|
  {
    if |records| == 0 then seen
    else
      var id := records[0].ruleId;
      var seen' := if id == "" || id in seen then seen else seen + [id];
      var rules := CollectRules(seen', records[1..]);
      assert forall x :: x in records[1..] ==> x in records;
      assert id != "" ==> records[0] in records && records[0].ruleId == id;
      assert forall r :: r in records ==> r == records[0] || r in records[1..];
      assert rules[..|seen|] == rules[..|seen'|][..|seen|];
      rules
  }

  /** The distinct rule ids of violations, then evidence, then reports. */
  function Rules(b: CaseBundle): (rules: seq<string>)
    ensures NoDuplicates(rules) && "" !in rules
    ensures forall id :: id in rules <==>
      id != "" && exists r :: (r in b.violations || r in b.evidence || r in b.reports) && r.ruleId == id
  {
    CollectRules(CollectRules(CollectRules([], b.violations), b.evidence), b.reports)
  }

  /** `AppendRuleSummary`: at most four rules after the rules label, or
      nothing when no record names a rule. */
  function RuleSummary(b: CaseBundle, instance: Option<L.Manager>): (text: string)
    ensures Rules(b) == [] <==> text == ""
  {
    var rules := Rules(b);
    if |rules| == 0 then ""
    else "\n" + L.StaticText(instance, L.CaseSummaryRulesLabel) + ": " + Join(rules[..Min(4, |rules|)], ", ")
  }

  /** The rules the summary lists: distinct, non-empty, at most four, each
      named by a violation, evidence or report record. */
  lemma ListedRules(b: CaseBundle)
    ensures var listed := Rules(b)[..Min(4, |Rules(b)|)];
      |listed| <= 4 && NoDuplicates(listed)
      && forall id :: id in listed ==> id != "" && exists r :: (r in b.violations || r in b.evidence || r in b.reports) && r.ruleId == id
  {
    var rules := Rules(b);
    var listed := rules[..Min(4, |rules|)];
    assert forall id :: id in listed ==> id in rules;
  }

  /** One `  label:count` item of the counts line. */
  datatype CountItem = CountItem(key: L.Key, count: nat)

  /** The counts line: reports, violations and evidence always; procedures,
      statements, explanations and rebuttals only when non-zero. */
  function CountItems(b: CaseBundle): (items: seq<CountItem>)
    ensures |items| >= 3 && items[..3] == [CountItem(L.CaseSummaryReportsLabel, |b.reports|),
                                           CountItem(L.CaseSummaryViolationsLabel, |b.violations|),
                                           CountItem(L.CaseSummaryEvidenceLabel, |b.evidence|)]
    ensures forall i :: 3 <= i < |items| ==> items[i].count > 0
  {
    [CountItem(L.CaseSummaryReportsLabel, |b.reports|),
     CountItem(L.CaseSummaryViolationsLabel, |b.violations|),
     CountItem(L.CaseSummaryEvidenceLabel, |b.evidence|)]
    + Optional(L.CaseSummaryProceduresLabel, |b.procedures|)
    + Optional(L.CaseSummaryStatementsLabel, |b.statements|)
    + Optional(L.CaseSummaryExplanationsLabel, |b.explanations|)
    + Optional(L.CaseSummaryRebuttalsLabel, |b.rebuttals|)
  }

  /** An item that is shown only when its count is non-zero. */
  function Optional(key: L.Key, count: nat): (items: seq<CountItem>)
    ensures forall x :: x in items <==> x == CountItem(key, count) && count > 0
    ensures forall i :: 0 <= i < |items| ==> items[i].count > 0
  {
    if count > 0 then [CountItem(key, count)] else []
  }

  /** Procedures, statements, explanations and rebuttals are counted exactly
      when there are some. */
  lemma OptionalCountsShown(b: CaseBundle)
    ensures CountItem(L.CaseSummaryProceduresLabel, |b.procedures|) in CountItems(b) <==> |b.procedures| > 0
    ensures CountItem(L.CaseSummaryStatementsLabel, |b.statements|) in CountItems(b) <==> |b.statements| > 0
    ensures CountItem(L.CaseSummaryExplanationsLabel, |b.explanations|) in CountItems(b) <==> |b.explanations| > 0
    ensures CountItem(L.CaseSummaryRebuttalsLabel, |b.rebuttals|) in CountItems(b) <==> |b.rebuttals| > 0
  {
    var items := CountItems(b);
    var p := Optional(L.CaseSummaryProceduresLabel, |b.procedures|);
    var s := Optional(L.CaseSummaryStatementsLabel, |b.statements|);
    var e := Optional(L.CaseSummaryExplanationsLabel, |b.explanations|);
    var r := Optional(L.CaseSummaryRebuttalsLabel, |b.rebuttals|);
    assert forall x :: x in items <==> x in items[..3] || x in p || x in s || x in e || x in r;
  }

  function RenderItem(item: CountItem, instance: Option<L.Manager>): string {
    L.StaticText(instance, item.key) + ":" + NatToString(item.count)
  }

  /** The items joined with two spaces, then the score. */
  function CountsLine(b: CaseBundle, instance: Option<L.Manager>): string {
    var items := CountItems(b);
    Join(seq(|items|, i requires 0 <= i < |items| => RenderItem(items[i], instance)), "  ")
      + "  " + L.StaticText(instance, L.CaseSummaryScoreLabel) + ":" + IntToString(Score(b))
  }

  /** `GetFilterLabel`: the localized name of each filter. */
  function FilterLabel(f: Filter, instance: Option<L.Manager>): (name: string)
    ensures name != ""
    ensures instance.None? ==> name == L.KeyName(FilterKey(f))
  {
    L.StaticText(instance, FilterKey(f))
  }

  function FilterKey(f: Filter): L.Key {
    match f
    case All => L.CaseFilterAll
    case Evidence => L.CaseFilterEvidence
    case Violations => L.CaseFilterViolations
    case Witnesses => L.CaseFilterWitnesses
  }

  /** Lines joined by the `"\n"` prefix each detail line carries. */
  function Prefixed(lines: seq<string>): string {
    if |lines| == 0 then "" else "\n" + lines[0] + Prefixed(lines[1..])
  }

  /** The title line: the title, then the place in brackets and the topic
      when the bundle has them. */
  function Heading(b: CaseBundle, instance: Option<L.Manager>): (heading: string)
    ensures StartsWith(heading, L.StaticText(instance, L.CaseSummaryTitle))
    ensures b.placeId == "" && b.topic == "" ==> heading == L.StaticText(instance, L.CaseSummaryTitle)
  {
    var title := L.StaticText(instance, L.CaseSummaryTitle);
    var rest := (if b.placeId != "" then " [" + b.placeId + "]" else "") + (if b.topic != "" then " " + b.topic else "");
    StartsWithConcat(title, rest);
    title + rest
  }

  /** The lines before the rule summary: the title line, the counts line,
      and the filter label with the chosen filter's name. */
  function SummaryHead(b: CaseBundle, filter: Filter, instance: Option<L.Manager>): (head: string)
    ensures StartsWith(head, Heading(b, instance))
  {
    var filterLabel := L.StaticText(instance, L.CaseSummaryFilterLabel);
    HeadingFirst(Heading(b, instance), "\n", CountsLine(b, instance), "\n" + filterLabel, ": ", FilterLabel(filter, instance));
    Heading(b, instance) + "\n" + CountsLine(b, instance) + "\n" + filterLabel + ": " + FilterLabel(filter, instance)
  }

  /** `BuildSummary`: empty for a missing bundle; otherwise title, counts,
      filter, rule summary and the detail lines of the shown sections. */
  function BuildSummary(bundle: Option<CaseBundle>, filter: Filter, instance: Option<L.Manager>): (text: string)
    ensures bundle.None? <==> text == ""
    ensures bundle.Some? ==> StartsWith(text, L.StaticText(instance, L.CaseSummaryTitle))
    ensures bundle.Some? ==> StartsWith(text, SummaryHead(bundle.value, filter, instance))
    ensures bundle.Some? ==> EndsWith(text, Prefixed(AllDetails(bundle.value, Sections(filter), instance)))
  {
    match bundle
    case None => ""
    case Some(b) =>
      var head := SummaryHead(b, filter, instance);
      var details := Prefixed(AllDetails(b, Sections(filter), instance));
      SummaryShape(head, L.StaticText(instance, L.CaseSummaryTitle), Heading(b, instance), RuleSummary(b, instance), details);
      head + (RuleSummary(b, instance) + details)
  }

  /** The heading comes first in the head of the summary. */
  lemma HeadingFirst(heading: string, s1: string, s2: string, s3: string, s4: string, s5: string)
    ensures StartsWith(heading + s1 + s2 + s3 + s4 + s5, heading)
  {
    assert heading + s1 + s2 + s3 + s4 + s5 == heading + (s1 + s2 + s3 + s4 + s5);
    StartsWithConcat(heading, s1 + s2 + s3 + s4 + s5);
  }

  /** A summary starts with its head (and so with the title the head starts
      with) and ends with its detail lines. */
  lemma SummaryShape(head: string, title: string, heading: string, rules: string, details: string)
    requires StartsWith(heading, title) && StartsWith(head, heading)
    ensures StartsWith(head + (rules + details), title) && StartsWith(head + (rules + details), head)
    ensures EndsWith(head + (rules + details), details)
  {
    var text := head + (rules + details);
    assert text[..|head|] == head;
    assert text[..|title|] == head[..|title|] == heading[..|title|];
    assert text[|head + rules|..] == details;
  }
}
=== FILE: case_verdict.dfy ===
/** `CaseVerdict`: the verdict a case bundle's score earns, and its reason. */
module CaseVerdict {
  import opened Wrappers
  import opened Text
  import opened CaseBundle
  import opened Events

  /** The five verdict strings, from "no case" to "expelled". */
  datatype Verdict = DreamCitizen | Cleared | Deferred | Suspected | Expelled

  /** The label the game shows and stores in the verdict event's note. */
  function Label(v: Verdict): string {
    match v
    case DreamCitizen => "꿈 속 시민"
    case Cleared => "무혐의"
    case Deferred => "보류"
    case Suspected => "의심 강화"
    case Expelled => "퇴출"
  }

  /** How severe a verdict is; `DreamCitizen` (no bundle) ranks with `Cleared`. */
  function Rank(v: Verdict): nat {
    match v
    case DreamCitizen => 0
    case Cleared => 0
    case Deferred => 1
    case Suspected => 2
    case Expelled => 3
  }

  /** The verdict for a score: 6 and up expels, 3..5 strengthens suspicion,
      exactly 2 defers, anything lower clears. */
  function VerdictFor(score: int): (v: Verdict)
    ensures v != DreamCitizen
    ensures v == Expelled <==> score >= 6
    ensures v == Suspected <==> 3 <= score < 6
    ensures v == Deferred <==> score == 2
    ensures v == Cleared <==> score < 2
  {
    if score >= 6 then Expelled
    else if score >= 3 then Suspected
    else if score >= 2 then Deferred
    else Cleared
  }

  /** `"신고{r}/증거{e}/위반{v}"` built from the bucket counts. */
  function Reason(b: CaseBundle): string {
    "신고" + NatToString(|b.reports|) + "/증거" + NatToString(|b.evidence|) + "/위반" + NatToString(|b.violations|)
  }

  /** `DetermineVerdict`: a missing bundle is a dream citizen with too few
      records; otherwise the score's verdict with the counts as reason. */
  function DetermineVerdict(bundle: Option<CaseBundle>): (result: (Verdict, string))
    ensures bundle.None? <==> result.0 == DreamCitizen
    ensures bundle.None? ==> result.1 == "기록 부족"
    ensures bundle.Some? ==> result.0 == VerdictFor(Score(bundle.value))
    ensures bundle.Some? ==>
      var b := bundle.value;
      result.1 == "신고" + NatToString(|b.reports|) + "/증거" + NatToString(|b.evidence|)
                  + "/위반" + NatToString(|b.violations|)
  {
    match bundle
    case None => (DreamCitizen, "기록 부족")
    case Some(b) => (VerdictFor(Score(b)), Reason(b))
  }

  /** The reason names the report, evidence and violation counts so that
      they can be read back: two bundles with the same reason have the same
      three counts. */
  lemma ReasonReadsCounts(a: CaseBundle, b: CaseBundle)
    requires DetermineVerdict(Some(a)).1 == DetermineVerdict(Some(b)).1
    ensures |a.reports| == |b.reports| && |a.evidence| == |b.evidence| && |a.violations| == |b.violations|
  {
    var ra, ea, va := NatToString(|a.reports|), NatToString(|a.evidence|), NatToString(|a.violations|);
    var rb, eb, vb := NatToString(|b.reports|), NatToString(|b.evidence|), NatToString(|b.violations|);
    ReasonShape(ra, ea, va);
    ReasonShape(rb, eb, vb);
    var tailA, tailB := "/증거" + (ea + ("/위반" + va)), "/증거" + (eb + ("/위반" + vb));
    assert ra + tailA == ("신고" + (ra + tailA))[2..];
    assert rb + tailB == ("신고" + (rb + tailB))[2..];
    DigitsThenMark(ra, tailA, rb, tailB);
    NatToStringInjective(|a.reports|, |b.reports|);
    assert tailA[3..] == ea + ("/위반" + va) && tailB[3..] == eb + ("/위반" + vb);
    DigitsThenMark(ea, "/위반" + va, eb, "/위반" + vb);
    NatToStringInjective(|a.evidence|, |b.evidence|);
    assert ("/위반" + va)[3..] == va && ("/위반" + vb)[3..] == vb;
    NatToStringInjective(|a.violations|, |b.violations|);
  }

  /** The reason regrouped from the right, one count at a time. */
  lemma ReasonShape(r: string, e: string, v: string)
    ensures "신고" + r + "/증거" + e + "/위반" + v == "신고" + (r + ("/증거" + (e + ("/위반" + v))))
  {
    assert "신고" + r + "/증거" + e + "/위반" + v == "신고" + r + ("/증거" + e + "/위반" + v);
    assert "/증거" + e + "/위반" + v == "/증거" + (e + ("/위반" + v));
  }

  /** Two reports and one evidence record score 7 and expel, with reason
      "신고2/증거1/위반0"; a lone violation clears. */
  lemma VerdictExamples(r: EventRecord)
    ensures DetermineVerdict(Some(CaseBundle(reports := [r, r], evidence := [r]))) == (Expelled, "신고2/증거1/위반0")
    ensures DetermineVerdict(Some(CaseBundle(violations := [r]))) == (Cleared, "신고0/증거0/위반1")
  {
    assert NatToString(0) == "0" && NatToString(1) == "1" && NatToString(2) == "2";
    assert Score(CaseBundle(reports := [r, r], evidence := [r])) == 7;
    assert Score(CaseBundle(violations := [r])) == 1;
    assert "신고" + "2" + "/증거" + "1" + "/위반" + "0" == "신고2/증거1/위반0";
    assert "신고" + "0" + "/증거" + "0" + "/위반" + "1" == "신고0/증거0/위반1";
    assert DetermineVerdict(Some(CaseBundle(violations := [r]))).0 == Cleared;
    assert DetermineVerdict(Some(CaseBundle(reports := [r, r], evidence := [r]))).0 == Expelled;
  }

  /** A case built from reports alone: one report defers, two strengthen
      suspicion, and the third expels. */
  lemma ReportsOnlyBands(b: CaseBundle)
    requires b.violations == [] && b.evidence == [] && b.procedures == []
    ensures DetermineVerdict(Some(b)).0 == Cleared <==> |b.reports| == 0
    ensures DetermineVerdict(Some(b)).0 == Deferred <==> |b.reports| == 1
    ensures DetermineVerdict(Some(b)).0 == Suspected <==> |b.reports| == 2
    ensures DetermineVerdict(Some(b)).0 == Expelled <==> |b.reports| >= 3
  {
    assert Score(b) == 2 * |b.reports|;
  }

  /** A single evidence record already strengthens suspicion, alone or
      with one report; it takes two reports besides it to expel. */
  lemma EvidenceWeighsMost(b: CaseBundle)
    requires |b.evidence| == 1 && b.violations == [] && b.procedures == []
    ensures |b.reports| <= 1 <==> DetermineVerdict(Some(b)).0 == Suspected
    ensures |b.reports| >= 2 <==> DetermineVerdict(Some(b)).0 == Expelled
  {
    assert Score(b) == 2 * |b.reports| + 3;
  }

  /** A higher score never earns a milder verdict. */
  lemma VerdictMonotone(s: int, t: int)
    requires s <= t
    ensures Rank(VerdictFor(s)) <= Rank(VerdictFor(t))
  {
  }

  /** Adding records to a bundle never makes its verdict milder. */
  lemma MoreRecordsNoMilder(a: CaseBundle, b: CaseBundle)
    requires |a.reports| <= |b.reports| && |a.violations| <= |b.violations|
    requires |a.evidence| <= |b.evidence| && |a.procedures| <= |b.procedures|
    ensures Rank(DetermineVerdict(Some(a)).0) <= Rank(DetermineVerdict(Some(b)).0)
  {
    ScoreMonotone(a, b);
    VerdictMonotone(Score(a), Score(b));
  }

  /** The labels are pairwise distinct, so a verdict can be read back from
      its label. */
  lemma LabelInjective(v: Verdict, w: Verdict)
    ensures Label(v) == Label(w) ==> v == w
  {
  }
}

=== FILE: case_view_filter.dfy ===
/** `CaseViewFilter`: which sections of the case summary are shown, and the
    cycling order of the filter key. */
module CaseViewFilter {

  datatype Filter = All | Evidence | Violations | Witnesses

  /** `Next`: All, Evidence, Violations, Witnesses, then back to All. */
  function Next(f: Filter): (n: Filter)
    ensures n != f
  {
    match f
    case All => Evidence
    case Evidence => Violations
    case Violations => Witnesses
    case Witnesses => All
  }

  /** Position of a filter in the cycle. */
  function Index(f: Filter): (i: nat)
    ensures i < 4
  {
    match f
    case All => 0
    case Evidence => 1
    case Violations => 2
    case Witnesses => 3
  }

  /** `Next` steps one place round the four-element cycle. */
  lemma NextAdvancesIndex(f: Filter)
    ensures Index(Next(f)) == (Index(f) + 1) % 4
  {
  }

  /** Four steps return to the start. */
  lemma NextFourIsIdentity(f: Filter)
    ensures Next(Next(Next(Next(f)))) == f
  {
  }

  /** `Next` is injective, hence a bijection on the four filters. */
  lemma NextInjective(f: Filter, g: Filter)
    ensures Next(f) == Next(g) ==> f == g
  {
  }

  lemma NextSurjective(g: Filter)
    ensures exists f :: Next(f) == g
  {
    var f := Next(Next(Next(g)));
    NextFourIsIdentity(g);
    assert Next(f) == g;
  }
}

=== FILE: cover_profile.dfy ===
/** `CoverProfile`: the player's cover identity and the places and topics it
    allows or forbids. List membership is ordinal (case-sensitive), as
    `List<string>.Contains` is. */
module CoverProfile {
  import opened Wrappers

  datatype Profile = Profile(
    coverName: string := "외부 협력자",
    affiliation: string := "외부",
    role: string := "계약직",
    allowedPlaces: seq<string> := [],
    allowedTopics: seq<string> := [],
    tabooTopics: seq<string> := [],
    jargon: seq<string> := [])

  /** The allow-list rule shared by places and topics: an empty value or an
      empty list allows everything, otherwise the value must be listed. */
  predicate AllowedBy(list: seq<string>, value: string) {
    value == "" || |list| == 0 || value in list
  }

  predicate IsPlaceAllowed(p: Profile, placeId: string) {
    AllowedBy(p.allowedPlaces, placeId)
  }

  predicate IsTopicAllowed(p: Profile, topic: string) {
    AllowedBy(p.allowedTopics, topic)
  }

  /** `IsTopicTaboo`: an empty topic or an empty list forbids nothing. */
  predicate IsTopicTaboo(p: Profile, topic: string) {
    topic != "" && |p.tabooTopics| > 0 && topic in p.tabooTopics
  }

  /** Only a non-empty list can turn a non-empty value away, and then only
      the values it does not name. */
  lemma RejectionNeedsList(list: seq<string>, value: string)
    ensures !AllowedBy(list, value) <==> value != "" && |list| > 0 && value !in list
  {
  }

  /** `Configure`: empty names keep the old ones; the four lists are replaced,
      a missing array becoming the empty list. */
  function Configure(p: Profile, name: string, affiliationName: string, roleName: string,
                     places: Option<seq<string>>, topics: Option<seq<string>>,
                     taboos: Option<seq<string>>, jargonTerms: Option<seq<string>>): (q: Profile)
    ensures q.coverName == (if name == "" then p.coverName else name)
    ensures q.affiliation == (if affiliationName == "" then p.affiliation else affiliationName)
    ensures q.role == (if roleName == "" then p.role else roleName)
    ensures q.allowedPlaces == places.GetOr([]) && q.allowedTopics == topics.GetOr([])
    ensures q.tabooTopics == taboos.GetOr([]) && q.jargon == jargonTerms.GetOr([])
  {
    Profile(
      coverName := if name != "" then name else p.coverName,
      affiliation := if affiliationName != "" then affiliationName else p.affiliation,
      role := if roleName != "" then roleName else p.role,
      allowedPlaces := if places.Some? then places.value else [],
      allowedTopics := if topics.Some? then topics.value else [],
      tabooTopics := if taboos.Some? then taboos.value else [],
      jargon := if jargonTerms.Some? then jargonTerms.value else [])
  }

  /** After `Configure`, a place is allowed exactly when the new list allows
      it; whatever was configured before no longer matters. */
  lemma ConfigureDecidesPlaces(p: Profile, r: Profile, name: string, affiliationName: string, roleName: string,
                               places: seq<string>, topics: Option<seq<string>>, taboos: Option<seq<string>>,
                               jargonTerms: Option<seq<string>>, placeId: string)
    ensures var q := Configure(p, name, affiliationName, roleName, Some(places), topics, taboos, jargonTerms);
      var q' := Configure(r, name, affiliationName, roleName, Some(places), topics, taboos, jargonTerms);
      IsPlaceAllowed(q, placeId) == IsPlaceAllowed(q', placeId)
      && (IsPlaceAllowed(q, placeId) <==> placeId == "" || places == [] || placeId in places)
  {
  }
}

=== FILE: cover_status.dfy ===
/** `CoverStatus`: the player's outsiderness, a score in [0, 100] that rises
    when the player's own logged actions clash with the cover and decays over
    time, and the outsider probability derived from it and the global
    suspicion G. G is a parameter (`None` when no global suspicion system is
    present); the frame time is a parameter. */
module CoverStatus {
  import opened Wrappers
  import opened Numeric
  import opened Events
  import P = CoverProfile

  const PlayerActor := "Player"

  datatype Status = Status(
    outsidernessDecayPerSecond: real := 1.2,
    violationDelta: real := 12.0,
    tabooDelta: real := 18.0,
    placeMismatchDelta: real := 6.0,
    topicMismatchDelta: real := 6.0,
    profile: Option<P.Profile> := None,
    outsiderness: real := 0.0,
    lastActionDelta: real := 0.0,
    outsiderProbability: real := 0.0)

  /** What a step did: the new state and whether `OnCoverStatusChanged` fired. */
  datatype Change = Change(next: Status, notified: bool)

  predicate Valid(s: Status) {
    0.0 <= s.outsiderness <= 100.0 && 0.0 <= s.outsiderProbability <= 1.0
  }

  /** `Awake`: a profile with no allowed places gets the studio-intern cover. */
  function Awake(s: Status): (s': Status)
    ensures s'.profile.Some? <==> s.profile.Some?
    ensures s.profile.Some? && |s.profile.value.allowedPlaces| == 0 ==>
      s'.profile.value.coverName == "스튜디오 인턴" && |s'.profile.value.allowedPlaces| == 6
      && P.IsTopicTaboo(s'.profile.value, "R_NOISE")
    ensures s.profile.None? || |s.profile.value.allowedPlaces| > 0 ==> s' == s
  {
    match s.profile
    case Some(p) =>
      if |p.allowedPlaces| == 0 then
        s.(profile := Some(P.Configure(p, "스튜디오 인턴", "스튜디오", "인턴",
          Some(["Studio", "StudioPhoto", "StoreQueue", "ParkSeat", "CafeQueue", "CafeSeat"]),
          Some(["PROC_NOTE_MISSING", "PROC_APPROVAL_DELAY", "PROC_RC_SKIP"]),
          Some(["R_QUEUE", "R_LABEL", "R_NOISE"]),
          Some(["칸반", "패치노트", "RC"]))))
      else s
    case None => s
  }

  /** `RecalculateProbability`: 70% outsiderness, 30% global suspicion. */
  function Probability(outsiderness: real, g: Option<real>): (p: real)
    ensures 0.0 <= p <= 1.0
  {
    Clamp01(outsiderness / 100.0 * 0.7 + g.GetOr(0.0) * 0.3)
  }

  /** More outsiderness or more suspicion never lowers the probability. */
  lemma ProbabilityMonotone(o1: real, o2: real, g1: real, g2: real)
    requires o1 <= o2 && g1 <= g2
    ensures Probability(o1, Some(g1)) <= Probability(o2, Some(g2))
  {
    assert o1 / 100.0 * 0.7 + g1 * 0.3 <= o2 / 100.0 * 0.7 + g2 * 0.3;
  }

  function Recalculate(s: Status, g: Option<real>): (c: Change)
    ensures c.notified && c.next == s.(outsiderProbability := Probability(s.outsiderness, g))
  {
    Change(s.(outsiderProbability := Probability(s.outsiderness, g)), true)
  }

  /** `Update`: decay only while positive, never below zero. */
  function Update(s: Status, dt: real, g: Option<real>): (c: Change)
    ensures s.outsiderness <= 0.0 ==> c == Change(s, false)
    ensures s.outsiderness > 0.0 ==> c.notified && c.next.outsiderness >= 0.0
    ensures s.outsiderness > 0.0 && s.outsidernessDecayPerSecond >= 0.0 && dt >= 0.0 ==>
      c.next.outsiderness <= s.outsiderness
    ensures Valid(s) && s.outsidernessDecayPerSecond >= 0.0 && dt >= 0.0 ==> Valid(c.next)
  {
    if s.outsiderness <= 0.0 then Change(s, false)
    else Recalculate(s.(outsiderness := MaxR(0.0, s.outsiderness - s.outsidernessDecayPerSecond * dt)), g)
  }

  /** The outsiderness an event by the player adds: a violation, a taboo
      topic, a place outside the cover and a topic outside the cover each
      contribute their configured amount. */
  function ActionDelta(s: Status, record: EventRecord): (d: real)
  {
    (if record.eventType == ViolationDetected then s.violationDelta else 0.0)
    + (if s.profile.Some? && P.IsTopicTaboo(s.profile.value, record.topic) then s.tabooDelta else 0.0)
    + (if s.profile.Some? && !P.IsPlaceAllowed(s.profile.value, record.placeId) then s.placeMismatchDelta else 0.0)
    + (if s.profile.Some? && !P.IsTopicAllowed(s.profile.value, record.topic) then s.topicMismatchDelta else 0.0)
  }

  /** With the default amounts, an event that clashes with the cover in any
      way raises outsiderness, and one that clashes in no way leaves it. */
  lemma DefaultDeltaPositive(s: Status, record: EventRecord)
    requires s.violationDelta > 0.0 && s.tabooDelta > 0.0 && s.placeMismatchDelta > 0.0 && s.topicMismatchDelta > 0.0
    ensures ActionDelta(s, record) >= 0.0
    ensures ActionDelta(s, record) > 0.0 <==>
      record.eventType == ViolationDetected
      || (s.profile.Some? && (P.IsTopicTaboo(s.profile.value, record.topic)
                              || !P.IsPlaceAllowed(s.profile.value, record.placeId)
                              || !P.IsTopicAllowed(s.profile.value, record.topic)))
  {
  }

  /** `ApplyDelta`. */
  function ApplyDelta(s: Status, delta: real, g: Option<real>): (c: Change)
    ensures c.notified && c.next.lastActionDelta == delta
    ensures c.next.outsiderness == ClampR(s.outsiderness + delta, 0.0, 100.0)
    ensures Valid(c.next)
  {
    Recalculate(s.(lastActionDelta := delta, outsiderness := ClampR(s.outsiderness + delta, 0.0, 100.0)), g)
  }

  /** `HandleEvent`: only the player's events count, and only a positive
      delta is applied. */
  function HandleEvent(s: Status, record: EventRecord, g: Option<real>): (c: Change)
    ensures record.actorId != PlayerActor ==> c == Change(s, false)
    ensures record.actorId == PlayerActor && ActionDelta(s, record) > 0.0 ==>
      c.notified && c.next.lastActionDelta == ActionDelta(s, record)
      && c.next.outsiderness == ClampR(s.outsiderness + ActionDelta(s, record), 0.0, 100.0)
    ensures ActionDelta(s, record) <= 0.0 ==> c == Change(s, false)
    ensures Valid(s) ==> Valid(c.next)
    ensures Valid(s) ==> c.next.outsiderness >= s.outsiderness
  {
    if record.actorId != PlayerActor then Change(s, false)
    else
      var delta := ActionDelta(s, record);
      if delta > 0.0 then ApplyDelta(s, delta, g) else Change(s, false)
  }

  /** Events and decay in any order keep the status in range. */
  datatype Input = Frame(dt: real, g: Option<real>) | Recorded(record: EventRecord, g': Option<real>)

  function Run(s: Status, inputs: seq<Input>): Status
    decreases |inputs|
  {
    if |inputs| == 0 then s
    else
      var next := match inputs[0]
        case Frame(dt, g) => Update(s, dt, g).next
        case Recorded(r, g) => HandleEvent(s, r, g).next;
      Run(next, inputs[1..])
  }

  lemma {:induction false} RunStaysValid(s: Status, inputs: seq<Input>)
    requires Valid(s) && s.outsidernessDecayPerSecond >= 0.0
    requires forall i :: 0 <= i < |inputs| && inputs[i].Frame? ==> inputs[i].dt >= 0.0
    ensures Valid(Run(s, inputs))
    decreases |inputs|
  {
    if |inputs| > 0 {
      var next := match inputs[0]
        case Frame(dt, g) => Update(s, dt, g).next
        case Recorded(r, g) => HandleEvent(s, r, g).next;
      assert next.outsidernessDecayPerSecond == s.outsidernessDecayPerSecond;
      RunStaysValid(next, inputs[1..]);
    }
  }
}

=== FILE: cover_test_database.dfy ===
/** `CoverTestDatabase.TryGet`: first-wins, case-insensitive lookup of a cover test by its id.
    One instance of `FirstWinsDatabase.TryGet`, whose contract states the
    lookup once; this copy only names the id field. */
module CoverTestDatabase {
  import opened Wrappers
  import opened Text
  import opened LucidDefinitions
  import F = FirstWinsDatabase

  function IdOf(d: CoverTest): string { d.coverTestId }

  function TryGet(entries: seq<Option<CoverTest>>, coverTestId: string): (r: Option<CoverTest>)
    ensures coverTestId == "" ==> r.None?
    ensures r.Some? ==> r.value.coverTestId != "" && EqualsIgnoreCase(r.value.coverTestId, coverTestId)
    ensures r.Some? ==>
      exists j :: 0 <= j < |entries| && entries[j] == Some(r.value)
        && forall i :: 0 <= i < j ==> !F.Matches(entries[i], IdOf, coverTestId)
    ensures r.None? && coverTestId != "" ==>
      forall j :: 0 <= j < |entries| && entries[j].Some? ==>
        entries[j].value.coverTestId == "" || !EqualsIgnoreCase(entries[j].value.coverTestId, coverTestId)
  {
    F.TryGet(entries, IdOf, coverTestId)
  }
}

=== FILE: dialogue_line_limiter.dfy ===
/** `DialogueLineLimiter.ClampLine`: turns arbitrary text into one display
    line: no line breaks, no doubled spaces, no surrounding white space, at
    most `maxChars` characters. */
module DialogueLineLimiter {
  import opened Text
  import opened Numeric

  predicate NoLineBreaks(s: string) {
    '\r' !in s && '\n' !in s
  }

  predicate NoDoubleSpace(s: string) {
    forall i :: 0 <= i < |s| - 1 ==> !(s[i] == ' ' && s[i + 1] == ' ')
  }

  lemma NoDoubleSpaceIffNotContains(s: string)
    ensures NoDoubleSpace(s) <==> !Contains(s, "  ")
  {
    if !NoDoubleSpace(s) {
      var i :| 0 <= i < |s| - 1 && s[i] == ' ' && s[i + 1] == ' ';
      assert OccursAt(s, "  ", i);
    }
    if Contains(s, "  ") {
      var i :| 0 <= i <= |s| - 2 && OccursAt(s, "  ", i);
      assert s[i..i + 2][0] == s[i] && s[i..i + 2][1] == s[i + 1];
    }
  }

  /** Reference meaning of the normalisation loop: every run of spaces
      shrinks to a single space, everything else is kept. */
  function CollapseSpaces(s: string): (r: string)
    ensures |r| <= |s|
    ensures |r| == 0 <==> |s| == 0
    ensures |r| > 0 ==> r[0] == s[0]
    ensures forall c :: c in r ==> c in s
  {
    if |s| == 0 then ""
    else if |s| >= 2 && s[0] == ' ' && s[1] == ' ' then CollapseSpaces(s[1..])
    else [s[0]] + CollapseSpaces(s[1..])
  }

  /** One `s.Replace("  ", " ")`: non-overlapping pairs, left to right. */
  function ReplaceDoubleSpace(s: string): (r: string)
    ensures |r| <= |s|
    ensures |r| == 0 <==> |s| == 0
    ensures |r| > 0 ==> r[0] == s[0]
    ensures !NoDoubleSpace(s) ==> |r| < |s|
  {
    if |s| == 0 then ""
    else if |s| >= 2 && s[0] == ' ' && s[1] == ' ' then " " + ReplaceDoubleSpace(s[2..])
    else [s[0]] + ReplaceDoubleSpace(s[1..])
  }

  /** A replacement pass never changes what the collapse produces. */
  lemma {:induction false} ReplacePreservesCollapse(s: string)
    ensures CollapseSpaces(ReplaceDoubleSpace(s)) == CollapseSpaces(s)
    decreases |s|
  {
    if |s| == 0 {
    } else if |s| >= 2 && s[0] == ' ' && s[1] == ' ' {
      var t := s[2..];
      ReplacePreservesCollapse(t);
      assert s[1..] == " " + t;
      assert ReplaceDoubleSpace(s) == " " + ReplaceDoubleSpace(t);
    } else {
      ReplacePreservesCollapse(s[1..]);
      assert ReplaceDoubleSpace(s) == [s[0]] + ReplaceDoubleSpace(s[1..]);
    }
  }

  lemma {:induction false} CollapseFixesClean(s: string)
    requires NoDoubleSpace(s)
    ensures CollapseSpaces(s) == s
    decreases |s|
  {
    if |s| > 0 {
      CollapseFixesClean(s[1..]);
    }
  }

  lemma {:induction false} CollapseIsClean(s: string)
    ensures NoDoubleSpace(CollapseSpaces(s))
    decreases |s|
  {
    if |s| > 0 {
      CollapseIsClean(s[1..]);
    }
  }

  /** `while (s.Contains("  ")) s = s.Replace("  ", " ");` */
  function NormalizeSpaces(s: string): (r: string)
    ensures NoDoubleSpace(r)
    ensures r == CollapseSpaces(s)
    decreases |s|
  {
    NoDoubleSpaceIffNotContains(s);
    if Contains(s, "  ") then
      ReplacePreservesCollapse(s);
      NormalizeSpaces(ReplaceDoubleSpace(s))
    else
      CollapseFixesClean(s);
      s
  }

  /** The text before the length cap: line breaks become spaces, the ends
      are trimmed and space runs collapse. */
  function Normalized(input: string): string {
    CollapseSpaces(Trim(ReplaceChar(ReplaceChar(input, '\r', ' '), '\n', ' ')))
  }

  lemma BreaksToSpaces(input: string)
    ensures var a := ReplaceChar(ReplaceChar(input, '\r', ' '), '\n', ' ');
      NoLineBreaks(a) && (IsBlank(a) <==> IsBlank(input))
  {
    var a := ReplaceChar(ReplaceChar(input, '\r', ' '), '\n', ' ');
    assert forall i :: 0 <= i < |a| ==> a[i] != '\r' && a[i] != '\n';
    if !IsBlank(input) {
      var i :| 0 <= i < |input| && !IsWhiteSpace(input[i]);
      assert a[i] == input[i];
    }
    if !IsBlank(a) {
      var i :| 0 <= i < |a| && !IsWhiteSpace(a[i]);
      assert a[i] == input[i];
    }
  }

  lemma NormalizedShape(input: string)
    ensures NoLineBreaks(Normalized(input)) && NoDoubleSpace(Normalized(input))
    ensures |Normalized(input)| > 0 ==> !IsWhiteSpace(Normalized(input)[0])
    ensures |Normalized(input)| == 0 <==> IsBlank(input)
  {
    var a := ReplaceChar(ReplaceChar(input, '\r', ' '), '\n', ' ');
    BreaksToSpaces(input);
    CollapseIsClean(Trim(a));
  }

  function ClampLine(input: string, maxChars: int): (r: string)
    ensures IsBlank(input) || maxChars <= 0 ==> r == ""
    ensures !IsBlank(input) && maxChars > 0 ==>
      |r| > 0 && r == Normalized(input)[..Min(maxChars, |Normalized(input)|)]
    ensures |r| <= Max(maxChars, 0)
    ensures NoLineBreaks(r) && NoDoubleSpace(r)
    ensures |r| > 0 ==> !IsWhiteSpace(r[0])
  {
    NormalizedShape(input);
    if IsBlank(input) || maxChars <= 0 then ""
    else
      var normalized := NormalizeSpaces(Trim(ReplaceChar(ReplaceChar(input, '\r', ' '), '\n', ' ')));
      assert normalized == Normalized(input);
      Cap(normalized, maxChars)
  }

  /** The first `n` characters, or all of them when there are fewer; a
      clean line stays clean. */
  function Cap(s: string, n: nat): (r: string)
    ensures |r| == Min(n, |s|) && r == s[..Min(n, |s|)]
    ensures NoLineBreaks(s) && NoDoubleSpace(s) ==> NoLineBreaks(r) && NoDoubleSpace(r)
  {
    if |s| <= n then s
    else
      assert forall c :: c in s[..n] ==> c in s;
      s[..n]
  }

  /** `Cap` counts characters where `Substring(0, n)` counts UTF-16 code
      units; inside the Basic Multilingual Plane the two cuts keep the same
      number of code units. */
  lemma CapInCodeUnits(s: string, n: nat)
    requires InBmp(s)
    ensures Utf16Length(Cap(s, n)) == Min(n, Utf16Length(s))
  {
    Utf16PrefixInBmp(s, Min(n, |s|));
  }

  /** Normalising only turns line breaks into spaces and drops characters,
      so text inside the Basic Multilingual Plane stays inside it. */
  lemma NormalizedInBmp(input: string)
    requires InBmp(input)
    ensures InBmp(Normalized(input))
  {
    var a := ReplaceChar(ReplaceChar(input, '\r', ' '), '\n', ' ');
    forall c | c in a ensures c as int < 0x10000 {
      var i :| 0 <= i < |a| && a[i] == c;
      var b := ReplaceChar(input, '\r', ' ');
      assert b[i] == ' ' || b[i] == input[i];
      assert input[i] in input;
    }
  }

  /** The line's length as `string.Length` reads it: never more than twice
      the cap, and within the cap for input inside the Basic Multilingual
      Plane. */
  lemma ClampLineInCodeUnits(input: string, maxChars: int)
    ensures Utf16Length(ClampLine(input, maxChars)) <= 2 * Max(maxChars, 0)
    ensures InBmp(input) ==> Utf16Length(ClampLine(input, maxChars)) <= Max(maxChars, 0)
  {
    var r := ClampLine(input, maxChars);
    if InBmp(input) && |r| > 0 {
      NormalizedInBmp(input);
      Utf16PrefixInBmp(Normalized(input), |r|);
    }
  }

  lemma ExampleTrim()
    ensures Trim("  hello world  ") == "hello world"
  {
    var core := "hello world";
    assert "  hello world  " == "  " + core + "  ";
    assert core[0] == 'h' && core[|core| - 1] == 'd';
    TrimPadded("  ", core, "  ");
  }

  lemma ExampleBreaks()
    ensures ReplaceChar(ReplaceChar("  hello\nworld  ", '\r', ' '), '\n', ' ') == "  hello world  "
  {
  }

  lemma ExampleNormalized()
    ensures Normalized("  hello\nworld  ") == "hello world"
  {
    ExampleBreaks();
    ExampleTrim();
    ExampleCollapse();
  }

  lemma ExampleCollapse()
    ensures CollapseSpaces("hello world") == "hello world"
  {
    var s := "hello world";
    forall i | 0 <= i < |s| - 1 ensures !(s[i] == ' ' && s[i + 1] == ' ') {
      assert s[i] == ' ' ==> i == 5;
    }
    CollapseFixesClean(s);
  }

  /** `ClampLine("  hello\nworld  ", 100)` is `"hello world"`. */
  lemma ExampleJoinsLines()
    ensures ClampLine("  hello\nworld  ", 100) == "hello world"
  {
    var input := "  hello\nworld  ";
    assert input[2] == 'h' && !IsWhiteSpace(input[2]);
    ExampleNormalized();
  }
}

=== FILE: dream_law_database.dfy ===
/** `DreamLawDatabase.TryGet`: first-wins, case-insensitive lookup of a dream law by its id.
    One instance of `FirstWinsDatabase.TryGet`, whose contract states the
    lookup once; this copy only names the id field. */
module DreamLawDatabase {
  import opened Wrappers
  import opened Text
  import opened LucidDefinitions
  import F = FirstWinsDatabase

  function IdOf(d: DreamLaw): string { d.dreamLawId }

  function TryGet(entries: seq<Option<DreamLaw>>, dreamLawId: string): (r: Option<DreamLaw>)
    ensures dreamLawId == "" ==> r.None?
    ensures r.Some? ==> r.value.dreamLawId != "" && EqualsIgnoreCase(r.value.dreamLawId, dreamLawId)
    ensures r.Some? ==>
      exists j :: 0 <= j < |entries| && entries[j] == Some(r.value)
        && forall i :: 0 <= i < j ==> !F.Matches(entries[i], IdOf, dreamLawId)
    ensures r.None? && dreamLawId != "" ==>
      forall j :: 0 <= j < |entries| && entries[j].Some? ==>
        entries[j].value.dreamLawId == "" || !EqualsIgnoreCase(entries[j].value.dreamLawId, dreamLawId)
  {
    F.TryGet(entries, IdOf, dreamLawId)
  }
}

=== FILE: dream_law_evaluator.dfy ===
/** `DreamLawEvaluator`: walks the laws in database order and turns each law
    whose scope covers the place and one of whose detectors fires into a
    hit. At the station the two "awareness" laws count one and a half times. */
module DreamLawEvaluator {
  import opened Wrappers
  import opened Text
  import opened Numeric
  import opened Seqs
  import opened LucidDefinitions
  import D = DreamLawSpeechDetectors

  const StationMultiplier: real := 1.5

  /** `MatchesScope`: a global law applies everywhere, a landmark law only at
      its own non-empty landmark, compared ignoring case. */
  predicate MatchesScope(law: DreamLaw, placeId: string) {
    match law.scopeKind
    case Global => true
    case Landmark => law.scopeId != "" && placeId != "" && EqualsIgnoreCase(law.scopeId, placeId)
  }

  /** Whether a detector fires on this speech, as a function of its id. */
  function Fires(act: SpeechAct, utterance: string): string -> bool {
    id => D.IsTriggered(id, act, utterance)
  }

  /** `SelectFirstTriggeredDetector`: the first listed detector that fires, or "". */
  function SelectFirstTriggeredDetector(detectorIds: seq<string>, act: SpeechAct, utterance: string): (r: string)
    ensures r != "" ==>
      exists i :: 0 <= i < |detectorIds| && detectorIds[i] == r
        && D.IsTriggered(r, act, utterance)
        && forall j :: 0 <= j < i ==> !D.IsTriggered(detectorIds[j], act, utterance)
    ensures r == "" <==> forall i :: 0 <= i < |detectorIds| ==> !D.IsTriggered(detectorIds[i], act, utterance)
  {
    match FirstWhere(Fires(act, utterance), detectorIds)
    case None => ""
    case Some(i) => detectorIds[i]
  }

  predicate IsStationContext(placeId: string) {
    placeId != "" && EqualsIgnoreCase(placeId, "Station")
  }

  /** The two laws about talking of dreams and testing reality. */
  predicate IsStationWeightedLaw(lawId: string) {
    EqualsIgnoreCase(lawId, "DL_G1_NO_DREAM_TALK") || EqualsIgnoreCase(lawId, "DL_G2_NO_REALITY_TEST")
  }

  /** `ToEventSeverity`: the event severity band of a 0..1 law severity. */
  function ToEventSeverity(severity: real): (r: int)
    ensures 0 <= r <= 3
    ensures r == 0 <==> severity <= 0.0
    ensures r == 3 <==> severity >= 0.85
    ensures r >= 2 <==> severity >= 0.55
  {
    if severity >= 0.85 then 3
    else if severity >= 0.55 then 2
    else if severity > 0.0 then 1
    else 0
  }

  /** A more severe law never gets a lower band. */
  lemma SeverityMonotone(a: real, b: real)
    requires a <= b
    ensures ToEventSeverity(a) <= ToEventSeverity(b)
  {
  }

  /** `Mathf.RoundToInt(delta * multiplier)` for the station boost. */
  function Scale(delta: int, boosted: bool): (r: int)
    ensures !boosted ==> r == delta
    ensures boosted ==> RoundToInt(delta as real * StationMultiplier) == r
  {
    if boosted then RoundToInt(delta as real * StationMultiplier)
    else RoundToInt(delta as real * 1.0)
  }

  /** A boosted delta keeps its sign, never shrinks, and at most doubles. */
  lemma BoostBounds(delta: int)
    ensures delta >= 0 ==> delta <= Scale(delta, true) <= 2 * delta
    ensures delta <= 0 ==> 2 * delta <= Scale(delta, true) <= delta
  {
    var r := Scale(delta, true);
    assert delta as real * 1.5 - 0.5 <= r as real <= delta as real * 1.5 + 0.5;
  }

  /** The hit one law produces in this context, if any. */
  function Evaluate1(slot: Option<DreamLaw>, act: SpeechAct, utterance: string, placeId: string): (r: Option<Hit>)
    ensures r.Some? <==>
      slot.Some? && MatchesScope(slot.value, placeId)
      && exists i :: 0 <= i < |slot.value.detectorIds| && D.IsTriggered(slot.value.detectorIds[i], act, utterance)
    ensures r.Some? ==>
      var hit := r.value;
      hit.law == slot.value && hit.detectorId in slot.value.detectorIds && D.IsTriggered(hit.detectorId, act, utterance)
      && (hit.stationMultiplierApplied <==> IsStationContext(placeId) && IsStationWeightedLaw(slot.value.dreamLawId))
      && hit.suspicionDelta == Scale(slot.value.suspicionDelta, hit.stationMultiplierApplied)
      && hit.exposureDelta == Scale(slot.value.exposureDelta, hit.stationMultiplierApplied)
      && hit.eventSeverity == ToEventSeverity(slot.value.severity)
  {
    match slot
    case None => None
    case Some(law) =>
      if !MatchesScope(law, placeId) then None
      else
        var detectorId := SelectFirstTriggeredDetector(law.detectorIds, act, utterance);
        if detectorId == "" then None
        else
          var boost := IsStationContext(placeId) && IsStationWeightedLaw(law.dreamLawId);
          Some(Hit(law, detectorId, Scale(law.suspicionDelta, boost), Scale(law.exposureDelta, boost),
                   ToEventSeverity(law.severity), boost))
  }

  /** `Evaluate1` for one speech, as a function of the law slot. */
  function Evaluator(act: SpeechAct, utterance: string, placeId: string): Option<DreamLaw> -> Option<Hit> {
    law => Evaluate1(law, act, utterance, placeId)
  }

  /** `Evaluate`: one hit per qualifying law, in database order. */
  function Evaluate(laws: seq<Option<DreamLaw>>, act: SpeechAct, utterance: string, placeId: string): (r: seq<Hit>)
    ensures |r| <= |laws|
  {
    Collect(Evaluator(act, utterance, placeId), laws)
  }

  /** Every hit comes from a law of the list, and every law that trips
      contributes its hit. */
  lemma EvaluateExact(laws: seq<Option<DreamLaw>>, act: SpeechAct, utterance: string, placeId: string)
    ensures forall h :: h in Evaluate(laws, act, utterance, placeId) ==>
      exists i :: 0 <= i < |laws| && Evaluate1(laws[i], act, utterance, placeId) == Some(h)
    ensures forall i :: 0 <= i < |laws| && Evaluate1(laws[i], act, utterance, placeId).Some? ==>
      Evaluate1(laws[i], act, utterance, placeId).value in Evaluate(laws, act, utterance, placeId)
  {
    CollectExact(Evaluator(act, utterance, placeId), laws);
  }

  /** Evaluating a list split in two gives the two hit lists one after the other. */
  lemma EvaluateAppend(a: seq<Option<DreamLaw>>, b: seq<Option<DreamLaw>>, act: SpeechAct, utterance: string, placeId: string)
    ensures Evaluate(a + b, act, utterance, placeId) == Evaluate(a, act, utterance, placeId) + Evaluate(b, act, utterance, placeId)
  {
    CollectAppend(Evaluator(act, utterance, placeId), a, b);
  }

  /** With no utterance, only a `Break` can trip a law, and only through the dream-talk detector. */
  lemma SilentUnlessBreak(laws: seq<Option<DreamLaw>>, act: SpeechAct, placeId: string)
    ensures act != Break ==> Evaluate(laws, act, "", placeId) == []
    ensures forall h :: h in Evaluate(laws, act, "", placeId) ==> D.IsDreamTalk(h.detectorId)
  {
    EvaluateExact(laws, act, "", placeId);
    var hits := Evaluate(laws, act, "", placeId);
    assert |hits| > 0 ==> hits[0] in hits;
  }
}

=== FILE: dream_law_speech_detectors.dfy ===
/** Keyword detectors for the player's speech. Each speech detector id
    names one keyword list; a detector fires when the utterance contains one
    of its keywords, ignoring case. The dream-talk detector also fires for a
    `Break` act whatever was typed. */
module DreamLawSpeechDetectors {
  import opened Wrappers
  import opened Text
  import opened LucidDefinitions

  const SpeechDreamTalk := "DET_SPEECH_DREAM_TALK"
  const SpeechRealityTest := "DET_SPEECH_REALITY_TEST"
  const SpeechMetaLogic := "DET_SPEECH_META_LOGIC"
  const SpeechTimelineProbe := "DET_SPEECH_TIMELINE_PROBE"

  const DreamTalkKeywords: seq<string> :=
    ["꿈", "자각", "자각몽", "깨어", "깨면", "루시드", "시뮬레이션",
     "dream", "lucid", "wake up", "simulation"]

  const RealityTestKeywords: seq<string> :=
    ["현실체크", "현실 체크", "테스트", "확인해보자", "거울", "손가락", "호흡", "시간이",
     "reality check", "test this", "mirror", "finger"]

  const MetaLogicKeywords: seq<string> :=
    ["버그", "모순", "말이 안", "이상해",
     "bug", "glitch", "contradiction", "impossible"]

  const TimelineProbeKeywords: seq<string> :=
    ["방금", "아까",
     "just now", "a moment ago", "earlier"]

  /** The detector id names the dream-talk detector, ignoring case. */
  predicate IsDreamTalk(detectorId: string) {
    EqualsIgnoreCase(detectorId, SpeechDreamTalk)
  }

  /** The id names one of the four speech detectors, ignoring case. */
  predicate IsSpeechDetector(detectorId: string) {
    EqualsIgnoreCase(detectorId, SpeechDreamTalk) || EqualsIgnoreCase(detectorId, SpeechRealityTest)
    || EqualsIgnoreCase(detectorId, SpeechMetaLogic) || EqualsIgnoreCase(detectorId, SpeechTimelineProbe)
  }

  /** `text` contains at least one non-empty keyword of the list, ignoring case. */
  predicate Mentions(text: string, keywords: seq<string>) {
    exists i :: 0 <= i < |keywords| && keywords[i] != "" && ContainsIgnoreCase(text, keywords[i])
  }

  /** The keyword list a detector id selects, tried in the order the ids are compared. */
  function KeywordsFor(detectorId: string): (r: Option<seq<string>>)
    ensures r.Some? <==> IsSpeechDetector(detectorId)
    ensures IsDreamTalk(detectorId) ==> r == Some(DreamTalkKeywords)
  {
    if EqualsIgnoreCase(detectorId, SpeechDreamTalk) then Some(DreamTalkKeywords)
    else if EqualsIgnoreCase(detectorId, SpeechRealityTest) then Some(RealityTestKeywords)
    else if EqualsIgnoreCase(detectorId, SpeechMetaLogic) then Some(MetaLogicKeywords)
    else if EqualsIgnoreCase(detectorId, SpeechTimelineProbe) then Some(TimelineProbeKeywords)
    else None
  }

  /** `ContainsAny`: scans the keywords in order, skipping empty ones. */
  function ContainsAny(text: string, keywords: seq<string>): (r: bool)
    ensures r <==> text != "" && Mentions(text, keywords)
  {
    if text == "" || |keywords| == 0 then false
    else if keywords[0] != "" && ContainsIgnoreCase(text, keywords[0]) then true
    else
      var rest := ContainsAny(text, keywords[1..]);
      assert Mentions(text, keywords) ==> Mentions(text, keywords[1..]) by {
        if Mentions(text, keywords) {
          var i :| 0 <= i < |keywords| && keywords[i] != "" && ContainsIgnoreCase(text, keywords[i]);
          assert keywords[1..][i - 1] == keywords[i];
        }
      }
      assert Mentions(text, keywords[1..]) ==> Mentions(text, keywords) by {
        if Mentions(text, keywords[1..]) {
          var i :| 0 <= i < |keywords[1..]| && keywords[1..][i] != "" && ContainsIgnoreCase(text, keywords[1..][i]);
          assert keywords[i + 1] == keywords[1..][i];
        }
      }
      rest
  }

  /** `IsTriggered`. */
  function IsTriggered(detectorId: string, act: SpeechAct, utterance: string): (r: bool)
    ensures detectorId == "" ==> !r
    ensures IsDreamTalk(detectorId) && act == Break ==> r
    ensures !IsSpeechDetector(detectorId) ==> !r
    ensures r ==> utterance != "" || (IsDreamTalk(detectorId) && act == Break)
    ensures IsSpeechDetector(detectorId) && !(IsDreamTalk(detectorId) && act == Break) ==>
      (r <==> utterance != "" && Mentions(utterance, KeywordsFor(detectorId).value))
  {
    if detectorId == "" then false
    else
      match KeywordsFor(detectorId)
      case None => false
      case Some(keywords) =>
        if IsDreamTalk(detectorId) && act == Break then true
        else ContainsAny(utterance, keywords)
  }

  /** Detector ids are compared ignoring case. */
  lemma IdIgnoresCase(a: string, b: string, act: SpeechAct, utterance: string)
    requires EqualsIgnoreCase(a, b)
    ensures IsTriggered(a, act, utterance) == IsTriggered(b, act, utterance)
  {
    assert |a| == |ToLower(a)| == |ToLower(b)| == |b|;
  }

  /** A capitalised English keyword still trips its detector, and the same
      words said as anything but `Break` leave the dream-talk detector quiet. */
  lemma MirrorExample()
    ensures IsTriggered(SpeechRealityTest, Comply, "Mirror?")
    ensures !IsTriggered(SpeechDreamTalk, Inquire, "")
  {
    assert ToLower("Mirror?")[..6] == "mirror";
    assert OccursAt(ToLower("Mirror?"), ToLower(RealityTestKeywords[10]), 0);
    assert RealityTestKeywords[10] != "" && ContainsIgnoreCase("Mirror?", RealityTestKeywords[10]);
    DiffersAt(SpeechRealityTest, SpeechDreamTalk, 12);
  }
}

=== FILE: dream_law_violation_applier.dfy ===
/** `DreamLawViolationApplier`: turns the evaluator's hits into log records
    and exposure. Each hit first records a witness statement, then the
    violation that points at it, then adds the hit's exposure. The records
    are returned in the order they reach the log. The exposure system keeps
    its own log reference; the model assumes the scene has a single event
    log, so that the two are the same and its record follows. The
    statement ids `Guid.NewGuid` would produce are the parameter `guid`
    (the id for the k-th hit of the call). */
module DreamLawViolationApplier {
  import opened Wrappers
  import opened Text
  import opened Numeric
  import opened Events
  import opened LucidDefinitions
  import E = DreamLawEvaluator
  import X = ExposureSystem

  /** What one call leaves behind: `LastHits`, the records appended to the
      log in order, and the exposure system's new state. */
  datatype Application = Application(hits: seq<Hit>, records: seq<EventRecord>, exposure: Option<X.Exposure>)

  /** The note of the statement record. */
  function StatementNote(law: DreamLaw): string {
    if law.canonicalLineTemplate == "" then "Witness statement for " + law.dreamLawId + "."
    else law.canonicalLineTemplate
  }

  /** The note of the violation record: the detector, the statement it cites,
      and a marker when the station multiplier was applied. */
  function ViolationNote(detectorId: string, statementId: string, boosted: bool): string {
    "det=" + detectorId + "; stmt=" + statementId + (if boosted then "; x1.5" else "")
  }

  function StatementRecord(hit: Hit, placeId: string, witnessId: string, witnessRole: string, statementId: string): (r: EventRecord)
    ensures r.eventType == StatementGiven && r.id == statementId
    ensures r.actorId == witnessId && r.actorRole == witnessRole && r.targetId == "PLAYER"
    ensures r.ruleId == hit.law.dreamLawId && r.topic == hit.law.dreamLawId && r.sourceId == hit.detectorId
    ensures 1 <= r.severity <= 3 && (1 <= hit.eventSeverity <= 3 ==> r.severity == hit.eventSeverity)
    ensures r.note == StatementNote(hit.law) && r.trust == 1.0 && r.placeId == placeId
  {
    EventRecord(id := statementId, actorId := witnessId, actorRole := witnessRole, targetId := "PLAYER",
                eventType := StatementGiven, ruleId := hit.law.dreamLawId, sourceId := hit.detectorId,
                topic := hit.law.dreamLawId, note := StatementNote(hit.law),
                severity := Clamp(hit.eventSeverity, 1, 3), trust := 1.0, placeId := placeId)
  }

  function ViolationRecord(hit: Hit, placeId: string, witnessId: string, witnessRole: string, statementId: string): (r: EventRecord)
    ensures r.eventType == ViolationDetected && r.id == ""
    ensures r.actorId == witnessId && r.actorRole == witnessRole && r.targetId == "PLAYER"
    ensures r.ruleId == hit.law.dreamLawId && r.topic == hit.law.dreamLawId && r.sourceId == hit.detectorId
    ensures r.delta == hit.suspicionDelta as real
    ensures 0 <= r.severity <= 3 && (0 <= hit.eventSeverity <= 3 ==> r.severity == hit.eventSeverity)
    ensures r.note == ViolationNote(hit.detectorId, statementId, hit.stationMultiplierApplied)
    ensures r.trust == 1.0 && r.placeId == placeId
  {
    EventRecord(actorId := witnessId, actorRole := witnessRole, targetId := "PLAYER",
                eventType := ViolationDetected, ruleId := hit.law.dreamLawId, sourceId := hit.detectorId,
                topic := hit.law.dreamLawId, delta := hit.suspicionDelta as real,
                note := ViolationNote(hit.detectorId, statementId, hit.stationMultiplierApplied),
                severity := Clamp(hit.eventSeverity, 0, 3), trust := 1.0, placeId := placeId)
  }

  predicate Workable(x: Option<X.Exposure>) {
    x.Some? ==> x.value.maxExposure >= 0
  }

  /** `ApplyHit`: statement, then violation, then the exposure change. */
  function ApplyHit(hit: Hit, x: Option<X.Exposure>, placeId: string, witnessId: string, witnessRole: string,
                    statementId: string): (r: (seq<EventRecord>, Option<X.Exposure>))
    requires Workable(x)
    ensures 2 <= |r.0| <= 3
    ensures r.0[0] == StatementRecord(hit, placeId, witnessId, witnessRole, statementId)
    ensures r.0[1] == ViolationRecord(hit, placeId, witnessId, witnessRole, statementId)
    ensures |r.0| == 3 ==> r.0[2].eventType == ExposureUpdated
    ensures x.None? ==> r == (r.0, None) && |r.0| == 2
    ensures x.Some? ==> r.1.Some? && r.1 == Some(X.AddExposure(x.value, hit.exposureDelta, witnessId, placeId,
                                                              hit.law.dreamLawId, hit.detectorId).next)
    ensures Workable(r.1)
    ensures x.Some? && X.Valid(x.value) ==> X.Valid(r.1.value)
  {
    var logged := [StatementRecord(hit, placeId, witnessId, witnessRole, statementId),
                   ViolationRecord(hit, placeId, witnessId, witnessRole, statementId)];
    match x
    case None => (logged, None)
    case Some(exposure) =>
      var change := X.AddExposure(exposure, hit.exposureDelta, witnessId, placeId, hit.law.dreamLawId, hit.detectorId);
      (logged + (if change.record.Some? then [change.record.value] else []), Some(change.next))
  }

  /** How many of the records have the given type. */
  function CountOf(records: seq<EventRecord>, t: EventType): nat {
    if |records| == 0 then 0
    else (if records[0].eventType == t then 1 else 0) + CountOf(records[1..], t)
  }

  lemma {:induction false} CountAppend(a: seq<EventRecord>, b: seq<EventRecord>, t: EventType)
    ensures CountOf(a + b, t) == CountOf(a, t) + CountOf(b, t)
    decreases |a|
  {
    if |a| == 0 {
      assert a + b == b;
    } else {
      assert (a + b)[1..] == a[1..] + b;
      CountAppend(a[1..], b, t);
    }
  }

  /** The records of one hit hold one statement and one violation. */
  lemma OneOfEachKind(first: seq<EventRecord>)
    requires 2 <= |first| <= 3 && first[0].eventType == StatementGiven && first[1].eventType == ViolationDetected
    requires |first| == 3 ==> first[2].eventType == ExposureUpdated
    ensures CountOf(first, StatementGiven) == 1 && CountOf(first, ViolationDetected) == 1
  {
    assert first == [first[0], first[1]] + first[2..];
    CountAppend([first[0], first[1]], first[2..], StatementGiven);
    CountAppend([first[0], first[1]], first[2..], ViolationDetected);
    assert first[2..] == [] || first[2..] == [first[2]];
  }

  /** The loop over the hits, the k-th hit citing statement `guid(k)`. */
  function ApplyHits(hits: seq<Hit>, x: Option<X.Exposure>, placeId: string, witnessId: string, witnessRole: string,
                     guid: nat -> string, k: nat): (r: (seq<EventRecord>, Option<X.Exposure>))
    requires Workable(x)
    ensures 2 * |hits| <= |r.0| <= 3 * |hits|
    ensures CountOf(r.0, StatementGiven) == |hits| && CountOf(r.0, ViolationDetected) == |hits|
    ensures |hits| > 0 ==>
      r.0[0] == StatementRecord(hits[0], placeId, witnessId, witnessRole, guid(k))
      && r.0[1] == ViolationRecord(hits[0], placeId, witnessId, witnessRole, guid(k))
    ensures Workable(r.1) && (x.None? <==> r.1.None?)
    ensures x.Some? && X.Valid(x.value) ==> X.Valid(r.1.value)
    decreases |hits|
  {
    if |hits| == 0 then ([], x)
    else
      var (first, x1) := ApplyHit(hits[0], x, placeId, witnessId, witnessRole, guid(k));
      var (rest, x2) := ApplyHits(hits[1..], x1, placeId, witnessId, witnessRole, guid, k + 1);
      CountAppend(first, rest, StatementGiven);
      CountAppend(first, rest, ViolationDetected);
      OneOfEachKind(first);
      (first + rest, x2)
  }

  /** `ApplySpeech`. `laws` is `None` for a missing database; `hasLog` says
      whether a log was supplied; `x` is the optional exposure system. */
  function ApplySpeech(laws: Option<seq<Option<DreamLaw>>>, hasLog: bool, x: Option<X.Exposure>,
                       act: SpeechAct, utterance: string, placeId: string, witnessId: string, witnessRole: string,
                       guid: nat -> string): (r: Application)
    requires Workable(x)
    ensures laws.None? || !hasLog ==> r == Application([], [], x)
    ensures laws.Some? && hasLog ==> r.hits == E.Evaluate(laws.value, act, utterance, placeId)
    ensures 2 * |r.hits| <= |r.records| <= 3 * |r.hits|
    ensures r.hits == [] ==> r.records == [] && r.exposure == x
    ensures CountOf(r.records, StatementGiven) == |r.hits| && CountOf(r.records, ViolationDetected) == |r.hits|
    ensures r.hits != [] ==>
      var actor := if witnessId == "" then "Witness" else witnessId;
      var role := if witnessRole == "" then "Citizen" else witnessRole;
      r.records[0] == StatementRecord(r.hits[0], placeId, actor, role, guid(0))
      && r.records[1] == ViolationRecord(r.hits[0], placeId, actor, role, guid(0))
      && (r.records, r.exposure) == ApplyHits(r.hits, x, placeId, actor, role, guid, 0)
    ensures x.Some? && X.Valid(x.value) ==> r.exposure.Some? && X.Valid(r.exposure.value)
  {
    if laws.None? || !hasLog then Application([], [], x)
    else
      var hits := E.Evaluate(laws.value, act, utterance, placeId);
      if |hits| == 0 then Application([], [], x)
      else
        var actor := if witnessId == "" then "Witness" else witnessId;
        var role := if witnessRole == "" then "Citizen" else witnessRole;
        var (records, x') := ApplyHits(hits, x, placeId, actor, role, guid, 0);
        Application(hits, records, x')
  }
}

=== FILE: enum_names.dfy ===
/** `Enum.TryParse(value, ignoreCase: true, …)` over a list of an enum's
    members and their names, kept generic so that no proof has to unfold a
    particular enum. */
module EnumNames {
  import opened Wrappers
  import opened Text

  /** The first member whose name equals `s`, ignoring ASCII case. */
  function FindName<K>(members: seq<K>, name: K -> string, s: string): Option<K>
    decreases |members|
  {
    if |members| == 0 then None
    else if EqualsIgnoreCase(name(members[0]), s) then Some(members[0])
    else FindName(members[1..], name, s)
  }

  lemma {:induction false} FindNameSound<K>(members: seq<K>, name: K -> string, s: string)
    ensures FindName(members, name, s).Some? ==>
      FindName(members, name, s).value in members && EqualsIgnoreCase(name(FindName(members, name, s).value), s)
    decreases |members|
  {
    if |members| > 0 && !EqualsIgnoreCase(name(members[0]), s) {
      FindNameSound(members[1..], name, s);
    }
  }

  lemma {:induction false} FindNameComplete<K>(members: seq<K>, name: K -> string, s: string, k: K)
    requires k in members && EqualsIgnoreCase(name(k), s)
    ensures FindName(members, name, s).Some?
    decreases |members|
  {
    if !EqualsIgnoreCase(name(members[0]), s) {
      assert k in members[1..];
      FindNameComplete(members[1..], name, s, k);
    }
  }

  /** No two members' names differ only in case. */
  predicate CaseDistinct<K(==)>(members: seq<K>, name: K -> string) {
    forall i, j :: 0 <= i < |members| && 0 <= j < |members| && ToLower(name(members[i])) == ToLower(name(members[j]))
      ==> members[i] == members[j]
  }

  /** With case-distinct names, a member's own name finds that member. */
  lemma FindOwnName<K>(members: seq<K>, name: K -> string, k: K)
    requires k in members && CaseDistinct(members, name)
    ensures FindName(members, name, name(k)) == Some(k)
  {
    FindNameComplete(members, name, name(k), k);
    FindNameSound(members, name, name(k));
    var found := FindName(members, name, name(k)).value;
    var i :| 0 <= i < |members| && members[i] == found;
    var j :| 0 <= j < |members| && members[j] == k;
  }

  /** A name matched first at position `i` finds the member there. */
  lemma {:induction false} SkipToName<K>(members: seq<K>, name: K -> string, s: string, i: nat)
    requires i < |members| && EqualsIgnoreCase(name(members[i]), s)
    requires forall j :: 0 <= j < i ==> !EqualsIgnoreCase(name(members[j]), s)
    ensures FindName(members, name, s) == Some(members[i])
    decreases i
  {
    if i > 0 {
      SkipToName(members[1..], name, s, i - 1);
    }
  }
}

=== FILE: event_log_presenter.dfy ===
/** `EventLogPresenter.Update`: forwards records the UI has not shown yet,
    a few per frame, using the log's lifetime counter as a cursor that
    survives evictions from the front of the buffer. */
module EventLogPresenter {
  import opened Wrappers
  import opened Numeric
  import opened Events
  import opened WorldEventLog
  import SemanticShaper

  /** `lastProcessedTotal` is the cursor, in lifetime-record units. */
  datatype Presenter = Presenter(lastProcessedTotal: int := 0, maxEventsPerFrame: int := 2)

  /** One UI log line, and whether it also pops up as a toast. */
  datatype Line = Line(text: string, toast: bool)

  predicate IsToastWorthy(record: EventRecord) {
    record.severity >= 2 || record.eventType == VerdictGiven
  }

  function Present(record: EventRecord, hasShaper: bool): (line: Line)
    ensures line.toast <==> record.severity >= 2 || record.eventType.VerdictGiven?
  {
    Line(if hasShaper then SemanticShaper.ToText(record) else TypeName(record.eventType),
         IsToastWorthy(record))
  }

  function PresentAll(records: seq<EventRecord>, hasShaper: bool): (lines: seq<Line>)
    ensures |lines| == |records|
    ensures forall i :: 0 <= i < |records| ==> lines[i] == Present(records[i], hasShaper)
  {
    seq(|records|, i requires 0 <= i < |records| => Present(records[i], hasShaper))
  }

  /** Buffer index of the first record not yet shown, clamped into the buffer. */
  function StartIndex(p: Presenter, log: Log): (start: nat)
    ensures start <= |log.events|
    ensures p.lastProcessedTotal >= log.dropped && p.lastProcessedTotal <= log.dropped + |log.events| ==>
      log.dropped + start == p.lastProcessedTotal
  {
    Min(Max(0, p.lastProcessedTotal - log.dropped), |log.events|)
  }

  /** The per-frame budget: the loop checks it only after forwarding one
      record, so a non-positive setting still forwards one. */
  function Budget(p: Presenter): nat {
    Max(1, p.maxEventsPerFrame)
  }

  /** The forwarding loop shared by both cursor rules below: the records
      handed to the UI this frame. */
  method Forward(events: seq<EventRecord>, start: nat, maxEventsPerFrame: int)
    returns (shown: seq<EventRecord>)
    requires start <= |events|
    ensures start + |shown| <= |events|
    ensures |shown| == Min(|events| - start, Max(1, maxEventsPerFrame))
    ensures shown == events[start..start + |shown|]
  {
    shown := [];
    var i := start;
    var processed := 0;
    while i < |events|
      invariant start <= i <= |events|
      invariant processed == i - start == |shown|
      invariant processed < Max(1, maxEventsPerFrame) || i == start
      invariant shown == events[start..i]
      decreases |events| - i
    {
      shown := shown + [events[i]];
      i := i + 1;
      processed := processed + 1;
      if processed >= maxEventsPerFrame {
        break;
      }
    }
  }

  /** The cursor update as the source writes it. */
  function NextCursorAsWritten(p: Presenter, log: Log, processed: nat): int {
    Min(log.total, p.lastProcessedTotal + processed)
  }

  /** The cursor update that counts from where forwarding actually started. */
  function NextCursor(p: Presenter, log: Log, processed: nat): int {
    log.dropped + StartIndex(p, log) + processed
  }

  /** `Update` with the source's cursor rule. */
  method UpdateAsWritten(p: Presenter, log: Option<Log>, hasUi: bool, hasShaper: bool)
    returns (next: Presenter, lines: seq<Line>)
    ensures log.None? || !hasUi ==> next == p && lines == []
    ensures |lines| <= Budget(p)
    ensures log.Some? && hasUi ==>
      var start := StartIndex(p, log.value);
      start + |lines| <= |log.value.events|
      && lines == PresentAll(log.value.events[start..start + |lines|], hasShaper)
      && |lines| == Min(|log.value.events| - start, Budget(p))
      && next == p.(lastProcessedTotal := NextCursorAsWritten(p, log.value, |lines|))
    ensures log.Some? && hasUi && p.lastProcessedTotal <= log.value.total ==>
      p.lastProcessedTotal <= next.lastProcessedTotal <= log.value.total
  {
    if log.None? || !hasUi {
      return p, [];
    }
    var start := StartIndex(p, log.value);
    var shown := Forward(log.value.events, start, p.maxEventsPerFrame);
    lines := PresentAll(shown, hasShaper);
    next := p.(lastProcessedTotal := NextCursorAsWritten(p, log.value, |lines|));
  }

  /** `Update` with the cursor advanced past exactly the forwarded records. */
  method Update(p: Presenter, log: Option<Log>, hasUi: bool, hasShaper: bool)
    returns (next: Presenter, lines: seq<Line>)
    ensures log.None? || !hasUi ==> next == p && lines == []
    ensures |lines| <= Budget(p)
    ensures log.Some? && hasUi ==>
      var start := StartIndex(p, log.value);
      start + |lines| <= |log.value.events|
      && lines == PresentAll(log.value.events[start..start + |lines|], hasShaper)
      && |lines| == Min(|log.value.events| - start, Budget(p))
      && StartIndex(next, log.value) == start + |lines|
    ensures log.Some? && hasUi && Valid(log.value) && p.lastProcessedTotal <= log.value.total ==>
      p.lastProcessedTotal <= next.lastProcessedTotal <= log.value.total
  {
    if log.None? || !hasUi {
      return p, [];
    }
    var start := StartIndex(p, log.value);
    var shown := Forward(log.value.events, start, p.maxEventsPerFrame);
    lines := PresentAll(shown, hasShaper);
    next := p.(lastProcessedTotal := NextCursor(p, log.value, |lines|));
  }

  /** With the corrected cursor, a second frame over an unchanged log starts
      right after the records the first frame forwarded. */
  lemma CursorSkipsForwarded(p: Presenter, log: Log, processed: nat)
    requires StartIndex(p, log) + processed <= |log.events|
    ensures StartIndex(p.(lastProcessedTotal := NextCursor(p, log, processed)), log)
            == StartIndex(p, log) + processed
  {
  }

  /** As written, once more records were evicted than the cursor has
      counted, the start index clamps to 0 while the cursor moves by only
      the forwarded count, so the next frame forwards the same records. */
  lemma AsWrittenRepeatsRecords()
    ensures var log := Log([EventRecord(id := "a"), EventRecord(id := "b"), EventRecord(id := "c")], 5, 2, 3);
      var p := Presenter(0, 2);
      Valid(log)
      && StartIndex(p, log) == 0
      && StartIndex(p.(lastProcessedTotal := NextCursorAsWritten(p, log, 2)), log) == 0
  {
  }
}

=== FILE: events.dfy ===
/** The shared event vocabulary: `EventType`, `EventCategory` and `EventRecord`.
    `EventRecord` carries the fields the game's systems read and write
    (`topic`, `placeId`, `sourceId`, `trust` are used throughout although the
    record class shown declares only the older subset); positions are not
    modelled. Every field has the C# default as its default value. */
module Events {

  datatype EventType =
    | EnteredZone | ExitedZone | ViolationDetected | SuspicionUpdated | ReportFiled
    | InterrogationStarted | VerdictGiven | StatementGiven | ExplanationGiven | RebuttalGiven
    | NpcUtterance | RumorShared | RumorConfirmed | RumorDebunked | EvidenceCaptured
    | TicketIssued | TaskStarted | TaskCompleted | ApprovalGranted | RcInserted
    | LabelChanged | PaymentProcessed | QueueUpdated | SeatClaimed | NoiseObserved
    | CctvCaptured | ExposureUpdated

  /** `Exposure` is the category the exposure system assigns to its records. */
  datatype EventCategory =
    | Movement | Zone | Rule | Suspicion | Report | Verdict | Dialogue | Gossip
    | Evidence | Procedure | Organization | Exposure

  datatype EventRecord = EventRecord(
    id: string := "",
    stamp: real := 0.0,
    eventType: EventType := EnteredZone,
    category: EventCategory := Zone,
    actorId: string := "",
    actorRole: string := "",
    targetId: string := "",
    zoneId: string := "",
    placeId: string := "",
    topic: string := "",
    sourceId: string := "",
    trust: real := 0.0,
    ruleId: string := "",
    delta: real := 0.0,
    note: string := "",
    severity: int := 0)

  /** `EventType.ToString()`. */
  function TypeName(t: EventType): string {
    match t
    case EnteredZone => "EnteredZone"
    case ExitedZone => "ExitedZone"
    case ViolationDetected => "ViolationDetected"
    case SuspicionUpdated => "SuspicionUpdated"
    case ReportFiled => "ReportFiled"
    case InterrogationStarted => "InterrogationStarted"
    case VerdictGiven => "VerdictGiven"
    case StatementGiven => "StatementGiven"
    case ExplanationGiven => "ExplanationGiven"
    case RebuttalGiven => "RebuttalGiven"
    case NpcUtterance => "NpcUtterance"
    case RumorShared => "RumorShared"
    case RumorConfirmed => "RumorConfirmed"
    case RumorDebunked => "RumorDebunked"
    case EvidenceCaptured => "EvidenceCaptured"
    case TicketIssued => "TicketIssued"
    case TaskStarted => "TaskStarted"
    case TaskCompleted => "TaskCompleted"
    case ApprovalGranted => "ApprovalGranted"
    case RcInserted => "RcInserted"
    case LabelChanged => "LabelChanged"
    case PaymentProcessed => "PaymentProcessed"
    case QueueUpdated => "QueueUpdated"
    case SeatClaimed => "SeatClaimed"
    case NoiseObserved => "NoiseObserved"
    case CctvCaptured => "CctvCaptured"
    case ExposureUpdated => "ExposureUpdated"
  }
}

=== FILE: exposure_system.dfy ===
/** `ExposureSystem`: the player's global exposure, an integer between 0 and
    `maxExposure`, with two thresholds. Every change fires the change
    notification; changes made through `AddExposure` are also logged. */
module ExposureSystem {
  import opened Wrappers
  import opened Numeric
  import opened Text
  import opened Events

  datatype Exposure = Exposure(
    attentionThreshold: int := 60,
    exposedThreshold: int := 100,
    maxExposure: int := 100,
    hasLog: bool := true,
    exposure: int := 0)

  /** The settings `Awake` establishes. */
  predicate Normalized(x: Exposure) {
    x.maxExposure >= 1 && 1 <= x.exposedThreshold <= x.maxExposure && 0 <= x.attentionThreshold <= x.exposedThreshold
  }

  predicate Valid(x: Exposure) {
    0 <= x.exposure <= x.maxExposure
  }

  /** `Awake`: a positive maximum, the exposed threshold within [1, max] and
      the attention threshold within [0, exposed]. */
  function Awake(x: Exposure): (x': Exposure)
    ensures Normalized(x')
    ensures Normalized(x) ==> x' == x
    ensures x' == x.(maxExposure := x'.maxExposure, exposedThreshold := x'.exposedThreshold,
                     attentionThreshold := x'.attentionThreshold)
  {
    var max := Max(1, x.maxExposure);
    var exposed := Clamp(x.exposedThreshold, 1, max);
    x.(maxExposure := max, exposedThreshold := exposed, attentionThreshold := Clamp(x.attentionThreshold, 0, exposed))
  }

  predicate HasStationAttention(x: Exposure) { x.exposure >= x.attentionThreshold }
  predicate IsExposed(x: Exposure) { x.exposure >= x.exposedThreshold }

  /** Being exposed implies having the station's attention. */
  lemma ExposedImpliesAttention(x: Exposure)
    requires Normalized(x) && IsExposed(x)
    ensures HasStationAttention(x)
  {
  }

  /** What a call did: the new state, whether `OnExposureChanged` fired and
      the `ExposureUpdated` record logged, if any. */
  datatype Change = Change(next: Exposure, notified: bool, record: Option<EventRecord>)

  /** The `ExposureUpdated` record for a new value. */
  function ExposureRecord(x: Exposure, actorId: string, placeId: string, lawId: string, detectorId: string, delta: int): (r: EventRecord)
    ensures r.eventType == ExposureUpdated && r.category == EventCategory.Exposure && r.targetId == "PLAYER"
    ensures r.actorId == (if actorId == "" then "System" else actorId) && r.actorRole == "System"
    ensures r.ruleId == lawId && r.topic == (if lawId == "" then "Exposure" else lawId)
    ensures r.delta == delta as real && r.sourceId == detectorId && r.placeId == placeId
    ensures r.severity == (if x.exposure >= x.attentionThreshold then 2 else 1)
  {
    EventRecord(
      actorId := if actorId == "" then "System" else actorId, actorRole := "System", targetId := "PLAYER",
      eventType := ExposureUpdated, category := EventCategory.Exposure, ruleId := lawId,
      topic := if lawId == "" then "Exposure" else lawId, sourceId := detectorId, delta := delta as real,
      note := IntToString(x.exposure), severity := if x.exposure >= x.attentionThreshold then 2 else 1,
      placeId := placeId)
  }

  /** `SetExposure`: store the clamped value, notify, and log when asked. */
  function SetExposure(x: Exposure, value: int, recordEvent: bool, actorId: string, placeId: string,
                       lawId: string, detectorId: string, delta: int): (c: Change)
    requires x.maxExposure >= 0
    ensures Valid(c.next) && c.notified
    ensures 0 <= value <= x.maxExposure ==> c.next.exposure == value
    ensures value < 0 ==> c.next.exposure == 0
    ensures value > x.maxExposure ==> c.next.exposure == x.maxExposure
    ensures c.next == x.(exposure := c.next.exposure)
    ensures c.record.Some? <==> recordEvent && x.hasLog
    ensures c.record.Some? ==> c.record.value == ExposureRecord(c.next, actorId, placeId, lawId, detectorId, delta)
  {
    var next := x.(exposure := Clamp(value, 0, x.maxExposure));
    Change(next, true,
           if recordEvent && x.hasLog then Some(ExposureRecord(next, actorId, placeId, lawId, detectorId, delta)) else None)
  }

  /** `ResetExposure`: back to zero, notified but never logged. */
  function ResetExposure(x: Exposure): (c: Change)
    requires x.maxExposure >= 0
    ensures c.next == x.(exposure := 0) && c.notified && c.record.None?
  {
    SetExposure(x, 0, false, "System", "", "", "", 0)
  }

  /** `AddExposure`: a zero delta, or one the clamp absorbs, changes nothing
      and logs nothing; otherwise the clamped sum is stored and logged with
      the requested delta. */
  function AddExposure(x: Exposure, delta: int, actorId: string, placeId: string, lawId: string, detectorId: string): (c: Change)
    requires x.maxExposure >= 0
    ensures delta == 0 || Clamp(x.exposure + delta, 0, x.maxExposure) == x.exposure ==> c == Change(x, false, None)
    ensures delta != 0 && Clamp(x.exposure + delta, 0, x.maxExposure) != x.exposure ==>
      c.notified && c.next.exposure == Clamp(x.exposure + delta, 0, x.maxExposure)
      && c.next.exposure != x.exposure
      && (c.record.Some? <==> x.hasLog)
      && (c.record.Some? ==>
            c.record.value.delta == delta as real && c.record.value.note == IntToString(c.next.exposure))
    ensures Valid(x) ==> Valid(c.next)
    ensures Valid(x) && delta > 0 ==> c.next.exposure >= x.exposure
    ensures Valid(x) && delta < 0 ==> c.next.exposure <= x.exposure
  {
    if delta == 0 then Change(x, false, None)
    else
      var next := Clamp(x.exposure + delta, 0, x.maxExposure);
      if next == x.exposure then Change(x, false, None)
      else SetExposure(x, next, true, actorId, placeId, lawId, detectorId, delta)
  }

  /** Exposure stays in range whatever series of deltas arrives. */
  lemma {:induction false} StaysInRange(x: Exposure, deltas: seq<int>)
    requires Valid(x) && x.maxExposure >= 0
    ensures Valid(AddAll(x, deltas))
    decreases |deltas|
  {
    if |deltas| > 0 {
      StaysInRange(AddExposure(x, deltas[0], "", "", "", "").next, deltas[1..]);
    }
  }

  function AddAll(x: Exposure, deltas: seq<int>): Exposure
    requires x.maxExposure >= 0
    decreases |deltas|
  {
    if |deltas| == 0 then x else AddAll(AddExposure(x, deltas[0], "", "", "", "").next, deltas[1..])
  }
}

=== FILE: fallback_dialogue.dfy ===
/** `FallbackDialogueProvider` (the earlier prototype): the canned reply
    used when no language model is available. */
module FallbackDialogue {
  import opened Text

  const DefaultUtterance := "좋은 하루예요."
  const GreetingReply := "인사는 짧게 해요."

  datatype DialogueResult = DialogueResult(utterance: string, hintTag: string, deltaSuspicion: int)

  /** The player's line contains one of the greeting words, compared
      ordinally. */
  predicate IsGreeting(playerUtterance: string) {
    Contains(playerUtterance, "안녕") || Contains(playerUtterance, "hello") || Contains(playerUtterance, "hi")
  }

  /** `GetResponse`: a greeting gets the greeting reply, anything else
      (including a blank line) the default; there is never a hint and never
      a suspicion change. The confirmed rules are not consulted. */
  function GetResponse<R>(playerUtterance: string, confirmedRules: seq<R>): (r: DialogueResult)
    ensures r.utterance == GreetingReply <==> IsGreeting(playerUtterance)
    ensures r.utterance != GreetingReply ==> r.utterance == DefaultUtterance
    ensures r.hintTag == "" && r.deltaSuspicion == 0
  {
    var utterance :=
      if !IsBlank(playerUtterance) && IsGreeting(playerUtterance) then GreetingReply else DefaultUtterance;
    assert IsGreeting(playerUtterance) ==> !IsBlank(playerUtterance) by {
      if IsGreeting(playerUtterance) {
        var pat := if Contains(playerUtterance, "안녕") then "안녕"
                   else if Contains(playerUtterance, "hello") then "hello" else "hi";
        var i :| 0 <= i <= |playerUtterance| - |pat| && OccursAt(playerUtterance, pat, i);
        assert playerUtterance[i] == pat[0];
      }
    }
    DialogueResult(utterance, "", 0)
  }

  /** The reply depends on the player's line alone. */
  lemma RulesAreIgnored<R>(playerUtterance: string, a: seq<R>, b: seq<R>)
    ensures GetResponse(playerUtterance, a) == GetResponse(playerUtterance, b)
  {
  }

  /** The greeting test is a plain substring test: "this" counts as a
      greeting, while a capitalised "Hi" does not. */
  lemma SubstringGreeting<R>(rules: seq<R>)
    ensures GetResponse("this", rules).utterance == GreetingReply
    ensures GetResponse("Hi", rules).utterance == DefaultUtterance
  {
    assert OccursAt("this", "hi", 1);
    MissingChar("Hi", "hi", 0);
    MissingChar("Hi", "hello", 0);
    MissingChar("Hi", "안녕", 0);
  }
}

=== FILE: first_wins_database.dfy ===
/** The lookup shared by the dream-law, text-surface and cover-test
    databases. The list is authored content in which a slot may be empty
    (`None`, a missing asset). The lookup table is built once, walking the
    list in order: empty slots and empty ids are skipped and an id already
    present, compared ignoring case, keeps its first definition. */
module FirstWinsDatabase {
  import opened Wrappers
  import opened Text

  /** The slot holds a definition whose id equals `key` ignoring case. */
  predicate Matches<T>(slot: Option<T>, idOf: T -> string, key: string) {
    slot.Some? && idOf(slot.value) != "" && EqualsIgnoreCase(idOf(slot.value), key)
  }

  /** The reference reading of "first wins": the earliest matching slot. */
  function FirstMatch<T>(items: seq<Option<T>>, idOf: T -> string, key: string): (r: Option<nat>)
    ensures r.Some? ==> r.value < |items| && Matches(items[r.value], idOf, key)
    ensures r.Some? ==> forall j :: 0 <= j < r.value ==> !Matches(items[j], idOf, key)
    ensures r.None? ==> forall j :: 0 <= j < |items| ==> !Matches(items[j], idOf, key)
  {
    if |items| == 0 then None
    else if Matches(items[0], idOf, key) then Some(0)
    else
      match FirstMatch(items[1..], idOf, key)
      case Some(j) => Some(j + 1)
      case None => None
  }

  /** The table `EnsureLookup` builds from the list, keyed by the folded id. */
  function BuildLookup<T>(items: seq<Option<T>>, idOf: T -> string): map<string, T>
  {
    if |items| == 0 then map[]
    else
      var table := BuildLookup(items[..|items| - 1], idOf);
      var slot := items[|items| - 1];
      if slot.Some? && idOf(slot.value) != "" && ToLower(idOf(slot.value)) !in table
      then table[ToLower(idOf(slot.value)) := slot.value]
      else table
  }

  /** The table holds exactly the first definition listed under each id. */
  lemma {:induction false} LookupIsFirstMatch<T>(items: seq<Option<T>>, idOf: T -> string, key: string)
    ensures ToLower(key) in BuildLookup(items, idOf) <==> FirstMatch(items, idOf, key).Some?
    ensures FirstMatch(items, idOf, key).Some? ==>
      BuildLookup(items, idOf)[ToLower(key)] == items[FirstMatch(items, idOf, key).value].value
    decreases |items|
  {
    if |items| > 0 {
      var n := |items| - 1;
      var prefix := items[..n];
      LookupIsFirstMatch(prefix, idOf, key);
      var before := FirstMatch(prefix, idOf, key);
      assert forall j :: 0 <= j < n ==> items[j] == prefix[j];
      if before.Some? {
        FirstMatchAt(items, idOf, key, before.value);
      } else if Matches(items[n], idOf, key) {
        FirstMatchAt(items, idOf, key, n);
      } else {
        FirstMatchNone(items, idOf, key);
      }
    }
  }

  /** A matching slot with no match before it is the first match. */
  lemma FirstMatchAt<T>(items: seq<Option<T>>, idOf: T -> string, key: string, i: nat)
    requires i < |items| && Matches(items[i], idOf, key)
    requires forall j :: 0 <= j < i ==> !Matches(items[j], idOf, key)
    ensures FirstMatch(items, idOf, key) == Some(i)
  {
    var r := FirstMatch(items, idOf, key);
    assert r.Some? && r.value <= i;
  }

  /** A list without a matching slot has no first match. */
  lemma FirstMatchNone<T>(items: seq<Option<T>>, idOf: T -> string, key: string)
    requires forall j :: 0 <= j < |items| ==> !Matches(items[j], idOf, key)
    ensures FirstMatch(items, idOf, key) == None
  {
  }

  /** `TryGet`: an empty id finds nothing; otherwise the table decides. */
  function TryGet<T>(items: seq<Option<T>>, idOf: T -> string, key: string): (r: Option<T>)
    ensures key == "" ==> r.None?
    ensures r.Some? ==>
      exists j :: 0 <= j < |items| && items[j] == Some(r.value) && Matches(items[j], idOf, key)
        && forall i :: 0 <= i < j ==> !Matches(items[i], idOf, key)
    ensures r.None? && key != "" ==>
      forall j :: 0 <= j < |items| ==> !Matches(items[j], idOf, key)
  {
    if key == "" then None
    else
      var table := BuildLookup(items, idOf);
      LookupIsFirstMatch(items, idOf, key);
      if ToLower(key) in table then Some(table[ToLower(key)]) else None
  }

  /** Two ids that differ only in case find the same definition. */
  lemma IgnoresCase<T>(items: seq<Option<T>>, idOf: T -> string, a: string, b: string)
    requires EqualsIgnoreCase(a, b)
    ensures TryGet(items, idOf, a) == TryGet(items, idOf, b)
  {
    assert |a| == |ToLower(a)| == |ToLower(b)| == |b|;
  }
}

=== FILE: global_suspicion.dfy ===
/** `GlobalSuspicionSystem`: the global suspicion G, the average of the
    registered NPCs' normalized suspicion. Components are identified by a
    handle (object identity in the engine); their current normalized levels
    are a parameter, read when G is recomputed. */
module GlobalSuspicion {
  import opened Wrappers
  import opened Numeric
  import opened Seqs

  type Handle = nat

  datatype System = System(tracked: seq<Handle>, globalSuspicion: real)

  /** A system update and the value broadcast to `OnGlobalSuspicionChanged`,
      if any. */
  datatype Change = Change(next: System, notified: Option<real>)

  function NewSystem(): (s: System)
    ensures s.tracked == [] && s.globalSuspicion == 0.0
  {
    System([], 0.0)
  }

  /** The sum of the tracked components' levels. */
  function Sum(hs: seq<Handle>, level: Handle -> real): real
    decreases |hs|
  {
    if |hs| == 0 then 0.0 else Sum(hs[..|hs| - 1], level) + level(hs[|hs| - 1])
  }

  /** A sum of levels in [0, 1] lies between 0 and the count. */
  lemma {:induction false} SumBounds(hs: seq<Handle>, level: Handle -> real)
    requires forall h :: h in hs ==> 0.0 <= level(h) <= 1.0
    ensures 0.0 <= Sum(hs, level) <= |hs| as real
    decreases |hs|
  {
    if |hs| > 0 {
      assert forall h :: h in hs[..|hs| - 1] ==> h in hs;
      SumBounds(hs[..|hs| - 1], level);
    }
  }

  /** `SetGlobalSuspicion`: store and broadcast only a different value. */
  function SetGlobalSuspicion(s: System, value: real): (c: Change)
    ensures c.next.globalSuspicion == value && c.next.tracked == s.tracked
    ensures c.notified.Some? <==> value != s.globalSuspicion
    ensures c.notified.Some? ==> c.notified.value == value
  {
    if s.globalSuspicion == value then Change(s, None)
    else Change(s.(globalSuspicion := value), Some(value))
  }

  /** The value `Recalculate` assigns: 0 with no components, otherwise the
      average level clamped to [0, 1]. */
  function Average(hs: seq<Handle>, level: Handle -> real): (g: real)
    ensures 0.0 <= g <= 1.0
    ensures |hs| == 0 ==> g == 0.0
  {
    if |hs| == 0 then 0.0 else Clamp01(Sum(hs, level) / |hs| as real)
  }

  /** With every level in [0, 1] the clamp never bites: G is the plain
      average. */
  lemma AverageUnclamped(hs: seq<Handle>, level: Handle -> real)
    requires |hs| > 0
    requires forall h :: h in hs ==> 0.0 <= level(h) <= 1.0
    ensures Average(hs, level) * |hs| as real == Sum(hs, level)
  {
    SumBounds(hs, level);
  }

  /** When every NPC sits at the same level, that level is G. */
  lemma {:induction false} UniformAverage(hs: seq<Handle>, level: Handle -> real, v: real)
    requires |hs| > 0 && 0.0 <= v <= 1.0
    requires forall h :: h in hs ==> level(h) == v
    ensures Average(hs, level) == v
  {
    SumUniform(hs, level, v);
  }

  lemma {:induction false} SumUniform(hs: seq<Handle>, level: Handle -> real, v: real)
    requires forall h :: h in hs ==> level(h) == v
    ensures Sum(hs, level) == |hs| as real * v
    decreases |hs|
  {
    if |hs| > 0 {
      assert forall h :: h in hs[..|hs| - 1] ==> h in hs;
      SumUniform(hs[..|hs| - 1], level, v);
    }
  }

  function Recalculate(s: System, level: Handle -> real): (c: Change)
    ensures c.next.tracked == s.tracked
    ensures c.next.globalSuspicion == Average(s.tracked, level)
    ensures 0.0 <= c.next.globalSuspicion <= 1.0
    ensures c.notified.Some? <==> Average(s.tracked, level) != s.globalSuspicion
  {
    SetGlobalSuspicion(s, Average(s.tracked, level))
  }

  /** `Register`: track a new component and recompute; a component already
      tracked changes nothing. */
  function Register(s: System, h: Handle, level: Handle -> real): (c: Change)
    ensures h in s.tracked ==> c == Change(s, None)
    ensures h !in s.tracked ==>
      c.next.tracked == s.tracked + [h]
      && c.next.globalSuspicion == Average(s.tracked + [h], level)
    ensures NoDuplicates(s.tracked) ==> NoDuplicates(c.next.tracked)
    ensures h in c.next.tracked
  {
    if h in s.tracked then Change(s, None)
    else Recalculate(s.(tracked := s.tracked + [h]), level)
  }

  /** `Unregister`: drop a tracked component and recompute; an unknown
      component changes nothing. */
  function Unregister(s: System, h: Handle, level: Handle -> real): (c: Change)
    ensures h !in s.tracked ==> c == Change(s, None)
    ensures h in s.tracked ==>
      c.next.tracked == RemoveFirst(s.tracked, h)
      && |c.next.tracked| == |s.tracked| - 1
      && c.next.globalSuspicion == Average(c.next.tracked, level)
  {
    if h !in s.tracked then Change(s, None)
    else Recalculate(s.(tracked := RemoveFirst(s.tracked, h)), level)
  }

  /** Registered components are never tracked twice, and unregistering
      removes a component entirely. */
  lemma UnregisterForgets(s: System, h: Handle, level: Handle -> real)
    requires NoDuplicates(s.tracked)
    ensures h !in Unregister(s, h, level).next.tracked
    ensures NoDuplicates(Unregister(s, h, level).next.tracked)
  {
    RemoveFirstDistinct(s.tracked, h);
  }

  /** Registering a new component and unregistering it again restores the
      tracked list and G (for unchanged levels). */
  lemma RegisterUnregister(s: System, h: Handle, level: Handle -> real)
    requires h !in s.tracked
    requires s.globalSuspicion == Average(s.tracked, level)
    ensures Unregister(Register(s, h, level).next, h, level).next == s
  {
    RemoveAppended(s.tracked, h);
  }
}

=== FILE: gossip_system.dfy ===
/** `GossipSystem`: violations become delayed rumors, evidence can confirm a
    recent rumor, and a verdict confirms or debunks one. `Time.time` is the
    `now` parameter; finding the nearest non-police speaker and a listener in
    talking distance is engine geometry, so its outcome is a parameter. The
    records the system would log are returned in order. */
module GossipSystem {
  import opened Wrappers
  import opened Numeric
  import opened Text
  import opened Events
  import I = Identifiers
  import SemanticShaper

  const ConfirmWindowSeconds := 180.0
  const DefaultRumorText := "규칙 위반 소문"
  const RebuttalNote := "소문 반박"

  datatype RoleTrust = RoleTrust(roleId: I.RoleId, weight: real)

  const DefaultRoleTrust: seq<RoleTrust> := [
    RoleTrust(I.Police, 1.1), RoleTrust(I.Clerk, 0.95), RoleTrust(I.Elder, 0.9),
    RoleTrust(I.Barista, 0.85), RoleTrust(I.Citizen, 0.75), RoleTrust(I.Tourist, 0.6)]

  datatype Pending = Pending(fireTime: real, record: EventRecord)

  datatype System = System(
    gossipDelaySeconds: real := 2.0,
    gossipCooldownSeconds: real := 8.0,
    hasLog: bool := true,
    hasShaper: bool := true,
    trustLookup: map<I.RoleId, real> := map[],
    pending: seq<Pending> := [],
    lastGossipTime: real := -999.0,
    rumorTopics: map<string, real> := map[])

  /** The speaker the engine found for a rumor: the nearest NPC that is not
      police, and whether someone else stands in talking distance. */
  datatype Speaker = Speaker(npcId: string, role: string, roleId: I.RoleId, listenerNearby: bool)

  /** `BuildTopicKey`: the place alone, or "place:topic". */
  function TopicKey(topic: string, placeId: string): (key: string)
    ensures topic == "" ==> key == placeId
    ensures topic != "" ==> key == placeId + ":" + topic
  {
    if topic == "" then placeId else placeId + ":" + topic
  }

  /** `BuildTrustLookup`: `None` entries skipped, weights floored at 0.1, a
      later entry for the same role overriding an earlier one. */
  function BuildTrustLookup(entries: seq<RoleTrust>): (m: map<I.RoleId, real>)
    ensures I.RoleId.None !in m
    ensures forall r :: r in m ==> m[r] >= 0.1
    ensures forall r :: r in m <==> r != I.RoleId.None && exists i :: 0 <= i < |entries| && entries[i].roleId == r
    decreases |entries|
  {
    if |entries| == 0 then map[]
    else
      var m := BuildTrustLookup(entries[..|entries| - 1]);
      var e := entries[|entries| - 1];
      assert forall i :: 0 <= i < |entries| - 1 ==> entries[..|entries| - 1][i] == entries[i];
      if e.roleId == I.RoleId.None then m else m[e.roleId := MaxR(0.1, e.weight)]
  }

  /** The last entry for a role decides its weight. */
  lemma LastTrustWins(entries: seq<RoleTrust>)
    requires |entries| > 0 && entries[|entries| - 1].roleId != I.RoleId.None
    ensures BuildTrustLookup(entries)[entries[|entries| - 1].roleId] == MaxR(0.1, entries[|entries| - 1].weight)
  {
  }

  function Awake(g: System, entries: seq<RoleTrust>): (g': System)
    ensures g'.trustLookup == BuildTrustLookup(entries) && g' == g.(trustLookup := g'.trustLookup)
  {
    g.(trustLookup := BuildTrustLookup(entries))
  }

  /** `GetTrustWeight`: 1 for `None` and for roles without an entry. */
  function TrustWeight(g: System, r: I.RoleId): (w: real)
    ensures r == I.RoleId.None || r !in g.trustLookup ==> w == 1.0
    ensures r != I.RoleId.None && r in g.trustLookup ==> w == g.trustLookup[r]
  {
    if r == I.RoleId.None then 1.0
    else if r in g.trustLookup then g.trustLookup[r]
    else 1.0
  }

  /** Every weight is at least 0.1 once the lookup is built. */
  lemma TrustFloor(g: System, entries: seq<RoleTrust>, r: I.RoleId)
    ensures TrustWeight(Awake(g, entries), r) >= 0.1
  {
  }

  /** The result of one call: the new state and the records to log. */
  datatype Step = Step(next: System, records: seq<EventRecord>)

  /** `EmitRumor`: a `RumorShared` record spoken by the speaker, when there
      is a speaker, a listener and a log; the rumor's topic key is stamped. */
  function EmitRumor(g: System, source: EventRecord, speaker: Option<Speaker>, now: real): (s: Step)
    ensures speaker.None? || !g.hasLog || !speaker.value.listenerNearby ==> s == Step(g, [])
    ensures speaker.Some? && g.hasLog && speaker.value.listenerNearby ==>
      |s.records| == 1 && s.records[0].eventType == RumorShared && s.records[0].category == Gossip
      && s.records[0].actorId == speaker.value.npcId && s.records[0].sourceId == source.actorId
      && s.records[0].topic == source.topic && s.records[0].placeId == source.placeId
      && s.records[0].severity == 1 && 0.0 <= s.records[0].trust <= 1.0 && s.records[0].note != ""
      && s.next == g.(lastGossipTime := now, rumorTopics := g.rumorTopics[TopicKey(source.topic, source.placeId) := now])
  {
    if speaker.None? || !g.hasLog || !speaker.value.listenerNearby then Step(g, [])
    else
      var sp := speaker.value;
      var text := if g.hasShaper then SemanticShaper.ToText(source) else TypeName(source.eventType);
      var record := EventRecord(
        actorId := sp.npcId, actorRole := sp.role, eventType := RumorShared, category := Gossip,
        note := if text == "" then DefaultRumorText else text,
        topic := source.topic, placeId := source.placeId, zoneId := source.zoneId,
        severity := 1, trust := Clamp01(0.45 * TrustWeight(g, sp.roleId)), sourceId := source.actorId);
      Step(g.(lastGossipTime := now, rumorTopics := g.rumorTopics[TopicKey(source.topic, source.placeId) := now]), [record])
  }

  /** `Update`: release the oldest pending rumor once the cooldown has passed
      and it is due; at most one per call. */
  function Update(g: System, now: real, speaker: Option<Speaker>): (s: Step)
    ensures |g.pending| == 0 || now - g.lastGossipTime < g.gossipCooldownSeconds || g.pending[0].fireTime > now ==>
      s == Step(g, [])
    ensures |g.pending| > 0 && now - g.lastGossipTime >= g.gossipCooldownSeconds && g.pending[0].fireTime <= now ==>
      s.next.pending == g.pending[1..] && |s.records| <= 1
      && s == EmitRumor(g.(pending := g.pending[1..]), g.pending[0].record, speaker, now)
  {
    if |g.pending| == 0 || now - g.lastGossipTime < g.gossipCooldownSeconds || g.pending[0].fireTime > now then
      Step(g, [])
    else
      EmitRumor(g.(pending := g.pending[1..]), g.pending[0].record, speaker, now)
  }

  /** `TryConfirmRumor`: evidence on a topic rumored at most 180 seconds ago
      confirms the rumor; a stale rumor is forgotten; either way the key is
      consumed. */
  function TryConfirmRumor(g: System, evidence: EventRecord, now: real): (s: Step)
    ensures var key := TopicKey(evidence.topic, evidence.placeId);
      (!g.hasLog || key !in g.rumorTopics ==> s == Step(g, []))
      && (g.hasLog && key in g.rumorTopics ==>
            s.next == g.(rumorTopics := g.rumorTopics - {key})
            && (|s.records| == 1 <==> now - g.rumorTopics[key] <= ConfirmWindowSeconds)
            && |s.records| <= 1)
    ensures |s.records| == 1 ==>
      s.records[0].eventType == RumorConfirmed && s.records[0].severity == 2
      && s.records[0].actorId == evidence.actorId && s.records[0].note == evidence.note
      && 0.0 <= s.records[0].trust <= 1.0
  {
    var key := TopicKey(evidence.topic, evidence.placeId);
    if !g.hasLog || key !in g.rumorTopics then Step(g, [])
    else if now - g.rumorTopics[key] > ConfirmWindowSeconds then Step(g.(rumorTopics := g.rumorTopics - {key}), [])
    else
      var record := EventRecord(
        actorId := evidence.actorId, actorRole := evidence.actorRole, eventType := RumorConfirmed,
        category := Gossip, note := evidence.note, topic := evidence.topic, placeId := evidence.placeId,
        zoneId := evidence.zoneId, severity := 2,
        trust := Clamp01(0.9 * TrustWeight(g, I.ParseRoleId(evidence.actorRole))), sourceId := evidence.actorId);
      Step(g.(rumorTopics := g.rumorTopics - {key}), [record])
  }

  /** How a verdict note bears on a rumor. */
  datatype Outcome = Confirmed | Debunked | Undecided

  /** A note naming expulsion or strengthened suspicion confirms (this takes
      precedence); one naming no charge debunks. */
  function VerdictOutcome(note: string): (o: Outcome)
    ensures o == Confirmed <==> Contains(note, "퇴출") || Contains(note, "의심 강화")
    ensures o == Debunked <==> !Contains(note, "퇴출") && !Contains(note, "의심 강화") && Contains(note, "무혐의")
  {
    if Contains(note, "퇴출") || Contains(note, "의심 강화") then Confirmed
    else if Contains(note, "무혐의") then Debunked
    else Undecided
  }

  /** `ApplyVerdict`: for a rumored topic, a confirming verdict logs
      `RumorConfirmed`; a debunking one logs `RumorDebunked` and then
      `RebuttalGiven`; the key is consumed. An undecided verdict changes
      nothing. */
  function ApplyVerdict(g: System, verdict: EventRecord): (s: Step)
    ensures var key := TopicKey(verdict.topic, verdict.placeId);
      (!g.hasLog || key !in g.rumorTopics || VerdictOutcome(verdict.note) == Undecided ==> s == Step(g, []))
      && (g.hasLog && key in g.rumorTopics && VerdictOutcome(verdict.note) != Undecided ==>
            s.next == g.(rumorTopics := g.rumorTopics - {key}))
    ensures |s.records| > 0 ==> s.records[0].note == verdict.note && s.records[0].category == Gossip
    ensures |s.records| > 0 && VerdictOutcome(verdict.note) == Confirmed ==>
      |s.records| == 1 && s.records[0].eventType == RumorConfirmed && s.records[0].severity == 2
    ensures |s.records| > 0 && VerdictOutcome(verdict.note) == Debunked ==>
      |s.records| == 2 && s.records[0].eventType == RumorDebunked && s.records[0].severity == 1
      && s.records[1].eventType == RebuttalGiven && s.records[1].note == RebuttalNote
  {
    var key := TopicKey(verdict.topic, verdict.placeId);
    var outcome := VerdictOutcome(verdict.note);
    if !g.hasLog || key !in g.rumorTopics || outcome == Undecided then Step(g, [])
    else
      var weight := TrustWeight(g, I.ParseRoleId(verdict.actorRole));
      var confirmed := outcome == Confirmed;
      var first := EventRecord(
        actorId := verdict.actorId, actorRole := verdict.actorRole,
        eventType := if confirmed then RumorConfirmed else RumorDebunked, category := Gossip,
        note := verdict.note, topic := verdict.topic, placeId := verdict.placeId, zoneId := verdict.zoneId,
        severity := if confirmed then 2 else 1,
        trust := if confirmed then Clamp01(0.95 * weight) else Clamp01(0.1 * weight),
        sourceId := verdict.actorId);
      var rebuttal := EventRecord(
        actorId := verdict.actorId, actorRole := verdict.actorRole, eventType := RebuttalGiven,
        category := Verdict, note := RebuttalNote, topic := verdict.topic, placeId := verdict.placeId,
        zoneId := verdict.zoneId, severity := 1, sourceId := verdict.actorId);
      Step(g.(rumorTopics := g.rumorTopics - {key}), if confirmed then [first] else [first, rebuttal])
  }

  /** `HandleEvent`: violations are queued, evidence may confirm, verdicts
      may confirm or debunk; other records are ignored. */
  function HandleEvent(g: System, record: EventRecord, now: real): (s: Step)
    ensures record.eventType == ViolationDetected ==>
      s == Step(g.(pending := g.pending + [Pending(now + g.gossipDelaySeconds, record)]), [])
    ensures record.eventType in {EvidenceCaptured, CctvCaptured, TicketIssued} ==> s == TryConfirmRumor(g, record, now)
    ensures record.eventType == VerdictGiven ==> s == ApplyVerdict(g, record)
    ensures record.eventType !in {ViolationDetected, EvidenceCaptured, CctvCaptured, TicketIssued, VerdictGiven} ==>
      s == Step(g, [])
  {
    if record.eventType == ViolationDetected then
      Step(g.(pending := g.pending + [Pending(now + g.gossipDelaySeconds, record)]), [])
    else if record.eventType in {EvidenceCaptured, CctvCaptured, TicketIssued} then TryConfirmRumor(g, record, now)
    else if record.eventType == VerdictGiven then ApplyVerdict(g, record)
    else Step(g, [])
  }

  /** Queued violations come out first-in, first-out: two violations queued
      back to back are released in the order they were reported. */
  lemma FifoRelease(g: System, a: EventRecord, b: EventRecord, t1: real, t2: real)
    requires a.eventType == ViolationDetected && b.eventType == ViolationDetected && g.pending == []
    ensures HandleEvent(HandleEvent(g, a, t1).next, b, t2).next.pending
      == [Pending(t1 + g.gossipDelaySeconds, a), Pending(t2 + g.gossipDelaySeconds, b)]
  {
  }

  /** A rumor released at `now` can be confirmed by evidence on the same
      topic and place arriving within 180 seconds. */
  lemma RumorThenEvidence(g: System, source: EventRecord, sp: Speaker, now: real, evidence: EventRecord, later: real)
    requires g.hasLog && sp.listenerNearby
    requires evidence.topic == source.topic && evidence.placeId == source.placeId
    requires later - now <= ConfirmWindowSeconds
    ensures |TryConfirmRumor(EmitRumor(g, source, Some(sp), now).next, evidence, later).records| == 1
  {
  }
}

=== FILE: hypothesis_tracker.dfy ===
/** `HypothesisTracker` (the earlier prototype): clues about a rule are
    counted until enough of them confirm it. */
module HypothesisTracker {
  import opened Numeric

  datatype Tracker = Tracker(confirmationsRequired: int := 3, counts: map<string, nat> := map[],
                             confirmed: set<string> := {})

  /** A counted rule is confirmed exactly when its count has reached the
      requirement, and only counted rules are confirmed. */
  predicate Valid(t: Tracker) {
    t.confirmed <= t.counts.Keys
    && forall r :: r in t.counts ==> (r in t.confirmed <==> t.counts[r] >= t.confirmationsRequired)
  }

  /** `LogClue`: an empty or already confirmed rule id is ignored; any
      other rule's count goes up by one, and it is confirmed once the count
      reaches the requirement. */
  function LogClue(t: Tracker, ruleId: string): (t': Tracker)
    ensures ruleId == "" || ruleId in t.confirmed ==> t' == t
    ensures ruleId != "" && ruleId !in t.confirmed ==>
      t'.counts == t.counts[ruleId := (if ruleId in t.counts then t.counts[ruleId] else 0) + 1]
      && (t'.confirmed == t.confirmed + {ruleId} <==> t'.counts[ruleId] >= t.confirmationsRequired)
      && (t'.counts[ruleId] < t.confirmationsRequired ==> t'.confirmed == t.confirmed)
    ensures t.confirmed <= t'.confirmed && t'.confirmationsRequired == t.confirmationsRequired
    ensures forall r :: r in t.confirmed && r in t.counts ==> r in t'.counts && t'.counts[r] == t.counts[r]
    ensures Valid(t) ==> Valid(t')
  {
    if ruleId == "" || ruleId in t.confirmed then t
    else
      var current := (if ruleId in t.counts then t.counts[ruleId] else 0) + 1;
      var counts := t.counts[ruleId := current];
      if current >= t.confirmationsRequired then t.(counts := counts, confirmed := t.confirmed + {ruleId})
      else t.(counts := counts)
  }

  /** The same clue logged `k` times. */
  function LogTimes(t: Tracker, ruleId: string, k: nat): Tracker {
    if k == 0 then t else LogClue(LogTimes(t, ruleId, k - 1), ruleId)
  }

  /** From a fresh tracker, `k` clues about one rule leave its count at `k`
      until the rule is confirmed and frozen there; the rule is confirmed
      exactly once `k` reaches the requirement (at least one clue is always
      needed). */
  lemma {:induction false} CountsFreezeAtConfirmation(required: int, ruleId: string, k: nat)
    requires ruleId != ""
    ensures var t := LogTimes(Tracker(required, map[], {}), ruleId, k);
      Valid(t) && t.confirmationsRequired == required
      && (k > 0 ==> ruleId in t.counts && t.counts[ruleId] == Min(k, Max(required, 1)))
      && (ruleId in t.confirmed <==> k >= Max(required, 1))
  {
    if k > 0 {
      CountsFreezeAtConfirmation(required, ruleId, k - 1);
      var before := LogTimes(Tracker(required, map[], {}), ruleId, k - 1);
      if ruleId !in before.confirmed {
        assert k - 1 < Max(required, 1);
        assert k - 1 > 0 ==> before.counts[ruleId] == k - 1;
        assert k - 1 == 0 ==> ruleId !in before.counts;
        var t := LogTimes(Tracker(required, map[], {}), ruleId, k);
        assert t == LogClue(before, ruleId);
        assert t.counts[ruleId] == k;
        if k >= required {
          assert ruleId in t.confirmed;
        } else {
          assert t.confirmed == before.confirmed;
        }
      }
    }
  }
}

=== FILE: identifiers.dfy ===
/** `IdentifierUtility`: the organization, role and anchor enums and their
    parsing from scene and data strings. */
module Identifiers {
  import W = Wrappers
  import opened Text
  import opened EnumNames

  datatype OrganizationId = None | Studio | Station | Store | Park | Cafe | Delivery | Facility | Media

  datatype RoleId =
    | None | Citizen | Tourist | Resident | Student | PM | Developer | QA | Release | Police | Officer
    | Investigator | Clerk | Manager | Elder | Caretaker | Barista | CafeHost | Courier | FacilityTech | Reporter

  datatype AnchorId = None | StoreBuilding | StudioBuildingL1 | ParkArea | Station | Cafe

  /** `OrganizationId.ToString()`. */
  function OrganizationName(o: OrganizationId): string {
    match o
    case None => "None"
    case Studio => "Studio"
    case Station => "Station"
    case Store => "Store"
    case Park => "Park"
    case Cafe => "Cafe"
    case Delivery => "Delivery"
    case Facility => "Facility"
    case Media => "Media"
  }

  const AllOrganizations: seq<OrganizationId> := [
    OrganizationId.None, Studio, OrganizationId.Station, Store, Park, OrganizationId.Cafe, Delivery, Facility, Media]

  /** `RoleId.ToString()`. */
  function RoleName(r: RoleId): string {
    match r
    case None => "None"
    case Citizen => "Citizen"
    case Tourist => "Tourist"
    case Resident => "Resident"
    case Student => "Student"
    case PM => "PM"
    case Developer => "Developer"
    case QA => "QA"
    case Release => "Release"
    case Police => "Police"
    case Officer => "Officer"
    case Investigator => "Investigator"
    case Clerk => "Clerk"
    case Manager => "Manager"
    case Elder => "Elder"
    case Caretaker => "Caretaker"
    case Barista => "Barista"
    case CafeHost => "CafeHost"
    case Courier => "Courier"
    case FacilityTech => "FacilityTech"
    case Reporter => "Reporter"
  }

  const AllRoles: seq<RoleId> := [
    RoleId.None, Citizen, Tourist, Resident, Student, PM, Developer, QA, Release, Police, Officer,
    Investigator, Clerk, Manager, Elder, Caretaker, Barista, CafeHost, Courier, FacilityTech, Reporter]

  /** `AnchorId.ToString()`. */
  function AnchorEnumName(a: AnchorId): string {
    match a
    case None => "None"
    case StoreBuilding => "StoreBuilding"
    case StudioBuildingL1 => "StudioBuildingL1"
    case ParkArea => "ParkArea"
    case Station => "Station"
    case Cafe => "Cafe"
  }

  const AllAnchors: seq<AnchorId> := [
    AnchorId.None, StoreBuilding, StudioBuildingL1, ParkArea, AnchorId.Station, AnchorId.Cafe]

  /** `ParseOrganizationId`: blank is `None`; otherwise the trimmed text
      names a member, ignoring case, or the result is `None`. */
  function ParseOrganizationId(value: string): (o: OrganizationId)
    ensures IsBlank(value) ==> o == OrganizationId.None
    ensures o != OrganizationId.None ==> EqualsIgnoreCase(OrganizationName(o), Trim(value))
  {
    if IsBlank(value) then OrganizationId.None
    else
      var found := FindName(AllOrganizations, OrganizationName, Trim(value));
      FindNameSound(AllOrganizations, OrganizationName, Trim(value));
      if found.Some? then found.value else OrganizationId.None
  }

  /** Every organization's name, in any case, parses back to it. */
  lemma ParseOrganizationComplete(value: string, o: OrganizationId)
    requires !IsBlank(value) && EqualsIgnoreCase(OrganizationName(o), Trim(value))
    ensures ParseOrganizationId(value) != OrganizationId.None || o == OrganizationId.None
  {
    assert o in AllOrganizations by { match o case _ => }
    FindNameComplete(AllOrganizations, OrganizationName, Trim(value), o);
    FindNameSound(AllOrganizations, OrganizationName, Trim(value));
    var found := FindName(AllOrganizations, OrganizationName, Trim(value)).value;
    if found == OrganizationId.None {
      assert ToLower(OrganizationName(o)) == ToLower(Trim(value)) == ToLower("None");
      match o case _ => {}
    }
  }

  /** The Korean role aliases checked before the enum names. */
  function KoreanAlias(trimmed: string): (r: W.Option<RoleId>)
    ensures r.Some? ==> r.value in {Police, Officer, Investigator, Tourist, Resident, Student, Citizen}
  {
    if EqualsIgnoreCase(trimmed, "경찰") then W.Some(Police)
    else if EqualsIgnoreCase(trimmed, "순경") then W.Some(Officer)
    else if EqualsIgnoreCase(trimmed, "조사관") then W.Some(Investigator)
    else if EqualsIgnoreCase(trimmed, "관광객") then W.Some(Tourist)
    else if EqualsIgnoreCase(trimmed, "주민") then W.Some(Resident)
    else if EqualsIgnoreCase(trimmed, "학생") then W.Some(Student)
    else if EqualsIgnoreCase(trimmed, "시민") then W.Some(Citizen)
    else W.None
  }

  /** `ParseRoleId`: blank is `None`; then the Korean aliases; then the
      trimmed text names a member, ignoring case, or the result is `None`. */
  function ParseRoleId(value: string): (r: RoleId)
    ensures IsBlank(value) ==> r == RoleId.None
    ensures !IsBlank(value) && KoreanAlias(Trim(value)).Some? ==> r == KoreanAlias(Trim(value)).value
    ensures !IsBlank(value) && KoreanAlias(Trim(value)).None? && r != RoleId.None ==>
      EqualsIgnoreCase(RoleName(r), Trim(value))
  {
    if IsBlank(value) then RoleId.None
    else
      var trimmed := Trim(value);
      var alias := KoreanAlias(trimmed);
      if alias.Some? then alias.value
      else
        var found := FindName(AllRoles, RoleName, trimmed);
        FindNameSound(AllRoles, RoleName, trimmed);
        if found.Some? then found.value else RoleId.None
  }

  /** A text naming a role (ignoring case and surrounding white space)
      parses to a role. */
  lemma ParseRoleComplete(value: string, r: RoleId)
    requires !IsBlank(value) && r != RoleId.None && EqualsIgnoreCase(RoleName(r), Trim(value))
    ensures ParseRoleId(value) != RoleId.None
  {
    var trimmed := Trim(value);
    if KoreanAlias(trimmed).None? {
      assert r in AllRoles by { match r case _ => }
      FindNameComplete(AllRoles, RoleName, trimmed, r);
      FindNameSound(AllRoles, RoleName, trimmed);
      var found := FindName(AllRoles, RoleName, trimmed).value;
      if found == RoleId.None {
        assert EqualsIgnoreCase(RoleName(r), "None");
        OnlyNoneIsNamedNone(r);
      }
    }
  }

  /** No role but `None` is named "None", in any case: every other name
      has a different length. */
  lemma OnlyNoneIsNamedNone(r: RoleId)
    ensures EqualsIgnoreCase(RoleName(r), "None") ==> r == RoleId.None
  {
    var name := RoleName(r);
    assert |ToLower(name)| == |name| && |ToLower("None")| == 4;
    assert r != RoleId.None ==> |name| != 4;
  }

  /** An alias written without surrounding white space parses to its role. */
  lemma AliasParses(s: string, r: RoleId)
    requires |s| > 0 && !IsWhiteSpace(s[0]) && !IsWhiteSpace(s[|s| - 1])
    requires KoreanAlias(s) == W.Some(r)
    ensures ParseRoleId(s) == r
  {
    TrimIdentity(s);
  }

  /** The Korean aliases as the game's data uses them. */
  lemma KoreanAliases()
    ensures ParseRoleId("경찰") == Police && ParseRoleId("순경") == Officer
    ensures ParseRoleId("조사관") == Investigator && ParseRoleId("시민") == Citizen
  {
    PoliceAlias();
    OfficerAlias();
    InvestigatorAlias();
    CitizenAlias();
  }

  lemma PoliceAlias()
    ensures ParseRoleId("경찰") == Police
  {
    AliasParses("경찰", Police);
  }

  lemma OfficerAlias()
    ensures ParseRoleId("순경") == Officer
  {
    DiffersAt("순경", "경찰", 0);
    AliasParses("순경", Officer);
  }

  lemma InvestigatorAlias()
    ensures ParseRoleId("조사관") == Investigator
  {
    DiffersAt("조사관", "경찰", 0);
    DiffersAt("조사관", "순경", 0);
    AliasParses("조사관", Investigator);
  }

  lemma CitizenAlias()
    ensures ParseRoleId("시민") == Citizen
  {
    DiffersAt("시민", "경찰", 0);
    DiffersAt("시민", "순경", 0);
    DiffersAt("시민", "조사관", 0);
    DiffersAt("시민", "관광객", 0);
    DiffersAt("시민", "주민", 0);
    DiffersAt("시민", "학생", 0);
    AliasParses("시민", Citizen);
  }

  /** `ToAnchorName`: the scene object name of an anchor; `None` has none. */
  function ToAnchorName(a: AnchorId): (name: string)
    ensures a == AnchorId.None <==> name == ""
  {
    match a
    case StoreBuilding => "StoreBuilding"
    case StudioBuildingL1 => "StudioBuilding_L1"
    case ParkArea => "ParkArea"
    case Station => "Station"
    case Cafe => "Cafe"
    case None => ""
  }

  /** `ParseAnchorId`: blank is `None`; "StudioBuilding_L1" is the studio's
      ground floor; otherwise the trimmed text names a member, ignoring
      case, or the result is `None`. */
  function ParseAnchorId(value: string): (a: AnchorId)
    ensures IsBlank(value) ==> a == AnchorId.None
    ensures !IsBlank(value) && EqualsIgnoreCase(Trim(value), "StudioBuilding_L1") ==> a == StudioBuildingL1
  {
    if IsBlank(value) then AnchorId.None
    else
      var trimmed := Trim(value);
      if EqualsIgnoreCase(trimmed, "StudioBuilding_L1") then StudioBuildingL1
      else
        var found := FindName(AllAnchors, AnchorEnumName, trimmed);
        if found.Some? then found.value else AnchorId.None
  }

  /** Scene names round-trip: every anchor but `None` parses back from its
      name. */
  lemma AnchorRoundTrip(a: AnchorId)
    requires a != AnchorId.None
    ensures ParseAnchorId(ToAnchorName(a)) == a
  {
    match a
    case StudioBuildingL1 => NamedAnchor("StudioBuilding_L1", a, 0);
    case StoreBuilding => StoreBuildingParses();
    case ParkArea => NamedAnchor("ParkArea", a, 3);
    case Station => NamedAnchor("Station", a, 4);
    case Cafe => CafeParses();
  }

  lemma StoreBuildingParses()
    ensures ParseAnchorId("StoreBuilding") == StoreBuilding
  {
    DiffersAt("StoreBuilding", "StudioBuilding_L1", 2);
    NamedAnchor("StoreBuilding", StoreBuilding, 1);
  }

  lemma CafeParses()
    ensures ParseAnchorId("Cafe") == AnchorId.Cafe
  {
    DiffersAt("Cafe", "None", 0);
    NamedAnchor("Cafe", AnchorId.Cafe, 5);
  }

  /** An anchor's scene name, found at position `i` of the member list
      after every earlier member's name failed to match. */
  lemma NamedAnchor(name: string, a: AnchorId, i: nat)
    requires |name| > 0 && !IsWhiteSpace(name[0]) && !IsWhiteSpace(name[|name| - 1])
    requires i < |AllAnchors| && (i == 0 <==> a == StudioBuildingL1)
    requires i == 0 ==> name == "StudioBuilding_L1"
    requires i > 0 ==> !EqualsIgnoreCase(name, "StudioBuilding_L1")
    requires i > 0 ==> AllAnchors[i] == a && EqualsIgnoreCase(AnchorEnumName(a), name)
    requires forall j :: 0 <= j < i ==> !EqualsIgnoreCase(AnchorEnumName(AllAnchors[j]), name)
    ensures ParseAnchorId(name) == a
  {
    TrimIdentity(name);
    if i > 0 {
      SkipToName(AllAnchors, AnchorEnumName, name, i);
    }
  }
}

=== FILE: incident_hint_provider.dfy ===
/** `IncidentHintProvider`: the one-line incident hint shown next to an
    anchor. Incidents are filed under the organisation their id or their
    required interactables point to, the first one per organisation winning.
    The loaded incident list is a parameter (a missing asset is `None`, a
    null id is ""); loading it from resources once is not modelled. */
module IncidentHintProvider {
  import opened Wrappers
  import opened Text

  datatype Incident = Incident(incidentId: string, description: string, requiredInteractables: seq<string>)

  /** The organisation a name points to, testing Store, Studio, Park, then
      Station or Police, in that order ("" when none). */
  function OrgOfName(name: string): (key: string)
    ensures key == "Store" <==> Contains(name, "Store")
    ensures key == "Studio" <==> !Contains(name, "Store") && Contains(name, "Studio")
    ensures key == "Park" <==> !Contains(name, "Store") && !Contains(name, "Studio") && Contains(name, "Park")
    ensures key == "Station" <==>
      !Contains(name, "Store") && !Contains(name, "Studio") && !Contains(name, "Park")
      && (Contains(name, "Station") || Contains(name, "Police"))
    ensures key in {"", "Store", "Studio", "Park", "Station"}
  {
    if Contains(name, "Store") then "Store"
    else if Contains(name, "Studio") then "Studio"
    else if Contains(name, "Park") then "Park"
    else if Contains(name, "Station") || Contains(name, "Police") then "Station"
    else ""
  }

  /** `AnchorToOrg`. */
  function AnchorToOrg(anchorName: string): string {
    OrgOfName(anchorName)
  }

  /** The organisation an interactable's name prefix points to. */
  function PrefixOrg(entry: string): (key: string)
    ensures key == "Store" <==> StartsWith(entry, "Store_")
    ensures key == "Studio" <==> !StartsWith(entry, "Store_") && StartsWith(entry, "Studio_")
    ensures key == "Park" <==> !StartsWith(entry, "Store_") && !StartsWith(entry, "Studio_") && StartsWith(entry, "Park_")
    ensures key == "Station" <==>
      !StartsWith(entry, "Store_") && !StartsWith(entry, "Studio_") && !StartsWith(entry, "Park_")
      && StartsWith(entry, "Police_")
    ensures key in {"", "Store", "Studio", "Park", "Station"}
  {
    if StartsWith(entry, "Store_") then "Store"
    else if StartsWith(entry, "Studio_") then "Studio"
    else if StartsWith(entry, "Park_") then "Park"
    else if StartsWith(entry, "Police_") then "Station"
    else ""
  }

  /** The organisation of the first interactable with a known prefix. */
  function FirstPrefixOrg(entries: seq<string>): (key: string)
    ensures key == "" <==> forall i :: 0 <= i < |entries| ==> PrefixOrg(entries[i]) == ""
    ensures key != "" ==>
      exists i :: 0 <= i < |entries| && PrefixOrg(entries[i]) == key
        && forall j :: 0 <= j < i ==> PrefixOrg(entries[j]) == ""
  {
    if entries == [] then ""
    else if PrefixOrg(entries[0]) != "" then PrefixOrg(entries[0])
    else
      var rest := FirstPrefixOrg(entries[1..]);
      assert forall i :: 1 <= i < |entries| ==> entries[1..][i - 1] == entries[i];
      rest
  }

  /** `InferOrgKey`: the incident id decides when it names an
      organisation; otherwise the first prefixed interactable does. */
  function InferOrgKey(incident: Incident): (key: string)
    ensures OrgOfName(incident.incidentId) != "" ==> key == OrgOfName(incident.incidentId)
    ensures OrgOfName(incident.incidentId) == "" ==> key == FirstPrefixOrg(incident.requiredInteractables)
    ensures key in {"", "Store", "Studio", "Park", "Station"}
  {
    var fromId := OrgOfName(incident.incidentId);
    if fromId != "" then fromId else FirstPrefixOrg(incident.requiredInteractables)
  }

  /** The slot holds an item filed under the non-empty `key`. */
  predicate FiledUnder<T>(slot: Option<T>, keyOf: T -> string, key: string) {
    slot.Some? && keyOf(slot.value) != "" && keyOf(slot.value) == key
  }

  /** The reference reading of "first wins": the earliest slot filed under
      `key`. */
  function FirstFiled<T>(items: seq<Option<T>>, keyOf: T -> string, key: string): (r: Option<nat>)
    ensures r.Some? ==> r.value < |items| && FiledUnder(items[r.value], keyOf, key)
    ensures r.Some? ==> forall j :: 0 <= j < r.value ==> !FiledUnder(items[j], keyOf, key)
    ensures r.None? ==> forall j :: 0 <= j < |items| ==> !FiledUnder(items[j], keyOf, key)
  {
    if items == [] then None
    else if FiledUnder(items[0], keyOf, key) then Some(0)
    else
      match FirstFiled(items[1..], keyOf, key)
      case Some(j) => Some(j + 1)
      case None => None
  }

  /** `EnsureLoaded`: the table built by walking the list in order; missing
      slots and items without a key are skipped, and a key already present
      keeps its first item. */
  function Index<T>(items: seq<Option<T>>, keyOf: T -> string): map<string, T>
    decreases |items|
  {
    if items == [] then map[]
    else
      var table := Index(items[..|items| - 1], keyOf);
      var slot := items[|items| - 1];
      if slot.None? then table
      else
        var key := keyOf(slot.value);
        if key == "" || key in table then table else table[key := slot.value]
  }

  /** The table holds exactly the first item filed under each key. */
  lemma {:induction false} IndexIsFirstFiled<T>(items: seq<Option<T>>, keyOf: T -> string, key: string)
    ensures key in Index(items, keyOf) <==> FirstFiled(items, keyOf, key).Some?
    ensures FirstFiled(items, keyOf, key).Some? ==>
      Index(items, keyOf)[key] == items[FirstFiled(items, keyOf, key).value].value
    decreases |items|
  {
    if items != [] {
      var n := |items| - 1;
      var prefix := items[..n];
      IndexIsFirstFiled(prefix, keyOf, key);
      var before := FirstFiled(prefix, keyOf, key);
      var all := FirstFiled(items, keyOf, key);
      assert forall j :: 0 <= j < n ==> items[j] == prefix[j];
      if before.Some? {
        assert all == before;
      } else if FiledUnder(items[n], keyOf, key) {
        assert all == Some(n);
      } else {
        assert all.None?;
      }
    }
  }

  /** `BuildHint`: the description of the first incident of the anchor's
      organisation, prefixed "Incident: ", or "" when the anchor name is
      empty, names no organisation, has no incident, or the description is
      blank. */
  function BuildHint(anchorName: string, incidents: seq<Option<Incident>>): (hint: string)
    ensures anchorName == "" ==> hint == ""
    ensures hint != "" <==>
      anchorName != "" && AnchorToOrg(anchorName) != ""
      && FirstFiled(incidents, InferOrgKey, AnchorToOrg(anchorName)).Some?
      && !IsBlank(incidents[FirstFiled(incidents, InferOrgKey, AnchorToOrg(anchorName)).value].value.description)
    ensures hint != "" ==>
      hint == "Incident: " + incidents[FirstFiled(incidents, InferOrgKey, AnchorToOrg(anchorName)).value].value.description
  {
    if anchorName == "" then ""
    else
      var key := AnchorToOrg(anchorName);
      var table := Index(incidents, InferOrgKey);
      IndexIsFirstFiled(incidents, InferOrgKey, key);
      if key == "" || key !in table then ""
      else if IsBlank(table[key].description) then ""
      else "Incident: " + table[key].description
  }

  /** The scene's landmark names point to their organisations; the cafe has
      none, so it never shows a hint. */
  lemma LandmarkOrgs()
    ensures AnchorToOrg("StoreBuilding") == "Store"
    ensures AnchorToOrg("ParkArea") == "Park"
    ensures AnchorToOrg("Station") == "Station"
    ensures AnchorToOrg("Cafe") == ""
  {
    assert OccursAt("StoreBuilding", "Store", 0);
    assert OccursAt("ParkArea", "Park", 0);
    assert OccursAt("Station", "Station", 0);
    MissingChar("ParkArea", "Store", 0);
    MissingChar("ParkArea", "Studio", 0);
    MissingChar("Station", "Store", 3);
    MissingChar("Station", "Studio", 2);
    MissingChar("Station", "Park", 0);
    MissingChar("Cafe", "Store", 0);
    MissingChar("Cafe", "Studio", 0);
    MissingChar("Cafe", "Park", 0);
    MissingChar("Cafe", "Station", 0);
    MissingChar("Cafe", "Police", 0);
  }
}

=== FILE: interior_portal.dfy ===
/** `InteriorPortal`: a doorway that moves an actor to its linked portal,
    marking whether the actor is now inside. NPCs going in have their
    movement components switched off (and remembered), and are sent back out
    after a delay. The linked portal is given by the data the teleport reads
    from it; whether a navigation-mesh warp succeeds and the clock are
    parameters. A component is `None` when the actor lacks it and
    `Some(enabled)` otherwise. */
module InteriorPortal {
  import opened Wrappers
  import opened SpatialBlackboard
  import F = PortalFailsafe

  /** `PortalTraveler`, with the values a freshly added one starts with. */
  datatype Traveler = Traveler(
    lastTeleportTime: real := 0.0,
    isInside: bool := false,
    hasExteriorFallback: bool := false,
    lastExteriorPosition: Vec3 := Vec3(0.0, 0.0, 0.0),
    agentWasEnabled: bool := false,
    patrolWasEnabled: bool := false,
    policeWasEnabled: bool := false)

  datatype Actor = Actor(
    position: Vec3,
    traveler: Option<Traveler>,
    agent: Option<bool>,
    hasController: bool,
    patrol: Option<bool>,
    police: Option<bool>,
    hasFailsafe: bool)

  /** What a teleport reads from the linked portal. */
  datatype Link = Link(marksInside: bool, spawnPoint: Option<Vec3>, position: Vec3)

  datatype Portal = Portal(
    linked: Option<Link>,
    marksInside: bool := false,
    cooldownSeconds: real := 0.75,
    npcAutoReturnSeconds: real := 6.0)

  /** `IsNpc`: an actor with a navigation agent, a patrol or a police
      controller. */
  predicate IsNpc(a: Actor) {
    a.agent.Some? || a.patrol.Some? || a.police.Some?
  }

  /** `SetNpcInside` for one component: going in remembers its state and
      switches it off; coming out restores the remembered state. */
  function SwitchComponent(c: Option<bool>, saved: bool, inside: bool): (res: (Option<bool>, bool))
    ensures c.None? ==> res == (c, saved)
    ensures c.Some? && inside ==> res == (Some(false), c.value)
    ensures c.Some? && !inside ==> res == (Some(saved), saved)
  {
    if c.None? then (c, saved)
    else if inside then (Some(false), c.value)
    else (Some(saved), saved)
  }

  /** `SetNpcInside`: the agent, the patrol and the police controller each
      go through `SwitchComponent`. */
  function SetNpcInside(a: Actor, t: Traveler, inside: bool): (res: (Actor, Traveler))
    ensures res.0 == a.(agent := res.0.agent, patrol := res.0.patrol, police := res.0.police)
    ensures res.1.isInside == t.isInside && res.1.lastTeleportTime == t.lastTeleportTime
    ensures res.1 == t.(agentWasEnabled := res.1.agentWasEnabled, patrolWasEnabled := res.1.patrolWasEnabled,
                        policeWasEnabled := res.1.policeWasEnabled)
    ensures inside ==>
      GoneIn(a.agent, res.0.agent) && GoneIn(a.patrol, res.0.patrol) && GoneIn(a.police, res.0.police)
      && (a.agent.Some? ==> res.1.agentWasEnabled == a.agent.value)
      && (a.patrol.Some? ==> res.1.patrolWasEnabled == a.patrol.value)
      && (a.police.Some? ==> res.1.policeWasEnabled == a.police.value)
    ensures !inside ==>
      CameOut(a.agent, t.agentWasEnabled, res.0.agent) && CameOut(a.patrol, t.patrolWasEnabled, res.0.patrol)
      && CameOut(a.police, t.policeWasEnabled, res.0.police)
  {
    var ag := SwitchComponent(a.agent, t.agentWasEnabled, inside);
    var pa := SwitchComponent(a.patrol, t.patrolWasEnabled, inside);
    var po := SwitchComponent(a.police, t.policeWasEnabled, inside);
    (a.(agent := ag.0, patrol := pa.0, police := po.0),
     t.(agentWasEnabled := ag.1, patrolWasEnabled := pa.1, policeWasEnabled := po.1))
  }

  /** Where the linked portal puts an actor: its spawn point, or the portal
      itself. */
  function Destination(l: Link): Vec3 {
    if l.spawnPoint.Some? then l.spawnPoint.value else l.position
  }

  /** The outcome of a teleport: the actor afterwards, and the delay after
      which the linked portal sends it back, if one is scheduled. */
  datatype Outcome = Outcome(actor: Actor, autoReturn: Option<real>)

  /** `TeleportActor`. */
  function Teleport(p: Portal, a: Actor, now: real, force: bool, warped: bool): (o: Outcome)
    ensures p.linked.None? ==> o == Outcome(a, None)
    ensures p.linked.Some? ==> o.actor.traveler.Some?
    ensures p.linked.Some? && !force && now - a.traveler.GetOr(Traveler()).lastTeleportTime < p.cooldownSeconds ==>
      o == Outcome(a.(traveler := Some(a.traveler.GetOr(Traveler()))), None)
    ensures Moved(p, a, now, force) ==> Arrived(p, a, now, warped, o)
  {
    if p.linked.None? then Outcome(a, None)
    else
      var t := a.traveler.GetOr(Traveler());
      if !force && now - t.lastTeleportTime < p.cooldownSeconds then Outcome(a.(traveler := Some(t)), None)
      else Arrive(p, a, now, warped)
  }

  /** What a teleport through a linked portal leaves behind: the actor is
      inside exactly when the linked portal says so, stamped with the time;
      going in remembers where it came from and arms the failsafe; it stands
      at the destination unless an enabled agent failed to warp; an NPC's
      controllers are switched off going in (their states remembered) and
      restored coming out, and only an NPC going in is scheduled to return. */
  predicate Arrived(p: Portal, a: Actor, now: real, warped: bool, o: Outcome)
    requires p.linked.Some?
  {
    var l := p.linked.value;
    var before := a.traveler.GetOr(Traveler());
    o.actor.traveler.Some?
    && var t := o.actor.traveler.value;
    t.isInside == l.marksInside && t.lastTeleportTime == now
    && (l.marksInside ==> t.lastExteriorPosition == a.position && t.hasExteriorFallback && o.actor.hasFailsafe)
    && (!l.marksInside ==> t.hasExteriorFallback == before.hasExteriorFallback && o.actor.hasFailsafe == a.hasFailsafe)
    && (a.agent == Some(true) && !warped ==> o.actor.position == a.position)
    && (!(a.agent == Some(true) && !warped) ==> o.actor.position == Destination(l))
    && (!IsNpc(a) ==> o.actor.agent == a.agent && o.actor.patrol == a.patrol && o.actor.police == a.police)
    && (IsNpc(a) && l.marksInside ==>
          GoneIn(a.agent, o.actor.agent) && GoneIn(a.patrol, o.actor.patrol) && GoneIn(a.police, o.actor.police)
          && (a.agent.Some? ==> t.agentWasEnabled == a.agent.value)
          && (a.patrol.Some? ==> t.patrolWasEnabled == a.patrol.value)
          && (a.police.Some? ==> t.policeWasEnabled == a.police.value))
    && (IsNpc(a) && !l.marksInside ==>
          CameOut(a.agent, before.agentWasEnabled, o.actor.agent)
          && CameOut(a.patrol, before.patrolWasEnabled, o.actor.patrol)
          && CameOut(a.police, before.policeWasEnabled, o.actor.police))
    && (o.autoReturn.Some? <==> IsNpc(a) && l.marksInside && p.npcAutoReturnSeconds > 0.0)
    && (o.autoReturn.Some? ==> o.autoReturn.value == p.npcAutoReturnSeconds)
  }

  /** The teleport itself, once the link and the cooldown allow it. */
  function Arrive(p: Portal, a: Actor, now: real, warped: bool): (o: Outcome)
    requires p.linked.Some?
    ensures Arrived(p, a, now, warped, o)
  {
    var l := p.linked.value;
    var t := a.traveler.GetOr(Traveler());
    var origin := a.position;
    var position := if a.agent == Some(true) && !warped then origin else Destination(l);
    var t1 := t.(lastTeleportTime := now, isInside := l.marksInside);
    var t2 := if l.marksInside then t1.(lastExteriorPosition := origin, hasExteriorFallback := true) else t1;
    var a1 := a.(position := position, hasFailsafe := a.hasFailsafe || l.marksInside);
    var switched := if IsNpc(a) then SetNpcInside(a1, t2, t2.isInside) else (a1, t2);
    var schedule := IsNpc(a) && l.marksInside && p.npcAutoReturnSeconds > 0.0;
    Outcome(switched.0.(traveler := Some(switched.1)), if schedule then Some(p.npcAutoReturnSeconds) else None)
  }

  /** Going in: a component the actor has is switched off; one it lacks
      stays absent. */
  predicate GoneIn(before: Option<bool>, after: Option<bool>) {
    if before.Some? then after == Some(false) else after.None?
  }

  /** Coming out: a component the actor has gets its remembered state back;
      one it lacks stays absent. */
  predicate CameOut(before: Option<bool>, saved: bool, after: Option<bool>) {
    if before.Some? then after == Some(saved) else after.None?
  }

  /** `TryTeleport`: a collider entering the portal moves its actor only when
      a link exists and the actor is the player (tagged, or carrying a
      character controller) or an NPC. */
  function TryTeleport(p: Portal, a: Actor, taggedPlayer: bool, now: real, force: bool, warped: bool): (o: Outcome)
    ensures p.linked.None? || !(taggedPlayer || a.hasController || IsNpc(a)) ==> o == Outcome(a, None)
    ensures p.linked.Some? && (taggedPlayer || a.hasController || IsNpc(a)) ==> o == Teleport(p, a, now, force, warped)
    ensures o.autoReturn.Some? ==> IsNpc(a) && p.linked.Some? && p.linked.value.marksInside
  {
    if p.linked.None? then Outcome(a, None)
    else if !(taggedPlayer || a.hasController || IsNpc(a)) then Outcome(a, None)
    else Teleport(p, a, now, force, warped)
  }

  /** The teleport goes ahead: a link, and either forced or past the
      cooldown. */
  predicate Moved(p: Portal, a: Actor, now: real, force: bool) {
    p.linked.Some? && (force || now - a.traveler.GetOr(Traveler()).lastTeleportTime >= p.cooldownSeconds)
  }

  /** `ReturnAfterDelay`: an actor no longer inside (or never tracked) is
      left alone; otherwise the portal forces it through. */
  function ReturnAfterDelay(p: Portal, a: Actor, now: real, warped: bool): (o: Outcome)
    ensures a.traveler.None? || !a.traveler.value.isInside ==> o == Outcome(a, None)
    ensures a.traveler.Some? && a.traveler.value.isInside ==> o == Teleport(p, a, now, true, warped)
  {
    if a.traveler.None? || !a.traveler.value.isInside then Outcome(a, None)
    else Teleport(p, a, now, true, warped)
  }

  /** A forced teleport goes ahead even inside the cooldown, where an
      unforced one leaves the actor where it was. */
  lemma ForceBypassesCooldown(p: Portal, a: Actor, now: real, warped: bool)
    requires p.linked.Some?
    requires now - a.traveler.GetOr(Traveler()).lastTeleportTime < p.cooldownSeconds
    ensures var t := Teleport(p, a, now, true, warped).actor.traveler.value;
      t.lastTeleportTime == now && t.isInside == p.linked.value.marksInside
    ensures Teleport(p, a, now, false, warped).actor.position == a.position
    ensures Teleport(p, a, now, false, warped).autoReturn.None?
  {
    assert Moved(p, a, now, true);
  }

  /** Going in and coming back out restores an NPC's agent, patrol and
      police controller to the states they had before it went in. */
  lemma InAndOutRestoresComponents(enter: Portal, exit: Portal, a: Actor, t1: real, t2: real, w1: bool, w2: bool)
    requires IsNpc(a)
    requires enter.linked.Some? && enter.linked.value.marksInside && Moved(enter, a, t1, false)
    requires exit.linked.Some? && !exit.linked.value.marksInside
    ensures var inside := Teleport(enter, a, t1, false, w1).actor;
      var outside := Teleport(exit, inside, t2, true, w2).actor;
      outside.agent == a.agent && outside.patrol == a.patrol && outside.police == a.police
      && !outside.traveler.value.isInside
  {
  }

  /** After entering, the failsafe sends the actor back exactly once the
      time inside reaches the limit: the entry left it inside with a
      fallback. */
  lemma EnteringArmsFailsafe(p: Portal, a: Actor, now: real, force: bool, warped: bool,
                             secondsInside: real, maxInsideSeconds: real)
    requires Moved(p, a, now, force) && p.linked.value.marksInside
    ensures var t := Teleport(p, a, now, force, warped).actor.traveler.value;
      F.ShouldReturn(t.isInside, secondsInside, maxInsideSeconds, t.hasExteriorFallback)
      <==> secondsInside >= maxInsideSeconds
  {
  }
}

=== FILE: localization.dfy ===
/** `LocalizationManager`: per-language string tables with an English
    fallback and the key name as the last resort. Loading the table resource
    and the saved language preference is I/O: the parsed entries and the
    language are parameters. */
module Localization {
  import opened Wrappers
  import opened Text

  datatype Language = Ko | En | It | Zh

  datatype Key =
    | ControlsHint | CoverPlaceholder | CoverStatusLine | ObjectiveAllVisited | ObjectiveTarget
    | ObjectiveTargetWithDirection | ObjectiveReasonLine | ObjectiveRemainingLine | ObjectiveReasonStore
    | ObjectiveReasonStudio | ObjectiveReasonPark | ObjectiveReasonStation | LandmarkVisitedToast
    | AllLandmarksVisitedToast | GoalPrompt | ControlsToast | LoopCompleteToast | CameraPrompt
    | MissingFontToast | BlackboardTitle | LanguageChangedToast | CaseSummaryTitle | CaseSummaryFilterLabel
    | CaseSummaryReportsLabel | CaseSummaryViolationsLabel | CaseSummaryEvidenceLabel
    | CaseSummaryProceduresLabel | CaseSummaryStatementsLabel | CaseSummaryExplanationsLabel
    | CaseSummaryRebuttalsLabel | CaseSummaryScoreLabel | CaseSummaryRulesLabel | CaseFilterAll
    | CaseFilterEvidence | CaseFilterViolations | CaseFilterWitnesses

  /** `key.ToString()`. */
  function KeyName(k: Key): string
  {
    match k
    case ControlsHint => "ControlsHint"
    case CoverPlaceholder => "CoverPlaceholder"
    case CoverStatusLine => "CoverStatusLine"
    case ObjectiveAllVisited => "ObjectiveAllVisited"
    case ObjectiveTarget => "ObjectiveTarget"
    case ObjectiveTargetWithDirection => "ObjectiveTargetWithDirection"
    case ObjectiveReasonLine => "ObjectiveReasonLine"
    case ObjectiveRemainingLine => "ObjectiveRemainingLine"
    case ObjectiveReasonStore => "ObjectiveReasonStore"
    case ObjectiveReasonStudio => "ObjectiveReasonStudio"
    case ObjectiveReasonPark => "ObjectiveReasonPark"
    case ObjectiveReasonStation => "ObjectiveReasonStation"
    case LandmarkVisitedToast => "LandmarkVisitedToast"
    case AllLandmarksVisitedToast => "AllLandmarksVisitedToast"
    case GoalPrompt => "GoalPrompt"
    case ControlsToast => "ControlsToast"
    case LoopCompleteToast => "LoopCompleteToast"
    case CameraPrompt => "CameraPrompt"
    case MissingFontToast => "MissingFontToast"
    case BlackboardTitle => "BlackboardTitle"
    case LanguageChangedToast => "LanguageChangedToast"
    case CaseSummaryTitle => "CaseSummaryTitle"
    case CaseSummaryFilterLabel => "CaseSummaryFilterLabel"
    case CaseSummaryReportsLabel => "CaseSummaryReportsLabel"
    case CaseSummaryViolationsLabel => "CaseSummaryViolationsLabel"
    case CaseSummaryEvidenceLabel => "CaseSummaryEvidenceLabel"
    case CaseSummaryProceduresLabel => "CaseSummaryProceduresLabel"
    case CaseSummaryStatementsLabel => "CaseSummaryStatementsLabel"
    case CaseSummaryExplanationsLabel => "CaseSummaryExplanationsLabel"
    case CaseSummaryRebuttalsLabel => "CaseSummaryRebuttalsLabel"
    case CaseSummaryScoreLabel => "CaseSummaryScoreLabel"
    case CaseSummaryRulesLabel => "CaseSummaryRulesLabel"
    case CaseFilterAll => "CaseFilterAll"
    case CaseFilterEvidence => "CaseFilterEvidence"
    case CaseFilterViolations => "CaseFilterViolations"
    case CaseFilterWitnesses => "CaseFilterWitnesses"
  }

  /** Every key, in declaration order. */
  const AllKeys: seq<Key> := [
    ControlsHint, CoverPlaceholder, CoverStatusLine, ObjectiveAllVisited, ObjectiveTarget,
    ObjectiveTargetWithDirection, ObjectiveReasonLine, ObjectiveRemainingLine, ObjectiveReasonStore,
    ObjectiveReasonStudio, ObjectiveReasonPark, ObjectiveReasonStation, LandmarkVisitedToast,
    AllLandmarksVisitedToast, GoalPrompt, ControlsToast, LoopCompleteToast, CameraPrompt,
    MissingFontToast, BlackboardTitle, LanguageChangedToast, CaseSummaryTitle, CaseSummaryFilterLabel,
    CaseSummaryReportsLabel, CaseSummaryViolationsLabel, CaseSummaryEvidenceLabel,
    CaseSummaryProceduresLabel, CaseSummaryStatementsLabel, CaseSummaryExplanationsLabel,
    CaseSummaryRebuttalsLabel, CaseSummaryScoreLabel, CaseSummaryRulesLabel, CaseFilterAll,
    CaseFilterEvidence, CaseFilterViolations, CaseFilterWitnesses]

  lemma AllKeysComplete(k: Key)
    ensures k in AllKeys
  {
  }

  /** The first key of `keys` whose name is `name`. */
  function FindKey(keys: seq<Key>, name: string): Option<Key> {
    if |keys| == 0 then None
    else if KeyName(keys[0]) == name then Some(keys[0])
    else FindKey(keys[1..], name)
  }

  lemma {:induction false} FindKeySound(keys: seq<Key>, name: string)
    ensures FindKey(keys, name).Some? ==> KeyName(FindKey(keys, name).value) == name
  {
    if |keys| > 0 && KeyName(keys[0]) != name {
      FindKeySound(keys[1..], name);
    }
  }

  lemma {:induction false} FindKeyComplete(keys: seq<Key>, name: string, k: Key)
    requires k in keys && KeyName(k) == name
    ensures FindKey(keys, name).Some?
  {
    if KeyName(keys[0]) != name {
      assert k in keys[1..];
      FindKeyComplete(keys[1..], name, k);
    }
  }

  /** `Enum.TryParse` of a key name: surrounding white space is ignored and
      the name must match exactly. */
  function ParseKey(s: string): (r: Option<Key>)
    ensures r.Some? ==> KeyName(r.value) == Trim(s)
  {
    FindKeySound(AllKeys, Trim(s));
    FindKey(AllKeys, Trim(s))
  }

  /** Parsing fails only when no key has that name. */
  lemma ParseKeyNone(s: string, k: Key)
    requires ParseKey(s).None?
    ensures KeyName(k) != Trim(s)
  {
    if KeyName(k) == Trim(s) {
      AllKeysComplete(k);
      FindKeyComplete(AllKeys, Trim(s), k);
    }
  }

  /** One row of the table resource. */
  datatype Entry = Entry(key: string := "", ko: string := "", en: string := "", it: string := "", zh: string := "")

  /** The column a language reads. */
  function Column(e: Entry, lang: Language): string {
    match lang
    case Ko => e.ko
    case En => e.en
    case It => e.it
    case Zh => e.zh
  }

  /** The key a row names: none for a blank or unknown key. */
  function RowKey(e: Entry): Option<Key> {
    if IsBlank(e.key) then None else ParseKey(e.key)
  }

  /** Whether a row supplies a value for `k` in `lang`: a non-blank key
      naming `k` and a non-empty value. */
  predicate Supplies(e: Entry, lang: Language, k: Key) {
    RowKey(e) == Some(k) && Column(e, lang) != ""
  }

  /** A row as the table builder sees it: the key it names, if any, and
      the value in the selected column. */
  function Parsed(entries: seq<Entry>, lang: Language): (rows: seq<(Option<Key>, string)>)
    ensures |rows| == |entries|
    ensures forall i :: 0 <= i < |entries| ==> rows[i] == (RowKey(entries[i]), Column(entries[i], lang))
  {
    seq(|entries|, i requires 0 <= i < |entries| => (RowKey(entries[i]), Column(entries[i], lang)))
  }

  /** Storing a parsed row: nothing for a missing key or an empty value. */
  function Store<K>(table: map<K, string>, row: (Option<K>, string)): map<K, string> {
    if row.0.None? || row.1 == "" then table else table[row.0.value := row.1]
  }

  /** The fold `BuildMap` performs: rows in order, later ones overwriting. */
  function Fold<K>(rows: seq<(Option<K>, string)>): (table: map<K, string>)
    ensures forall k :: k in table ==> table[k] != ""
  {
    if |rows| == 0 then map[] else Store(Fold(rows[..|rows| - 1]), rows[|rows| - 1])
  }

  /** Reference definition: the value of the last row that supplies `k`. */
  function LastValue<K(==)>(rows: seq<(Option<K>, string)>, k: K): Option<string> {
    if |rows| == 0 then None
    else if rows[|rows| - 1].0 == Some(k) && rows[|rows| - 1].1 != "" then Some(rows[|rows| - 1].1)
    else LastValue(rows[..|rows| - 1], k)
  }

  lemma {:induction false} FoldIsLastValue<K>(rows: seq<(Option<K>, string)>, k: K)
    ensures k in Fold(rows) <==> LastValue(rows, k).Some?
    ensures k in Fold(rows) ==> Fold(rows)[k] == LastValue(rows, k).value
    decreases |rows|
  {
    if |rows| > 0 {
      FoldIsLastValue(rows[..|rows| - 1], k);
    }
  }

  lemma FoldSnoc<K>(rows: seq<(Option<K>, string)>, row: (Option<K>, string))
    ensures Fold(rows + [row]) == Store(Fold(rows), row)
  {
    assert (rows + [row])[..|rows|] == rows;
  }

  lemma ParsedSnoc(entries: seq<Entry>, e: Entry, lang: Language)
    ensures Parsed(entries + [e], lang) == Parsed(entries, lang) + [(RowKey(e), Column(e, lang))]
  {
  }

  /** `BuildMap`: rows in order, each usable row overwriting the key it names. */
  function BuildMap(entries: seq<Entry>, lang: Language): (table: map<Key, string>)
    ensures forall k :: k in table ==> table[k] != ""
  {
    Fold(Parsed(entries, lang))
  }

  /** The value of the last row that supplies `k`. */
  function LastSupplied(entries: seq<Entry>, lang: Language, k: Key): Option<string> {
    LastValue(Parsed(entries, lang), k)
  }

  /** The table holds, for every key, the last value supplied for it. */
  lemma BuildMapIsLastSupplied(entries: seq<Entry>, lang: Language, k: Key)
    ensures k in BuildMap(entries, lang) <==> LastSupplied(entries, lang, k).Some?
    ensures k in BuildMap(entries, lang) ==> BuildMap(entries, lang)[k] == LastSupplied(entries, lang, k).value
  {
    FoldIsLastValue(Parsed(entries, lang), k);
  }

  /** A row that supplies nothing leaves the table unchanged. */
  lemma SkippedRow(entries: seq<Entry>, lang: Language, e: Entry)
    requires RowKey(e).None? || Column(e, lang) == ""
    ensures BuildMap(entries + [e], lang) == BuildMap(entries, lang)
  {
    ParsedSnoc(entries, e, lang);
    FoldSnoc(Parsed(entries, lang), (RowKey(e), Column(e, lang)));
  }

  /** A later row overwrites an earlier value for the same key. */
  lemma LaterRowWins(entries: seq<Entry>, lang: Language, e: Entry, k: Key)
    requires Supplies(e, lang, k)
    ensures BuildMap(entries + [e], lang) == BuildMap(entries, lang)[k := Column(e, lang)]
  {
    ParsedSnoc(entries, e, lang);
    FoldSnoc(Parsed(entries, lang), (RowKey(e), Column(e, lang)));
  }

  /** The manager's state after loading: the rows, the current language and
      the two tables built from them. */
  datatype Manager = Manager(entries: seq<Entry>, current: Language,
                             currentTable: map<Key, string>, fallbackTable: map<Key, string>)

  /** `SetLanguage`: switch and rebuild the current table. */
  function SetLanguage(m: Manager, lang: Language): (m': Manager)
    ensures m'.current == lang && m'.entries == m.entries && m'.fallbackTable == m.fallbackTable
    ensures forall k :: k in m'.currentTable <==> LastSupplied(m.entries, lang, k).Some?
  {
    var m' := m.(current := lang, currentTable := BuildMap(m.entries, lang));
    assert forall k :: k in m'.currentTable <==> LastSupplied(m.entries, lang, k).Some? by {
      forall k ensures k in m'.currentTable <==> LastSupplied(m.entries, lang, k).Some? {
        BuildMapIsLastSupplied(m.entries, lang, k);
      }
    }
    m'
  }

  /** `Awake` after `LoadTables`: English is the fallback table. */
  function Load(entries: seq<Entry>, saved: Language): (m: Manager)
    ensures m.current == saved && m.fallbackTable == BuildMap(entries, En)
    ensures m.currentTable == BuildMap(entries, saved)
  {
    SetLanguage(Manager(entries, saved, map[], BuildMap(entries, En)), saved)
  }

  /** `Get`: the current language's value, else English, else the key name. */
  function Get(m: Manager, k: Key): (text: string)
    ensures text != ""
    ensures k in m.currentTable && m.currentTable[k] != "" ==> text == m.currentTable[k]
    ensures (k !in m.currentTable || m.currentTable[k] == "") && k in m.fallbackTable && m.fallbackTable[k] != ""
            ==> text == m.fallbackTable[k]
    ensures (k !in m.currentTable || m.currentTable[k] == "") && (k !in m.fallbackTable || m.fallbackTable[k] == "")
            ==> text == KeyName(k)
  {
    if k in m.currentTable && m.currentTable[k] != "" then m.currentTable[k]
    else if k in m.fallbackTable && m.fallbackTable[k] != "" then m.fallbackTable[k]
    else KeyName(k)
  }

  /** `Format`: with no arguments the template is returned as is;
      composite formatting is the `compose` parameter. */
  function Format(m: Manager, k: Key, args: seq<string>, compose: (string, seq<string>) -> string): (text: string)
    ensures |args| == 0 ==> text == Get(m, k)
  {
    var template := Get(m, k);
    if |args| == 0 then template else compose(template, args)
  }

  /** The static `Text`: with no manager instance, the key name. */
  function StaticText(instance: Option<Manager>, k: Key): (text: string)
    ensures text != ""
    ensures instance.None? ==> text == KeyName(k)
    ensures instance.Some? ==> text == Get(instance.value, k)
  {
    if instance.Some? then Get(instance.value, k) else KeyName(k)
  }

  /** Position of a language in declaration order. */
  function LanguageIndex(lang: Language): (i: nat)
    ensures i < 4
  {
    match lang
    case Ko => 0
    case En => 1
    case It => 2
    case Zh => 3
  }

  function NextLanguage(lang: Language): (next: Language)
    ensures LanguageIndex(next) == (LanguageIndex(lang) + 1) % 4
  {
    match lang
    case Ko => En
    case En => It
    case It => Zh
    case Zh => Ko
  }

  /** `CycleLanguage`: Ko, En, It, Zh, then Ko again. */
  function CycleLanguage(m: Manager): (m': Manager)
    ensures m'.current == NextLanguage(m.current) && m'.current != m.current
  {
    SetLanguage(m, NextLanguage(m.current))
  }

  lemma CycleFourTimes(m: Manager)
    ensures CycleLanguage(CycleLanguage(CycleLanguage(CycleLanguage(m)))).current == m.current
  {
  }

  function ShortCode(lang: Language): (code: string)
    ensures |code| == 2
  {
    match lang
    case Ko => "KO"
    case En => "EN"
    case It => "IT"
    case Zh => "ZH"
  }

  function DisplayName(lang: Language): string {
    match lang
    case Ko => "한국어"
    case En => "English"
    case It => "Italiano"
    case Zh => "中文"
  }

  /** The short codes tell the languages apart. */
  lemma ShortCodeInjective(a: Language, b: Language)
    ensures ShortCode(a) == ShortCode(b) ==> a == b
  {
  }
}

=== FILE: loop_verifier.dfy ===
/** `LoopVerifier`: watches the log for one full violation → report or
    rumor → verdict loop inside a time window, and announces it once.
    `Time.time` is the `now` parameter. */
module LoopVerifier {
  import opened Numeric
  import opened Events

  const Unset := -999.0

  datatype Verifier = Verifier(
    windowSeconds: real := 120.0,
    violationTime: real := Unset,
    reportTime: real := Unset,
    verdictTime: real := Unset,
    announced: bool := false)

  /** A stage counts as seen once its time is non-negative. */
  predicate AllSeen(v: Verifier) {
    v.violationTime >= 0.0 && v.reportTime >= 0.0 && v.verdictTime >= 0.0
  }

  /** `IsLoopComplete`: all three stages seen, the earliest within the
      window of `now`. */
  function IsLoopComplete(v: Verifier, now: real): (complete: bool)
    ensures complete <==>
      AllSeen(v)
      && now - v.violationTime <= v.windowSeconds
      && now - v.reportTime <= v.windowSeconds
      && now - v.verdictTime <= v.windowSeconds
  {
    if !AllSeen(v) then false
    else
      var earliest := MinR(v.violationTime, MinR(v.reportTime, v.verdictTime));
      now - earliest <= v.windowSeconds
  }

  /** Which stage an event type marks: 1 violation, 2 report or rumor,
      3 verdict, 0 none. */
  function Stage(t: EventType): (stage: nat)
    ensures stage <= 3
    ensures stage == 1 <==> t.ViolationDetected?
    ensures stage == 2 <==> t.RumorShared? || t.ReportFiled?
    ensures stage == 3 <==> t.VerdictGiven?
  {
    match t
    case ViolationDetected => 1
    case RumorShared => 2
    case ReportFiled => 2
    case VerdictGiven => 3
    case _ => 0
  }

  /** `HandleEvent`: stamp the record's stage with `now`, then announce if the
      loop is complete. The boolean says whether this call announced. */
  function HandleEvent(v: Verifier, t: EventType, now: real): (result: (Verifier, bool))
    ensures v.announced ==> result == (v, false)
    ensures !v.announced ==>
      var stamped := result.0.(announced := false);
      stamped.windowSeconds == v.windowSeconds
      && stamped.violationTime == (if Stage(t) == 1 then now else v.violationTime)
      && stamped.reportTime == (if Stage(t) == 2 then now else v.reportTime)
      && stamped.verdictTime == (if Stage(t) == 3 then now else v.verdictTime)
      && (result.1 <==> IsLoopComplete(stamped, now))
      && result.0.announced == result.1
  {
    if v.announced then (v, false)
    else
      var s := match Stage(t)
        case 1 => v.(violationTime := now)
        case 2 => v.(reportTime := now)
        case 3 => v.(verdictTime := now)
        case _ => v;
      if IsLoopComplete(s, now) then (s.(announced := true), true) else (s, false)
  }

  /** How many announcements a series of (type, time) events produces. */
  function Announcements(v: Verifier, events: seq<(EventType, real)>): nat
    decreases |events|
  {
    if |events| == 0 then 0
    else
      var r := HandleEvent(v, events[0].0, events[0].1);
      (if r.1 then 1 else 0) + Announcements(r.0, events[1..])
  }

  /** Completion is announced at most once, and never again after it has
      been. */
  lemma {:induction false} AnnouncedAtMostOnce(v: Verifier, events: seq<(EventType, real)>)
    ensures Announcements(v, events) <= 1
    ensures v.announced ==> Announcements(v, events) == 0
    decreases |events|
  {
    if |events| > 0 {
      var r := HandleEvent(v, events[0].0, events[0].1);
      AnnouncedAtMostOnce(r.0, events[1..]);
    }
  }

  /** A fresh verifier does not announce before it has seen a violation. */
  lemma NoLoopWithoutViolation(t: EventType, now: real)
    requires !t.ViolationDetected?
    ensures !HandleEvent(Verifier(), t, now).1
  {
  }
}

=== FILE: lucid_cover_determinism.dfy ===
/** The determinism check of the lucid-cover layer: run the same speech
    through the applier twice from a reset state and compare snapshots of the
    exposure, the hits and the logged events. Statement ids are fresh GUIDs,
    so a violation note's `stmt=<id>` part is masked before comparing. The
    snapshot keys are kept as the sequences of fields the check concatenates;
    equal sequences give equal key strings. */
module LucidCoverDeterminism {
  import opened Wrappers
  import opened Text
  import opened Events
  import opened LucidDefinitions
  import A = DreamLawViolationApplier
  import X = ExposureSystem
  import D = DreamLawSpeechDetectors
  import E = DreamLawEvaluator

  const StmtTag := "stmt="
  const MaskedTag := "stmt=*"

  /** `NormalizeNote`: the first `stmt=` (ignoring case) and everything up to
      the next `;` become `stmt=*`; without a later `;` the rest is dropped. */
  function NormalizeNote(note: string): (r: string)
    ensures note == "" ==> r == ""
    ensures !ContainsIgnoreCase(note, StmtTag) ==> r == note
    ensures ContainsIgnoreCase(note, StmtTag) ==> Contains(r, MaskedTag)
  {
    if note == "" then ""
    else
      LowerTag();
      ContainsIffIndexOf(ToLower(note), StmtTag);
      match IndexOf(ToLower(note), StmtTag, 0)
      case None => note
      case Some(idx) => Mask(note, idx)
  }

  /** The note with the tag at `idx`, and the id after it, masked. */
  function Mask(note: string, idx: nat): (r: string)
    requires idx + 5 <= |note|
    ensures idx + 6 <= |r| && r[..idx] == note[..idx] && r[idx..idx + 6] == MaskedTag
    ensures idx + 6 == |r| || r[idx + 6] == ';'
    ensures OccursAt(r, MaskedTag, idx)
  {
    var tail := match IndexOf(note, ";", idx) case None => "" case Some(end) => note[end..];
    assert tail != "" ==> tail[0] == ';' by {
      if tail != "" {
        var end := IndexOf(note, ";", idx).value;
        assert note[end..end + 1] == ";";
      }
    }
    note[..idx] + MaskedTag + tail
  }

  lemma LowerTag()
    ensures ToLower(StmtTag) == StmtTag && ToLower(MaskedTag) == MaskedTag
  {
  }

  /** A `;` search that stops at `end`. */
  lemma SemicolonAt(t: string, from: nat, end: nat)
    requires from <= end < |t| && t[end] == ';'
    requires forall j :: from <= j < end ==> t[j] != ';'
    ensures IndexOf(t, ";", from) == Some(end)
  {
    assert OccursAt(t, ";", end) by { assert t[end..end + 1] == [t[end]]; }
    forall j | from <= j < end ensures !OccursAt(t, ";", j) {
      assert t[j..j + 1] == [t[j]];
    }
  }

  /** A `;` search that finds nothing. */
  lemma NoSemicolon(t: string, from: nat)
    requires forall j :: from <= j < |t| ==> t[j] != ';'
    ensures IndexOf(t, ";", from) == None
  {
    forall j | from <= j ensures !OccursAt(t, ";", j) {
      if j + 1 <= |t| {
        assert t[j..j + 1] == [t[j]];
      }
    }
  }

  /** The first tag of `t` sits at `idx`. */
  lemma FirstTagAt(t: string, idx: nat)
    requires OccursAt(t, StmtTag, idx)
    requires forall j :: 0 <= j < idx ==> !OccursAt(t, StmtTag, j)
    ensures IndexOf(t, StmtTag, 0) == Some(idx)
  {
  }

  /** Replacing the text after a first tag keeps that tag first, as long as
      the replacement starts with the tag. */
  lemma TagStaysFirst(note: string, idx: nat, r: string)
    requires IndexOf(ToLower(note), StmtTag, 0) == Some(idx)
    requires idx + 5 <= |r| && r[..idx] == note[..idx] && r[idx..idx + 5] == StmtTag
    ensures IndexOf(ToLower(r), StmtTag, 0) == Some(idx)
  {
    var low := ToLower(note);
    var rl := ToLower(r);
    assert low[idx..idx + 5] == StmtTag;
    assert forall i :: 0 <= i < idx + 5 ==> rl[i] == low[i] by {
      forall i | 0 <= i < idx + 5 ensures rl[i] == low[i] {
        if i < idx {
          assert r[i] == r[..idx][i] == note[..idx][i] == note[i];
        } else {
          assert r[i] == r[idx..idx + 5][i - idx] == StmtTag[i - idx];
          assert low[i] == low[idx..idx + 5][i - idx];
        }
      }
    }
    forall j | 0 <= j < idx ensures !OccursAt(rl, StmtTag, j) {
      if OccursAt(rl, StmtTag, j) {
        assert rl[j..j + 5] == low[j..j + 5];
        assert OccursAt(low, StmtTag, j);
      }
    }
    assert rl[idx..idx + 5] == low[idx..idx + 5];
    FirstTagAt(rl, idx);
  }

  /** A note whose first tag is already masked is left alone. */
  lemma MaskedIsFixed(r: string, idx: nat)
    requires IndexOf(ToLower(r), StmtTag, 0) == Some(idx)
    requires idx + 6 <= |r| && r[idx..idx + 6] == MaskedTag
    requires idx + 6 == |r| || r[idx + 6] == ';'
    ensures NormalizeNote(r) == r
  {
    assert forall j :: idx <= j < idx + 6 ==> r[j] != ';' by {
      forall j | idx <= j < idx + 6 ensures r[j] != ';' {
        assert r[j] == r[idx..idx + 6][j - idx] == MaskedTag[j - idx];
      }
    }
    MaskAt(r, idx, idx + 6);
    assert r == r[..idx] + r[idx..idx + 6] + r[idx + 6..];
  }

  /** Masking twice is masking once. */
  lemma NormalizeIdempotent(note: string)
    ensures NormalizeNote(NormalizeNote(note)) == NormalizeNote(note)
  {
    if note != "" {
      LowerTag();
      match IndexOf(ToLower(note), StmtTag, 0)
      case None =>
        ContainsIffIndexOf(ToLower(note), StmtTag);
      case Some(idx) =>
        var r := Mask(note, idx);
        assert r[idx..idx + 5] == r[idx..idx + 6][..5] == StmtTag;
        TagStaysFirst(note, idx, r);
        MaskedIsFixed(r, idx);
    }
  }

  /** A speech detector id has no `=`, so it can never hold a `stmt=` tag. */
  lemma SpeechIdsArePlain(d: string)
    requires D.IsSpeechDetector(d)
    ensures '=' !in d
  {
    DetectorNamesArePlain();
    if EqualsIgnoreCase(d, D.SpeechDreamTalk) {
      SameSigns(d, D.SpeechDreamTalk);
    } else if EqualsIgnoreCase(d, D.SpeechRealityTest) {
      SameSigns(d, D.SpeechRealityTest);
    } else if EqualsIgnoreCase(d, D.SpeechMetaLogic) {
      SameSigns(d, D.SpeechMetaLogic);
    } else {
      SameSigns(d, D.SpeechTimelineProbe);
    }
  }

  lemma DetectorNamesArePlain()
    ensures '=' !in D.SpeechDreamTalk && '=' !in D.SpeechRealityTest
    ensures '=' !in D.SpeechMetaLogic && '=' !in D.SpeechTimelineProbe
  {
  }

  /** Folding case never creates or removes an `=`. */
  lemma SameSigns(a: string, b: string)
    requires EqualsIgnoreCase(a, b) && '=' !in b
    ensures '=' !in a
  {
    forall i | 0 <= i < |a| ensures a[i] != '=' {
      assert ToLower(a)[i] == ToLower(b)[i];
    }
  }

  /** The tag a violation note cites its statement with is the note's first. */
  lemma ViolationTagFirst(detectorId: string, statementId: string, suffix: string)
    requires '=' !in detectorId
    ensures var head := "det=" + detectorId + "; ";
      IndexOf(ToLower(head + StmtTag + statementId + suffix), StmtTag, 0) == Some(|head|)
  {
    var head := "det=" + detectorId + "; ";
    var v := head + StmtTag + statementId + suffix;
    var idx := |head|;
    var lv := ToLower(v);
    assert lv[idx..idx + 5] == StmtTag by {
      forall i | idx <= i < idx + 5 ensures lv[i] == StmtTag[i - idx] {
        assert v[i] == StmtTag[i - idx];
      }
    }
    forall p | 4 <= p < idx + 4 ensures lv[p] != '=' {
      if p < 4 + |detectorId| {
        assert v[p] == detectorId[p - 4];
      } else if p < idx {
        assert v[p] == head[p];
      } else {
        assert v[p] == StmtTag[p - idx];
      }
    }
    forall j | 0 <= j < idx ensures !OccursAt(lv, StmtTag, j) {
      if j + 5 <= |lv| {
        assert lv[j..j + 5][4] == lv[j + 4];
      }
    }
    FirstTagAt(lv, idx);
  }

  /** The masked violation note no longer depends on the statement id. */
  lemma ViolationNoteMasked(detectorId: string, statementId: string, boosted: bool)
    requires '=' !in detectorId && ';' !in statementId
    ensures NormalizeNote(A.ViolationNote(detectorId, statementId, boosted))
      == "det=" + detectorId + "; " + MaskedTag + (if boosted then "; x1.5" else "")
  {
    var suffix := if boosted then "; x1.5" else "";
    var head := "det=" + detectorId + "; ";
    NoteShape(detectorId, statementId, boosted);
    ViolationTagFirst(detectorId, statementId, suffix);
    NoteMasked(head, statementId, suffix);
  }

  /** A violation note is its head, the tag, the id and the suffix. */
  lemma NoteShape(detectorId: string, statementId: string, boosted: bool)
    ensures A.ViolationNote(detectorId, statementId, boosted)
      == "det=" + detectorId + "; " + StmtTag + statementId + (if boosted then "; x1.5" else "")
  {
  }

  /** Masking a note whose first tag follows `head` and cites an id without
      `;` keeps the head and whatever follows the id. */
  lemma NoteMasked(head: string, id: string, suffix: string)
    requires IndexOf(ToLower(head + StmtTag + id + suffix), StmtTag, 0) == Some(|head|)
    requires ';' !in id && (suffix == "" || suffix[0] == ';')
    ensures NormalizeNote(head + StmtTag + id + suffix) == head + MaskedTag + suffix
  {
    var v := head + StmtTag + id + suffix;
    var idx := |head|;
    var end := idx + 5 + |id|;
    forall j | idx <= j < end
      ensures v[j] != ';'
    {
      if j < idx + 5 {
        assert v[j] == StmtTag[j - idx];
      } else {
        assert v[j] == id[j - idx - 5];
      }
    }
    assert v[..idx] == head;
    assert v[end..] == suffix;
    MaskAt(v, idx, end);
  }

  /** Masking a note whose first tag sits at `idx` and whose id runs to
      `end`, where a `;` or the end of the note follows. */
  lemma MaskAt(t: string, idx: nat, end: nat)
    requires IndexOf(ToLower(t), StmtTag, 0) == Some(idx) && idx + 5 <= end <= |t|
    requires forall j :: idx <= j < end ==> t[j] != ';'
    requires end == |t| || t[end] == ';'
    ensures NormalizeNote(t) == t[..idx] + MaskedTag + t[end..]
  {
    if end == |t| {
      NoSemicolon(t, idx);
      assert t[end..] == [];
    } else {
      SemicolonAt(t, idx, end);
    }
  }

  /** The fields of one hit the check concatenates. */
  datatype HitKey = HitKey(lawId: string, detectorId: string, suspicionDelta: int, exposureDelta: int, boosted: bool)

  /** The fields of one logged event the check concatenates, note masked. */
  datatype EventKey = EventKey(eventType: EventType, actorId: string, targetId: string, ruleId: string,
                               sourceId: string, delta: real, placeId: string, note: string)

  datatype Snapshot = Snapshot(exposure: int, hitsKey: seq<HitKey>, eventsKey: seq<EventKey>)

  function KeyOfHit(h: Hit): HitKey {
    HitKey(h.law.dreamLawId, h.detectorId, h.suspicionDelta, h.exposureDelta, h.stationMultiplierApplied)
  }

  function KeyOf(e: EventRecord): EventKey {
    EventKey(e.eventType, e.actorId, e.targetId, e.ruleId, e.sourceId, e.delta, e.placeId, NormalizeNote(e.note))
  }

  function Keys(events: seq<EventRecord>): (r: seq<EventKey>)
    ensures |r| == |events| && forall i :: 0 <= i < |events| ==> r[i] == KeyOf(events[i])
  {
    if |events| == 0 then [] else [KeyOf(events[0])] + Keys(events[1..])
  }

  lemma {:induction false} KeysAppend(a: seq<EventRecord>, b: seq<EventRecord>)
    ensures Keys(a + b) == Keys(a) + Keys(b)
  {
    assert |Keys(a + b)| == |Keys(a) + Keys(b)|;
    forall i | 0 <= i < |a| + |b| ensures Keys(a + b)[i] == (Keys(a) + Keys(b))[i] {
      if i < |a| { assert (a + b)[i] == a[i]; } else { assert (a + b)[i] == b[i - |a|]; }
    }
  }

  /** `Snapshot.From`: a missing exposure system reads as -1. */
  function From(events: seq<EventRecord>, x: Option<X.Exposure>, hits: seq<Hit>): (s: Snapshot)
    ensures s.exposure == (if x.Some? then x.value.exposure else -1)
    ensures |s.hitsKey| == |hits| && forall i :: 0 <= i < |hits| ==> s.hitsKey[i] == KeyOfHit(hits[i])
    ensures s.eventsKey == Keys(events)
  {
    Snapshot(if x.Some? then x.value.exposure else -1,
             seq(|hits|, i requires 0 <= i < |hits| => KeyOfHit(hits[i])), Keys(events))
  }

  /** `Snapshot.Equals`: component-wise. */
  predicate Equals(a: Snapshot, b: Snapshot) {
    a.exposure == b.exposure && a.hitsKey == b.hitsKey && a.eventsKey == b.eventsKey
  }

  /** One run of the check: reset exposure, apply the speech, take the snapshot. */
  function RunOnce(laws: seq<Option<DreamLaw>>, x: X.Exposure, act: SpeechAct, utterance: string, placeId: string,
                   witnessId: string, witnessRole: string, guid: nat -> string): Snapshot
    requires x.maxExposure >= 0
  {
    var reset := X.ResetExposure(x).next;
    var app := A.ApplySpeech(Some(laws), true, Some(reset), act, utterance, placeId, witnessId, witnessRole, guid);
    From(app.records, app.exposure, app.hits)
  }

  /** Ids with no `;`, as `Guid.ToString("N")` produces. */
  ghost predicate PlainIds(guid: nat -> string) {
    forall k: nat :: ';' !in guid(k)
  }

  /** Two walks over the same hits that differ only in statement ids log the
      same keys and leave the same exposure. */
  lemma {:induction false} HitsDeterministic(hits: seq<Hit>, x: Option<X.Exposure>, placeId: string, witnessId: string,
                                             witnessRole: string, g1: nat -> string, g2: nat -> string, k: nat)
    requires A.Workable(x) && PlainIds(g1) && PlainIds(g2)
    requires forall i :: 0 <= i < |hits| ==> '=' !in hits[i].detectorId
    ensures Keys(A.ApplyHits(hits, x, placeId, witnessId, witnessRole, g1, k).0)
         == Keys(A.ApplyHits(hits, x, placeId, witnessId, witnessRole, g2, k).0)
    ensures A.ApplyHits(hits, x, placeId, witnessId, witnessRole, g1, k).1
         == A.ApplyHits(hits, x, placeId, witnessId, witnessRole, g2, k).1
    decreases |hits|
  {
    if |hits| > 0 {
      var h := hits[0];
      var (f1, x1) := A.ApplyHit(h, x, placeId, witnessId, witnessRole, g1(k));
      var (f2, x2) := A.ApplyHit(h, x, placeId, witnessId, witnessRole, g2(k));
      OneHitSameKeys(h, x, placeId, witnessId, witnessRole, g1(k), g2(k));
      HitsDeterministic(hits[1..], x1, placeId, witnessId, witnessRole, g1, g2, k + 1);
      var (r1, _) := A.ApplyHits(hits[1..], x1, placeId, witnessId, witnessRole, g1, k + 1);
      var (r2, _) := A.ApplyHits(hits[1..], x1, placeId, witnessId, witnessRole, g2, k + 1);
      assert A.ApplyHits(hits, x, placeId, witnessId, witnessRole, g1, k).0 == f1 + r1;
      assert A.ApplyHits(hits, x, placeId, witnessId, witnessRole, g2, k).0 == f2 + r2;
      KeysAppend(f1, r1);
      KeysAppend(f2, r2);
    }
  }

  /** One hit logged under two plain statement ids gives the same keys and
      the same exposure. */
  lemma OneHitSameKeys(h: Hit, x: Option<X.Exposure>, placeId: string, witnessId: string, witnessRole: string,
                       id1: string, id2: string)
    requires A.Workable(x) && ';' !in id1 && ';' !in id2 && '=' !in h.detectorId
    ensures Keys(A.ApplyHit(h, x, placeId, witnessId, witnessRole, id1).0)
         == Keys(A.ApplyHit(h, x, placeId, witnessId, witnessRole, id2).0)
    ensures A.ApplyHit(h, x, placeId, witnessId, witnessRole, id1).1
         == A.ApplyHit(h, x, placeId, witnessId, witnessRole, id2).1
  {
    var f1 := A.ApplyHit(h, x, placeId, witnessId, witnessRole, id1).0;
    var f2 := A.ApplyHit(h, x, placeId, witnessId, witnessRole, id2).0;
    StatementKeySame(h, placeId, witnessId, witnessRole, id1, id2);
    ViolationKeySame(h, placeId, witnessId, witnessRole, id1, id2);
    HitTailSame(h, x, placeId, witnessId, witnessRole, id1, id2);
    SameKeysByParts(f1, f2);
  }

  /** Two lists whose first two records have the same keys and whose rest
      is equal have the same keys. */
  lemma SameKeysByParts(f1: seq<EventRecord>, f2: seq<EventRecord>)
    requires |f1| >= 2 && |f2| >= 2 && f1[2..] == f2[2..]
    requires KeyOf(f1[0]) == KeyOf(f2[0]) && KeyOf(f1[1]) == KeyOf(f2[1])
    ensures Keys(f1) == Keys(f2)
  {
    assert f1[1..][0] == f1[1] && f2[1..][0] == f2[1];
    assert f1[1..][1..] == f1[2..] && f2[1..][1..] == f2[2..];
    assert Keys(f1[1..]) == [KeyOf(f1[1])] + Keys(f1[2..]);
    assert Keys(f2[1..]) == [KeyOf(f2[1])] + Keys(f2[2..]);
  }

  lemma StatementKeySame(h: Hit, placeId: string, witnessId: string, witnessRole: string, id1: string, id2: string)
    ensures KeyOf(A.StatementRecord(h, placeId, witnessId, witnessRole, id1))
         == KeyOf(A.StatementRecord(h, placeId, witnessId, witnessRole, id2))
  {
  }

  lemma ViolationKeySame(h: Hit, placeId: string, witnessId: string, witnessRole: string, id1: string, id2: string)
    requires ';' !in id1 && ';' !in id2 && '=' !in h.detectorId
    ensures KeyOf(A.ViolationRecord(h, placeId, witnessId, witnessRole, id1))
         == KeyOf(A.ViolationRecord(h, placeId, witnessId, witnessRole, id2))
  {
    ViolationNoteMasked(h.detectorId, id1, h.stationMultiplierApplied);
    ViolationNoteMasked(h.detectorId, id2, h.stationMultiplierApplied);
  }

  /** Past its statement and violation, a hit's records and exposure do not
      depend on the statement id. */
  lemma HitTailSame(h: Hit, x: Option<X.Exposure>, placeId: string, witnessId: string, witnessRole: string,
                    id1: string, id2: string)
    requires A.Workable(x)
    ensures A.ApplyHit(h, x, placeId, witnessId, witnessRole, id1).0[2..]
         == A.ApplyHit(h, x, placeId, witnessId, witnessRole, id2).0[2..]
    ensures A.ApplyHit(h, x, placeId, witnessId, witnessRole, id1).1
         == A.ApplyHit(h, x, placeId, witnessId, witnessRole, id2).1
  {
  }

  /** Every hit the evaluator produces names a speech detector, so none has an `=`. */
  lemma HitsArePlain(laws: seq<Option<DreamLaw>>, act: SpeechAct, utterance: string, placeId: string, hits: seq<Hit>)
    requires hits == E.Evaluate(laws, act, utterance, placeId)
    ensures forall i :: 0 <= i < |hits| ==> '=' !in hits[i].detectorId
  {
    E.EvaluateExact(laws, act, utterance, placeId);
    forall i | 0 <= i < |hits| ensures '=' !in hits[i].detectorId {
      assert hits[i] in hits;
      SpeechIdsArePlain(hits[i].detectorId);
    }
  }

  /** Applying the same speech twice differs only in what the snapshot masks. */
  lemma ApplyDeterministic(laws: seq<Option<DreamLaw>>, x: Option<X.Exposure>, act: SpeechAct, utterance: string,
                           placeId: string, witnessId: string, witnessRole: string,
                           g1: nat -> string, g2: nat -> string)
    requires A.Workable(x) && PlainIds(g1) && PlainIds(g2)
    ensures var a1 := A.ApplySpeech(Some(laws), true, x, act, utterance, placeId, witnessId, witnessRole, g1);
      var a2 := A.ApplySpeech(Some(laws), true, x, act, utterance, placeId, witnessId, witnessRole, g2);
      a1.hits == a2.hits && Keys(a1.records) == Keys(a2.records) && a1.exposure == a2.exposure
  {
    var hits := E.Evaluate(laws, act, utterance, placeId);
    var a1 := A.ApplySpeech(Some(laws), true, x, act, utterance, placeId, witnessId, witnessRole, g1);
    var a2 := A.ApplySpeech(Some(laws), true, x, act, utterance, placeId, witnessId, witnessRole, g2);
    assert a1.hits == hits && a2.hits == hits;
    if |hits| > 0 {
      var actor := if witnessId == "" then "Witness" else witnessId;
      var role := if witnessRole == "" then "Citizen" else witnessRole;
      assert (a1.records, a1.exposure) == A.ApplyHits(hits, x, placeId, actor, role, g1, 0);
      assert (a2.records, a2.exposure) == A.ApplyHits(hits, x, placeId, actor, role, g2, 0);
      HitsArePlain(laws, act, utterance, placeId, hits);
      HitsDeterministic(hits, x, placeId, actor, role, g1, g2, 0);
    }
  }

  /** What the determinism check promises: replaying the same speech from a
      reset state gives equal snapshots whatever statement ids are drawn. */
  lemma RunIsDeterministic(laws: seq<Option<DreamLaw>>, x: X.Exposure, act: SpeechAct, utterance: string,
                           placeId: string, witnessId: string, witnessRole: string,
                           g1: nat -> string, g2: nat -> string)
    requires x.maxExposure >= 0 && PlainIds(g1) && PlainIds(g2)
    ensures Equals(RunOnce(laws, x, act, utterance, placeId, witnessId, witnessRole, g1),
                   RunOnce(laws, x, act, utterance, placeId, witnessId, witnessRole, g2))
  {
    ApplyDeterministic(laws, Some(X.ResetExposure(x).next), act, utterance, placeId, witnessId, witnessRole, g1, g2);
  }
}

=== FILE: lucid_definitions.dfy ===
/** The authored content of the "lucid cover" layer: dream laws, text
    surfaces, cover tests, the player's speech act and an evaluated hit.
    Only the fields the rule code reads are kept; presentation-only fields
    (prefabs, offsets, design notes) are dropped. */
module LucidDefinitions {

  /** How far a dream law reaches: everywhere, or one landmark named by `scopeId`. */
  datatype ScopeKind = Global | Landmark

  datatype DreamLaw = DreamLaw(
    dreamLawId: string := "DL_G1_NO_DREAM_TALK",
    scopeKind: ScopeKind := Global,
    scopeId: string := "",
    severity: real := 0.5,
    suspicionDelta: int := 0,
    exposureDelta: int := 0,
    detectorIds: seq<string> := [],
    canonicalLineTemplate: string := "")

  datatype TextSurface = TextSurface(
    textSurfaceId: string := "",
    anchorName: string := "",
    prompt: string := "",
    surfaceText: string := "",
    dreamLawIds: seq<string> := [],
    placeId: string := "")

  datatype CoverTest = CoverTest(
    coverTestId: string := "",
    location: string := "",
    dreamLawIds: seq<string> := [],
    triggerDetectorIds: seq<string> := [])

  /** The player's classified intent; the free text never changes which act it is. */
  datatype SpeechAct = Comply | Inquire | Frame | Break

  /** One law that fired, with the deltas already scaled for the context. */
  datatype Hit = Hit(
    law: DreamLaw,
    detectorId: string,
    suspicionDelta: int,
    exposureDelta: int,
    eventSeverity: int,
    stationMultiplierApplied: bool)
}

=== FILE: npc_context.dfy ===
/** `NpcContext`: the entries an NPC accepts from nearby blackboards, with
    event-id dedup, per-topic and per-actor cooldowns and a small bounded
    memory. The NPC's own `SuspicionComponent` is not held here: an
    accepted entry returns the `AddSuspicion` request it would make. */
module NpcContext {
  import opened Wrappers
  import opened Numeric
  import opened Events
  import opened SpatialBlackboard

  datatype Context = Context(
    memoryTtlSeconds: real := 480.0,
    memoryCapacity: int := 5,
    topicCooldownSeconds: real := 30.0,
    actorCooldownSeconds: real := 20.0,
    injectedSuspicionDelta: real := 6.0,
    hasSuspicion: bool := true,
    memory: seq<BlackboardEntry> := [],
    topicLastTime: map<string, real> := map[],
    actorLastTime: map<string, real> := map[],
    seenEventIds: set<string> := {})

  /** The arguments of `SuspicionComponent.AddSuspicion`. */
  datatype Raise = Raise(delta: real, ruleId: string, eventId: string)

  /** `Awake`: the memory holds between one and five entries. */
  function Awake(c: Context): (c': Context)
    ensures 1 <= c'.memoryCapacity <= 5
    ensures 1 <= c.memoryCapacity <= 5 ==> c' == c
    ensures c' == c.(memoryCapacity := c'.memoryCapacity)
  {
    c.(memoryCapacity := Clamp(c.memoryCapacity, 1, 5))
  }

  /** `GetTopicCooldown`: halved for evidence and procedure, cut to 70% for
      severity 2 and up, otherwise the configured cooldown. */
  function TopicCooldown(c: Context, e: BlackboardEntry): (cd: real)
    ensures e.category == Evidence || e.category == Procedure ==> cd == c.topicCooldownSeconds * 0.5
    ensures e.category != Evidence && e.category != Procedure && e.severity >= 2 ==> cd == c.topicCooldownSeconds * 0.7
    ensures e.category != Evidence && e.category != Procedure && e.severity < 2 ==> cd == c.topicCooldownSeconds
    ensures c.topicCooldownSeconds >= 0.0 ==> 0.0 <= cd <= c.topicCooldownSeconds
  {
    if e.category == Evidence || e.category == Procedure then c.topicCooldownSeconds * 0.5
    else if e.severity >= 2 then c.topicCooldownSeconds * 0.7
    else c.topicCooldownSeconds
  }

  /** The three reasons an entry is turned away. */
  predicate Seen(c: Context, e: BlackboardEntry) {
    e.eventId != "" && e.eventId in c.seenEventIds
  }

  predicate TopicCooling(c: Context, e: BlackboardEntry, now: real) {
    e.topic != "" && e.topic in c.topicLastTime && now - c.topicLastTime[e.topic] < TopicCooldown(c, e)
  }

  predicate ActorCooling(c: Context, e: BlackboardEntry, now: real) {
    e.actorId != "" && e.actorId in c.actorLastTime && now - c.actorLastTime[e.actorId] < c.actorCooldownSeconds
  }

  predicate Accepts(c: Context, e: BlackboardEntry, now: real) {
    !Seen(c, e) && !TopicCooling(c, e, now) && !ActorCooling(c, e, now)
  }

  /** `Prune`: drop entries older than the memory TTL, then keep only the
      newest `memoryCapacity`. */
  function PruneMemory(c: Context, es: seq<BlackboardEntry>, now: real): (kept: seq<BlackboardEntry>)
    requires c.memoryCapacity >= 0
    ensures |kept| <= c.memoryCapacity
    ensures forall e :: e in kept ==> e in es && now - e.timestamp <= c.memoryTtlSeconds
    ensures |kept| == Min(|Fresh(c, es, now)|, c.memoryCapacity)
    ensures kept == Fresh(c, es, now)[|Fresh(c, es, now)| - |kept|..]
  {
    var live := Fresh(c, es, now);
    if |live| > c.memoryCapacity then live[|live| - c.memoryCapacity..] else live
  }

  /** The entries still within the memory TTL, in order. */
  function Fresh(c: Context, es: seq<BlackboardEntry>, now: real): (live: seq<BlackboardEntry>)
    ensures |live| <= |es|
    ensures forall e :: e in live <==> e in es && now - e.timestamp <= c.memoryTtlSeconds
    decreases |es|
  {
    if |es| == 0 then []
    else
      var rest := Fresh(c, es[..|es| - 1], now);
      var last := es[|es| - 1];
      assert forall e :: e in es <==> e in es[..|es| - 1] || e == last;
      if now - last.timestamp <= c.memoryTtlSeconds then rest + [last] else rest
  }

  /** The suspicion raise an accepted entry causes: rule, gossip and
      evidence entries only, scaled by the source's trust. */
  function RaiseFor(c: Context, e: BlackboardEntry): (r: Option<Raise>)
    ensures r.Some? <==> c.hasSuspicion && (e.category == Rule || e.category == Gossip || e.category == Evidence)
    ensures r.Some? ==> r.value.ruleId == e.topic && r.value.eventId == e.eventId
    ensures r.Some? && e.severity >= 0 && c.injectedSuspicionDelta >= 0.0 ==> r.value.delta >= 0.0
  {
    if c.hasSuspicion && (e.category == Rule || e.category == Gossip || e.category == Evidence) then
      var trustFactor := Clamp01(0.5 + e.trust);
      Some(Raise((c.injectedSuspicionDelta + e.severity as real * 2.0) * trustFactor, e.topic, e.eventId))
    else None
  }

  /** `ReceiveEntry`: turn away a seen event, a cooling topic or a cooling
      actor without touching anything; otherwise note the id, topic and
      actor, remember the entry and pass on the suspicion raise. */
  function ReceiveEntry(c: Context, e: BlackboardEntry, now: real): (result: (Context, Option<Raise>))
    requires c.memoryCapacity >= 0
    ensures !Accepts(c, e, now) ==> result == (c, None)
    ensures Accepts(c, e, now) ==>
      var c' := result.0;
      (c'.seenEventIds == if e.eventId == "" then c.seenEventIds else c.seenEventIds + {e.eventId})
      && (e.topic != "" ==> e.topic in c'.topicLastTime && c'.topicLastTime[e.topic] == now)
      && (e.actorId != "" ==> e.actorId in c'.actorLastTime && c'.actorLastTime[e.actorId] == now)
      && c'.memory == PruneMemory(c, c.memory + [e], now)
      && result.1 == RaiseFor(c, e)
    ensures |result.0.memory| <= Max(|c.memory|, c.memoryCapacity)
    ensures result.0.memoryCapacity == c.memoryCapacity
  {
    if !Accepts(c, e, now) then (c, None)
    else
      var c' := c.(
        seenEventIds := if e.eventId == "" then c.seenEventIds else c.seenEventIds + {e.eventId},
        topicLastTime := if e.topic == "" then c.topicLastTime else c.topicLastTime[e.topic := now],
        actorLastTime := if e.actorId == "" then c.actorLastTime else c.actorLastTime[e.actorId := now],
        memory := PruneMemory(c, c.memory + [e], now));
      (c', RaiseFor(c, e))
  }

  /** An accepted entry with an id is turned away when it arrives again. */
  lemma DuplicateRejected(c: Context, e: BlackboardEntry, now: real, later: real, e2: BlackboardEntry)
    requires c.memoryCapacity >= 0
    requires Accepts(c, e, now) && e.eventId != "" && e2.eventId == e.eventId
    ensures !Accepts(ReceiveEntry(c, e, now).0, e2, later)
    ensures ReceiveEntry(ReceiveEntry(c, e, now).0, e2, later) == (ReceiveEntry(c, e, now).0, None)
  {
  }

  /** A second entry on the same topic inside the cooldown is turned away. */
  lemma TopicCooldownRejects(c: Context, e: BlackboardEntry, now: real, e2: BlackboardEntry, later: real)
    requires c.memoryCapacity >= 0
    requires Accepts(c, e, now) && e.topic != "" && e2.topic == e.topic
    requires later - now < TopicCooldown(c, e2)
    ensures ReceiveEntry(ReceiveEntry(c, e, now).0, e2, later).1.None?
  {
    var c' := ReceiveEntry(c, e, now).0;
    assert TopicCooldown(c', e2) == TopicCooldown(c, e2);
    assert TopicCooling(c', e2, later);
  }
}

=== FILE: npc_log_injector.dfy ===
/** `NpcLogInjector`: how an NPC picks entries off a blackboard (severity
    filter, priority order, a per-band cap) and the shared debug queue of
    injected lines. Distances, view angles and the tick schedule are left to
    the engine. */
module NpcLogInjector {
  import opened Numeric
  import Text
  import opened Events
  import opened SpatialBlackboard

  const DebugLineCapacity := 12
  const DebugLineMaxChars := 120

  datatype Limits = Limits(maxNearEntries: int := 3, maxFovEntries: int := 5, maxNoiseEntries: int := 1)

  /** `Awake`: at least 3 near, 5 in-view and 1 overheard entries. */
  function Awake(l: Limits): (l': Limits)
    ensures l'.maxNearEntries >= 3 && l'.maxFovEntries >= 5 && l'.maxNoiseEntries >= 1
    ensures l.maxNearEntries >= 3 ==> l'.maxNearEntries == l.maxNearEntries
    ensures l.maxFovEntries >= 5 ==> l'.maxFovEntries == l.maxFovEntries
    ensures l.maxNoiseEntries >= 1 ==> l'.maxNoiseEntries == l.maxNoiseEntries
  {
    Limits(Max(l.maxNearEntries, 3), Max(l.maxFovEntries, 5), Max(l.maxNoiseEntries, 1))
  }

  /** `GetPriority`: evidence first, then procedure, rule, gossip, rest. */
  function Priority(c: EventCategory): (p: int)
    ensures 0 <= p <= 4
    ensures p == 4 <==> c == Evidence
    ensures p == 3 <==> c == Procedure
    ensures p == 2 <==> c == Rule
    ensures p == 1 <==> c == Gossip
  {
    match c
    case Evidence => 4
    case Procedure => 3
    case Rule => 2
    case Gossip => 1
    case _ => 0
  }

  /** The sort comparison: higher priority first, then newer first. */
  predicate Before(a: BlackboardEntry, b: BlackboardEntry) {
    Priority(a.category) > Priority(b.category)
    || (Priority(a.category) == Priority(b.category) && a.timestamp >= b.timestamp)
  }

  predicate Sorted(s: seq<BlackboardEntry>) {
    forall i, j :: 0 <= i < j < |s| ==> Before(s[i], s[j])
  }

  /** The candidates: the board's entries newest-slot first, without those
      under the severity filter (a negative filter keeps all). */
  function Candidates(entries: seq<BlackboardEntry>, severityFilter: int): (cands: seq<BlackboardEntry>)
    ensures |cands| <= |entries|
    ensures forall e :: e in cands <==> e in entries && (severityFilter < 0 || e.severity >= severityFilter)
    decreases |entries|
  {
    if |entries| == 0 then []
    else
      var last := entries[|entries| - 1];
      var rest := Candidates(entries[..|entries| - 1], severityFilter);
      assert forall e :: e in entries <==> e in entries[..|entries| - 1] || e == last;
      if severityFilter >= 0 && last.severity < severityFilter then rest else [last] + rest
  }

  /** Insert into a sorted sequence after every entry that goes before it. */
  function Insert(x: BlackboardEntry, s: seq<BlackboardEntry>): (r: seq<BlackboardEntry>)
    requires Sorted(s)
    ensures Sorted(r)
    ensures multiset(r) == multiset(s) + multiset{x}
    decreases |s|
  {
    if |s| == 0 then [x]
    else if Before(s[0], x) then
      var tail := Insert(x, s[1..]);
      assert s == [s[0]] + s[1..];
      HeadBeforeAll(s[0], s[1..], x, tail);
      ConsSorted(s[0], tail);
      [s[0]] + tail
    else
      assert forall j :: 0 <= j < |s| ==> Before(x, s[j]) by {
        forall j | 0 <= j < |s| ensures Before(x, s[j]) {
          assert j == 0 || Before(s[0], s[j]);
        }
      }
      ConsSorted(x, s);
      [x] + s
  }

  lemma ConsSorted(h: BlackboardEntry, t: seq<BlackboardEntry>)
    requires Sorted(t)
    requires forall j :: 0 <= j < |t| ==> Before(h, t[j])
    ensures Sorted([h] + t)
  {
    forall i, j | 0 <= i < j < |[h] + t|
      ensures Before(([h] + t)[i], ([h] + t)[j])
    {
      if i > 0 {
        assert ([h] + t)[i] == t[i - 1];
      }
      assert ([h] + t)[j] == t[j - 1];
    }
  }

  /** An entry that goes before everything in `t` and before `x` goes before
      everything in any rearrangement of `t` plus `x`. */
  lemma HeadBeforeAll(h: BlackboardEntry, t: seq<BlackboardEntry>, x: BlackboardEntry, tail: seq<BlackboardEntry>)
    requires Sorted([h] + t) && Before(h, x)
    requires multiset(tail) == multiset(t) + multiset{x}
    ensures forall j :: 0 <= j < |tail| ==> Before(h, tail[j])
  {
    forall j | 0 <= j < |tail|
      ensures Before(h, tail[j])
    {
      var y := tail[j];
      assert y in multiset(tail);
      if y != x {
        assert y in multiset(t);
        var k :| 0 <= k < |t| && t[k] == y;
        assert ([h] + t)[0] == h && ([h] + t)[k + 1] == y;
        assert Before(([h] + t)[0], ([h] + t)[k + 1]);
      }
    }
  }

  /** The candidates in priority order (the source's sort is not stable; any
      order it may produce satisfies the same two properties). */
  function SortByPriority(s: seq<BlackboardEntry>): (r: seq<BlackboardEntry>)
    ensures Sorted(r)
    ensures multiset(r) == multiset(s)
    decreases |s|
  {
    if |s| == 0 then []
    else
      assert s == [s[0]] + s[1..];
      Insert(s[0], SortByPriority(s[1..]))
  }

  /** `CollectEntries`: append the best candidates to `output` until it
      holds `maxCount` entries. */
  function CollectEntries(output: seq<BlackboardEntry>, entries: seq<BlackboardEntry>, maxCount: int, severityFilter: int): (out: seq<BlackboardEntry>)
    ensures |out| <= Max(|output|, maxCount)
    ensures |output| <= |out| && out[..|output|] == output
    ensures var added := out[|output|..];
      Sorted(added)
      && multiset(added) <= multiset(Candidates(entries, severityFilter))
      && |added| == Min(|Candidates(entries, severityFilter)|, Max(0, maxCount - |output|))
    ensures forall e :: e in out[|output|..] ==> e in entries && (severityFilter < 0 || e.severity >= severityFilter)
  {
    var candidates := Candidates(entries, severityFilter);
    var sorted := SortByPriority(candidates);
    var k := Min(|sorted|, Max(0, maxCount - |output|));
    SortedPrefix(sorted, candidates, k);
    var out := output + sorted[..k];
    assert out[..|output|] == output && out[|output|..] == sorted[..k];
    out
  }

  /** A prefix of a sorted rearrangement is sorted and drawn from the
      original. */
  lemma SortedPrefix(sorted: seq<BlackboardEntry>, s: seq<BlackboardEntry>, k: nat)
    requires Sorted(sorted) && multiset(sorted) == multiset(s) && k <= |sorted|
    ensures Sorted(sorted[..k]) && multiset(sorted[..k]) <= multiset(s)
    ensures forall e :: e in sorted[..k] ==> e in s
  {
    assert sorted == sorted[..k] + sorted[k..];
    assert multiset(sorted) == multiset(sorted[..k]) + multiset(sorted[k..]);
    forall e | e in sorted[..k]
      ensures e in s
    {
      assert e in multiset(sorted);
    }
  }

  /** No candidate left out outranks one that was taken. */
  lemma TakenOutrankRest(output: seq<BlackboardEntry>, entries: seq<BlackboardEntry>, maxCount: int, severityFilter: int)
    ensures var sorted := SortByPriority(Candidates(entries, severityFilter));
      var k := Min(|sorted|, Max(0, maxCount - |output|));
      CollectEntries(output, entries, maxCount, severityFilter)[|output|..] == sorted[..k]
      && forall i, j :: 0 <= i < k <= j < |sorted| ==> Before(sorted[i], sorted[j])
  {
    var sorted := SortByPriority(Candidates(entries, severityFilter));
    var k := Min(|sorted|, Max(0, maxCount - |output|));
    assert (output + sorted[..k])[|output|..] == sorted[..k];
  }

  /** `RememberDebugLine`: "npc: text", cut to 120 characters, queued;
      the queue keeps the 12 newest lines. Empty text is skipped. */
  function RememberDebugLine(queue: seq<string>, npcId: string, text: string): (q: seq<string>)
    ensures text == "" ==> q == queue
    ensures text != "" ==>
      |q| == Min(|queue| + 1, DebugLineCapacity)
      && q[|q| - 1] == Truncate(npcId + ": " + text, DebugLineMaxChars)
      && q[..|q| - 1] == queue[|queue| + 1 - |q|..]
    ensures |queue| <= DebugLineCapacity ==> |q| <= DebugLineCapacity
  {
    if text == "" then queue
    else
      var grown := queue + [Truncate(npcId + ": " + text, DebugLineMaxChars)];
      if |grown| > DebugLineCapacity then grown[|grown| - DebugLineCapacity..] else grown
  }

  /** The first `n` characters of a string longer than `n`. */
  function Truncate(s: string, n: nat): (t: string)
    ensures |t| == Min(|s|, n) && t == s[..|t|]
  {
    if |s| > n then s[..n] else s
  }

  /** The cut keeps at most `n` code units when the text lies inside the
      Basic Multilingual Plane, as `Substring(0, n)` does. */
  lemma TruncateInCodeUnits(s: string, n: nat)
    requires Text.InBmp(s)
    ensures Text.Utf16Length(Truncate(s, n)) == Min(Text.Utf16Length(s), n)
  {
    Text.Utf16PrefixInBmp(s, Min(|s|, n));
  }
}

=== FILE: npc_persona.dfy ===
/** `NpcPersona`: an NPC's identity, role, persona text, tone and speaking
    cooldown. The game object's name, which stands in for an empty id, is a
    field of the model. */
module NpcPersona {

  datatype Persona = Persona(objectName: string, npcId: string := "", role: string := "Citizen",
                             persona: string := "동네 주민, 현실적인 한 줄 반응",
                             tone: string := "short, natural Korean",
                             speakCooldownSeconds: real := 6.0, lastSpokeTime: real := -999.0)

  /** `NpcId`: the configured id, or the object's name when it is empty. */
  function NpcId(p: Persona): (id: string)
    ensures p.npcId != "" ==> id == p.npcId
    ensures p.npcId == "" ==> id == p.objectName
  {
    if p.npcId == "" then p.objectName else p.npcId
  }

  /** `Role`: the configured role, "Citizen" when it is empty. */
  function Role(p: Persona): (role: string)
    ensures role != ""
    ensures p.role != "" ==> role == p.role
  {
    if p.role == "" then "Citizen" else p.role
  }

  /** `Configure`: each non-empty argument replaces its field; empty ones
      leave the field alone. The cooldown state is untouched. */
  function Configure(p: Persona, id: string, roleName: string, personaText: string, toneText: string): (r: Persona)
    ensures r.npcId == (if id != "" then id else p.npcId)
    ensures r.role == (if roleName != "" then roleName else p.role)
    ensures r.persona == (if personaText != "" then personaText else p.persona)
    ensures r.tone == (if toneText != "" then toneText else p.tone)
    ensures r.objectName == p.objectName && r.speakCooldownSeconds == p.speakCooldownSeconds
    ensures r.lastSpokeTime == p.lastSpokeTime
  {
    p.(npcId := if id != "" then id else p.npcId,
       role := if roleName != "" then roleName else p.role,
       persona := if personaText != "" then personaText else p.persona,
       tone := if toneText != "" then toneText else p.tone)
  }

  /** Configuring twice with the same arguments is the same as once, and an
      all-empty configuration changes nothing. */
  lemma ConfigureIdempotent(p: Persona, id: string, roleName: string, personaText: string, toneText: string)
    ensures var once := Configure(p, id, roleName, personaText, toneText);
      Configure(once, id, roleName, personaText, toneText) == once
    ensures Configure(p, "", "", "", "") == p
  {
  }

  /** `CanSpeak`: the cooldown has elapsed since the last utterance. */
  predicate CanSpeak(p: Persona, now: real) {
    now - p.lastSpokeTime >= p.speakCooldownSeconds
  }

  /** `MarkSpoke`: remember when the NPC last spoke. */
  function MarkSpoke(p: Persona, now: real): (r: Persona)
    ensures r.lastSpokeTime == now
    ensures NpcId(r) == NpcId(p) && Role(r) == Role(p) && r.speakCooldownSeconds == p.speakCooldownSeconds
  {
    p.(lastSpokeTime := now)
  }

  /** Right after speaking an NPC is silent for exactly its cooldown: it may
      speak again at `later` iff `later` is at least a cooldown after. */
  lemma CooldownAfterSpeaking(p: Persona, now: real, later: real)
    ensures CanSpeak(MarkSpoke(p, now), later) <==> later >= now + p.speakCooldownSeconds
    ensures p.speakCooldownSeconds > 0.0 ==> !CanSpeak(MarkSpoke(p, now), now)
  {
  }

  /** A fresh persona may speak from time 0 on under the default cooldown. */
  lemma FreshPersonaMaySpeak(name: string, now: real)
    requires now >= -993.0
    ensures CanSpeak(Persona(name), now)
    ensures NpcId(Persona(name)) == name && Role(Persona(name)) == "Citizen"
  {
  }
}

=== FILE: npc_role_routine.dfy ===
/** `NpcRoleRoutine`: an NPC walks between the landmarks its role belongs
    to. The role picks the anchors, the anchors found in the scene form the
    route, and each move either draws a random stop or takes the next one in
    order. The scene lookup, the random draws and the clock are parameters;
    path finding is not modelled. */
module NpcRoleRoutine {
  import opened Wrappers
  import I = Identifiers
  import R = OrganizationRoutine
  import S = NpcWitnessStatement

  /** The serialized default: every landmark once. */
  const DefaultFallback: seq<I.AnchorId> :=
    [I.StoreBuilding, I.StudioBuildingL1, I.ParkArea, I.AnchorId.Station, I.AnchorId.Cafe]

  /** `ResolveAnchorsForRole`: a working role gets its workplace alone;
      roles without one (and `None`) walk the fallback list. */
  function ResolveAnchorsForRole(role: I.RoleId, fallback: seq<I.AnchorId>): (r: seq<I.AnchorId>)
    ensures role.None? ==> r == fallback
    ensures role.Police? || role.Officer? || role.Investigator? ==> r == [I.AnchorId.Station]
    ensures role.Clerk? || role.Manager? ==> r == [I.StoreBuilding]
    ensures role.Elder? || role.Caretaker? ==> r == [I.ParkArea]
    ensures role.Barista? || role.CafeHost? ==> r == [I.AnchorId.Cafe]
    ensures role.Developer? || role.PM? || role.Release? || role.QA? ==> r == [I.StudioBuildingL1]
  {
    if role == I.RoleId.None then fallback
    else if role.Police? || role.Officer? || role.Investigator? then [I.AnchorId.Station]
    else if role.Clerk? || role.Manager? then [I.StoreBuilding]
    else if role.Elder? || role.Caretaker? then [I.ParkArea]
    else if role.Barista? || role.CafeHost? then [I.AnchorId.Cafe]
    else if role.Developer? || role.PM? || role.Release? || role.QA? then [I.StudioBuildingL1]
    else fallback
  }

  /** The place id a witness statement uses for the organisation an anchor
      belongs to. */
  function PlaceOfAnchor(a: I.AnchorId): string {
    match a
    case StoreBuilding => "Store"
    case StudioBuildingL1 => "Studio"
    case ParkArea => "Park"
    case Station => "Station"
    case Cafe => "Cafe"
    case None => ""
  }

  /** The walking routine agrees with where a witness of the same role says
      it works: a role with a home place (other than the media office, which
      has no landmark) walks to exactly that landmark, every other role walks
      the fallback list. */
  lemma RouteMatchesWitnessPlace(role: I.RoleId, fallback: seq<I.AnchorId>)
    ensures S.ResolvePlaceId(role) != "" && S.ResolvePlaceId(role) != "Media" ==>
      |ResolveAnchorsForRole(role, fallback)| == 1
      && PlaceOfAnchor(ResolveAnchorsForRole(role, fallback)[0]) == S.ResolvePlaceId(role)
    ensures S.ResolvePlaceId(role) == "" || S.ResolvePlaceId(role) == "Media" ==>
      ResolveAnchorsForRole(role, fallback) == fallback
  {
    match role
    case Reporter =>
      assert S.ResolvePlaceId(role) == "Media";
    case _ =>
  }

  /** The scene anchors of a list of targets, in order: targets without a
      scene name, or whose object is missing, are skipped. */
  function FoundAnchors(targets: seq<I.AnchorId>, found: string -> bool): (route: seq<string>)
    ensures |route| <= |targets|
    ensures forall name :: name in route ==> name != "" && found(name)
    ensures forall i :: 0 <= i < |targets| && targets[i] != I.AnchorId.None && found(I.ToAnchorName(targets[i])) ==>
      I.ToAnchorName(targets[i]) in route
  {
    if targets == [] then []
    else
      var name := I.ToAnchorName(targets[0]);
      var rest := FoundAnchors(targets[1..], found);
      assert forall i :: 1 <= i < |targets| ==> targets[1..][i - 1] == targets[i];
      if name != "" && found(name) then [name] + rest else rest
  }

  /** The positions of the targets that make it into the route, in order. */
  function RouteSources(targets: seq<I.AnchorId>, found: string -> bool): (idx: seq<nat>)
    ensures |idx| == |FoundAnchors(targets, found)|
    ensures forall k :: 0 <= k < |idx| ==> idx[k] < |targets|
  {
    if targets == [] then []
    else
      var name := I.ToAnchorName(targets[0]);
      var tail := RouteSources(targets[1..], found);
      var shifted := Shift(tail);
      if name != "" && found(name) then [0] + shifted else shifted
  }

  function Shift(idx: seq<nat>): (s: seq<nat>)
    ensures |s| == |idx| && forall k :: 0 <= k < |s| ==> s[k] == idx[k] + 1
  {
    seq(|idx|, k requires 0 <= k < |idx| => idx[k] + 1)
  }

  predicate Increasing(idx: seq<nat>) {
    forall k, l :: 0 <= k < l < |idx| ==> idx[k] < idx[l]
  }

  /** A target the route keeps: it has a scene name and the scene has it. */
  predicate Kept(t: I.AnchorId, found: string -> bool) {
    I.ToAnchorName(t) != "" && found(I.ToAnchorName(t))
  }

  /** The route is exactly the names of the kept targets, in target order:
      entry `k` names target `idx[k]`, the positions increase, and a target
      position is used exactly when the target is kept. */
  lemma FoundAnchorsInOrder(targets: seq<I.AnchorId>, found: string -> bool)
    ensures var idx, route := RouteSources(targets, found), FoundAnchors(targets, found);
      (forall k :: 0 <= k < |idx| ==> route[k] == I.ToAnchorName(targets[idx[k]]))
      && Increasing(idx)
      && (forall i :: 0 <= i < |targets| ==> (i in idx <==> Kept(targets[i], found)))
  {
    SourcesName(targets, found);
    SourcesIncrease(targets, found);
    SourcesExact(targets, found);
  }

  /** One step of `RouteSources` and `FoundAnchors`, unfolded. */
  lemma Unfold(targets: seq<I.AnchorId>, found: string -> bool)
    requires targets != []
    ensures var tail, rest := RouteSources(targets[1..], found), FoundAnchors(targets[1..], found);
      if Kept(targets[0], found) then
        RouteSources(targets, found) == [0] + Shift(tail)
        && FoundAnchors(targets, found) == [I.ToAnchorName(targets[0])] + rest
      else
        RouteSources(targets, found) == Shift(tail) && FoundAnchors(targets, found) == rest
  {
  }

  lemma {:induction false} SourcesName(targets: seq<I.AnchorId>, found: string -> bool)
    ensures var idx := RouteSources(targets, found);
      forall k :: 0 <= k < |idx| ==> FoundAnchors(targets, found)[k] == I.ToAnchorName(targets[idx[k]])
  {
    if targets != [] {
      SourcesName(targets[1..], found);
      Unfold(targets, found);
      NamesStep(targets, RouteSources(targets[1..], found), FoundAnchors(targets[1..], found),
                RouteSources(targets, found), FoundAnchors(targets, found));
    }
  }

  lemma NamesStep(targets: seq<I.AnchorId>, tail: seq<nat>, rest: seq<string>, idx: seq<nat>, route: seq<string>)
    requires targets != [] && |tail| == |rest|
    requires forall k :: 0 <= k < |tail| ==> tail[k] < |targets[1..]| && rest[k] == I.ToAnchorName(targets[1..][tail[k]])
    requires (idx == [0] + Shift(tail) && route == [I.ToAnchorName(targets[0])] + rest)
          || (idx == Shift(tail) && route == rest)
    ensures forall k :: 0 <= k < |idx| ==> route[k] == I.ToAnchorName(targets[idx[k]])
  {
    var shifted := Shift(tail);
    forall k | 0 <= k < |tail| ensures rest[k] == I.ToAnchorName(targets[shifted[k]]) {
      assert targets[1..][tail[k]] == targets[tail[k] + 1];
    }
  }

  lemma {:induction false} SourcesIncrease(targets: seq<I.AnchorId>, found: string -> bool)
    ensures Increasing(RouteSources(targets, found))
  {
    if targets != [] {
      SourcesIncrease(targets[1..], found);
      var tail := RouteSources(targets[1..], found);
      var shifted := Shift(tail);
      var idx := RouteSources(targets, found);
      forall k, l | 0 <= k < l < |shifted| ensures shifted[k] < shifted[l] {
        assert tail[k] < tail[l];
      }
      if Kept(targets[0], found) {
        assert idx == [0] + shifted;
        forall k, l | 0 <= k < l < |idx| ensures idx[k] < idx[l] {
          assert idx[l] == shifted[l - 1] >= 1;
          if k > 0 {
            assert idx[k] == shifted[k - 1];
          }
        }
      } else {
        assert idx == shifted;
      }
    }
  }

  lemma {:induction false} SourcesExact(targets: seq<I.AnchorId>, found: string -> bool)
    ensures var idx := RouteSources(targets, found);
      forall i :: 0 <= i < |targets| ==> (i in idx <==> Kept(targets[i], found))
  {
    if targets != [] {
      SourcesExact(targets[1..], found);
      Unfold(targets, found);
      ExactStep(targets, RouteSources(targets[1..], found), found);
    }
  }

  lemma ExactStep(targets: seq<I.AnchorId>, tail: seq<nat>, found: string -> bool)
    requires targets != []
    requires forall i :: 0 <= i < |targets[1..]| ==> (i in tail <==> Kept(targets[1..][i], found))
    ensures var idx := (if Kept(targets[0], found) then [0] else []) + Shift(tail);
      forall i :: 0 <= i < |targets| ==> (i in idx <==> Kept(targets[i], found))
  {
    var shifted := Shift(tail);
    forall i | 1 <= i < |targets| ensures i in shifted <==> Kept(targets[i], found) {
      assert targets[1..][i - 1] == targets[i];
      if i in shifted {
        var k :| 0 <= k < |shifted| && shifted[k] == i;
        assert tail[k] == i - 1;
      }
      if i - 1 in tail {
        var k :| 0 <= k < |tail| && tail[k] == i - 1;
        assert shifted[k] == i;
      }
    }
    assert 0 !in shifted;
  }

  /** With every landmark present, the route names each target in order. */
  lemma {:induction false} AllFoundKeepsOrder(targets: seq<I.AnchorId>, found: string -> bool)
    requires forall i :: 0 <= i < |targets| ==> targets[i] != I.AnchorId.None && found(I.ToAnchorName(targets[i]))
    ensures |FoundAnchors(targets, found)| == |targets|
    ensures forall i :: 0 <= i < |targets| ==> FoundAnchors(targets, found)[i] == I.ToAnchorName(targets[i])
  {
    if targets != [] {
      assert forall i :: 1 <= i < |targets| ==> targets[1..][i - 1] == targets[i];
      AllFoundKeepsOrder(targets[1..], found);
    }
  }

  /** The walking state: the route, the next stop when walking in order,
      whether stops are drawn at random, the patrol switch and the time of
      the next move. */
  datatype Routine = Routine(
    route: seq<string>,
    routeIndex: int := 0,
    randomizeRoute: bool := true,
    disableSimplePatrol: bool := true,
    patrolEnabled: bool := true,
    nextMoveTime: real := 0.0)

  /** The next stop in order is always a stop of a non-empty route. */
  predicate Valid(r: Routine) {
    r.routeIndex >= 0 && (|r.route| > 0 ==> r.routeIndex < |r.route|)
  }

  /** `DisableSimplePatrolIfNeeded`: a non-empty route switches the simple
      patrol off when so configured; nothing ever switches it back on. */
  function DisablePatrolIfNeeded(r: Routine): (r': Routine)
    ensures r'.patrolEnabled <==> r.patrolEnabled && !(r.disableSimplePatrol && |r.route| > 0)
    ensures r' == r.(patrolEnabled := r'.patrolEnabled)
  {
    if !r.disableSimplePatrol || |r.route| == 0 then r else r.(patrolEnabled := false)
  }

  /** `BuildRoute`: with the anchor root present, the route is the found
      landmarks of the NPC's role; without it the route is empty. */
  function BuildRoute(r: Routine, rootFound: bool, role: I.RoleId, fallback: seq<I.AnchorId>,
                      found: string -> bool): (r': Routine)
    ensures !rootFound ==> r' == r.(route := [])
    ensures rootFound ==> r'.route == FoundAnchors(ResolveAnchorsForRole(role, fallback), found)
    ensures r'.routeIndex == r.routeIndex && r'.nextMoveTime == r.nextMoveTime
    ensures Valid(r) && r.routeIndex == 0 ==> Valid(r')
  {
    if !rootFound then r.(route := [])
    else DisablePatrolIfNeeded(r.(route := FoundAnchors(ResolveAnchorsForRole(role, fallback), found)))
  }

  /** `Configure`: a missing list only empties the route; a given list
      becomes the route from its first stop, with a fresh dwell. */
  function Configure(r: Routine, anchors: Option<seq<string>>, now: real, dwellDraw: real): (r': Routine)
    ensures anchors.None? ==> r' == r.(route := [])
    ensures anchors.Some? ==> r'.route == anchors.value && r'.routeIndex == 0 && r'.nextMoveTime == now + dwellDraw
    ensures Valid(r) ==> Valid(r')
  {
    if anchors.None? then r.(route := [])
    else DisablePatrolIfNeeded(r.(route := anchors.value, routeIndex := 0, nextMoveTime := now + dwellDraw))
  }

  /** `MoveNext`: the stop to walk to and the state after choosing it. A
      random walk takes the drawn stop and leaves the order alone; an ordered
      walk takes the next stop and advances cyclically. */
  function MoveNext(r: Routine, draw: int, now: real, dwellDraw: real): (res: (Routine, Option<string>))
    requires Valid(r)
    requires r.randomizeRoute && |r.route| > 0 ==> 0 <= draw < |r.route|
    ensures |r.route| == 0 ==> res == (r, None)
    ensures |r.route| > 0 ==> res.1.Some? && res.1.value in r.route && res.0.nextMoveTime == now + dwellDraw
    ensures |r.route| > 0 && r.randomizeRoute ==> res.1.value == r.route[draw] && res.0.routeIndex == r.routeIndex
    ensures |r.route| > 0 && !r.randomizeRoute ==>
      res.1.value == r.route[r.routeIndex] && res.0.routeIndex == (r.routeIndex + 1) % |r.route|
    ensures Valid(res.0)
    ensures res.0 == r.(routeIndex := res.0.routeIndex, nextMoveTime := res.0.nextMoveTime)
  {
    if |r.route| == 0 then (r, None)
    else if r.randomizeRoute then (r.(nextMoveTime := now + dwellDraw), Some(r.route[draw]))
    else
      (r.(routeIndex := (r.routeIndex + 1) % |r.route|, nextMoveTime := now + dwellDraw),
       Some(r.route[r.routeIndex]))
  }

  /** `Update`: a move happens only for an enabled agent on the navigation
      mesh, outside any interior, with a route, once the dwell is over and
      the previous stop is reached. */
  function Update(r: Routine, agentReady: bool, inside: bool, now: real, arrived: bool,
                  draw: int, dwellDraw: real): (res: (Routine, Option<string>))
    requires Valid(r)
    requires r.randomizeRoute && |r.route| > 0 ==> 0 <= draw < |r.route|
    ensures res.1.Some? <==> agentReady && !inside && |r.route| > 0 && now >= r.nextMoveTime && arrived
    ensures res.1.None? ==> res.0 == r
    ensures res.1.Some? ==> res == MoveNext(r, draw, now, dwellDraw)
  {
    if !agentReady || inside || |r.route| == 0 || now < r.nextMoveTime || !arrived then (r, None)
    else MoveNext(r, draw, now, dwellDraw)
  }

  /** `k` ordered moves: the final state and the stops taken. */
  function Walk(r: Routine, k: nat, now: real, dwellDraw: real): (res: (Routine, seq<string>))
    requires Valid(r) && !r.randomizeRoute
    ensures Valid(res.0) && res.0.route == r.route && !res.0.randomizeRoute
    decreases k
  {
    if k == 0 then (r, [])
    else
      var prev := Walk(r, k - 1, now, dwellDraw);
      var step := MoveNext(prev.0, 0, now, dwellDraw);
      (step.0, prev.1 + (if step.1.Some? then [step.1.value] else []))
  }

  /** Walking in order visits the route cyclically: after `k` moves the
      next stop is `k` further on, and the `j`-th stop taken is the route's
      stop `j` places after the start. */
  lemma {:induction false} WalkIsCyclic(r: Routine, k: nat, now: real, dwellDraw: real)
    requires Valid(r) && !r.randomizeRoute && |r.route| > 0
    ensures Walk(r, k, now, dwellDraw).0.routeIndex == (r.routeIndex + k) % |r.route|
    ensures |Walk(r, k, now, dwellDraw).1| == k
    ensures forall j :: 0 <= j < k ==> Walk(r, k, now, dwellDraw).1[j] == r.route[(r.routeIndex + j) % |r.route|]
  {
    var n := |r.route|;
    if k == 0 {
      R.ModUnique(r.routeIndex, n, 0, r.routeIndex);
    } else {
      WalkIsCyclic(r, k - 1, now, dwellDraw);
      var prev := Walk(r, k - 1, now, dwellDraw);
      var a := r.routeIndex + (k - 1);
      assert prev.0.routeIndex == a % n;
      R.ModPlusOne(a, n);
      var step := MoveNext(prev.0, 0, now, dwellDraw);
      assert step.1.value == r.route[a % n];
      assert Walk(r, k, now, dwellDraw).1 == prev.1 + [step.1.value];
    }
  }

  /** Starting at the first stop, one lap of ordered moves takes exactly the
      route, in order, and comes back to the first stop. */
  lemma FullLapIsRoute(r: Routine, now: real, dwellDraw: real)
    requires Valid(r) && !r.randomizeRoute && |r.route| > 0 && r.routeIndex == 0
    ensures Walk(r, |r.route|, now, dwellDraw).1 == r.route
    ensures Walk(r, |r.route|, now, dwellDraw).0.routeIndex == 0
  {
    var n := |r.route|;
    WalkIsCyclic(r, n, now, dwellDraw);
    R.ModUnique(n, n, 1, 0);
    forall j | 0 <= j < n
      ensures j % n == j
    {
      R.ModUnique(j, n, 0, j);
    }
  }
}

=== FILE: npc_witness_statement.dfy ===
/** `NpcWitnessStatement`: the player asks an NPC for testimony; the NPC
    logs a statement, explanation or rebuttal built from the newest entry of
    its context. The context's newest entry, the NPC's parsed role and the
    distances to the scene's zones are inputs; positions are `Vec3`s. */
module NpcWitnessStatement {
  import opened Wrappers
  import opened Events
  import opened Numeric
  import opened SpatialBlackboard
  import I = Identifiers
  import N = NpcPersona
  import L = DialogueLineLimiter

  /** The NPC's persona together with its parsed `RoleId`. */
  datatype Speaker = Speaker(persona: N.Persona, roleId: I.RoleId)

  datatype Witness = Witness(
    objectName: string,
    position: Vec3,
    speaker: Option<Speaker> := None,
    hasLog: bool := true,
    promptText: string := "E: 증언 요청",
    interactionCooldownSeconds: real := 8.0,
    maxInteractDistance: real := 2.4,
    maxStatementChars: int := 90,
    lastInteractTime: real := -999.0)

  /** A scene zone as seen from the NPC: its id and its distance. */
  datatype ZoneRef = ZoneRef(zoneId: string, distance: real)

  function SqrDistance(a: Vec3, b: Vec3): real {
    (a.x - b.x) * (a.x - b.x) + (a.y - b.y) * (a.y - b.y) + (a.z - b.z) * (a.z - b.z)
  }

  /** `IsWithinRange`: no limit when the maximum is not positive, otherwise
      the squared distance is at most the squared maximum. */
  predicate IsWithinRange(w: Witness, actorPosition: Vec3) {
    w.maxInteractDistance <= 0.0
    || SqrDistance(actorPosition, w.position) <= w.maxInteractDistance * w.maxInteractDistance
  }

  /** A larger range admits everyone a smaller one does. */
  lemma RangeMonotone(w: Witness, actorPosition: Vec3, larger: real)
    requires w.maxInteractDistance > 0.0 && larger >= w.maxInteractDistance
    requires IsWithinRange(w, actorPosition)
    ensures IsWithinRange(w.(maxInteractDistance := larger), actorPosition)
  {
    var m := w.maxInteractDistance;
    assert larger * larger >= m * m by {
      assert larger * larger - m * m == (larger - m) * (larger + m);
    }
  }

  /** `CanInteract`: a log, an elapsed cooldown, and the actor in range. */
  predicate CanInteract(w: Witness, now: real, actorPosition: Vec3) {
    w.hasLog && now - w.lastInteractTime >= w.interactionCooldownSeconds && IsWithinRange(w, actorPosition)
  }

  /** `ResolveStatementType`: procedure entries get an explanation, gossip a
      rebuttal, anything else (or no entry) a plain statement. */
  function ResolveStatementType(latest: Option<BlackboardEntry>): (t: EventType)
    ensures t in {StatementGiven, ExplanationGiven, RebuttalGiven}
    ensures t == ExplanationGiven <==> latest.Some? && latest.value.category == Procedure
    ensures t == RebuttalGiven <==> latest.Some? && latest.value.category == Gossip
  {
    if latest.None? then StatementGiven
    else match latest.value.category
      case Procedure => ExplanationGiven
      case Gossip => RebuttalGiven
      case _ => StatementGiven
  }

  /** `ResolvePlaceId`: each working role's home place, "" for the rest. */
  function ResolvePlaceId(roleId: I.RoleId): (p: string)
    ensures p == "" <==> (roleId.None? || roleId.Citizen? || roleId.Tourist? || roleId.Resident? || roleId.Student?
                          || roleId.Courier? || roleId.FacilityTech?)
  {
    match roleId
    case Clerk => "Store"
    case Manager => "Store"
    case PM => "Studio"
    case Developer => "Studio"
    case QA => "Studio"
    case Release => "Studio"
    case Elder => "Park"
    case Caretaker => "Park"
    case Police => "Station"
    case Officer => "Station"
    case Investigator => "Station"
    case Barista => "Cafe"
    case CafeHost => "Cafe"
    case Reporter => "Media"
    case _ => ""
  }

  /** The stock testimony of a role with nothing in its context. */
  function FallbackTestimony(roleId: I.RoleId, roleName: string): string {
    match roleId
    case Manager => "매장 상황은 평소와 크게 다르지 않습니다."
    case QA => "최근 테스트에서 특이 로그는 없었습니다."
    case PM => "현재 절차는 정상 진행 중입니다."
    case Elder => "공원 쪽은 조용합니다."
    case Caretaker => "시설 점검 결과 이상 없습니다."
    case Officer => "현재 보고받은 내용은 없습니다."
    case Police => "현재 보고받은 내용은 없습니다."
    case _ => roleName + "의 증언을 확보했다."
  }

  /** `BuildStatementNote`: the newest entry's text when there is one,
      otherwise the role's stock line, clamped to one line of at most
      `maxChars` characters either way. */
  function BuildStatementNote(latest: Option<BlackboardEntry>, roleName: string, roleId: I.RoleId, maxChars: int)
    : (note: string)
    ensures |note| <= Max(maxChars, 0)
    ensures L.NoLineBreaks(note)
    ensures latest.Some? && latest.value.text != "" ==> note == L.ClampLine(latest.value.text, maxChars)
    ensures !(latest.Some? && latest.value.text != "") ==> note == L.ClampLine(FallbackTestimony(roleId, roleName), maxChars)
  {
    if latest.Some? && latest.value.text != "" then L.ClampLine(latest.value.text, maxChars)
    else L.ClampLine(FallbackTestimony(roleId, roleName), maxChars)
  }

  /** The first present zone strictly nearer than every earlier one. */
  function Closest(zones: seq<Option<ZoneRef>>): (r: Option<ZoneRef>)
    ensures r.None? <==> forall i :: 0 <= i < |zones| ==> zones[i].None?
    ensures r.Some? ==> exists i :: 0 <= i < |zones| && zones[i] == r
    ensures r.Some? ==> forall i :: 0 <= i < |zones| && zones[i].Some? ==> r.value.distance <= zones[i].value.distance
    decreases |zones|
  {
    if zones == [] then None
    else
      var rest := Closest(zones[..|zones| - 1]);
      var last := zones[|zones| - 1];
      assert forall i :: 0 <= i < |zones| - 1 ==> zones[..|zones| - 1][i] == zones[i];
      if last.None? then rest
      else if rest.None? || last.value.distance < rest.value.distance then last
      else rest
  }

  /** `ResolveZoneId`: the nearest zone's id ("" when there is none). */
  function ResolveZoneId(zones: seq<Option<ZoneRef>>): string {
    var c := Closest(zones);
    if c.Some? then c.value.zoneId else ""
  }

  /** The testimony record and the witness after giving it. */
  function Interact(w: Witness, now: real, actorPosition: Vec3, latest: Option<BlackboardEntry>,
                    zones: seq<Option<ZoneRef>>): (r: (Witness, Option<EventRecord>))
    ensures !CanInteract(w, now, actorPosition) ==> r == (w, None)
    ensures CanInteract(w, now, actorPosition) ==> r.0 == w.(lastInteractTime := now) && r.1.Some?
    ensures r.1.Some? ==>
      var rec := r.1.value;
      var roleName := if w.speaker.Some? then N.Role(w.speaker.value.persona) else "Citizen";
      rec.eventType == ResolveStatementType(latest)
      && rec.actorRole == roleName
      && rec.actorId == (if w.speaker.Some? then N.NpcId(w.speaker.value.persona) else w.objectName)
      && rec.zoneId == ResolveZoneId(zones)
      && (rec.zoneId != "" ==> rec.placeId == "")
      && (rec.zoneId == "" ==> rec.placeId == ResolvePlaceId(if w.speaker.Some? then w.speaker.value.roleId else I.Citizen))
      && 0 <= rec.severity <= 3
      && (latest.None? ==> rec.severity == 1 && rec.trust == 0.5 && rec.topic == "" && rec.sourceId == "")
      && (latest.Some? ==> rec.topic == latest.value.topic && rec.sourceId == latest.value.sourceId
                           && rec.trust == latest.value.trust)
      && |rec.note| <= Max(w.maxStatementChars, 0)
      && (latest.Some? ==> rec.severity == Clamp(latest.value.severity, 0, 3))
      && (latest.Some? && latest.value.text != "" ==> rec.note == L.ClampLine(latest.value.text, w.maxStatementChars))
      && rec.note == BuildStatementNote(latest, roleName, if w.speaker.Some? then w.speaker.value.roleId else I.Citizen,
                                        w.maxStatementChars)
  {
    if !CanInteract(w, now, actorPosition) then (w, None)
    else
      var roleId := if w.speaker.Some? then w.speaker.value.roleId else I.Citizen;
      var roleName := if w.speaker.Some? then N.Role(w.speaker.value.persona) else "Citizen";
      var zoneId := ResolveZoneId(zones);
      var record := EventRecord(
        actorId := if w.speaker.Some? then N.NpcId(w.speaker.value.persona) else w.objectName,
        actorRole := roleName,
        eventType := ResolveStatementType(latest),
        note := BuildStatementNote(latest, roleName, roleId, w.maxStatementChars),
        topic := if latest.Some? then latest.value.topic else "",
        zoneId := zoneId,
        placeId := if zoneId == "" then ResolvePlaceId(roleId) else "",
        severity := if latest.Some? then Clamp(latest.value.severity, 0, 3) else 1,
        trust := if latest.Some? then latest.value.trust else 0.5,
        sourceId := if latest.Some? then latest.value.sourceId else "");
      (w.(lastInteractTime := now), Some(record))
  }

  /** With no zone in the scene the record names the speaker's home place,
      and no place at all for roles without one. */
  lemma NoZoneUsesRolePlace(w: Witness, now: real, actorPosition: Vec3, latest: Option<BlackboardEntry>,
                            zones: seq<Option<ZoneRef>>, p: N.Persona, roleId: I.RoleId)
    requires w.speaker == Some(Speaker(p, roleId)) && CanInteract(w, now, actorPosition)
    requires forall i :: 0 <= i < |zones| ==> zones[i].None?
    ensures var rec := Interact(w, now, actorPosition, latest, zones).1.value;
      rec.zoneId == "" && rec.placeId == ResolvePlaceId(roleId)
      && (rec.placeId == "" <==> (roleId.None? || roleId.Citizen? || roleId.Tourist? || roleId.Resident?
                                  || roleId.Student? || roleId.Courier? || roleId.FacilityTech?))
  {
    assert ResolveZoneId(zones) == "";
  }

  /** Asking twice within the cooldown yields one testimony. */
  lemma CooldownBlocksRepeat(w: Witness, now: real, later: real, actorPosition: Vec3,
                             latest: Option<BlackboardEntry>, zones: seq<Option<ZoneRef>>)
    requires CanInteract(w, now, actorPosition) && now <= later < now + w.interactionCooldownSeconds
    ensures Interact(Interact(w, now, actorPosition, latest, zones).0, later, actorPosition, latest, zones).1.None?
  {
  }

  /** `GetWorldStateSummary`. */
  function Summary(w: Witness): (s: string)
    ensures w.speaker.None? ==> s == "Witness:Witness"
  {
    "Witness:" + (if w.speaker.Some? then N.Role(w.speaker.value.persona) else "Witness")
  }
}

=== FILE: numeric.dfy ===
/** Unity `Mathf` helpers and the two rounding modes the game relies on.
    Floats are modelled as `real`; `float` precision is not modelled. */
module Numeric {

  function Max(a: int, b: int): int { if a >= b then a else b }
  function Min(a: int, b: int): int { if a <= b then a else b }
  function MaxR(a: real, b: real): real { if a >= b then a else b }
  function MinR(a: real, b: real): real { if a <= b then a else b }

  /** `Mathf.Clamp(int, min, max)`: the lower bound is checked first. */
  function Clamp(v: int, lo: int, hi: int): (r: int)
    ensures lo <= hi ==> lo <= r <= hi
    ensures lo <= v <= hi ==> r == v
  {
    if v < lo then lo else if v > hi then hi else v
  }

  /** `Mathf.Clamp(float, min, max)`: the same clamp as `Clamp`, on reals. */
  function ClampR(v: real, lo: real, hi: real): (r: real)
    ensures lo <= hi ==> lo <= r <= hi
    ensures lo <= v <= hi ==> r == v
  {
    if v < lo then lo else if v > hi then hi else v
  }

  /** `Mathf.Clamp01`. */
  function Clamp01(v: real): (r: real)
    ensures 0.0 <= r <= 1.0
    ensures 0.0 <= v <= 1.0 ==> r == v
  {
    ClampR(v, 0.0, 1.0)
  }

  /** `Mathf.RoundToInt`, which rounds halves to the even neighbour. */
  function RoundToInt(x: real): (r: int)
    ensures x - 0.5 <= r as real <= x + 0.5
    ensures x - 0.5 == r as real || x + 0.5 == r as real ==> r % 2 == 0
  {
    var f := x.Floor;
    var frac := x - f as real;
    if frac < 0.5 then f
    else if frac > 0.5 then f + 1
    else if f % 2 == 0 then f
    else f + 1
  }

  /** The integer a `{x:0}` .NET format string prints: halves round away from zero. */
  function RoundAwayFromZero(x: real): (r: int)
    ensures x - 0.5 <= r as real <= x + 0.5
    ensures x >= 0.0 ==> r >= 0 && x - 0.5 < r as real
    ensures x < 0.0 ==> r as real < x + 0.5
  {
    if x >= 0.0 then (x + 0.5).Floor else -((-x + 0.5).Floor)
  }
}

=== FILE: organization_catalog.dfy ===
/** `OrganizationCatalog`: the authored goal, procedures, resources,
    artifacts and roles of each organisation, kept in a dictionary keyed by
    id with the ordinal (case-sensitive) comparer. */
module OrganizationCatalog {
  import opened Wrappers

  datatype Definition = Definition(id: string, goal: string, procedures: seq<string>, resources: seq<string>,
                                   artifacts: seq<string>, roles: seq<string>)

  type Catalog = map<string, Definition>

  /** `Add`: a definition with an empty id is skipped; otherwise it is stored
      under its id, replacing any earlier one. */
  function Add(c: Catalog, d: Definition): (r: Catalog)
    ensures d.id == "" ==> r == c
    ensures d.id != "" ==> d.id in r && r[d.id] == d
    ensures forall k :: k != d.id ==> (k in r <==> k in c) && (k in c ==> r[k] == c[k])
  {
    if d.id == "" then c else c[d.id := d]
  }

  /** Adds every definition in order. */
  function AddAll(c: Catalog, ds: seq<Definition>): (r: Catalog)
    decreases |ds|
  {
    if ds == [] then c else AddAll(Add(c, ds[0]), ds[1..])
  }

  /** Reference: does some definition in `ds` carry id `k`? */
  predicate Defines(ds: seq<Definition>, k: string) {
    exists i :: 0 <= i < |ds| && ds[i].id == k
  }

  /** Reference: the last definition in `ds` with id `k`. */
  function LastWith(ds: seq<Definition>, k: string): (r: Option<Definition>)
    ensures r.Some? <==> Defines(ds, k)
    ensures r.Some? ==>
      exists i :: 0 <= i < |ds| && ds[i] == r.value && r.value.id == k && forall j :: i < j < |ds| ==> ds[j].id != k
    decreases |ds|
  {
    if ds == [] then None
    else if ds[|ds| - 1].id == k then Some(ds[|ds| - 1])
    else
      var r := LastWith(ds[..|ds| - 1], k);
      assert forall i :: 0 <= i < |ds| - 1 ==> ds[..|ds| - 1][i] == ds[i];
      r
  }

  /** Adding in order keeps the last definition for each non-empty id; keys
      never defined keep their old entry. */
  lemma {:induction false} AddAllIsLastWins(c: Catalog, ds: seq<Definition>, k: string)
    requires k != ""
    ensures k in AddAll(c, ds) <==> k in c || Defines(ds, k)
    ensures LastWith(ds, k).Some? ==> AddAll(c, ds)[k] == LastWith(ds, k).value
    ensures !Defines(ds, k) && k in c ==> AddAll(c, ds)[k] == c[k]
    decreases |ds|
  {
    if ds != [] {
      var rest := ds[1..];
      AddAllIsLastWins(Add(c, ds[0]), rest, k);
      DefinesCons(ds, k);
      LastWithCons(ds, k);
    }
  }

  /** A list defines `k` when its head or its tail does. */
  lemma DefinesCons(ds: seq<Definition>, k: string)
    requires ds != []
    ensures Defines(ds, k) <==> ds[0].id == k || Defines(ds[1..], k)
  {
    var rest := ds[1..];
    if Defines(rest, k) {
      var i :| 0 <= i < |rest| && rest[i].id == k;
      assert ds[i + 1].id == k;
    }
    if Defines(ds, k) && ds[0].id != k {
      var i :| 0 <= i < |ds| && ds[i].id == k;
      assert rest[i - 1].id == k;
    }
  }

  /** The last match in `ds` is the last match in its tail, unless the tail
      has none, in which case it is the head (if that matches). */
  lemma {:induction false} LastWithCons(ds: seq<Definition>, k: string)
    requires ds != []
    ensures LastWith(ds, k) == if LastWith(ds[1..], k).Some? then LastWith(ds[1..], k)
                               else if ds[0].id == k then Some(ds[0]) else None
    decreases |ds|
  {
    var n := |ds|;
    if n > 1 && ds[n - 1].id != k {
      var init := ds[..n - 1];
      LastWithCons(init, k);
      assert init[1..] == ds[1..][..|ds[1..]| - 1];
      assert init[0] == ds[0];
    } else if n > 1 {
      assert ds[1..][|ds[1..]| - 1] == ds[n - 1];
    }
  }

  /** `TryGet`: an empty id is never found; otherwise plain dictionary lookup. */
  function TryGet(c: Catalog, id: string): (r: Option<Definition>)
    ensures id == "" ==> r.None?
    ensures r.Some? <==> id != "" && id in c
    ensures r.Some? ==> r.value == c[id]
  {
    if id != "" && id in c then Some(c[id]) else None
  }

  /** The definitions the static constructor adds, in order. */
  const Authored: seq<Definition> := [
    Definition("Studio", "RC 제출/릴리즈 안정화",
               ["칸반 갱신", "패치노트", "승인", "RC 삽입"], ["칸반 보드", "라운지", "서버 슬롯"],
               ["칸반 로그", "패치노트", "승인 노트", "RC 스트립"], ["PM", "Developer", "QA", "Release"]),
    Definition("Station", "경범 처리/재발 방지",
               ["신고 접수", "현장 확인", "증거 수집", "심문", "판정"], ["티켓 발부", "프린터", "캡처 보드"],
               ["위반 티켓", "CCTV 캡처", "사건 로그 스트립"], ["Police", "Officer", "Investigator"]),
    Definition("Store", "품절 0/라벨 갱신/거래 질서 유지",
               ["라벨 점검", "재고 갱신", "카운터 규칙"], ["라벨 시스템", "카운터"],
               ["가격/품절 라벨", "거래 메모"], ["Clerk", "Manager"]),
    Definition("Park", "좌석/소음/촬영 규범 유지",
               ["현장 경고", "조치", "보고서"], ["게시판", "조치 권한"],
               ["조치 보고", "게시판 공지", "민원 메모"], ["Elder", "Caretaker"]),
    Definition("Cafe", "주문 질서/좌석 회전/소음 관리",
               ["주문", "대기", "좌석 안내", "정리"], ["주문대", "번호표", "좌석표"],
               ["주문 메모", "좌석/정리 로그"], ["Barista", "CafeHost"]),
    Definition("Delivery", "정시 배송/출입 규정 준수",
               ["픽업", "출입 확인", "수취 서명", "반출"], ["배송 카트", "출입 체크리스트"],
               ["배송 라벨", "수령 서명 로그"], ["Courier"]),
    Definition("Facility", "시설 안전 유지/장애 최소화",
               ["정기 점검", "수리 요청", "작업 승인", "완료 보고"], ["점검 체크리스트", "작업 허가서"],
               ["점검 로그", "수리 티켓"], ["FacilityTech"]),
    Definition("Media", "촬영 허가 준수/촬영 구역 안전 유지",
               ["사전 허가", "구역 표시", "촬영", "반납"], ["촬영 장비", "허가서"],
               ["촬영 허가서", "촬영 로그"], ["Reporter"])
  ]

  /** The catalog as the static constructor leaves it. */
  function Definitions(): Catalog {
    AddAll(map[], Authored)
  }

  /** The authored ids, in order. */
  function AuthoredIds(): (ids: seq<string>)
    ensures |ids| == |Authored| && forall i :: 0 <= i < |Authored| ==> Authored[i].id == ids[i]
  {
    ["Studio", "Station", "Store", "Park", "Cafe", "Delivery", "Facility", "Media"]
  }

  predicate DistinctIds(ds: seq<Definition>) {
    forall a, b :: 0 <= a < b < |ds| ==> ds[a].id != ds[b].id
  }

  /** With distinct ids, each definition is the last (only) one with its id. */
  lemma LastWithDistinct(ds: seq<Definition>, i: nat)
    requires DistinctIds(ds) && i < |ds|
    ensures LastWith(ds, ds[i].id) == Some(ds[i])
  {
    assert Defines(ds, ds[i].id);
    var r := LastWith(ds, ds[i].id);
    var k :| 0 <= k < |ds| && ds[k] == r.value && r.value.id == ds[i].id
      && forall j :: k < j < |ds| ==> ds[j].id != ds[i].id;
    assert k == i;
  }

  lemma AuthoredDistinct()
    ensures DistinctIds(Authored)
  {
    var ids := AuthoredIds();
    assert forall a, b :: 0 <= a < b < |ids| ==> ids[a] != ids[b];
  }

  /** With distinct non-empty ids, every definition is retrievable from the
      catalog built from them. */
  lemma Retrievable(ds: seq<Definition>, i: nat)
    requires DistinctIds(ds) && i < |ds| && ds[i].id != ""
    ensures TryGet(AddAll(map[], ds), ds[i].id) == Some(ds[i])
  {
    LastWithDistinct(ds, i);
    AddAllIsLastWins(map[], ds, ds[i].id);
  }

  /** Every authored organisation is retrievable by its exact id. */
  lemma AuthoredRetrievable(i: nat)
    requires i < |Authored|
    ensures TryGet(Definitions(), Authored[i].id) == Some(Authored[i])
  {
    AuthoredDistinct();
    var ids := AuthoredIds();
    Retrievable(Authored, i);
  }

  /** An id no definition carries is not retrievable. */
  lemma NotRetrievable(ds: seq<Definition>, k: string)
    requires forall i :: 0 <= i < |ds| ==> ds[i].id != k
    ensures TryGet(AddAll(map[], ds), k).None?
  {
    if k != "" {
      AddAllIsLastWins(map[], ds, k);
    }
  }

  /** The lookup is case-sensitive: "studio" names no organisation. */
  lemma LookupIsCaseSensitive()
    ensures TryGet(Definitions(), "studio").None?
  {
    var ids := AuthoredIds();
    assert forall i :: 0 <= i < |ids| ==> ids[i] != "studio";
    NotRetrievable(Authored, "studio");
  }
}

=== FILE: organization_routine.dfy ===
/** `OrganizationRoutineSystem`: eight organisations that each run their own
    procedure on a timer. Each organisation cycles through a fixed list of
    stages; a stage records one procedure event and may also record a rule
    violation every n-th time its counter is bumped. The routine is kept as
    data (`Stages`) and one generic step. The clock, whether each anchor was
    found in the scene and the log's presence are parameters; moving actors
    to their anchors is not modelled. */
module OrganizationRoutine {
  import opened Wrappers
  import opened Events

  datatype Org = Studio | Store | Park | Station | Cafe | Delivery | Facility | Media

  /** The organisations in the order `Update` visits them. */
  const AllOrgs: seq<Org> := [Studio, Store, Park, Station, Cafe, Delivery, Facility, Media]

  /** One recorded procedure: who does what, where, in which category. */
  datatype Action = Action(actorId: string, placeId: string, zoneId: string, eventType: EventType,
                           category: EventCategory, note: string, ruleId: string)

  /** "Record a violation every `interval`-th time counter `counter` is bumped." */
  datatype ViolationRule = ViolationRule(ruleId: string, note: string, counter: nat, interval: int)

  datatype Stage = Stage(action: Action, violation: Option<ViolationRule>)

  /** An organisation's stages, the number of its counters, and whether it
      stays idle while its anchor is missing. */
  datatype Routine = Routine(stages: seq<Stage>, counters: nat, needsAnchor: bool)

  /** Every stage's violation rule names one of the routine's counters. */
  predicate WellFormed(rt: Routine) {
    |rt.stages| >= 1
    && forall i :: 0 <= i < |rt.stages| && rt.stages[i].violation.Some? ==>
      rt.stages[i].violation.value.counter < rt.counters
  }

  function Proc(actor: string, place: string, zone: string, t: EventType, note: string, rule: string): Action {
    Action(actor, place, zone, t, Procedure, note, rule)
  }
  function OrgAct(actor: string, place: string, zone: string, t: EventType, note: string, rule: string): Action {
    Action(actor, place, zone, t, Organization, note, rule)
  }
  function Evid(actor: string, place: string, zone: string, t: EventType, note: string, rule: string): Action {
    Action(actor, place, zone, t, EventCategory.Evidence, note, rule)
  }

  /** The authored routines. The studio's three violation rules share one
      counter; the store keeps a label counter and a queue counter. */
  function RoutineOf(o: Org): (r: Routine)
    ensures WellFormed(r)
  {
    match o
    case Studio => StudioRoutine()
    case Store => StoreRoutine()
    case Park => ParkRoutine()
    case Station => StationRoutine()
    case Cafe => CafeRoutine()
    case Delivery => DeliveryRoutine()
    case Facility => FacilityRoutine()
    case Media => MediaRoutine()
  }

  /** The studio, the store and the park run whether or not their anchors
      were found; the others stay idle without theirs. */
  lemma AnchorNeeded(o: Org)
    ensures RoutineOf(o).needsAnchor <==> o !in {Studio, Store, Park}
  {
  }

  /** The studio: Kanban, patch notes, approval, RC insert; three violation
      rules on one shared counter. */
  function StudioRoutine(): (r: Routine)
    ensures WellFormed(r) && |r.stages| == 4 && !r.needsAnchor
  {
    Routine([
      Stage(Proc("PM", "Studio", "StudioPhoto", TaskStarted, "칸반 갱신", "PROC_STUDIO_KANBAN"), None),
      Stage(Proc("Developer", "Studio", "StudioPhoto", TaskCompleted, "패치노트 작성", "PROC_STUDIO_PATCH"),
            Some(ViolationRule("PROC_NOTE_MISSING", "패치노트 누락 의심", 0, 4))),
      Stage(Proc("PM", "Studio", "StudioPhoto", ApprovalGranted, "PM 승인", "PROC_STUDIO_APPROVAL"),
            Some(ViolationRule("PROC_APPROVAL_DELAY", "승인 지연 의심", 0, 6))),
      Stage(Proc("Release", "Studio", "StudioPhoto", RcInserted, "RC 삽입", "PROC_STUDIO_RC"),
            Some(ViolationRule("PROC_RC_SKIP", "RC 절차 누락 의심", 0, 5)))], 1, false)
  }

  /** The store: price label, payment, queue; a label counter and a queue
      counter. */
  function StoreRoutine(): (r: Routine)
    ensures WellFormed(r) && |r.stages| == 3 && !r.needsAnchor
  {
    Routine([
      Stage(OrgAct("Clerk", "Store", "StoreQueue", LabelChanged, "가격 라벨 갱신", "PROC_STORE_LABEL"),
            Some(ViolationRule("R_LABEL", "라벨 오류 의심", 0, 3))),
      Stage(OrgAct("Clerk", "Store", "StoreQueue", PaymentProcessed, "결제 처리", "PROC_STORE_PAYMENT"), None),
      Stage(OrgAct("Clerk", "Store", "StoreQueue", QueueUpdated, "줄 안내", "PROC_STORE_QUEUE"),
            Some(ViolationRule("R_QUEUE", "새치기 의심", 1, 2)))], 2, false)
  }

  /** The park: patrol, noise check, report. */
  function ParkRoutine(): (r: Routine)
    ensures WellFormed(r) && |r.stages| == 3 && !r.needsAnchor
  {
    Routine([
      Stage(Proc("Caretaker", "Park", "ParkSeat", TaskStarted, "순찰", "PROC_PARK_PATROL"), None),
      Stage(OrgAct("Elder", "Park", "ParkSeat", NoiseObserved, "소음 점검", "PROC_PARK_NOISE_CHECK"),
            Some(ViolationRule("R_NOISE", "소음 민원", 0, 3))),
      Stage(Proc("Caretaker", "Park", "ParkSeat", TaskCompleted, "조치 보고", "PROC_PARK_REPORT"), None)], 1, false)
  }

  /** The station: CCTV still, ticket, interrogation. */
  function StationRoutine(): (r: Routine)
    ensures WellFormed(r) && |r.stages| == 3 && r.needsAnchor
  {
    Routine([
      Stage(Evid("Officer", "Station", "PoliceReport", CctvCaptured, "CCTV 캡처", "PROC_STATION_CCTV"), None),
      Stage(Evid("Officer", "Station", "PoliceReport", TicketIssued, "티켓 발부", "PROC_STATION_TICKET"), None),
      Stage(Proc("Officer", "Station", "PoliceReport", InterrogationStarted, "심문 시작", "PROC_INTERROGATION"),
            Some(ViolationRule("PROC_INTERROGATION_DELAY", "심문 지연 의심", 0, 4)))], 1, true)
  }

  /** The cafe: order, seating, cleaning. */
  function CafeRoutine(): (r: Routine)
    ensures WellFormed(r) && |r.stages| == 3 && r.needsAnchor
  {
    Routine([
      Stage(OrgAct("Barista", "Cafe", "CafeSeat", TaskStarted, "주문 처리", "PROC_CAFE_ORDER"), None),
      Stage(OrgAct("Barista", "Cafe", "CafeSeat", SeatClaimed, "좌석 안내", "PROC_CAFE_SEAT"),
            Some(ViolationRule("R_CAFE_SEAT", "좌석 회전 지연", 0, 4))),
      Stage(OrgAct("Barista", "Cafe", "CafeSeat", TaskCompleted, "정리 완료", "PROC_CAFE_CLEAN"), None)], 1, true)
  }

  /** The delivery bay: entry check, signature. */
  function DeliveryRoutine(): (r: Routine)
    ensures WellFormed(r) && |r.stages| == 2 && r.needsAnchor
  {
    Routine([
      Stage(Proc("Courier", "Delivery", "DeliveryBay", TaskStarted, "출입 확인", "PROC_DELIVERY_CHECK"), None),
      Stage(Proc("Courier", "Delivery", "DeliveryBay", TaskCompleted, "수취 서명", "PROC_DELIVERY_SIGN"),
            Some(ViolationRule("R_DELIVERY", "출입 절차 누락", 0, 4)))], 1, true)
  }

  /** The facility: inspection, repair. */
  function FacilityRoutine(): (r: Routine)
    ensures WellFormed(r) && |r.stages| == 2 && r.needsAnchor
  {
    Routine([
      Stage(Proc("FacilityTech", "Facility", "Facility", TaskStarted, "정기 점검", "PROC_FACILITY_CHECK"), None),
      Stage(Proc("FacilityTech", "Facility", "Facility", TaskCompleted, "수리 완료", "PROC_FACILITY_FIX"),
            Some(ViolationRule("R_FACILITY_SAFETY", "안전 점검 누락", 0, 6)))], 1, true)
  }

  /** The media crew: shoot, wrap. */
  function MediaRoutine(): (r: Routine)
    ensures WellFormed(r) && |r.stages| == 2 && r.needsAnchor
  {
    Routine([
      Stage(Evid("Reporter", "Media", "MediaZone", EvidenceCaptured, "촬영 진행", "PROC_MEDIA_SHOOT"),
            Some(ViolationRule("R_MEDIA_PERMIT", "촬영 허가 확인 요청", 0, 3))),
      Stage(OrgAct("Reporter", "Media", "MediaZone", TaskCompleted, "촬영 정리", "PROC_MEDIA_WRAP"), None)], 1, true)
  }

  /** `RecordEvent`: the record the log receives for an action. */
  function RecordOf(a: Action): (r: EventRecord)
    ensures r.actorId == a.actorId && r.actorRole == a.actorId && r.eventType == a.eventType
    ensures r.category == a.category && r.placeId == a.placeId && r.zoneId == a.zoneId && r.ruleId == a.ruleId
    ensures r.topic == (if a.ruleId == "" then a.note else a.ruleId) && r.note == a.note
    ensures r.severity == 2 <==> a.eventType in {CctvCaptured, TicketIssued, ViolationDetected}
    ensures r.severity == 1 || r.severity == 2
  {
    EventRecord(actorId := a.actorId, actorRole := a.actorId, eventType := a.eventType, category := a.category,
                placeId := a.placeId, zoneId := a.zoneId, topic := if a.ruleId == "" then a.note else a.ruleId,
                note := a.note,
                severity := if a.eventType == CctvCaptured || a.eventType == TicketIssued || a.eventType == ViolationDetected
                            then 2 else 1,
                ruleId := a.ruleId)
  }

  /** The counter after one `EmitViolationEvery` call: bumped unless the
      interval is not positive. */
  function Bump(counter: nat, interval: int): nat {
    if interval <= 0 then counter else counter + 1
  }

  /** Whether that call records a violation: the bumped counter is a
      multiple of a positive interval. */
  predicate ViolationDue(counter: nat, interval: int) {
    interval > 0 && (counter + 1) % interval == 0
  }

  /** The citizen's violation a rule records. */
  function ViolationRecord(placeId: string, zoneId: string, ruleId: string, note: string): EventRecord {
    RecordOf(Action("Citizen", placeId, zoneId, ViolationDetected, Rule, note, ruleId))
  }

  /** `EmitViolationEvery`: a non-positive interval does nothing; otherwise
      the counter is bumped and a citizen's violation is recorded on every
      `interval`-th bump. */
  function EmitViolationEvery(counter: nat, interval: int, placeId: string, zoneId: string, ruleId: string,
                              note: string): (r: (nat, Option<EventRecord>))
    ensures interval <= 0 ==> r == (counter, None)
    ensures interval > 0 ==> r.0 == counter + 1 && (r.1.Some? <==> (counter + 1) % interval == 0)
    ensures r.1.Some? ==> r.1.value == ViolationRecord(placeId, zoneId, ruleId, note)
  {
    (Bump(counter, interval), if ViolationDue(counter, interval) then Some(ViolationRecord(placeId, zoneId, ruleId, note)) else None)
  }

  /** How many violations `calls` further bumps record. */
  function ViolationsOver(counter: nat, interval: int, calls: nat): nat
    requires interval > 0
    decreases calls
  {
    if calls == 0 then 0
    else
      var (next, record) := EmitViolationEvery(counter, interval, "", "", "", "");
      (if record.Some? then 1 else 0) + ViolationsOver(next, interval, calls - 1)
  }

  /** Euclidean division is determined by any quotient/remainder pair. */
  lemma DivUnique(a: int, n: int, q: int, r: int)
    requires n > 0 && 0 <= r < n && a == q * n + r
    ensures a / n == q
  {
    var q' := a / n;
    var r' := a % n;
    assert a == q' * n + r' && 0 <= r' < n;
    assert (q - q') * n == r' - r;
    if q > q' {
      MulAtLeast(q - q', n);
    } else if q < q' {
      MulAtLeast(q' - q, n);
    }
  }

  lemma MulAtLeast(k: int, n: int)
    requires k >= 1 && n > 0
    ensures k * n >= n
  {
  }

  /** One bump crosses a multiple of `n` exactly when it lands on one. */
  lemma DivStep(c: nat, n: int)
    requires n > 0
    ensures (c + 1) / n == c / n + (if (c + 1) % n == 0 then 1 else 0)
  {
    var q := c / n;
    var r := c % n;
    assert c == q * n + r && 0 <= r < n;
    if r + 1 == n {
      assert c + 1 == (q + 1) * n + 0;
      DivUnique(c + 1, n, q + 1, 0);
      assert (c + 1) % n == 0;
    } else {
      assert c + 1 == q * n + (r + 1);
      DivUnique(c + 1, n, q, r + 1);
      assert (c + 1) % n == r + 1;
    }
  }

  /** Starting from `counter`, `calls` bumps record exactly one violation per
      multiple of the interval passed: every n-th time, never more. */
  lemma {:induction false} EveryNth(counter: nat, interval: int, calls: nat)
    requires interval > 0
    ensures ViolationsOver(counter, interval, calls) == (counter + calls) / interval - counter / interval
    decreases calls
  {
    if calls > 0 {
      DivStep(counter, interval);
      EveryNth(counter + 1, interval, calls - 1);
    }
  }

  /** The per-organisation state `Update` keeps. */
  datatype OrgState = OrgState(nextTime: real, step: nat, counters: seq<nat>)

  predicate ValidState(rt: Routine, s: OrgState) {
    WellFormed(rt) && s.step < |rt.stages| && |s.counters| == rt.counters
  }

  /** Whether an organisation stays idle: it needs its anchor and the
      anchor is missing. */
  predicate Idle(rt: Routine, anchored: bool) {
    rt.needsAnchor && !anchored
  }

  /** The state `Emit<Org>Event` leaves behind: the next stage, with the
      current stage's violation counter bumped. An idle organisation is left
      as it was. */
  function Advance(rt: Routine, s: OrgState, anchored: bool): (r: OrgState)
    requires ValidState(rt, s)
    ensures ValidState(rt, r) && r.nextTime == s.nextTime
    ensures Idle(rt, anchored) ==> r == s
    ensures !Idle(rt, anchored) ==> r.step == (s.step + 1) % |rt.stages|
    ensures forall c :: 0 <= c < rt.counters ==> r.counters[c] >= s.counters[c]
  {
    if Idle(rt, anchored) then s
    else
      var next := (s.step + 1) % |rt.stages|;
      match rt.stages[s.step].violation
      case None => s.(step := next)
      case Some(v) => s.(step := next, counters := s.counters[v.counter := Bump(s.counters[v.counter], v.interval)])
  }

  /** The records `Emit<Org>Event` writes: the current stage's procedure,
      then its violation when one is due. An idle organisation writes
      nothing. */
  function Fire(rt: Routine, s: OrgState, anchored: bool): (r: seq<EventRecord>)
    requires ValidState(rt, s)
    ensures Idle(rt, anchored) ==> r == []
    ensures !Idle(rt, anchored) ==> 1 <= |r| <= 2 && r[0] == RecordOf(rt.stages[s.step].action)
    ensures |r| == 2 <==>
      var v := rt.stages[s.step].violation;
      !Idle(rt, anchored) && v.Some? && ViolationDue(s.counters[v.value.counter], v.value.interval)
    ensures |r| == 2 ==>
      var a := rt.stages[s.step].action;
      var v := rt.stages[s.step].violation.value;
      r[1] == ViolationRecord(a.placeId, a.zoneId, v.ruleId, v.note)
  {
    if Idle(rt, anchored) then []
    else
      var stage := rt.stages[s.step];
      [RecordOf(stage.action)]
      + match stage.violation
        case None => []
        case Some(v) =>
          var emitted := EmitViolationEvery(s.counters[v.counter], v.interval, stage.action.placeId,
                                            stage.action.zoneId, v.ruleId, v.note).1;
          if emitted.Some? then [emitted.value] else []
  }

  /** `Emit<Org>Event`: record the current stage (and its violation, when
      due) and move to the next stage; an organisation that needs its anchor
      does nothing while it is missing. */
  function Emit(rt: Routine, s: OrgState, anchored: bool): (OrgState, seq<EventRecord>)
    requires ValidState(rt, s)
  {
    (Advance(rt, s, anchored), Fire(rt, s, anchored))
  }

  /** The studio cycles Kanban, patch notes, approval, RC insert and back;
      the anchor plays no part for it. */
  lemma StudioCycle(s: OrgState)
    requires ValidState(RoutineOf(Studio), s)
    ensures Emit(RoutineOf(Studio), s, true).0.step == (s.step + 1) % 4
    ensures Emit(RoutineOf(Studio), s, false) == Emit(RoutineOf(Studio), s, true)
  {
  }

  /** The state after `k` consecutive anchored firings of one organisation. */
  function Steps(rt: Routine, s: OrgState, k: nat): (r: OrgState)
    requires ValidState(rt, s)
    ensures ValidState(rt, r)
    decreases k
  {
    if k == 0 then s else Advance(rt, Steps(rt, s, k - 1), true)
  }

  /** The records those `k` firings write, oldest first. */
  function FiringRecords(rt: Routine, s: OrgState, k: nat): seq<EventRecord>
    requires ValidState(rt, s)
    decreases k
  {
    if k == 0 then [] else FiringRecords(rt, s, k - 1) + Fire(rt, Steps(rt, s, k - 1), true)
  }

  /** The stage index only ever cycles: after `k` firings it has moved `k`
      places round the organisation's stage list, and the schedule is
      untouched. */
  lemma {:induction false} StepCycles(rt: Routine, s: OrgState, k: nat)
    requires ValidState(rt, s)
    ensures Steps(rt, s, k).step == (s.step + k) % |rt.stages|
    ensures Steps(rt, s, k).nextTime == s.nextTime
    decreases k
  {
    if k == 0 {
      ModSmall(s.step, |rt.stages|);
    } else {
      StepCycles(rt, s, k - 1);
      NextFiring(rt, Steps(rt, s, k - 1), s.step + (k - 1), s.step + k);
    }
  }

  /** A firing from stage `a % n` lands on stage `b % n`, `b` being `a + 1`. */
  lemma NextFiring(rt: Routine, mid: OrgState, a: nat, b: nat)
    requires ValidState(rt, mid) && mid.step == a % |rt.stages| && b == a + 1
    ensures Advance(rt, mid, true).step == b % |rt.stages|
  {
    ModChain(mid.step, a, |rt.stages|, Advance(rt, mid, true).step, b);
  }

  lemma ModUnique(a: int, n: int, q: int, r: int)
    requires n > 0 && 0 <= r < n && a == q * n + r
    ensures a % n == r
  {
    DivUnique(a, n, q, r);
  }

  lemma ModPlusOne(a: nat, n: nat)
    requires n > 0
    ensures (a % n + 1) % n == (a + 1) % n
  {
    var q := a / n;
    var r := a % n;
    assert a == q * n + r;
    if r + 1 < n {
      ModUnique(a + 1, n, q, r + 1);
      ModUnique(r + 1, n, 0, r + 1);
    } else {
      ModUnique(a + 1, n, q + 1, 0);
      ModUnique(r + 1, n, 1, 0);
    }
  }

  lemma ModSmall(a: nat, n: nat)
    requires a < n
    ensures a % n == a
  {
    ModUnique(a, n, 0, a);
  }

  /** One more step round a cycle of length `n`. */
  lemma ModChain(prev: int, a: nat, n: nat, last: int, target: nat)
    requires n > 0 && prev == a % n && last == (prev + 1) % n && target == a + 1
    ensures last == target % n
  {
    ModPlusOne(a, n);
  }

  /** Each firing records the current stage's procedure and at most one
      violation besides. */
  lemma {:induction false} RecordsPerFiring(rt: Routine, s: OrgState, k: nat)
    requires ValidState(rt, s)
    ensures k <= |FiringRecords(rt, s, k)| <= 2 * k
    decreases k
  {
    if k > 0 {
      RecordsPerFiring(rt, s, k - 1);
      var m := Steps(rt, s, k - 1);
      FireLength(rt, m);
    }
  }

  lemma FireLength(rt: Routine, s: OrgState)
    requires ValidState(rt, s)
    ensures 1 <= |Fire(rt, s, true)| <= 2
  {
  }

  /** The system: the routine intervals, whether a log is present, and per
      organisation, in `AllOrgs` order, its routine and its state. */
  datatype System = System(hasLog: bool, intervals: seq<real>, routines: seq<Routine>, states: seq<OrgState>)

  predicate Valid(sys: System) {
    |sys.intervals| == 8 && |sys.routines| == 8 && |sys.states| == 8
    && forall i :: 0 <= i < 8 ==> ValidState(sys.routines[i], sys.states[i])
  }

  /** `Awake`: the first firings are staggered 4, 6, …, 18 seconds out. */
  function Awake(now: real, hasLog: bool): (sys: System)
    ensures Valid(sys)
    ensures forall i :: 0 <= i < 8 ==> sys.states[i].nextTime == now + 4.0 + 2.0 * i as real
  {
    var routines := seq(8, i requires 0 <= i < 8 => RoutineOf(AllOrgs[i]));
    System(hasLog, [18.0, 22.0, 26.0, 30.0, 24.0, 28.0, 32.0, 34.0], routines,
           seq(8, i requires 0 <= i < 8 => OrgState(now + 4.0 + 2.0 * i as real, 0, seq(routines[i].counters, _ => 0))))
  }

  /** Organisation `j` after an update at `now`: fired and rescheduled
      `interval` seconds after now when due, untouched otherwise. */
  function Stepped(sys: System, now: real, anchored: Org -> bool, j: nat): OrgState
    requires Valid(sys) && j < 8
  {
    if now >= sys.states[j].nextTime then
      Advance(sys.routines[j], sys.states[j], anchored(AllOrgs[j])).(nextTime := now + sys.intervals[j])
    else sys.states[j]
  }

  /** Stepping organisation `j` reads only its own state. */
  lemma SteppedFrame(sys: System, sys': System, now: real, anchored: Org -> bool, j: nat)
    requires Valid(sys) && Valid(sys') && j < 8
    requires sys'.routines == sys.routines && sys'.intervals == sys.intervals && sys'.states[j] == sys.states[j]
    ensures Stepped(sys', now, anchored, j) == Stepped(sys, now, anchored, j)
  {
  }

  /** The states `Update` leaves, visiting the organisations from `i` on in
      order: each due organisation fires once and is rescheduled `interval`
      seconds after now. */
  function UpdateStates(sys: System, now: real, anchored: Org -> bool, i: nat): (r: System)
    requires Valid(sys) && i <= 8
    ensures Valid(r) && r.hasLog == sys.hasLog && r.intervals == sys.intervals && r.routines == sys.routines
    decreases 8 - i
  {
    if i == 8 then sys
    else if now >= sys.states[i].nextTime then
      var fired := Advance(sys.routines[i], sys.states[i], anchored(AllOrgs[i]));
      UpdateStates(sys.(states := sys.states[i := fired.(nextTime := now + sys.intervals[i])]), now, anchored, i + 1)
    else UpdateStates(sys, now, anchored, i + 1)
  }

  /** The records that visit writes, in visiting order. */
  function UpdateRecords(sys: System, now: real, anchored: Org -> bool, i: nat): (r: seq<EventRecord>)
    requires Valid(sys) && i <= 8
    ensures |r| <= 2 * (8 - i)
    decreases 8 - i
  {
    if i == 8 then []
    else if now >= sys.states[i].nextTime then
      var fired := Advance(sys.routines[i], sys.states[i], anchored(AllOrgs[i]));
      Fire(sys.routines[i], sys.states[i], anchored(AllOrgs[i]))
      + UpdateRecords(sys.(states := sys.states[i := fired.(nextTime := now + sys.intervals[i])]), now, anchored, i + 1)
    else UpdateRecords(sys, now, anchored, i + 1)
  }

  /** Visiting the organisations from `i` on leaves those before `i` alone
      and steps each one from `i` on as if it were updated by itself. */
  lemma {:induction false} UpdateSteps(sys: System, now: real, anchored: Org -> bool, i: nat)
    requires Valid(sys) && i <= 8
    ensures forall j :: 0 <= j < i ==> UpdateStates(sys, now, anchored, i).states[j] == sys.states[j]
    ensures forall j :: i <= j < 8 ==> UpdateStates(sys, now, anchored, i).states[j] == Stepped(sys, now, anchored, j)
    decreases 8 - i
  {
    if i < 8 {
      var final := UpdateStates(sys, now, anchored, i);
      if now >= sys.states[i].nextTime {
        var sys' := sys.(states := sys.states[i := Stepped(sys, now, anchored, i)]);
        DueVisit(sys, now, anchored, i, sys');
        UpdateSteps(sys', now, anchored, i + 1);
        StepsCombine(sys, sys', now, anchored, i, final);
      } else {
        assert final == UpdateStates(sys, now, anchored, i + 1);
        assert sys.states == sys.states[i := Stepped(sys, now, anchored, i)];
        UpdateSteps(sys, now, anchored, i + 1);
        StepsCombine(sys, sys, now, anchored, i, final);
      }
    }
  }

  /** What holds of a visit from `i + 1` on, started after organisation `i`
      was stepped, holds of the visit from `i` on. */
  lemma StepsCombine(sys: System, sys': System, now: real, anchored: Org -> bool, i: nat, final: System)
    requires Valid(sys) && Valid(sys') && Valid(final) && i < 8
    requires sys'.routines == sys.routines && sys'.intervals == sys.intervals
    requires sys'.states == sys.states[i := Stepped(sys, now, anchored, i)]
    requires forall j :: 0 <= j < i + 1 ==> final.states[j] == sys'.states[j]
    requires forall j :: i + 1 <= j < 8 ==> final.states[j] == Stepped(sys', now, anchored, j)
    ensures forall j :: 0 <= j < i ==> final.states[j] == sys.states[j]
    ensures forall j :: i <= j < 8 ==> final.states[j] == Stepped(sys, now, anchored, j)
  {
    forall j | i < j < 8
      ensures final.states[j] == Stepped(sys, now, anchored, j)
    {
      SteppedFrame(sys, sys', now, anchored, j);
    }
  }

  /** Visiting a due organisation replaces its state by its stepped one. */
  lemma DueVisit(sys: System, now: real, anchored: Org -> bool, i: nat, sys': System)
    requires Valid(sys) && i < 8 && now >= sys.states[i].nextTime
    requires sys' == sys.(states := sys.states[i := Stepped(sys, now, anchored, i)])
    ensures Valid(sys') && UpdateStates(sys, now, anchored, i) == UpdateStates(sys', now, anchored, i + 1)
  {
  }

  /** `Update`: nothing happens without a log; otherwise every due
      organisation fires once and is rescheduled, and the others are left
      alone. */
  function Update(sys: System, now: real, anchored: Org -> bool): (r: (System, seq<EventRecord>))
    requires Valid(sys)
    ensures !sys.hasLog ==> r == (sys, [])
    ensures Valid(r.0) && |r.1| <= 16
    ensures sys.hasLog ==> forall j :: 0 <= j < 8 ==> r.0.states[j] == Stepped(sys, now, anchored, j)
  {
    if !sys.hasLog then (sys, [])
    else
      UpdateSteps(sys, now, anchored, 0);
      (UpdateStates(sys, now, anchored, 0), UpdateRecords(sys, now, anchored, 0))
  }

  /** A due organisation is rescheduled `interval` seconds after now; one
      not yet due keeps its state. */
  lemma Rescheduled(sys: System, now: real, anchored: Org -> bool, j: nat)
    requires Valid(sys) && sys.hasLog && j < 8
    ensures now >= sys.states[j].nextTime ==> Update(sys, now, anchored).0.states[j].nextTime == now + sys.intervals[j]
    ensures now < sys.states[j].nextTime ==> Update(sys, now, anchored).0.states[j] == sys.states[j]
  {
  }
}

=== FILE: player_stuck_recovery.dfy ===
/** `PlayerStuckRecovery`: a player pressing into a wall without moving is
    nudged free after a delay. */
module PlayerStuckRecovery {

  /** The frame does not count as stuck: no side contact, too little input,
      or the player is in fact moving. */
  predicate Unstuck(inputMagnitude: real, velocityMagnitude: real, hasSideCollision: bool,
                    inputThreshold: real, velocityThreshold: real) {
    !hasSideCollision || inputMagnitude < inputThreshold || velocityMagnitude > velocityThreshold
  }

  /** `UpdateStuckTimer`: an unstuck frame resets the timer, a stuck one
      adds the frame time. */
  function UpdateStuckTimer(currentTimer: real, inputMagnitude: real, velocityMagnitude: real,
                            hasSideCollision: bool, deltaTime: real, inputThreshold: real,
                            velocityThreshold: real): (t: real)
    ensures Unstuck(inputMagnitude, velocityMagnitude, hasSideCollision, inputThreshold, velocityThreshold) ==> t == 0.0
    ensures !Unstuck(inputMagnitude, velocityMagnitude, hasSideCollision, inputThreshold, velocityThreshold) ==>
      t == currentTimer + deltaTime
    ensures currentTimer >= 0.0 && deltaTime >= 0.0 ==> t >= 0.0
  {
    if !hasSideCollision || inputMagnitude < inputThreshold || velocityMagnitude > velocityThreshold then 0.0
    else currentTimer + deltaTime
  }

  /** `ShouldRecover`: never on an unstuck frame; otherwise once the timer
      reaches the delay. */
  function ShouldRecover(stuckTimer: real, recoveryDelay: real, inputMagnitude: real, velocityMagnitude: real,
                         hasSideCollision: bool, inputThreshold: real, velocityThreshold: real): (r: bool)
    ensures Unstuck(inputMagnitude, velocityMagnitude, hasSideCollision, inputThreshold, velocityThreshold) ==> !r
    ensures !Unstuck(inputMagnitude, velocityMagnitude, hasSideCollision, inputThreshold, velocityThreshold) ==>
      (r <==> stuckTimer >= recoveryDelay)
  {
    if !hasSideCollision then false
    else if inputMagnitude < inputThreshold || velocityMagnitude > velocityThreshold then false
    else stuckTimer >= recoveryDelay
  }

  /** The timer after `k` frames of the same stuck contact, each `dt` long,
      starting from zero. */
  function TimerAfter(k: nat, dt: real, inputMagnitude: real, velocityMagnitude: real,
                      inputThreshold: real, velocityThreshold: real): real
  {
    if k == 0 then 0.0
    else UpdateStuckTimer(TimerAfter(k - 1, dt, inputMagnitude, velocityMagnitude, inputThreshold, velocityThreshold),
                          inputMagnitude, velocityMagnitude, true, dt, inputThreshold, velocityThreshold)
  }

  /** Pressing into a wall for `k` frames accumulates `k` frame times, so
      recovery starts exactly once `k * dt` reaches the delay. */
  lemma {:induction false} StuckFramesAccumulate(k: nat, dt: real, inputMagnitude: real, velocityMagnitude: real,
                                                 inputThreshold: real, velocityThreshold: real, recoveryDelay: real)
    requires !Unstuck(inputMagnitude, velocityMagnitude, true, inputThreshold, velocityThreshold)
    ensures TimerAfter(k, dt, inputMagnitude, velocityMagnitude, inputThreshold, velocityThreshold) == (k as real) * dt
    ensures ShouldRecover(TimerAfter(k, dt, inputMagnitude, velocityMagnitude, inputThreshold, velocityThreshold),
                          recoveryDelay, inputMagnitude, velocityMagnitude, true, inputThreshold, velocityThreshold)
            <==> (k as real) * dt >= recoveryDelay
  {
    if k > 0 {
      StuckFramesAccumulate(k - 1, dt, inputMagnitude, velocityMagnitude, inputThreshold, velocityThreshold, recoveryDelay);
      assert (k as real) * dt == ((k - 1) as real) * dt + dt;
    }
  }

  /** The four edit-mode test cases. */
  lemma EditModeCases()
    ensures UpdateStuckTimer(0.4, 0.0, 0.0, true, 0.1, 0.2, 0.05) == 0.0
    ensures UpdateStuckTimer(0.1, 0.6, 0.01, true, 0.2, 0.2, 0.05) == 0.3
    ensures ShouldRecover(0.6, 0.5, 0.6, 0.01, true, 0.2, 0.05)
    ensures !ShouldRecover(1.2, 0.5, 0.6, 0.4, true, 0.2, 0.05)
  {
  }
}

=== FILE: player_vertical_motion.dfy ===
/** `PlayerVerticalMotion`: one frame of the player's vertical speed.
    The square root is a parameter: `sqrt` stands for `Mathf.Sqrt`. */
module PlayerVerticalMotion {

  /** `UpdateVerticalVelocity`: gravity for one frame; a grounded player
      falling is snapped to the grounded speed; a grounded jump replaces the
      speed with the launch speed for the jump height. */
  function UpdateVerticalVelocity(currentVelocity: real, grounded: bool, jumpPressed: bool, gravity: real,
                                  jumpHeight: real, deltaTime: real, groundedSnapVelocity: real,
                                  sqrt: real -> real): (v: real)
    ensures !grounded ==> v == currentVelocity + gravity * deltaTime
    ensures grounded && !jumpPressed && currentVelocity + gravity * deltaTime < 0.0 ==> v == groundedSnapVelocity
    ensures grounded && !jumpPressed && currentVelocity + gravity * deltaTime >= 0.0 ==>
      v == currentVelocity + gravity * deltaTime
    ensures grounded && jumpPressed ==> v == sqrt(jumpHeight * -2.0 * gravity)
  {
    var velocity := currentVelocity + gravity * deltaTime;
    var snapped := if grounded && velocity < 0.0 then groundedSnapVelocity else velocity;
    if grounded && jumpPressed then sqrt(jumpHeight * -2.0 * gravity) else snapped
  }

  /** With a true square root, a jump's launch speed `v` is the one that
      reaches `jumpHeight` under gravity: `v * v == 2 * jumpHeight * -gravity`,
      whatever the speed before the jump. */
  lemma JumpReachesHeight(currentVelocity: real, gravity: real, jumpHeight: real, deltaTime: real,
                          groundedSnapVelocity: real, sqrt: real -> real)
    requires gravity < 0.0 && jumpHeight >= 0.0
    requires sqrt(jumpHeight * -2.0 * gravity) >= 0.0
    requires sqrt(jumpHeight * -2.0 * gravity) * sqrt(jumpHeight * -2.0 * gravity) == jumpHeight * -2.0 * gravity
    ensures var v := UpdateVerticalVelocity(currentVelocity, true, true, gravity, jumpHeight, deltaTime,
                                            groundedSnapVelocity, sqrt);
      v >= 0.0 && v * v == 2.0 * jumpHeight * -gravity
  {
  }

  /** The snap and airborne edit-mode test cases. */
  lemma EditModeCases(sqrt: real -> real)
    ensures UpdateVerticalVelocity(-2.0, true, false, -9.81, 1.2, 0.02, -1.0, sqrt) == -1.0
    ensures UpdateVerticalVelocity(0.0, false, false, -9.81, 1.2, 0.1, -1.0, sqrt) == -0.981
    ensures UpdateVerticalVelocity(-1.0, true, true, -9.81, 1.2, 0.02, -1.0, sqrt) == sqrt(1.2 * -2.0 * -9.81)
  {
  }
}

=== FILE: portal_failsafe.dfy ===
/** `PortalFailsafe`: when an actor has been inside an interior too long
    and knows where it came in, it is sent back out. */
module PortalFailsafe {

  /** `ShouldReturn`: only inside, only with an exterior fallback, and only
      once the time inside reaches the limit. */
  function ShouldReturn(isInside: bool, secondsInside: real, maxInsideSeconds: real, hasFallback: bool): (r: bool)
    ensures !isInside ==> !r
    ensures !hasFallback ==> !r
    ensures isInside && hasFallback ==> (r <==> secondsInside >= maxInsideSeconds)
  {
    if !isInside || !hasFallback then false else secondsInside >= maxInsideSeconds
  }

  /** Staying longer never cancels a return. */
  lemma ReturnIsMonotone(isInside: bool, s: real, s': real, maxInsideSeconds: real, hasFallback: bool)
    requires s <= s' && ShouldReturn(isInside, s, maxInsideSeconds, hasFallback)
    ensures ShouldReturn(isInside, s', maxInsideSeconds, hasFallback)
  {
  }

  /** The three edit-mode test cases. */
  lemma EditModeCases()
    ensures !ShouldReturn(false, 10.0, 6.0, true)
    ensures !ShouldReturn(true, 10.0, 6.0, false)
    ensures ShouldReturn(true, 8.0, 6.0, true)
  {
  }
}

=== FILE: report_manager.dfy ===
/** `ReportManager`: the time-windowed queue of citizen reports, the
    interrogation trigger (cooldown, quorum, global suspicion floor) and the
    consumption of a quorum into a `ReportEnvelope`. */
module ReportManager {
  import opened Wrappers
  import opened Numeric
  import opened Text
  import opened Seqs
  import opened Events

  datatype ReportReason = RepeatedRuleBreak | HighGlobalG | Scripted

  /** The envelope handed to the police. `topic`, `placeId` and `zoneId` are
      read by the case builder; consumption leaves them empty. */
  datatype ReportEnvelope = ReportEnvelope(
    reportId: string := "",
    reporterIds: seq<string> := [],
    attachedEventIds: seq<string> := [],
    reason: ReportReason := RepeatedRuleBreak,
    resolved: bool := false,
    topic: string := "",
    placeId: string := "",
    zoneId: string := "")

  datatype ReportEntry = ReportEntry(timestamp: real, reporterId: string, ruleId: string, eventId: string)

  /** The global suspicion level below which no interrogation starts. */
  const GlobalFloor: real := 0.3

  datatype Manager = Manager(
    reports: seq<ReportEntry> := [],
    lastInterrogationTime: real := -999.0,
    reportsRequired: int := 2,
    cooldownSeconds: real := 20.0,
    windowSeconds: real := 45.0,
    maxAttachedEvents: int := 3)

  predicate IsLive(e: ReportEntry, now: real, window: real) {
    now - e.timestamp <= window
  }

  /** Reference meaning of pruning: the live entries, in their order. */
  function LiveReports(entries: seq<ReportEntry>, now: real, window: real): (live: seq<ReportEntry>)
    ensures |live| <= |entries|
    ensures forall e :: e in live <==> e in entries && IsLive(e, now, window)
  {
    if |entries| == 0 then []
    else (if IsLive(entries[0], now, window) then [entries[0]] else []) + LiveReports(entries[1..], now, window)
  }

  lemma {:induction false} LiveReportsAppend(a: seq<ReportEntry>, b: seq<ReportEntry>, now: real, window: real)
    ensures LiveReports(a + b, now, window) == LiveReports(a, now, window) + LiveReports(b, now, window)
    decreases |a|
  {
    if |a| > 0 {
      LiveReportsAppend(a[1..], b, now, window);
      assert (a + b)[1..] == a[1..] + b;
    } else {
      assert a + b == b;
    }
  }

  /** `PruneExpiredReports`: the source's backwards `RemoveAt` loop. */
  method PruneExpiredReports(entries: seq<ReportEntry>, now: real, window: real) returns (kept: seq<ReportEntry>)
    ensures kept == LiveReports(entries, now, window)
  {
    kept := entries;
    var i := |entries|;
    assert entries[i..] == [];
    while i > 0
      invariant 0 <= i <= |entries|
      invariant kept == entries[..i] + LiveReports(entries[i..], now, window)
      decreases i
    {
      i := i - 1;
      PruneStep(entries, i, now, window);
      if now - kept[i].timestamp > window {
        kept := kept[..i] + kept[i + 1..];
      }
    }
  }

  /** One step of the backwards loop: the entry at `i` is still in place,
      and removing it exactly when it has expired extends the pruned
      suffix by one. */
  lemma PruneStep(entries: seq<ReportEntry>, i: nat, now: real, window: real)
    requires i < |entries|
    ensures var kept := entries[..i + 1] + LiveReports(entries[i + 1..], now, window);
      kept[i] == entries[i]
      && (IsLive(entries[i], now, window) ==> kept == entries[..i] + LiveReports(entries[i..], now, window))
      && (!IsLive(entries[i], now, window) ==> kept[..i] + kept[i + 1..] == entries[..i] + LiveReports(entries[i..], now, window))
  {
    var e := entries[i];
    var rest := LiveReports(entries[i + 1..], now, window);
    LiveCons(entries[i..], now, window);
    assert entries[i..][1..] == entries[i + 1..];
    var kept := entries[..i + 1] + rest;
    assert entries[..i + 1] == entries[..i] + [e];
    assert kept == entries[..i] + [e] + rest;
    assert kept[..i] == entries[..i] && kept[i + 1..] == rest;
  }

  /** Pruning a non-empty list: its head, if live, then the pruned tail. */
  lemma LiveCons(entries: seq<ReportEntry>, now: real, window: real)
    requires |entries| > 0
    ensures LiveReports(entries, now, window)
         == (if IsLive(entries[0], now, window) then [entries[0]] else []) + LiveReports(entries[1..], now, window)
  {
  }

  function Prune(m: Manager, now: real): (pruned: Manager)
    ensures pruned == m.(reports := LiveReports(m.reports, now, m.windowSeconds))
  {
    m.(reports := LiveReports(m.reports, now, m.windowSeconds))
  }

  /** `FileReport`: queue the report, prune, and the `ReportFiled` record
      the manager hands to the event log. */
  function FileReport(m: Manager, reporterId: string, ruleId: string, snapshot: real, eventId: string, now: real)
    : (result: (Manager, EventRecord))
    ensures var entry := ReportEntry(now, reporterId, ruleId, eventId);
      m.windowSeconds >= 0.0 ==> |result.0.reports| > 0 && result.0.reports[|result.0.reports| - 1] == entry
    ensures forall e :: e in result.0.reports ==> IsLive(e, now, m.windowSeconds)
    ensures result.0 == m.(reports := LiveReports(m.reports + [ReportEntry(now, reporterId, ruleId, eventId)], now, m.windowSeconds))
    ensures result.1 == ReportRecord(reporterId, ruleId, snapshot)
  {
    var entry := ReportEntry(now, reporterId, ruleId, eventId);
    LiveReportsAppend(m.reports, [entry], now, m.windowSeconds);
    (Prune(m.(reports := m.reports + [entry]), now), ReportRecord(reporterId, ruleId, snapshot))
  }

  /** The `ReportFiled` record: the reporting citizen, the rule, severity
      two, and the reporter's rounded suspicion snapshot as "s=<n>". */
  function ReportRecord(reporterId: string, ruleId: string, snapshot: real): (r: EventRecord)
    ensures r.eventType == ReportFiled && r.actorId == reporterId && r.ruleId == ruleId
    ensures r.actorRole == "Citizen" && r.severity == 2 && r.category == Report
    ensures r.note == "s=" + IntToString(RoundAwayFromZero(snapshot))
  {
    EventRecord(actorId := reporterId, actorRole := "Citizen", eventType := ReportFiled,
                category := Report, ruleId := ruleId,
                note := "s=" + IntToString(RoundAwayFromZero(snapshot)), severity := 2)
  }

  predicate InCooldown(m: Manager, now: real) {
    now - m.lastInterrogationTime < m.cooldownSeconds
  }

  /** `CanTriggerInterrogation`: the verdict and the manager after the prune
      it performs once the cooldown has passed. `globalG` is `None` when no
      global suspicion system is wired. */
  function CanTrigger(m: Manager, now: real, globalG: Option<real>): (result: (bool, Manager))
    ensures InCooldown(m, now) ==> result == (false, m)
    ensures !InCooldown(m, now) ==> result.1 == Prune(m, now)
    ensures result.0 <==>
      !InCooldown(m, now)
      && |LiveReports(m.reports, now, m.windowSeconds)| >= m.reportsRequired
      && (globalG.None? || globalG.value >= GlobalFloor)
  {
    if now - m.lastInterrogationTime < m.cooldownSeconds then (false, m)
    else
      var pruned := Prune(m, now);
      if |pruned.reports| < m.reportsRequired then (false, pruned)
      else if globalG.Some? && globalG.value < GlobalFloor then (false, pruned)
      else (true, pruned)
  }

  /** Non-empty event ids of `entries`, in order. */
  function EventIds(entries: seq<ReportEntry>): seq<string> {
    if |entries| == 0 then []
    else (if entries[0].eventId != "" then [entries[0].eventId] else []) + EventIds(entries[1..])
  }

  lemma {:induction false} EventIdsAppend(a: seq<ReportEntry>, e: ReportEntry)
    ensures EventIds(a + [e]) == EventIds(a) + (if e.eventId != "" then [e.eventId] else [])
    decreases |a|
  {
    if |a| > 0 {
      EventIdsAppend(a[1..], e);
      assert (a + [e])[1..] == a[1..] + [e];
    } else {
      assert a + [e] == [e];
    }
  }

  /** Reference reading of the reporter list: walk `entries` in order and
      append each non-empty reporter id not in `seen` yet. */
  function FirstSeen(seen: seq<string>, entries: seq<ReportEntry>): seq<string>
    decreases |entries|
  {
    if |entries| == 0 then seen
    else
      var id := entries[0].reporterId;
      FirstSeen(if id != "" && id !in seen then seen + [id] else seen, entries[1..])
  }

  /** The envelope's lists: distinct non-empty reporters in first-seen
      order and the first `maxAttached` non-empty event ids. */
  method CollectEnvelope(taken: seq<ReportEntry>, maxAttached: int)
    returns (reporters: seq<string>, attached: seq<string>)
    ensures NoDuplicates(reporters)
    ensures forall r :: r in reporters <==> r != "" && exists e :: e in taken && e.reporterId == r
    ensures reporters == FirstSeen([], taken)
    ensures attached == EventIds(taken)[..Min(Max(maxAttached, 0), |EventIds(taken)|)]
  {
    reporters := [];
    attached := [];
    var i := 0;
    while i < |taken|
      invariant 0 <= i <= |taken|
      invariant NoDuplicates(reporters)
      invariant forall r :: r in reporters <==> r != "" && exists e :: e in taken[..i] && e.reporterId == r
      invariant FirstSeen(reporters, taken[i..]) == FirstSeen([], taken)
      invariant attached == EventIds(taken[..i])[..Min(Max(maxAttached, 0), |EventIds(taken[..i])|)]
    {
      var e := taken[i];
      assert taken[..i + 1] == taken[..i] + [e];
      EventIdsAppend(taken[..i], e);
      assert taken[i..][1..] == taken[i + 1..];
      if e.reporterId != "" && e.reporterId !in reporters {
        reporters := reporters + [e.reporterId];
      }
      if e.eventId != "" && |attached| < maxAttached {
        attached := attached + [e.eventId];
      }
      i := i + 1;
    }
    assert taken[..i] == taken;
  }

  /** `TryConsumeReport`: on success the newest `reportsRequired` live
      reports leave the queue and become the envelope. */
  method TryConsumeReport(m: Manager, now: real, globalG: Option<real>, freshId: string)
    returns (next: Manager, envelope: Option<ReportEnvelope>)
    requires m.reportsRequired >= 0
    ensures envelope.None? <==> !CanTrigger(m, now, globalG).0
    ensures envelope.None? ==> next == CanTrigger(m, now, globalG).1
    ensures envelope.Some? ==>
      var live := LiveReports(m.reports, now, m.windowSeconds);
      var start := |live| - m.reportsRequired;
      var env := envelope.value;
      0 <= start
      && next == m.(reports := live[..start], lastInterrogationTime := now)
      && env.reportId == freshId
      && NoDuplicates(env.reporterIds)
      && (forall r :: r in env.reporterIds <==> r != "" && exists e :: e in live[start..] && e.reporterId == r)
      && env.reporterIds == FirstSeen([], live[start..])
      && (forall id :: id in env.attachedEventIds ==> id != "")
      && env.attachedEventIds == EventIds(live[start..])[..Min(Max(m.maxAttachedEvents, 0), |EventIds(live[start..])|)]
      && (env.reason == HighGlobalG <==> globalG.Some?)
  {
    var (ok, pruned) := CanTrigger(m, now, globalG);
    if !ok {
      return pruned, None;
    }
    var live := pruned.reports;
    var take := Min(m.reportsRequired, |live|);
    var start := Max(0, |live| - take);
    var reporters, attached := CollectEnvelope(live[start..], m.maxAttachedEvents);
    EventIdsNonEmpty(live[start..]);
    forall id | id in attached ensures id != "" {
      var j :| 0 <= j < |attached| && attached[j] == id;
      assert id == EventIds(live[start..])[j];
      assert EventIds(live[start..])[j] in EventIds(live[start..]);
    }
    var reason := if globalG.Some? && globalG.value >= GlobalFloor then HighGlobalG else RepeatedRuleBreak;
    envelope := Some(ReportEnvelope(reportId := freshId, reporterIds := reporters,
                                    attachedEventIds := attached, reason := reason));
    next := pruned.(reports := live[..start], lastInterrogationTime := now);
  }

  lemma {:induction false} EventIdsNonEmpty(entries: seq<ReportEntry>)
    ensures forall id :: id in EventIds(entries) ==> id != ""
    decreases |entries|
  {
    if |entries| > 0 {
      EventIdsNonEmpty(entries[1..]);
    }
  }

  /** After a successful consumption the cooldown blocks an immediate retry. */
  lemma RetryBlockedByCooldown(m: Manager, now: real, globalG: Option<real>)
    requires m.cooldownSeconds > 0.0
    ensures !CanTrigger(m.(lastInterrogationTime := now), now, globalG).0
  {
  }

  /** Two reports from different citizens with a quorum of two and no
      cooldown produce an envelope naming both. */
  method ExampleTwoReporters() returns (envelope: Option<ReportEnvelope>)
    ensures envelope.Some? && "NPC-A" in envelope.value.reporterIds && "NPC-B" in envelope.value.reporterIds
    ensures |envelope.value.reporterIds| == 2
  {
    var m2 := TwoReportsFiled();
    AllLive(m2.reports, 10.0, m2.windowSeconds);
    var next;
    next, envelope := TryConsumeReport(m2, 10.0, None, "case-1");
    ReportersOfTwo(envelope.value.reporterIds, LiveReports(m2.reports, 10.0, m2.windowSeconds));
  }

  /** The queue after one citizen reports. */
  function OneReportFiled(): (m: Manager)
    ensures m == Manager(cooldownSeconds := 0.0).(reports := TwoReports[..1])
  {
    var entry := TwoReports[0];
    AllLive([entry], 10.0, 45.0);
    FileReport(Manager(cooldownSeconds := 0.0), "NPC-A", "R4", 55.0, "evt-1", 10.0).0
  }

  /** The queue after two citizens report at the same moment. */
  function TwoReportsFiled(): (m: Manager)
    ensures m == Manager(cooldownSeconds := 0.0).(reports := TwoReports)
  {
    var m1 := OneReportFiled();
    assert m1.reports + [TwoReports[1]] == TwoReports;
    AllLive(TwoReports, 10.0, 45.0);
    FileReport(m1, "NPC-B", "R4", 60.0, "evt-2", 10.0).0
  }

  const TwoReports := [ReportEntry(10.0, "NPC-A", "R4", "evt-1"), ReportEntry(10.0, "NPC-B", "R4", "evt-2")]

  /** Pruning keeps a queue whose entries are all live. */
  lemma {:induction false} AllLive(entries: seq<ReportEntry>, now: real, window: real)
    requires forall e :: e in entries ==> IsLive(e, now, window)
    ensures LiveReports(entries, now, window) == entries
    decreases |entries|
  {
    if |entries| > 0 {
      AllLive(entries[1..], now, window);
      assert entries == [entries[0]] + entries[1..];
    }
  }

  /** An envelope drawn from both reports names exactly the two citizens. */
  lemma ReportersOfTwo(ids: seq<string>, live: seq<ReportEntry>)
    requires live == TwoReports && NoDuplicates(ids)
    requires forall r :: r in ids <==> r != "" && exists e :: e in live[|live| - 2..] && e.reporterId == r
    ensures "NPC-A" in ids && "NPC-B" in ids && |ids| == 2
  {
    assert live[|live| - 2..] == live;
    assert live[0].reporterId == "NPC-A" && live[1].reporterId == "NPC-B";
    assert forall r :: r in ids <==> r == "NPC-A" || r == "NPC-B";
    assert Elements(ids) == {"NPC-A", "NPC-B"};
    DistinctCardinality(ids);
  }
}

=== FILE: semantic_shaper.dfy ===
/** `SemanticShaper.ToText`: the one-line Korean rendering of an event that
    the log UI, the case formatter and the NPC prompts all share. */
module SemanticShaper {
  import opened Events
  import opened Text
  import opened DialogueLineLimiter

  /** Longest line the shaper emits. */
  const MaxLineChars := 80

  /** The types whose line ends with the ` [place]` location suffix: every
      type with its own template except `NpcUtterance`. */
  predicate IsLocated(t: EventType) {
    !(t.NpcUtterance? || t.ExposureUpdated?)
  }

  /** The types whose template already shows the note, so no ` (note)`. */
  predicate QuotesNote(t: EventType) {
    t.VerdictGiven? || t.SuspicionUpdated? || t.NpcUtterance? || t.RumorShared?
    || t.RumorConfirmed? || t.RumorDebunked? || t.StatementGiven? || t.ExplanationGiven?
    || t.RebuttalGiven?
  }

  /** The per-type sentence, before any suffix. */
  function Headline(r: EventRecord): string {
    Template(r.eventType, r.actorId, r.zoneId, r.ruleId, r.note)
  }

  /** The sentence of each type, from the fields it shows. */
  function Template(t: EventType, actorId: string, zoneId: string, ruleId: string, note: string): string {
    match t
    case EnteredZone => actorId + "이(가) " + zoneId + " 구역에 들어왔습니다."
    case ExitedZone => actorId + "이(가) " + zoneId + " 구역을 떠났습니다."
    case ViolationDetected => actorId + " 규칙 위반 " + ruleId + " 감지."
    case SuspicionUpdated => actorId + " 의심도 변화: " + note
    case ReportFiled => actorId + "이(가) " + ruleId + " 관련 신고를 제출했습니다."
    case InterrogationStarted => "경찰 심문이 시작되었습니다."
    case VerdictGiven => "판정: " + note
    case StatementGiven => "진술: " + note
    case ExplanationGiven => "해명: " + note
    case RebuttalGiven => "반박: " + note
    case NpcUtterance => actorId + ": " + note
    case RumorShared => "소문: " + note
    case RumorConfirmed => "소문 확정: " + note
    case RumorDebunked => "소문 반박: " + note
    case EvidenceCaptured => "증거 확보: " + note
    case TicketIssued => "티켓 발부: " + note
    case CctvCaptured => "CCTV 캡처: " + note
    case TaskStarted => "업무 시작: " + note
    case TaskCompleted => "업무 완료: " + note
    case ApprovalGranted => "승인 완료: " + note
    case RcInserted => "RC 반영: " + note
    case LabelChanged => "라벨 갱신: " + note
    case PaymentProcessed => "결제 처리: " + note
    case QueueUpdated => "줄 정리: " + note
    case SeatClaimed => "좌석 사용: " + note
    case NoiseObserved => "소음 민원: " + note
    case ExposureUpdated => TypeName(t) + " 이벤트"
  }

  /** `AppendLocation`: the place id, falling back to the zone id. */
  function LocationSuffix(r: EventRecord): string {
    var place := if r.placeId == "" then r.zoneId else r.placeId;
    if place == "" then "" else " [" + place + "]"
  }

  predicate ShowsNoteSuffix(r: EventRecord) {
    r.note != "" && !QuotesNote(r.eventType)
  }

  /** The line before `ClampLine`. */
  function RawLine(r: EventRecord): string {
    Headline(r)
    + (if IsLocated(r.eventType) then LocationSuffix(r) else "")
    + (if ShowsNoteSuffix(r) then " (" + r.note + ")" else "")
  }

  function ToText(r: EventRecord): (line: string)
    ensures |line| <= MaxLineChars
    ensures NoLineBreaks(line) && NoDoubleSpace(line)
    ensures |line| > 0 ==> !IsWhiteSpace(line[0])
  {
    ClampLine(RawLine(r), MaxLineChars)
  }

  /** A note shown in parentheses closes the raw line; a note the template
      already quotes leaves the line ending at its location. */
  lemma NoteSuffixRule(r: EventRecord)
    ensures ShowsNoteSuffix(r) ==> EndsWithText(RawLine(r), " (" + r.note + ")")
    ensures !ShowsNoteSuffix(r) && IsLocated(r.eventType) ==> EndsWithText(RawLine(r), LocationSuffix(r))
    ensures r.note == "" ==> RawLine(r) == Headline(r) + (if IsLocated(r.eventType) then LocationSuffix(r) else "")
  {
  }

  predicate EndsWithText(s: string, suffix: string) {
    |suffix| <= |s| && s[|s| - |suffix|..] == suffix
  }

  /** A located line names the place id when it has one, otherwise the zone id. */
  lemma LocationFallback(r: EventRecord)
    requires IsLocated(r.eventType)
    ensures r.placeId != "" ==> Contains(RawLine(r), " [" + r.placeId + "]")
    ensures r.placeId == "" && r.zoneId != "" ==> Contains(RawLine(r), " [" + r.zoneId + "]")
    ensures r.placeId == "" && r.zoneId == "" ==> !ShowsNoteSuffix(r) ==> RawLine(r) == Headline(r)
  {
    var h := Headline(r);
    var loc := LocationSuffix(r);
    var tail := if ShowsNoteSuffix(r) then " (" + r.note + ")" else "";
    assert RawLine(r) == h + loc + tail;
    assert (h + loc + tail)[|h|..|h| + |loc|] == loc;
    assert OccursAt(RawLine(r), loc, |h|);
  }

  /** Utterances and the generic fallback never show a place: moving the
      event elsewhere does not change its line. */
  lemma UnlocatedIgnoresPlace(r: EventRecord, placeId: string, zoneId: string)
    requires !IsLocated(r.eventType)
    ensures ToText(r.(placeId := placeId, zoneId := zoneId)) == ToText(r)
  {
    var moved := r.(placeId := placeId, zoneId := zoneId);
    assert Headline(moved) == Headline(r) by {
      if r.eventType.NpcUtterance? {
      } else {
        assert r.eventType.ExposureUpdated?;
      }
    }
    assert RawLine(moved) == RawLine(r);
  }

  /** An utterance reads "actor: note" and nothing else. */
  lemma UtteranceLine(r: EventRecord)
    requires r.eventType == NpcUtterance
    ensures ToText(r) == ClampLine(r.actorId + ": " + r.note, MaxLineChars)
  {
    assert RawLine(r) == r.actorId + ": " + r.note;
  }

  /** A type without its own template reads "<type name> 이벤트", with the
      note in parentheses when there is one. */
  lemma FallbackLine(r: EventRecord)
    requires r.eventType == ExposureUpdated
    ensures ToText(r) == ClampLine("ExposureUpdated 이벤트" + (if r.note == "" then "" else " (" + r.note + ")"), MaxLineChars)
  {
    assert RawLine(r) == "ExposureUpdated 이벤트" + (if r.note == "" then "" else " (" + r.note + ")");
  }

  /** Only the type, actor, zone, place, rule and note decide the line. */
  lemma LineDependsOnDisplayedFields(a: EventRecord, b: EventRecord)
    requires a.eventType == b.eventType && a.actorId == b.actorId && a.zoneId == b.zoneId
    requires a.placeId == b.placeId && a.ruleId == b.ruleId && a.note == b.note
    ensures ToText(a) == ToText(b)
  {
    assert RawLine(a) == RawLine(b);
  }
}

=== FILE: seqs.dfy ===
/** Small sequence vocabulary shared by the list-manipulating modules. */
module Seqs {
  import opened Wrappers

  predicate NoDuplicates<T(==)>(s: seq<T>) {
    forall i, j :: 0 <= i < j < |s| ==> s[i] != s[j]
  }

  function Elements<T>(s: seq<T>): set<T> {
    set x | x in s
  }

  /** A duplicate-free sequence has as many elements as its set. */
  lemma {:induction false} DistinctCardinality<T>(s: seq<T>)
    requires NoDuplicates(s)
    ensures |Elements(s)| == |s|
    decreases |s|
  {
    if |s| > 0 {
      DistinctCardinality(s[1..]);
      assert Elements(s) == {s[0]} + Elements(s[1..]);
      assert s[0] !in Elements(s[1..]);
    }
  }

  /** `List.Remove`: drop the first occurrence, if any. */
  function RemoveFirst<T(==)>(s: seq<T>, x: T): (r: seq<T>)
    ensures x !in s ==> r == s
    ensures x in s ==> |r| == |s| - 1
    ensures forall y :: y in r ==> y in s
    ensures forall y :: y in s && y != x ==> y in r
    decreases |s|
  {
    if |s| == 0 then s
    else if s[0] == x then s[1..]
    else [s[0]] + RemoveFirst(s[1..], x)
  }

  /** Removing from a duplicate-free sequence removes every occurrence and
      keeps the sequence duplicate-free. */
  lemma {:induction false} RemoveFirstDistinct<T>(s: seq<T>, x: T)
    requires NoDuplicates(s)
    ensures NoDuplicates(RemoveFirst(s, x)) && x !in RemoveFirst(s, x)
    decreases |s|
  {
    if |s| > 0 && s[0] != x {
      RemoveFirstDistinct(s[1..], x);
      var rest := RemoveFirst(s[1..], x);
      assert s[0] !in s[1..];
      assert s[0] !in rest;
      assert forall i :: 1 <= i < |[s[0]] + rest| ==> ([s[0]] + rest)[i] == rest[i - 1];
    }
  }

  /** Removing an element that was just appended restores the sequence. */
  lemma {:induction false} RemoveAppended<T>(s: seq<T>, x: T)
    requires x !in s
    ensures RemoveFirst(s + [x], x) == s
    decreases |s|
  {
    if |s| > 0 {
      assert (s + [x])[1..] == s[1..] + [x];
      RemoveAppended(s[1..], x);
      assert [s[0]] + s[1..] == s;
    }
  }

  /** The present results of `f` over `xs`, in order. */
  function Collect<T, U>(f: T -> Option<U>, xs: seq<T>): (r: seq<U>)
    ensures |r| <= |xs|
    decreases |xs|
  {
    if |xs| == 0 then []
    else (if f(xs[0]).Some? then [f(xs[0]).value] else []) + Collect(f, xs[1..])
  }

  /** Collecting over two lists is collecting over each, one after the other. */
  lemma {:induction false} CollectAppend<T, U>(f: T -> Option<U>, a: seq<T>, b: seq<T>)
    ensures Collect(f, a + b) == Collect(f, a) + Collect(f, b)
    decreases |a|
  {
    if |a| == 0 {
      assert a + b == b;
    } else {
      var head := if f(a[0]).Some? then [f(a[0]).value] else [];
      assert (a + b)[0] == a[0];
      calc {
        Collect(f, a + b);
        head + Collect(f, (a + b)[1..]);
        { assert (a + b)[1..] == a[1..] + b; }
        head + Collect(f, a[1..] + b);
        { CollectAppend(f, a[1..], b); }
        head + (Collect(f, a[1..]) + Collect(f, b));
        (head + Collect(f, a[1..])) + Collect(f, b);
      }
    }
  }

  /** Every collected result comes from an element, and every element with a
      result contributes it. */
  lemma {:induction false} CollectExact<T, U>(f: T -> Option<U>, xs: seq<T>)
    ensures forall u :: u in Collect(f, xs) ==> exists i :: 0 <= i < |xs| && f(xs[i]) == Some(u)
    ensures forall i :: 0 <= i < |xs| && f(xs[i]).Some? ==> f(xs[i]).value in Collect(f, xs)
    decreases |xs|
  {
    if |xs| > 0 {
      CollectExact(f, xs[1..]);
      var rest := Collect(f, xs[1..]);
      forall u | u in Collect(f, xs)
        ensures exists i :: 0 <= i < |xs| && f(xs[i]) == Some(u)
      {
        if u in rest {
          var j :| 0 <= j < |xs[1..]| && f(xs[1..][j]) == Some(u);
          assert f(xs[j + 1]) == Some(u);
        } else {
          assert f(xs[0]) == Some(u);
        }
      }
      forall i | 0 <= i < |xs| && f(xs[i]).Some?
        ensures f(xs[i]).value in Collect(f, xs)
      {
        if i > 0 {
          assert xs[i] == xs[1..][i - 1];
        }
      }
    }
  }

  /** The index of the first element satisfying `p`, if any. */
  function FirstWhere<T>(p: T -> bool, xs: seq<T>): (r: Option<nat>)
    ensures r.Some? ==> r.value < |xs| && p(xs[r.value])
    ensures r.Some? ==> forall j :: 0 <= j < r.value ==> !p(xs[j])
    ensures r.None? ==> forall j :: 0 <= j < |xs| ==> !p(xs[j])
    decreases |xs|
  {
    if |xs| == 0 then None
    else if p(xs[0]) then Some(0)
    else
      match FirstWhere(p, xs[1..])
      case Some(j) => Some(j + 1)
      case None => None
  }

  /** The elements of `xs` satisfying `p`, in order. */
  function Filter<T>(p: T -> bool, xs: seq<T>): (r: seq<T>)
    ensures |r| <= |xs|
    decreases |xs|
  {
    if |xs| == 0 then []
    else (if p(xs[0]) then [xs[0]] else []) + Filter(p, xs[1..])
  }

  /** Filtering two lists is filtering each, one after the other. */
  lemma {:induction false} FilterAppend<T>(p: T -> bool, a: seq<T>, b: seq<T>)
    ensures Filter(p, a + b) == Filter(p, a) + Filter(p, b)
    decreases |a|
  {
    if |a| == 0 {
      assert a + b == b;
    } else {
      var head := if p(a[0]) then [a[0]] else [];
      assert (a + b)[0] == a[0];
      calc {
        Filter(p, a + b);
        head + Filter(p, (a + b)[1..]);
        { assert (a + b)[1..] == a[1..] + b; }
        head + Filter(p, a[1..] + b);
        { FilterAppend(p, a[1..], b); }
        head + (Filter(p, a[1..]) + Filter(p, b));
        (head + Filter(p, a[1..])) + Filter(p, b);
      }
    }
  }

  /** The filtered list holds exactly the elements satisfying `p`. */
  lemma {:induction false} FilterMembers<T>(p: T -> bool, xs: seq<T>)
    ensures forall x :: x in Filter(p, xs) <==> x in xs && p(x)
    decreases |xs|
  {
    if |xs| > 0 {
      FilterMembers(p, xs[1..]);
      assert forall x :: x in xs <==> x == xs[0] || x in xs[1..];
    }
  }
}

=== FILE: session_director.dfy ===
/** `SessionDirector`: the end-of-session state machine. The frame time and
    the global suspicion G are parameters (`None` when no
    `GlobalSuspicionSystem` is present); freezing and restoring the actors is
    the `freezeApplied` flag. */
module SessionDirector {
  import opened Wrappers
  import opened Events

  const TimeLimitReason := "Time limit reached. You slipped away."
  const CriticalReason := "G reached critical. You were flagged."
  const DefaultVerdictText := "Verdict delivered."

  datatype Session = Session(
    sessionDurationSeconds: real := 720.0,
    suspicionEndThreshold: real := 0.65,
    endOnVerdict: bool := true,
    elapsedSeconds: real := 0.0,
    ended: bool := false,
    freezeApplied: bool := false,
    endReason: string := "")

  /** `EndSession`: the first reason is kept; ending freezes the actors. */
  function EndSession(s: Session, reason: string): (s': Session)
    ensures s.ended ==> s' == s
    ensures !s.ended ==> s' == s.(ended := true, endReason := reason, freezeApplied := true)
    ensures s'.ended && s'.freezeApplied == (s.freezeApplied || !s.ended)
  {
    if s.ended then s else s.(ended := true, endReason := reason, freezeApplied := true)
  }

  /** `Tick`: advance the clock, then end on the time limit, and only
      otherwise on a critical G. */
  function Tick(s: Session, deltaTime: real, g: Option<real>): (s': Session)
    ensures s.ended ==> s' == s
    ensures !s.ended ==> s'.elapsedSeconds == s.elapsedSeconds + deltaTime
    ensures !s.ended && s.elapsedSeconds + deltaTime >= s.sessionDurationSeconds ==>
      s'.ended && s'.endReason == TimeLimitReason
    ensures !s.ended && s.elapsedSeconds + deltaTime < s.sessionDurationSeconds ==>
      (s'.ended <==> g.Some? && g.value >= s.suspicionEndThreshold)
    ensures !s.ended && s'.ended && s.elapsedSeconds + deltaTime < s.sessionDurationSeconds ==>
      s'.endReason == CriticalReason
    ensures !s'.ended ==> s'.endReason == s.endReason
  {
    if s.ended then s
    else
      var t := s.(elapsedSeconds := s.elapsedSeconds + deltaTime);
      if t.elapsedSeconds >= t.sessionDurationSeconds then EndSession(t, TimeLimitReason)
      else if g.Some? && g.value >= t.suspicionEndThreshold then EndSession(t, CriticalReason)
      else t
  }

  /** The verdict text of a `VerdictGiven` record. */
  function VerdictReason(record: EventRecord): (reason: string)
    ensures record.note != "" ==> reason == "Verdict: " + record.note
    ensures record.note == "" ==> reason == "Verdict: " + DefaultVerdictText
  {
    "Verdict: " + (if record.note == "" then DefaultVerdictText else record.note)
  }

  /** `ProcessEvent`: a verdict ends the session when `endOnVerdict` is set;
      nothing else does. A null record is `None`. */
  function ProcessEvent(s: Session, record: Option<EventRecord>): (s': Session)
    ensures s.ended || record.None? ==> s' == s
    ensures !s.ended && record.Some? && s.endOnVerdict && record.value.eventType == VerdictGiven ==>
      s'.ended && s'.endReason == VerdictReason(record.value)
    ensures s'.ended != s.ended ==> record.Some? && record.value.eventType == VerdictGiven && s.endOnVerdict
    ensures s'.elapsedSeconds == s.elapsedSeconds
  {
    if s.ended || record.None? then s
    else if s.endOnVerdict && record.value.eventType == VerdictGiven then EndSession(s, VerdictReason(record.value))
    else s
  }

  /** `ResetSession`: clear the end state and the clock, unfreeze the actors. */
  function ResetSession(s: Session): (s': Session)
    ensures !s'.ended && s'.endReason == "" && s'.elapsedSeconds == 0.0 && !s'.freezeApplied
    ensures s'.sessionDurationSeconds == s.sessionDurationSeconds
      && s'.suspicionEndThreshold == s.suspicionEndThreshold && s'.endOnVerdict == s.endOnVerdict
  {
    s.(ended := false, endReason := "", elapsedSeconds := 0.0, freezeApplied := false)
  }

  /** One input to the director: a frame or a recorded event. */
  datatype Input = Frame(deltaTime: real, g: Option<real>) | Recorded(record: Option<EventRecord>)

  function Step(s: Session, i: Input): Session {
    match i
    case Frame(dt, g) => Tick(s, dt, g)
    case Recorded(r) => ProcessEvent(s, r)
  }

  function Run(s: Session, inputs: seq<Input>): Session
    decreases |inputs|
  {
    if |inputs| == 0 then s else Run(Step(s, inputs[0]), inputs[1..])
  }

  /** An ended session is frozen: no later frame or event changes it, so the
      first end reason is the one kept. */
  lemma {:induction false} EndedIsFinal(s: Session, inputs: seq<Input>)
    requires s.ended
    ensures Run(s, inputs) == s
    decreases |inputs|
  {
    if |inputs| > 0 {
      EndedIsFinal(Step(s, inputs[0]), inputs[1..]);
    }
  }

  /** Frames of non-negative length never wind the clock back. */
  lemma {:induction false} ClockMonotone(s: Session, inputs: seq<Input>)
    requires forall i :: 0 <= i < |inputs| && inputs[i].Frame? ==> inputs[i].deltaTime >= 0.0
    ensures Run(s, inputs).elapsedSeconds >= s.elapsedSeconds
    decreases |inputs|
  {
    if |inputs| > 0 {
      ClockMonotone(Step(s, inputs[0]), inputs[1..]);
    }
  }
}

=== FILE: society_brain.dfy ===
/** `SocietyBrain`: the observe, plan, validate, execute loop of a
    language-model-driven NPC. The model keeps the deterministic parts: which
    skills a role may use, which recent events become observations, and how
    a parsed plan is validated and executed. The language model, JSON
    parsing, navigation and the random jitter of the decision timer are
    parameters. */
module SocietyBrain {
  import opened Wrappers
  import opened Text
  import opened Numeric
  import opened Events
  import opened Seqs
  import WorldEventLog
  import SocietyJson
  import M = SocietyMemory
  import N = NpcPersona

  const DefaultAllowedSkills: seq<string> := ["Speak", "MoveToAnchor", "FileReport"]
  const FallbackLine := "음... 상황을 좀 더 봐야겠네요."
  const DefaultAnchor := "ParkArea"
  const UnknownRule := "R_UNKNOWN"

  /** A policy-pack role and the skills it may use. */
  datatype RoleDefinition = RoleDefinition(roleId: string, allowedSkillIds: seq<string>)

  /** `IsSkillAllowed`: non-empty skill, non-empty list, and a list entry
      equal to it ignoring case. */
  function IsSkillAllowed(skillId: string, allowed: seq<string>): (r: bool)
    ensures r <==> skillId != "" && exists i :: 0 <= i < |allowed| && EqualsIgnoreCase(allowed[i], skillId)
    decreases |allowed|
  {
    if allowed == [] || skillId == "" then false
    else EqualsIgnoreCase(allowed[0], skillId) || IsSkillAllowed(skillId, allowed[1..])
  }

  /** `ResolveRoleDefinition`: the first present role whose id equals
      `roleId` ignoring case. A missing pack is an empty list. */
  function ResolveRoleDefinition(roles: seq<Option<RoleDefinition>>, roleId: string): (r: Option<RoleDefinition>)
    ensures r.Some? <==> exists i :: 0 <= i < |roles| && roles[i].Some? && EqualsIgnoreCase(roles[i].value.roleId, roleId)
    ensures r.Some? ==>
      exists i :: 0 <= i < |roles| && roles[i] == r && EqualsIgnoreCase(r.value.roleId, roleId)
        && forall j :: 0 <= j < i ==> !(roles[j].Some? && EqualsIgnoreCase(roles[j].value.roleId, roleId))
    decreases |roles|
  {
    if roles == [] then None
    else if roles[0].Some? && EqualsIgnoreCase(roles[0].value.roleId, roleId) then roles[0]
    else
      var r := ResolveRoleDefinition(roles[1..], roleId);
      assert forall i :: 1 <= i < |roles| ==> roles[i] == roles[1..][i - 1];
      r
  }

  /** `ResolveAllowedSkills`: the role's own list when it has a non-empty
      one, the default three skills otherwise. */
  function ResolveAllowedSkills(persona: Option<N.Persona>, roles: seq<Option<RoleDefinition>>): (r: seq<string>)
    ensures r != []
    ensures persona.None? ==> r == DefaultAllowedSkills
    ensures persona.Some? ==>
      var role := ResolveRoleDefinition(roles, N.Role(persona.value));
      r == (if role.Some? && role.value.allowedSkillIds != [] then role.value.allowedSkillIds else DefaultAllowedSkills)
  {
    if persona.None? then DefaultAllowedSkills
    else
      var role := ResolveRoleDefinition(roles, N.Role(persona.value));
      if role.Some? && role.value.allowedSkillIds != [] then role.value.allowedSkillIds else DefaultAllowedSkills
  }

  /** A role with no usable list falls back to the default skills, which
      allow speaking in any letter case. */
  lemma DefaultsAllowSpeech(persona: N.Persona, roles: seq<Option<RoleDefinition>>)
    requires forall i :: 0 <= i < |roles| && roles[i].Some? ==> roles[i].value.allowedSkillIds == []
    ensures ResolveAllowedSkills(Some(persona), roles) == DefaultAllowedSkills
    ensures IsSkillAllowed("speak", DefaultAllowedSkills) && !IsSkillAllowed("", DefaultAllowedSkills)
  {
    assert EqualsIgnoreCase(DefaultAllowedSkills[0], "speak");
  }

  /** The text an observation shows: `describe` stands for the semantic
      shaper (or the bare event type name when there is none); an NPC
      utterance with a note is quoted as "actor: note". */
  function ObservationText(record: EventRecord, describe: EventRecord -> string): string {
    if record.eventType == NpcUtterance && record.note != "" then record.actorId + ": " + record.note
    else describe(record)
  }

  /** Whether the collector passes over `record`: seen before, or the NPC's
      own utterance. */
  predicate Skipped(record: EventRecord, seen: set<string>, npcId: string) {
    (record.id != "" && record.id in seen) || (record.eventType == NpcUtterance && record.actorId == npcId)
  }

  /** The observation loop over already-fetched records: skipped ones are
      passed over, the ids of the others are remembered. */
  function ObserveAll(records: seq<EventRecord>, seen: set<string>, npcId: string, describe: EventRecord -> string)
    : (r: (seq<string>, set<string>))
    ensures seen <= r.1
    ensures |r.0| <= |records|
    ensures forall id :: id in r.1 - seen ==> id != "" && exists i :: 0 <= i < |records| && records[i].id == id
    decreases |records|
  {
    if records == [] then ([], seen)
    else
      var record := records[0];
      var rest := records[1..];
      assert forall i :: 0 <= i < |rest| ==> rest[i] == records[i + 1];
      if Skipped(record, seen, npcId) then ObserveAll(rest, seen, npcId, describe)
      else
        var seen' := if record.id != "" then seen + {record.id} else seen;
        var (texts, final) := ObserveAll(rest, seen', npcId, describe);
        assert forall id :: id in final - seen ==> id in final - seen' || id == record.id;
        ([ObservationText(record, describe)] + texts, final)
  }

  /** Reference: the records the loop keeps, given the ids seen so far. */
  function Accepted(records: seq<EventRecord>, seen: set<string>, npcId: string): seq<EventRecord>
    decreases |records|
  {
    if records == [] then []
    else if Skipped(records[0], seen, npcId) then Accepted(records[1..], seen, npcId)
    else [records[0]] + Accepted(records[1..], if records[0].id != "" then seen + {records[0].id} else seen, npcId)
  }

  /** The observations are exactly the accepted records' texts. */
  lemma {:induction false} ObservationsAreAccepted(records: seq<EventRecord>, seen: set<string>, npcId: string,
                                                   describe: EventRecord -> string)
    ensures var acc := Accepted(records, seen, npcId);
      ObserveAll(records, seen, npcId, describe).0 == seq(|acc|, i requires 0 <= i < |acc| => ObservationText(acc[i], describe))
    decreases |records|
  {
    if records != [] {
      var record := records[0];
      var rest := records[1..];
      if Skipped(record, seen, npcId) {
        ObservationsAreAccepted(rest, seen, npcId, describe);
        assert Accepted(records, seen, npcId) == Accepted(rest, seen, npcId);
        assert ObserveAll(records, seen, npcId, describe) == ObserveAll(rest, seen, npcId, describe);
      } else {
        var seen' := if record.id != "" then seen + {record.id} else seen;
        ObservationsAreAccepted(rest, seen', npcId, describe);
        var tail := Accepted(rest, seen', npcId);
        assert Accepted(records, seen, npcId) == [record] + tail;
      }
    }
  }

  /** Every accepted record comes from the input and was not skipped: none is
      the NPC's own utterance and none carries an id seen before. */
  lemma {:induction false} AcceptedAreFresh(records: seq<EventRecord>, seen: set<string>, npcId: string)
    ensures forall r :: r in Accepted(records, seen, npcId) ==> !Skipped(r, seen, npcId)
    ensures forall r :: r in Accepted(records, seen, npcId) ==> r in records
    decreases |records|
  {
    if records != [] {
      var record := records[0];
      var rest := records[1..];
      assert forall r :: r in rest ==> r in records;
      if Skipped(record, seen, npcId) {
        AcceptedAreFresh(rest, seen, npcId);
        assert Accepted(records, seen, npcId) == Accepted(rest, seen, npcId);
      } else {
        var seen' := if record.id != "" then seen + {record.id} else seen;
        AcceptedAreFresh(rest, seen', npcId);
        var tail := Accepted(rest, seen', npcId);
        var acc := Accepted(records, seen, npcId);
        assert acc == [record] + tail;
        assert forall r :: r in tail ==> r in rest && !Skipped(r, seen', npcId);
      }
    }
  }

  /** No non-empty id occurs twice. */
  predicate DistinctIds(rs: seq<EventRecord>) {
    forall i, j :: 0 <= i < j < |rs| && rs[i].id != "" ==> rs[i].id != rs[j].id
  }

  /** No id is observed twice in one pass. */
  lemma {:induction false} AcceptedIdsDistinct(records: seq<EventRecord>, seen: set<string>, npcId: string)
    ensures DistinctIds(Accepted(records, seen, npcId))
    decreases |records|
  {
    if records != [] {
      var record := records[0];
      var rest := records[1..];
      if Skipped(record, seen, npcId) {
        AcceptedIdsDistinct(rest, seen, npcId);
        assert Accepted(records, seen, npcId) == Accepted(rest, seen, npcId);
      } else {
        var seen' := if record.id != "" then seen + {record.id} else seen;
        AcceptedIdsDistinct(rest, seen', npcId);
        AcceptedAreFresh(rest, seen', npcId);
        var tail := Accepted(rest, seen', npcId);
        var acc := Accepted(records, seen, npcId);
        assert acc == [record] + tail;
        forall j | 1 <= j < |acc| && record.id != ""
          ensures record.id != acc[j].id
        {
          assert acc[j] == tail[j - 1] && tail[j - 1] in tail;
          assert record.id in seen';
        }
        assert DistinctIds(acc) by {
          forall i, j | 0 <= i < j < |acc| && acc[i].id != ""
            ensures acc[i].id != acc[j].id
          {
            if i > 0 {
              assert acc[i] == tail[i - 1] && acc[j] == tail[j - 1];
            }
          }
        }
      }
    }
  }

  /** `CollectObservations`: the newest `observeRecentEvents` records (at
      most 32) become observation texts. */
  function CollectObservations(log: WorldEventLog.Log, observeRecentEvents: int, seen: set<string>, npcId: string,
                               describe: EventRecord -> string): (r: (seq<string>, set<string>))
    ensures Clamp(observeRecentEvents, 0, 32) == 0 ==> r == ([], seen)
    ensures |r.0| <= 32 && |r.0| <= Clamp(observeRecentEvents, 0, 32) && seen <= r.1
    ensures r.0 == ObserveAll(WorldEventLog.GetRecent(log, Clamp(observeRecentEvents, 0, 32)), seen, npcId, describe).0
  {
    var count := Clamp(observeRecentEvents, 0, 32);
    if count == 0 then ([], seen)
    else ObserveAll(WorldEventLog.GetRecent(log, count), seen, npcId, describe)
  }

  /** One action of a parsed plan, as the schema lists its fields. */
  datatype Action = Action(kind: string := "", targetId: string := "", placeId: string := "", zoneId: string := "",
                           ruleId: string := "", text: string := "", anchorName: string := "")

  /** A parsed plan. */
  datatype Plan = Plan(intent: string := "", speak: string := "", actions: seq<Option<Action>> := [],
                       memoryWrite: string := "")

  /** What a skill did to the world. */
  datatype Effect =
    | Spoke(record: EventRecord)
    | MovedTo(anchorName: string)
    | Reported(reporterId: string, ruleId: string, eventId: string)

  /** The world as the skills see it: the NPC, the clock, whether a log and a
      report manager exist, whether the agent can navigate, and which anchors
      the scene holds. */
  datatype World = World(persona: N.Persona, now: real, hasLog: bool, hasReports: bool, agentReady: bool,
                         anchorExists: string -> bool)

  /** The brain's state between decisions. */
  datatype Brain = Brain(persona: N.Persona, memory: M.Memory, seen: set<string>, nextDecisionTime: real)

  /** `ExecuteSpeak`: blank text, no log, or a cooling-down persona fails;
      otherwise the NPC's trimmed utterance is recorded and the persona
      marked as having spoken. */
  function ExecuteSpeak(text: string, w: World): (r: Option<(N.Persona, Effect)>)
    ensures r.Some? <==> !IsBlank(text) && w.hasLog && N.CanSpeak(w.persona, w.now)
    ensures r.Some? ==>
      r.value.0 == N.MarkSpoke(w.persona, w.now)
      && r.value.1.Spoke? && r.value.1.record.note == Trim(text) && r.value.1.record.note != ""
      && r.value.1.record.eventType == NpcUtterance && r.value.1.record.severity == 0
      && r.value.1.record.actorId == N.NpcId(w.persona) && r.value.1.record.actorRole == N.Role(w.persona)
  {
    if IsBlank(text) || !w.hasLog || !N.CanSpeak(w.persona, w.now) then None
    else
      Some((N.MarkSpoke(w.persona, w.now),
            Spoke(EventRecord(actorId := N.NpcId(w.persona), actorRole := N.Role(w.persona),
                              eventType := NpcUtterance, note := Trim(text), severity := 0))))
  }

  /** `ExecuteMoveToAnchor`: needs a navigating agent; an empty name means
      the park; a missing anchor fails. */
  function ExecuteMoveToAnchor(anchorName: string, w: World): (r: Option<Effect>)
    ensures r.Some? <==> w.agentReady && w.anchorExists(if anchorName == "" then DefaultAnchor else anchorName)
    ensures r.Some? ==> r.value == MovedTo(if anchorName == "" then DefaultAnchor else anchorName)
  {
    if !w.agentReady then None
    else
      var name := if anchorName == "" then DefaultAnchor else anchorName;
      if !w.anchorExists(name) then None else Some(MovedTo(name))
  }

  /** `ExecuteFileReport`: needs a report manager; an empty rule id becomes
      "R_UNKNOWN". The report itself is filed with a zero suspicion snapshot
      (`ReportManager.FileReport`). */
  function ExecuteFileReport(ruleId: string, eventId: string, w: World): (r: Option<Effect>)
    ensures r.Some? <==> w.hasReports
    ensures r.Some? ==> r.value == Reported(N.NpcId(w.persona), if ruleId == "" then UnknownRule else ruleId, eventId)
    ensures r.Some? ==> r.value.ruleId != ""
  {
    if !w.hasReports then None
    else Some(Reported(N.NpcId(w.persona), if ruleId == "" then UnknownRule else ruleId, eventId))
  }

  /** `TryExecuteAction`: dispatch on the exact, case-sensitive skill name;
      any other name fails. */
  function TryExecuteAction(a: Action, w: World): (r: Option<(N.Persona, Effect)>)
    ensures a.kind !in DefaultAllowedSkills ==> r.None?
    ensures r.Some? && !r.value.1.Spoke? ==> r.value.0 == w.persona
    ensures r.Some? && r.value.1.Spoke? ==> a.kind == "Speak"
  {
    if a.kind == "Speak" then ExecuteSpeak(a.text, w)
    else if a.kind == "MoveToAnchor" then
      (match ExecuteMoveToAnchor(a.anchorName, w) case None => None case Some(e) => Some((w.persona, e)))
    else if a.kind == "FileReport" then
      (match ExecuteFileReport(a.ruleId, a.targetId, w) case None => None case Some(e) => Some((w.persona, e)))
    else None
  }

  /** An allowed skill name in the wrong letter case passes validation but
      matches no skill, so it never runs. */
  lemma WrongCaseNeverRuns(w: World)
    ensures IsSkillAllowed("speak", DefaultAllowedSkills)
    ensures TryExecuteAction(Action(kind := "speak", text := "hi"), w).None?
  {
    assert EqualsIgnoreCase(DefaultAllowedSkills[0], "speak");
  }

  /** Whether the loop attempts `a` at all. */
  predicate Attempted(a: Option<Action>, allowed: seq<string>) {
    a.Some? && a.value.kind != "" && IsSkillAllowed(a.value.kind, allowed)
  }

  /** Whether an action slot is tried and succeeds, as a function of the slot. */
  function Succeeds(allowed: seq<string>, w: World): Option<Action> -> bool {
    a => Attempted(a, allowed) && TryExecuteAction(a.value, w).Some?
  }

  /** The action loop: try each attempted action in turn, stop at the first
      that succeeds. */
  function FirstSuccess(actions: seq<Option<Action>>, allowed: seq<string>, w: World): (r: Option<(N.Persona, Effect)>)
    ensures r.Some? <==>
      exists i :: 0 <= i < |actions| && Attempted(actions[i], allowed) && TryExecuteAction(actions[i].value, w).Some?
    ensures r.Some? ==>
      exists i :: 0 <= i < |actions| && Attempted(actions[i], allowed)
        && r == TryExecuteAction(actions[i].value, w)
        && forall j :: 0 <= j < i ==> !(Attempted(actions[j], allowed) && TryExecuteAction(actions[j].value, w).Some?)
  {
    match FirstWhere(Succeeds(allowed, w), actions)
    case None => None
    case Some(i) => TryExecuteAction(actions[i].value, w)
  }

  /** The outcome of executing a plan: the NPC, its memory, and what (if
      anything) it did. */
  datatype Outcome = Outcome(persona: N.Persona, memory: M.Memory, effect: Option<Effect>)

  /** The stock line has no white space at either end, so saying it keeps
      it as written. */
  lemma FallbackLineIsTrimmed()
    ensures Trim(FallbackLine) == FallbackLine
  {
    var n := |FallbackLine|;
    assert !IsWhiteSpace(FallbackLine[0]) && !IsWhiteSpace(FallbackLine[n - 1]);
    TrimIdentity(FallbackLine);
  }

  /** `DeterministicFallback`: try to say the stock line. */
  function Fallback(memory: M.Memory, w: World): (r: Outcome)
    ensures r.memory == memory
    ensures r.effect.Some? ==> r.effect.value.Spoke? && r.effect.value.record.note == Trim(FallbackLine)
  {
    var said := ExecuteSpeak(FallbackLine, w);
    if said.None? then Outcome(w.persona, memory, None)
    else Outcome(said.value.0, memory, Some(said.value.1))
  }

  /** `ExecutePlan`: no plan means the fallback; a memory note is stored; a
      top-level `speak` is said (if speaking is allowed) and the actions are
      then ignored; otherwise the first two actions are tried in order. */
  function ExecutePlan(plan: Option<Plan>, allowed: seq<string>, memory: M.Memory, w: World): (r: Outcome)
    ensures plan.None? ==> r == Fallback(memory, w)
    ensures plan.Some? ==>
      r.memory == (if plan.value.memoryWrite != "" then M.Add(memory, "MEM: " + plan.value.memoryWrite) else memory)
    ensures plan.Some? && plan.value.speak != "" ==>
      (r.effect.Some? <==> IsSkillAllowed("Speak", allowed) && ExecuteSpeak(plan.value.speak, w).Some?)
      && (r.effect.Some? ==> r.effect.value == ExecuteSpeak(plan.value.speak, w).value.1)
    ensures plan.Some? && plan.value.speak == "" ==>
      var tried := plan.value.actions[..Min(|plan.value.actions|, 2)];
      var hit := FirstSuccess(tried, allowed, w);
      r.effect == (if hit.Some? then Some(hit.value.1) else None)
      && r.persona == (if hit.Some? then hit.value.0 else w.persona)
  {
    if plan.None? then Fallback(memory, w)
    else
      var p := plan.value;
      var memory' := if p.memoryWrite != "" then M.Add(memory, "MEM: " + p.memoryWrite) else memory;
      if p.speak != "" then
        if IsSkillAllowed("Speak", allowed) then
          match ExecuteSpeak(p.speak, w)
          case None => Outcome(w.persona, memory', None)
          case Some((persona, e)) => Outcome(persona, memory', Some(e))
        else Outcome(w.persona, memory', None)
      else
        match FirstSuccess(p.actions[..Min(|p.actions|, 2)], allowed, w)
        case None => Outcome(w.persona, memory', None)
        case Some((persona, e)) => Outcome(persona, memory', Some(e))
  }

  /** Actions beyond the second are never tried, so a plan's third action
      changes nothing. */
  lemma OnlyTwoActionsCount(p: Plan, extra: Option<Action>, allowed: seq<string>, memory: M.Memory, w: World)
    requires |p.actions| >= 2
    ensures ExecutePlan(Some(p.(actions := p.actions + [extra])), allowed, memory, w) == ExecutePlan(Some(p), allowed, memory, w)
  {
    assert (p.actions + [extra])[..2] == p.actions[..2];
  }

  /** The reply handler: a reply without a JSON object, or one `parse`
      rejects, leads to the fallback; otherwise the plan is executed. */
  function HandleReply(raw: string, parse: string -> Option<Plan>, allowed: seq<string>, memory: M.Memory, w: World)
    : (r: Outcome)
    ensures SocietyJson.TryExtractJsonObject(raw).Failure? ==> r == Fallback(memory, w)
    ensures raw == "" ==> r == Fallback(memory, w)
    ensures SocietyJson.TryExtractJsonObject(raw).Success? ==>
      r == ExecutePlan(parse(SocietyJson.TryExtractJsonObject(raw).value), allowed, memory, w)
  {
    match SocietyJson.TryExtractJsonObject(raw)
    case Failure(_) => Fallback(memory, w)
    case Success(json) => ExecutePlan(parse(json), allowed, memory, w)
  }

  /** The synchronous half of `Update`: nothing happens before the decision
      time; otherwise the next decision is scheduled (`jitter` stands for
      the random spread), new observations are written to memory as
      "OBS: …", and without planning the fallback runs at once. With planning
      the outcome arrives later through `HandleReply`. */
  function Decide(b: Brain, log: WorldEventLog.Log, w: World, decisionIntervalSeconds: real, jitter: real,
                  observeRecentEvents: int, enableLlmPlanning: bool, describe: EventRecord -> string)
    : (r: (Brain, seq<string>, Option<Outcome>))
    requires w.persona == b.persona
    ensures w.now < b.nextDecisionTime ==> r == (b, [], None)
    ensures w.now >= b.nextDecisionTime ==>
      r.0.nextDecisionTime == w.now + decisionIntervalSeconds + jitter
      && r.1 == CollectObservations(log, observeRecentEvents, b.seen, N.NpcId(b.persona), describe).0
      && (r.2.Some? <==> !enableLlmPlanning)
    ensures w.now >= b.nextDecisionTime ==> b.seen <= r.0.seen
  {
    if w.now < b.nextDecisionTime then (b, [], None)
    else
      var next := w.now + decisionIntervalSeconds + jitter;
      var (observations, seen) := CollectObservations(log, observeRecentEvents, b.seen, N.NpcId(b.persona), describe);
      var memory := RememberAll(b.memory, observations);
      var b' := b.(nextDecisionTime := next, seen := seen, memory := memory);
      if !enableLlmPlanning then
        var o := Fallback(memory, w);
        (b'.(persona := o.persona, memory := o.memory), observations, Some(o))
      else (b', observations, None)
  }

  /** Each observation goes into memory prefixed with "OBS: ". */
  function RememberAll(memory: M.Memory, observations: seq<string>): (r: M.Memory)
    ensures r == M.AddAll(memory, seq(|observations|, i requires 0 <= i < |observations| => "OBS: " + observations[i]))
    decreases |observations|
  {
    if observations == [] then memory
    else
      var tagged := seq(|observations|, i requires 0 <= i < |observations| => "OBS: " + observations[i]);
      var rest := seq(|observations| - 1, i requires 0 <= i < |observations| - 1 => "OBS: " + observations[1..][i]);
      assert tagged[1..] == rest;
      RememberAll(M.Add(memory, "OBS: " + observations[0]), observations[1..])
  }
}

=== FILE: society_json.dfy ===
/** `SocietyJson.TryExtractJsonObject`: cut the JSON object out of a noisy
    language-model reply by taking everything from the first `{` to the
    last `}`. The JSON parse that follows (`TryParsePlan`) belongs to
    Unity's `JsonUtility` and is not part of this model. */
module SocietyJson {
  import opened Wrappers
  import opened Text

  const EmptyResponse := "empty response"
  const NoBraces := "no json object braces found"
  const EmptySubstring := "json substring empty"

  /** The extracted object, or the error message the source reports. */
  function TryExtractJsonObject(raw: string): (r: Result<string, string>)
    ensures raw == "" <==> r == Failure(EmptyResponse)
    ensures r.Failure? && raw != "" ==> r.error == NoBraces
    ensures r.Success? <==>
      IndexOfChar(raw, '{').Some? && LastIndexOfChar(raw, '}').Some?
      && IndexOfChar(raw, '{').value < LastIndexOfChar(raw, '}').value
    ensures r.Success? ==>
      r.value == raw[IndexOfChar(raw, '{').value..LastIndexOfChar(raw, '}').value + 1]
    ensures r.Failure? ==> r.error != EmptySubstring
  {
    if raw == "" then Failure(EmptyResponse)
    else
      var start := IndexOfChar(raw, '{');
      var end := LastIndexOfChar(raw, '}');
      if start.None? || end.None? || end.value <= start.value then Failure(NoBraces)
      else
        var json := TrimmedObject(raw, start.value, end.value);
        if json == "" then Failure(EmptySubstring) else Success(json)
  }

  /** The trimmed text from a `{` to a later `}`: trimming removes nothing,
      since it starts and ends with a brace. */
  function TrimmedObject(raw: string, start: nat, end: nat): (json: string)
    requires start < end < |raw| && raw[start] == '{' && raw[end] == '}'
    ensures json == raw[start..end + 1]
  {
    var cut := raw[start..end + 1];
    assert cut[0] == '{' && cut[|cut| - 1] == '}';
    TrimIdentity(cut);
    Trim(cut)
  }

  /** An extracted object opens with `{` and closes with `}`. */
  lemma ObjectIsBraced(raw: string)
    ensures var r := TryExtractJsonObject(raw);
      r.Success? ==> |r.value| >= 2 && r.value[0] == '{' && r.value[|r.value| - 1] == '}'
  {
    var r := TryExtractJsonObject(raw);
    if r.Success? {
      var start := IndexOfChar(raw, '{').value;
      var end := LastIndexOfChar(raw, '}').value;
      var json := r.value;
      assert json == raw[start..end + 1];
      BracedSlice(raw, start, end);
    }
  }

  lemma BracedSlice(raw: string, start: nat, end: nat)
    requires start < end < |raw| && raw[start] == '{' && raw[end] == '}'
    ensures var json := raw[start..end + 1];
      |json| >= 2 && json[0] == '{' && json[|json| - 1] == '}'
  {
  }

  /** The object is found exactly when some `{` precedes some `}`. */
  lemma FoundIffBracePair(raw: string)
    ensures TryExtractJsonObject(raw).Success? <==>
      exists i, j :: 0 <= i < j < |raw| && raw[i] == '{' && raw[j] == '}'
  {
    if exists i, j :: 0 <= i < j < |raw| && raw[i] == '{' && raw[j] == '}' {
      var i, j :| 0 <= i < j < |raw| && raw[i] == '{' && raw[j] == '}';
      var start := IndexOfChar(raw, '{');
      var end := LastIndexOfChar(raw, '}');
      assert start.Some? && start.value <= i;
      assert end.Some? && end.value >= j;
    }
  }

  /** A reply with prose around the object yields just the object; braces
      in the wrong order yield none. */
  lemma NoisyReply()
    ensures TryExtractJsonObject("a{}b") == Success("{}")
    ensures TryExtractJsonObject("}{").Failure? && TryExtractJsonObject("}{").error == NoBraces
  {
    var s := "a{}b";
    assert IndexOfChar(s, '{') == Some(1);
    assert LastIndexOfChar(s, '}') == Some(2);
    assert s[1..3] == "{}";
    var t := "}{";
    assert IndexOfChar(t, '{') == Some(1);
    assert LastIndexOfChar(t, '}') == Some(0);
  }
}

=== FILE: society_memory.dfy ===
/** `SocietyMemory`: an agent's working memory for prompting, a bounded list
    of trimmed notes that keeps the newest ones. */
module SocietyMemory {
  import opened Text
  import opened Numeric

  datatype Memory = Memory(capacity: int := 12, entries: seq<string> := [])

  /** The last `n` elements of `s` (all of them when there are fewer). */
  function Newest<T>(s: seq<T>, n: nat): (r: seq<T>)
    ensures |r| == Min(|s|, n) && r == s[|s| - |r|..]
  {
    if |s| <= n then s else s[|s| - n..]
  }

  /** `Prune`: the capacity is clamped to 4..64 and the oldest entries beyond
      it are dropped. */
  function Prune(m: Memory): (r: Memory)
    ensures 4 <= r.capacity <= 64 && |r.entries| <= r.capacity
    ensures 4 <= m.capacity <= 64 ==> r.capacity == m.capacity
    ensures r.entries == Newest(m.entries, r.capacity)
  {
    var capacity := Clamp(m.capacity, 4, 64);
    if |m.entries| <= capacity then m.(capacity := capacity)
    else Memory(capacity, m.entries[|m.entries| - capacity..])
  }

  /** `Add`: blank notes are ignored; others are trimmed, appended and the
      memory pruned. */
  function Add(m: Memory, entry: string): (r: Memory)
    ensures IsBlank(entry) ==> r == m
    ensures !IsBlank(entry) ==>
      r.capacity == Clamp(m.capacity, 4, 64) && r.entries == Newest(m.entries + [Trim(entry)], r.capacity)
  {
    if IsBlank(entry) then m else Prune(m.(entries := m.entries + [Trim(entry)]))
  }

  /** After a real note, the memory is within its clamped capacity, ends with
      that note, and before it keeps the newest older notes that fit. */
  lemma AddKeepsNewest(m: Memory, entry: string)
    requires !IsBlank(entry)
    ensures var r := Add(m, entry);
      4 <= r.capacity <= 64 && |r.entries| == Min(|m.entries| + 1, r.capacity)
      && r.entries[|r.entries| - 1] == Trim(entry)
      && r.entries[..|r.entries| - 1] == Newest(m.entries, r.capacity - 1)
  {
    var r := Add(m, entry);
    var all := m.entries + [Trim(entry)];
    assert r.entries == all[|all| - |r.entries|..];
    assert r.entries[..|r.entries| - 1] == m.entries[|m.entries| - (|r.entries| - 1)..];
  }

  /** Reference: the trimmed non-blank notes among `xs`, in order. */
  function Kept(xs: seq<string>): seq<string> {
    if xs == [] then []
    else if IsBlank(xs[0]) then Kept(xs[1..])
    else [Trim(xs[0])] + Kept(xs[1..])
  }

  /** Adds notes one after the other. */
  function AddAll(m: Memory, xs: seq<string>): Memory
    decreases |xs|
  {
    if xs == [] then m else AddAll(Add(m, xs[0]), xs[1..])
  }

  lemma NewestOfNewest<T>(s: seq<T>, x: T, n: nat)
    requires n >= 1
    ensures Newest(Newest(s, n) + [x], n) == Newest(s + [x], n)
  {
  }

  /** Whatever is added, the memory holds exactly the newest `capacity` of
      the notes it has seen (trimmed, blank ones left out). */
  lemma {:induction false} KeepsNewest(m: Memory, xs: seq<string>)
    requires 4 <= m.capacity <= 64 && |m.entries| <= m.capacity
    ensures AddAll(m, xs).capacity == m.capacity
    ensures AddAll(m, xs).entries == Newest(m.entries + Kept(xs), m.capacity)
    decreases |xs|
  {
    if xs != [] {
      var m' := Add(m, xs[0]);
      assert m'.capacity == m.capacity && |m'.entries| <= m.capacity;
      KeepsNewest(m', xs[1..]);
      FirstStep(m, xs);
    } else {
      assert m.entries + Kept(xs) == m.entries;
    }
  }

  /** The first note folds into the newest-window of the rest. */
  lemma FirstStep(m: Memory, xs: seq<string>)
    requires 4 <= m.capacity <= 64 && xs != []
    ensures Newest(Add(m, xs[0]).entries + Kept(xs[1..]), m.capacity) == Newest(m.entries + Kept(xs), m.capacity)
  {
    var rest := Kept(xs[1..]);
    if IsBlank(xs[0]) {
      assert Kept(xs) == rest;
    } else {
      NoteStep(m.entries, Trim(xs[0]), rest, m.capacity);
      assert Kept(xs) == [Trim(xs[0])] + rest;
    }
  }

  lemma NoteStep(e: seq<string>, t: string, rest: seq<string>, c: nat)
    ensures Newest(Newest(e + [t], c) + rest, c) == Newest(e + ([t] + rest), c)
  {
    NewestAppend(e + [t], rest, c);
    assert e + ([t] + rest) == (e + [t]) + rest;
  }

  /** Keeping the newest `n` before appending more changes nothing. */
  lemma NewestAppend<T>(a: seq<T>, b: seq<T>, n: nat)
    ensures Newest(Newest(a, n) + b, n) == Newest(a + b, n)
  {
    var na := Newest(a, n);
    var l := Min(|a + b|, n);
    assert Newest(a + b, n) == (a + b)[|a + b| - l..];
    assert Newest(na + b, n) == (na + b)[|na + b| - l..];
    assert (na + b)[|na + b| - l..] == (a + b)[|a + b| - l..] by {
      var d := |a + b| - |na + b|;
      forall p | |na + b| - l <= p < |na + b|
        ensures (na + b)[p] == (a + b)[p + d]
      {
        if p < |na| {
          assert (na + b)[p] == na[p] == a[|a| - |na| + p];
        } else {
          assert (na + b)[p] == b[p - |na|];
        }
      }
    }
  }

  /** `BuildSummary`: "None." for an empty memory; otherwise the last
      `maxLines` notes (at least one, at most all) joined by newlines. */
  function BuildSummary(m: Memory, maxLines: int): (r: string)
    ensures m.entries == [] ==> r == "None."
    ensures m.entries != [] && maxLines >= |m.entries| ==> r == Join(m.entries, "\n")
    ensures m.entries != [] && maxLines <= 1 ==> r == m.entries[|m.entries| - 1]
    ensures m.entries != [] ==> r == Join(Newest(m.entries, Clamp(maxLines, 1, |m.entries|)), "\n")
  {
    if m.entries == [] then "None."
    else
      var take := Clamp(maxLines, 1, |m.entries|);
      var start := Max(0, |m.entries| - take);
      var lines := m.entries[start..start + take];
      assert take == |m.entries| ==> lines == m.entries;
      assert take == 1 ==> lines == [m.entries[|m.entries| - 1]];
      assert lines == Newest(m.entries, take);
      Join(lines, "\n")
  }
}

=== FILE: spatial_blackboard.dfy ===
/** `SpatialBlackboard`: a per-place buffer of recent event summaries
    (`BlackboardEntry`) with a time-to-live per category and a capacity.
    `Time.time` is the `now` parameter. */
module SpatialBlackboard {
  import opened Numeric
  import opened Events

  datatype Vec3 = Vec3(x: real, y: real, z: real)

  datatype BlackboardEntry = BlackboardEntry(
    eventId: string := "",
    text: string := "",
    actorId: string := "",
    topic: string := "",
    category: EventCategory := Movement,
    severity: int := 0,
    delta: real := 0.0,
    timestamp: real := 0.0,
    position: Vec3 := Vec3(0.0, 0.0, 0.0),
    trust: real := 0.0,
    sourceId: string := "")

  datatype Board = Board(
    objectName: string,
    boardId: string := "",
    ttlSeconds: real := 90.0,
    evidenceTtlSeconds: real := 300.0,
    procedureTtlSeconds: real := 240.0,
    gossipTtlSeconds: real := 150.0,
    maxEntries: int := 10,
    entries: seq<BlackboardEntry> := [])

  /** `BoardId`: the configured id, else the object name. */
  function BoardId(b: Board): (id: string)
    ensures b.boardId != "" ==> id == b.boardId
    ensures b.boardId == "" ==> id == b.objectName
  {
    if b.boardId == "" then b.objectName else b.boardId
  }

  /** `Configure`: set id and default TTL; the capacity is at least one. */
  function Configure(b: Board, id: string, ttl: real, maxCount: int): (b': Board)
    ensures b'.boardId == id && b'.ttlSeconds == ttl && b'.maxEntries >= 1
    ensures maxCount >= 1 ==> b'.maxEntries == maxCount
    ensures b'.entries == b.entries && b'.evidenceTtlSeconds == b.evidenceTtlSeconds
  {
    b.(boardId := id, ttlSeconds := ttl, maxEntries := Max(1, maxCount))
  }

  /** The time-to-live of an entry of category `c`. */
  function TtlOf(b: Board, c: EventCategory): (ttl: real)
    ensures c == Evidence ==> ttl == b.evidenceTtlSeconds
    ensures c == Procedure ==> ttl == b.procedureTtlSeconds
    ensures c == Gossip ==> ttl == b.gossipTtlSeconds
    ensures c != Evidence && c != Procedure && c != Gossip ==> ttl == b.ttlSeconds
  {
    match c
    case Evidence => b.evidenceTtlSeconds
    case Procedure => b.procedureTtlSeconds
    case Gossip => b.gossipTtlSeconds
    case _ => b.ttlSeconds
  }

  predicate Live(b: Board, e: BlackboardEntry, now: real) {
    now - e.timestamp <= TtlOf(b, e.category)
  }

  /** `Prune`: drop expired entries, keeping the rest in order. */
  function Prune(b: Board, es: seq<BlackboardEntry>, now: real): (kept: seq<BlackboardEntry>)
    ensures |kept| <= |es|
    ensures forall e :: e in kept <==> e in es && Live(b, e, now)
    decreases |es|
  {
    if |es| == 0 then []
    else
      var rest := Prune(b, es[..|es| - 1], now);
      var last := es[|es| - 1];
      assert forall e :: e in es <==> e in es[..|es| - 1] || e == last;
      if Live(b, last, now) then rest + [last] else rest
  }

  /** Pruning works piecewise, so it keeps the entries' relative order. */
  lemma {:induction false} PruneAppend(b: Board, xs: seq<BlackboardEntry>, ys: seq<BlackboardEntry>, now: real)
    ensures Prune(b, xs + ys, now) == Prune(b, xs, now) + Prune(b, ys, now)
    decreases |ys|
  {
    if |ys| == 0 {
      assert xs + ys == xs;
    } else {
      assert (xs + ys)[..|xs + ys| - 1] == xs + ys[..|ys| - 1];
      assert (xs + ys)[|xs + ys| - 1] == ys[|ys| - 1];
      PruneAppend(b, xs, ys[..|ys| - 1], now);
    }
  }

  /** Pruning twice at the same time prunes nothing more. */
  lemma {:induction false} PruneIdempotent(b: Board, es: seq<BlackboardEntry>, now: real)
    ensures Prune(b, Prune(b, es, now), now) == Prune(b, es, now)
    decreases |es|
  {
    if |es| > 0 {
      var init := es[..|es| - 1];
      var last := es[|es| - 1];
      PruneIdempotent(b, init, now);
      if Live(b, last, now) {
        PruneAppend(b, Prune(b, init, now), [last], now);
      }
    }
  }

  /** `AddEntry`: stamp with `now`, append, prune, and drop the oldest when
      over capacity. */
  function AddEntry(b: Board, entry: BlackboardEntry, now: real): (b': Board)
    ensures b' == b.(entries := b'.entries)
    ensures |b.entries| <= b.maxEntries ==> |b'.entries| <= b.maxEntries
    ensures forall e :: e in b'.entries ==> e in b.entries + [entry.(timestamp := now)]
    ensures TtlOf(b, entry.category) >= 0.0 && b.maxEntries >= 1 ==>
      |b'.entries| > 0 && b'.entries[|b'.entries| - 1] == entry.(timestamp := now)
  {
    var stamped := entry.(timestamp := now);
    var pruned := Prune(b, b.entries + [stamped], now);
    PruneAddsLast(b, b.entries, stamped, now);
    if |pruned| > b.maxEntries && |pruned| > 0 then b.(entries := pruned[1..]) else b.(entries := pruned)
  }

  /** Pruning after appending an entry prunes the old entries and keeps the
      new one exactly when it is live. */
  lemma PruneAddsLast(b: Board, es: seq<BlackboardEntry>, last: BlackboardEntry, now: real)
    ensures Prune(b, es + [last], now) == Prune(b, es, now) + (if Live(b, last, now) then [last] else [])
  {
    PruneAppend(b, es, [last], now);
    assert [last][..0] == [];
  }

  /** `GetEntries`: prune at `now` and return what is left. */
  function GetEntries(b: Board, now: real): (result: (Board, seq<BlackboardEntry>))
    ensures result.1 == result.0.entries && result.0 == b.(entries := result.1)
    ensures forall e :: e in result.1 <==> e in b.entries && Live(b, e, now)
  {
    var kept := Prune(b, b.entries, now);
    (b.(entries := kept), kept)
  }

  /** Reading the board twice at the same time gives the same entries. */
  lemma GetEntriesStable(b: Board, now: real)
    ensures GetEntries(GetEntries(b, now).0, now).1 == GetEntries(b, now).1
  {
    var kept := Prune(b, b.entries, now);
    PruneIdempotent(b, b.entries, now);
    assert GetEntries(b.(entries := kept), now).1 == Prune(b.(entries := kept), kept, now);
    assert Prune(b.(entries := kept), kept, now) == Prune(b, kept, now) by {
      SameTtls(b, b.(entries := kept), kept, now);
    }
  }

  /** Pruning reads only the TTL settings, not the stored entries. */
  lemma {:induction false} SameTtls(b: Board, b': Board, es: seq<BlackboardEntry>, now: real)
    requires b' == b.(entries := b'.entries)
    ensures Prune(b', es, now) == Prune(b, es, now)
    decreases |es|
  {
    if |es| > 0 {
      SameTtls(b, b', es[..|es| - 1], now);
    }
  }
}

=== FILE: suspicion_component.dfy ===
/** `SuspicionComponent`: one NPC's suspicion level, its decay, and the
    report it files once the level crosses the threshold. `Time.time` and the
    frame's `deltaTime` are parameters; the event-log and report-manager
    references are the `hasLog` / `hasReportManager` flags, and the records
    and filings the component would send them are returned. */
module SuspicionComponent {
  import opened Wrappers
  import opened Numeric
  import opened Text
  import opened Events

  datatype Component = Component(
    objectName: string,
    npcId: string := "",
    maxSuspicion: real := 100.0,
    decayPerSecond: real := 0.5,
    reportThreshold: real := 50.0,
    reportCooldownSeconds: real := 20.0,
    hasReportManager: bool := true,
    hasLog: bool := true,
    suspicion: real := 0.0,
    lastReportTimestamp: real := -999.0,
    reported: bool := false,
    lastEventId: string := "")

  /** The arguments of the `ReportManager.FileReport` call. */
  datatype Filing = Filing(reporterId: string, ruleId: string, snapshot: real, eventId: string)

  /** What one `AddSuspicion` call does: the new state, the
      `SuspicionUpdated` record for the log and the report to file. */
  datatype Outcome = Outcome(next: Component, update: Option<EventRecord>, filing: Option<Filing>)

  /** The level stays between zero and the configured maximum. */
  predicate Valid(c: Component) {
    0.0 <= c.suspicion <= c.maxSuspicion
  }

  /** `NpcId`: the configured id, else the game object's name. */
  function NpcId(c: Component): (id: string)
    ensures c.npcId != "" ==> id == c.npcId
    ensures c.npcId == "" ==> id == c.objectName
  {
    if c.npcId == "" then c.objectName else c.npcId
  }

  /** `CurrentSuspicionNormalized`: the level over `max(1, maxSuspicion)`,
      clamped to the unit interval. */
  function Normalized(c: Component): (n: real)
    ensures 0.0 <= n <= 1.0
    ensures Valid(c) && c.maxSuspicion >= 1.0 ==> n * c.maxSuspicion == c.suspicion
  {
    Clamp01(c.suspicion / MaxR(1.0, c.maxSuspicion))
  }

  /** `Update`: the per-frame decay, floored at zero; nothing happens at zero. */
  function Decay(c: Component, deltaTime: real): (c': Component)
    ensures c'.suspicion >= 0.0 || c'.suspicion == c.suspicion
    ensures c.suspicion <= 0.0 ==> c' == c
    ensures c' == c.(suspicion := c'.suspicion)
    ensures Valid(c) && c.decayPerSecond * deltaTime >= 0.0 ==> Valid(c') && c'.suspicion <= c.suspicion
  {
    if c.suspicion <= 0.0 then c
    else c.(suspicion := MaxR(0.0, c.suspicion - c.decayPerSecond * deltaTime))
  }

  /** The `SuspicionUpdated` record: the level rounded into the note, and
      severity 2 from the report threshold up. */
  function UpdateRecord(c: Component, delta: real, ruleId: string): (r: EventRecord)
    ensures r.eventType == SuspicionUpdated && r.category == Suspicion && r.actorRole == "Citizen"
    ensures r.actorId == NpcId(c) && r.ruleId == ruleId && r.delta == delta
    ensures r.severity == 2 <==> c.suspicion >= c.reportThreshold
    ensures r.severity == 0 <==> c.suspicion < c.reportThreshold
  {
    EventRecord(actorId := NpcId(c), actorRole := "Citizen", eventType := SuspicionUpdated,
                category := Suspicion, ruleId := ruleId, delta := delta,
                note := IntToString(RoundAwayFromZero(c.suspicion)),
                severity := if c.suspicion >= c.reportThreshold then 2 else 0)
  }

  /** Whether `TryReport` files at `now`. */
  predicate MayReport(c: Component, now: real) {
    c.hasReportManager && !c.reported && c.suspicion >= c.reportThreshold
    && now - c.lastReportTimestamp >= c.reportCooldownSeconds
  }

  /** `TryReport`: file once, latch, and remember the time. */
  function TryReport(c: Component, ruleId: string, now: real): (result: (Component, Option<Filing>))
    ensures result.1.Some? <==> MayReport(c, now)
    ensures MayReport(c, now) ==>
      result.0 == c.(reported := true, lastReportTimestamp := now)
      && result.1 == Some(Filing(NpcId(c), ruleId, c.suspicion, c.lastEventId))
    ensures !MayReport(c, now) ==> result.0 == c
  {
    if MayReport(c, now) then
      (c.(reported := true, lastReportTimestamp := now), Some(Filing(NpcId(c), ruleId, c.suspicion, c.lastEventId)))
    else (c, None)
  }

  /** `AddSuspicion`: ignore a repeat of the last event id; otherwise move
      the level by `delta` within [0, max], log it and try to report. */
  function AddSuspicion(c: Component, delta: real, ruleId: string, eventId: string, now: real): (o: Outcome)
    ensures eventId != "" && eventId == c.lastEventId ==> o == Outcome(c, None, None)
    ensures !(eventId != "" && eventId == c.lastEventId) ==>
      o.next.lastEventId == eventId
      && (c.maxSuspicion >= 0.0 ==> Valid(o.next))
      && (0.0 <= c.suspicion + delta <= c.maxSuspicion ==> o.next.suspicion == c.suspicion + delta)
      && (o.update.Some? <==> c.hasLog)
      && (o.update.Some? ==> o.update.value.severity == (if o.next.suspicion >= c.reportThreshold then 2 else 0))
    ensures !(eventId != "" && eventId == c.lastEventId) ==>
      var level := ClampR(c.suspicion + delta, 0.0, c.maxSuspicion);
      var raised := c.(lastEventId := eventId, suspicion := level);
      (o.filing.Some? <==>
         c.hasReportManager && !c.reported && level >= c.reportThreshold
         && now - c.lastReportTimestamp >= c.reportCooldownSeconds)
      && (o.filing.Some? ==>
            o.filing.value == Filing(NpcId(c), ruleId, level, eventId)
            && o.next == raised.(reported := true, lastReportTimestamp := now))
      && (o.filing.None? ==> o.next == raised)
    ensures o.filing.Some? ==> o.filing.value.snapshot >= c.reportThreshold && o.next.reported && !c.reported
    ensures c.reported ==> o.filing.None? && o.next.reported
    ensures o.next.maxSuspicion == c.maxSuspicion && o.next.reportThreshold == c.reportThreshold
  {
    if eventId != "" && eventId == c.lastEventId then Outcome(c, None, None)
    else
      var raised := c.(lastEventId := eventId, suspicion := ClampR(c.suspicion + delta, 0.0, c.maxSuspicion));
      var update := if c.hasLog then Some(UpdateRecord(raised, delta, ruleId)) else None;
      var (next, filing) := TryReport(raised, ruleId, now);
      Outcome(next, update, filing)
  }

  /** `ResetAfterInterrogation`: zero the level and clear the report latch
      and timestamp. */
  function ResetAfterInterrogation(c: Component): (c': Component)
    ensures c'.suspicion == 0.0 && !c'.reported && c'.lastReportTimestamp == -999.0
    ensures c'.maxSuspicion >= 0.0 ==> Valid(c')
    ensures c' == c.(suspicion := 0.0, reported := false, lastReportTimestamp := -999.0)
  {
    c.(reported := false, suspicion := 0.0, lastReportTimestamp := -999.0)
  }

  /** Between two resets at most one report is filed: once a report has been
      filed, further additions file none until the reset. */
  lemma {:induction false} OneReportBetweenResets(c: Component, steps: seq<(real, string, string, real)>)
    requires c.reported
    ensures Replay(c, steps).1 == 0 && Replay(c, steps).0.reported
    decreases |steps|
  {
    if |steps| > 0 {
      var (d, rule, id, now) := steps[0];
      OneReportBetweenResets(AddSuspicion(c, d, rule, id, now).next, steps[1..]);
    }
  }

  /** The state after a series of `AddSuspicion` calls, and how many reports
      they filed. */
  function Replay(c: Component, steps: seq<(real, string, string, real)>): (result: (Component, nat))
    decreases |steps|
  {
    if |steps| == 0 then (c, 0)
    else
      var (d, rule, id, now) := steps[0];
      var o := AddSuspicion(c, d, rule, id, now);
      var rest := Replay(o.next, steps[1..]);
      (rest.0, rest.1 + (if o.filing.Some? then 1 else 0))
  }

  /** From any state, a series of additions files at most one report. */
  lemma {:induction false} AtMostOneReport(c: Component, steps: seq<(real, string, string, real)>)
    ensures Replay(c, steps).1 <= 1
    ensures c.reported ==> Replay(c, steps).1 == 0
    decreases |steps|
  {
    if |steps| > 0 {
      var (d, rule, id, now) := steps[0];
      var o := AddSuspicion(c, d, rule, id, now);
      AtMostOneReport(o.next, steps[1..]);
      if o.filing.Some? {
        OneReportBetweenResets(o.next, steps[1..]);
      }
    }
  }

  /** After a reset the component reports again: the first addition that
      lifts the cleared level to the threshold files, whatever was filed
      before the reset. */
  lemma ResetReenablesReport(c: Component, delta: real, ruleId: string, eventId: string, now: real)
    requires c.hasReportManager && c.reportThreshold <= c.maxSuspicion && c.reportThreshold <= delta
    requires eventId == "" || eventId != c.lastEventId
    requires now - (-999.0) >= c.reportCooldownSeconds
    ensures var o := AddSuspicion(ResetAfterInterrogation(c), delta, ruleId, eventId, now);
      o.filing.Some? && o.filing.value.reporterId == NpcId(c) && o.filing.value.eventId == eventId
      && o.next.reported && o.next.lastReportTimestamp == now
  {
    var raised := ResetAfterInterrogation(c).(lastEventId := eventId, suspicion := ClampR(delta, 0.0, c.maxSuspicion));
    assert 0.0 + delta == delta;
    assert raised.suspicion >= c.reportThreshold;
    assert MayReport(raised, now);
  }

  /** With the default settings (threshold 50 of 100, cooldown 20 s), a
      reset NPC that had already reported files again on a 60-point
      violation. */
  lemma DefaultReportsAgainAfterReset(now: real)
    requires now >= 0.0
    ensures var c := Component("npc", reported := true, suspicion := 80.0, lastReportTimestamp := now, lastEventId := "e1");
      AddSuspicion(c, 60.0, "R_QUEUE", "e2", now).filing.None?
      && AddSuspicion(ResetAfterInterrogation(c), 60.0, "R_QUEUE", "e2", now).filing.Some?
  {
    var c := Component("npc", reported := true, suspicion := 80.0, lastReportTimestamp := now, lastEventId := "e1");
    ResetReenablesReport(c, 60.0, "R_QUEUE", "e2", now);
  }
}

=== FILE: text.dfy ===
/** String helpers with .NET semantics: ordinal comparison, `Trim`,
    `IsNullOrWhiteSpace`, `Contains`, `IndexOf`, `Replace`, `string.Join`.
    A C# `null` string is modelled as the empty string: every call site in
    the game treats the two alike (`IsNullOrEmpty`, `?? string.Empty`). */
module Text {
  import opened Wrappers

  /** `char.IsWhiteSpace`: the Unicode White_Space characters. */
  predicate IsWhiteSpace(c: char) {
    ('\t' <= c <= '\r') || c == ' ' || c == '\U{85}' || c == '\U{A0}' || c == '\U{1680}'
    || ('\U{2000}' <= c <= '\U{200A}') || c == '\U{2028}' || c == '\U{2029}'
    || c == '\U{202F}' || c == '\U{205F}' || c == '\U{3000}'
  }

  /** `string.IsNullOrWhiteSpace`. */
  predicate IsBlank(s: string) {
    forall i :: 0 <= i < |s| ==> IsWhiteSpace(s[i])
  }

  /** `TrimStart()`: drops leading white space only. */
  function TrimStart(s: string): (r: string)
    ensures |r| <= |s| && r == s[|s| - |r|..]
    ensures forall i :: 0 <= i < |s| - |r| ==> IsWhiteSpace(s[i])
    ensures |r| > 0 ==> !IsWhiteSpace(r[0])
  {
    if |s| > 0 && IsWhiteSpace(s[0]) then TrimStart(s[1..]) else s
  }

  /** `TrimEnd()`: drops trailing white space only. */
  function TrimEnd(s: string): (r: string)
    ensures |r| <= |s| && r == s[..|r|]
    ensures forall i :: |r| <= i < |s| ==> IsWhiteSpace(s[i])
    ensures |r| > 0 ==> !IsWhiteSpace(r[|r| - 1])
  {
    if |s| > 0 && IsWhiteSpace(s[|s| - 1]) then TrimEnd(s[..|s| - 1]) else s
  }

  /** `Trim()`: the text between the first and last non-white characters. */
  function Trim(s: string): (r: string)
    ensures |r| <= |s|
    ensures |r| == 0 <==> IsBlank(s)
    ensures |r| > 0 ==> !IsWhiteSpace(r[0]) && !IsWhiteSpace(r[|r| - 1])
    ensures forall c :: c in r ==> c in s
  {
    var t := TrimStart(s);
    var r := TrimEnd(t);
    r
  }

  /** A string with no white space at either end trims to itself. */
  lemma TrimIdentity(s: string)
    requires |s| > 0 ==> !IsWhiteSpace(s[0]) && !IsWhiteSpace(s[|s| - 1])
    ensures Trim(s) == s
  {
    assert TrimStart(s) == s;
    assert TrimEnd(s) == s;
  }

  /** Leading white space before a non-white start is what `TrimStart`
      drops. */
  lemma {:induction false} TrimStartPadded(pre: string, rest: string)
    requires IsBlank(pre) && (|rest| > 0 ==> !IsWhiteSpace(rest[0]))
    ensures TrimStart(pre + rest) == rest
    decreases |pre|
  {
    if |pre| > 0 {
      assert (pre + rest)[0] == pre[0];
      assert (pre + rest)[1..] == pre[1..] + rest;
      TrimStartPadded(pre[1..], rest);
    } else {
      assert pre + rest == rest;
    }
  }

  /** Trailing white space after a non-white end is what `TrimEnd` drops. */
  lemma {:induction false} TrimEndPadded(rest: string, post: string)
    requires IsBlank(post) && (|rest| > 0 ==> !IsWhiteSpace(rest[|rest| - 1]))
    ensures TrimEnd(rest + post) == rest
    decreases |post|
  {
    if |post| > 0 {
      var n := |post| - 1;
      assert (rest + post)[|rest + post| - 1] == post[n];
      assert (rest + post)[..|rest + post| - 1] == rest + post[..n];
      TrimEndPadded(rest, post[..n]);
    } else {
      assert rest + post == rest;
    }
  }

  /** `Trim` removes exactly the white padding around a text with non-white
      ends. */
  lemma TrimPadded(pre: string, core: string, post: string)
    requires IsBlank(pre) && IsBlank(post)
    requires |core| > 0 && !IsWhiteSpace(core[0]) && !IsWhiteSpace(core[|core| - 1])
    ensures Trim(pre + core + post) == core
  {
    assert pre + core + post == pre + (core + post);
    TrimStartPadded(pre, core + post);
    TrimEndPadded(core, post);
  }

  /** ASCII `ToLowerInvariant` of one character; the game's ids are ASCII. */
  function LowerChar(c: char): char {
    if 'A' <= c <= 'Z' then (c as int + 32) as char else c
  }

  function ToLower(s: string): (r: string)
    ensures |r| == |s|
    ensures forall i :: 0 <= i < |s| ==> r[i] == LowerChar(s[i])
  {
    seq(|s|, i requires 0 <= i < |s| => LowerChar(s[i]))
  }

  /** `StringComparison.OrdinalIgnoreCase` equality. */
  predicate EqualsIgnoreCase(a: string, b: string) {
    ToLower(a) == ToLower(b)
  }

  /** Two strings that differ at one position, even after folding case, are
      not equal ignoring case. */
  lemma DiffersAt(a: string, b: string, i: nat)
    requires i < |a| && i < |b| && LowerChar(a[i]) != LowerChar(b[i])
    ensures !EqualsIgnoreCase(a, b)
  {
    assert ToLower(a)[i] != ToLower(b)[i];
  }

  /** `pat` occurs in `s` at position `i`. */
  predicate OccursAt(s: string, pat: string, i: int) {
    0 <= i && i + |pat| <= |s| && s[i..i + |pat|] == pat
  }

  /** Ordinal `string.Contains`; every string contains the empty string. */
  predicate Contains(s: string, pat: string) {
    exists i :: 0 <= i <= |s| - |pat| && OccursAt(s, pat, i)
  }

  /** A pattern with a character the text lacks does not occur in it. */
  lemma MissingChar(s: string, pat: string, k: nat)
    requires k < |pat| && pat[k] !in s
    ensures !Contains(s, pat)
  {
    forall i | 0 <= i <= |s| - |pat|
      ensures !OccursAt(s, pat, i)
    {
      assert s[i + k] in s;
    }
  }

  predicate ContainsIgnoreCase(s: string, pat: string) {
    Contains(ToLower(s), ToLower(pat))
  }

  /** Ordinal `string.StartsWith`. */
  predicate StartsWith(s: string, prefix: string) {
    |prefix| <= |s| && s[..|prefix|] == prefix
  }

  /** A string starts with any of its prefixes. */
  lemma StartsWithConcat(a: string, b: string)
    ensures StartsWith(a + b, a)
  {
    assert (a + b)[..|a|] == a;
  }

  /** Ordinal `string.EndsWith`. */
  predicate EndsWith(s: string, suffix: string) {
    |suffix| <= |s| && s[|s| - |suffix|..] == suffix
  }

  /** A string ends with any of its suffixes. */
  lemma EndsWithConcat(a: string, b: string)
    ensures EndsWith(a + b, b)
  {
    assert (a + b)[|a|..] == b;
  }

  /** `s.IndexOf(pat, from)`: the first occurrence at or after `from`. */
  function IndexOf(s: string, pat: string, from: nat): (r: Option<nat>)
    ensures r.Some? ==> from <= r.value && OccursAt(s, pat, r.value)
    ensures r.Some? ==> forall j :: from <= j < r.value ==> !OccursAt(s, pat, j)
    ensures r.None? ==> forall j :: from <= j ==> !OccursAt(s, pat, j)
    decreases |s| - from
  {
    if from + |pat| > |s| then None
    else if s[from..from + |pat|] == pat then Some(from)
    else IndexOf(s, pat, from + 1)
  }

  lemma {:induction false} ContainsIffIndexOf(s: string, pat: string)
    ensures Contains(s, pat) <==> IndexOf(s, pat, 0).Some?
  {
    var r := IndexOf(s, pat, 0);
    if r.Some? {
      assert OccursAt(s, pat, r.value);
    }
  }

  /** `s.IndexOf(c)`. */
  function IndexOfChar(s: string, c: char): (r: Option<nat>)
    ensures r.Some? ==> r.value < |s| && s[r.value] == c
    ensures r.Some? ==> forall j :: 0 <= j < r.value ==> s[j] != c
    ensures r.None? ==> forall j :: 0 <= j < |s| ==> s[j] != c
  {
    if |s| == 0 then None
    else if s[0] == c then Some(0)
    else match IndexOfChar(s[1..], c)
      case None => None
      case Some(k) => Some(k + 1)
  }

  /** `s.LastIndexOf(c)`. */
  function LastIndexOfChar(s: string, c: char): (r: Option<nat>)
    ensures r.Some? ==> r.value < |s| && s[r.value] == c
    ensures r.Some? ==> forall j :: r.value < j < |s| ==> s[j] != c
    ensures r.None? ==> forall j :: 0 <= j < |s| ==> s[j] != c
  {
    if |s| == 0 then None
    else if s[|s| - 1] == c then Some(|s| - 1)
    else LastIndexOfChar(s[..|s| - 1], c)
  }

  /** `s.Replace(from, to)` for single characters. */
  function ReplaceChar(s: string, from: char, to: char): (r: string)
    ensures |r| == |s|
    ensures forall i :: 0 <= i < |s| ==> r[i] == (if s[i] == from then to else s[i])
  {
    seq(|s|, i requires 0 <= i < |s| => if s[i] == from then to else s[i])
  }

  /** The UTF-16 code units .NET stores for one character: two for a
      character outside the Basic Multilingual Plane, one otherwise. */
  function Utf16Width(c: char): nat {
    if c as int >= 0x10000 then 2 else 1
  }

  /** `string.Length`, which counts UTF-16 code units, not characters. */
  function Utf16Length(s: string): (n: nat)
    ensures |s| <= n <= 2 * |s|
  {
    if |s| == 0 then 0 else Utf16Width(s[0]) + Utf16Length(s[1..])
  }

  /** Every character lies in the Basic Multilingual Plane (ASCII, Hangul
      syllables and the rest of the first 65536 code points). */
  predicate InBmp(s: string) {
    forall c :: c in s ==> c as int < 0x10000
  }

  /** Inside the Basic Multilingual Plane a prefix of `k` characters is `k`
      code units, so a cut by characters and a cut by code units agree. */
  lemma {:induction false} Utf16PrefixInBmp(s: string, k: nat)
    requires k <= |s| && InBmp(s)
    ensures Utf16Length(s[..k]) == k
    ensures Utf16Length(s) == |s|
    decreases |s|
  {
    if |s| > 0 {
      assert s[0] in s;
      assert InBmp(s[1..]) by {
        forall c | c in s[1..] ensures c as int < 0x10000 {
          var i :| 0 <= i < |s[1..]| && s[1..][i] == c;
          assert s[i + 1] in s;
        }
      }
      Utf16PrefixInBmp(s[1..], if k == 0 then 0 else k - 1);
      if k > 0 {
        assert s[..k][1..] == s[1..][..k - 1];
      }
    }
  }

  /** `string.Join(sep, parts)`. */
  function Join(parts: seq<string>, sep: string): string {
    if |parts| == 0 then ""
    else if |parts| == 1 then parts[0]
    else parts[0] + sep + Join(parts[1..], sep)
  }

  function DigitChar(d: nat): char
    requires d < 10
  {
    "0123456789"[d]
  }

  /** Decimal rendering of a natural number, as `int.ToString()` prints it. */
  function NatToString(n: nat): (r: string)
    ensures |r| > 0
    ensures forall i :: 0 <= i < |r| ==> '0' <= r[i] <= '9'
  {
    if n < 10 then [DigitChar(n)] else NatToString(n / 10) + [DigitChar(n % 10)]
  }

  /** Distinct numbers print differently. */
  lemma {:induction false} NatToStringInjective(n: nat, m: nat)
    requires NatToString(n) == NatToString(m)
    ensures n == m
    decreases n
  {
    var a, b := NatToString(n), NatToString(m);
    if n < 10 && m >= 10 {
      assert false;
    } else if n >= 10 && m < 10 {
      assert false;
    } else if n >= 10 {
      assert a[..|a| - 1] == NatToString(n / 10) && b[..|b| - 1] == NatToString(m / 10);
      assert DigitChar(n % 10) == a[|a| - 1] == b[|b| - 1] == DigitChar(m % 10);
      NatToStringInjective(n / 10, m / 10);
    }
  }

  /** A run of digits followed by a non-digit is read back unambiguously:
      the non-digit marks where the number ends. */
  lemma DigitsThenMark(a: string, x: string, b: string, y: string)
    requires forall i :: 0 <= i < |a| ==> '0' <= a[i] <= '9'
    requires forall i :: 0 <= i < |b| ==> '0' <= b[i] <= '9'
    requires |x| > 0 && !('0' <= x[0] <= '9') && |y| > 0 && !('0' <= y[0] <= '9')
    requires a + x == b + y
    ensures a == b && x == y
  {
    if |a| < |b| {
      ConcatAt(a, x, b, y);
      assert false;
    } else if |b| < |a| {
      ConcatAt(b, y, a, x);
      assert false;
    } else {
      assert a == (a + x)[..|a|] && b == (b + y)[..|b|];
      assert x == (a + x)[|a|..] && y == (b + y)[|b|..];
    }
  }

  /** Where the shorter left part ends, the one text shows the mark and the
      other still the longer left part. */
  lemma ConcatAt(a: string, x: string, b: string, y: string)
    requires |a| < |b| && |x| > 0
    ensures (a + x)[|a|] == x[0] && (b + y)[|a|] == b[|a|]
  {
  }

  /** `int.ToString()` including the leading minus sign. */
  function IntToString(n: int): (r: string)
    ensures |r| > 0
    ensures n < 0 <==> r[0] == '-'
  {
    if n < 0 then "-" + NatToString(-n) else NatToString(n)
  }
}

=== FILE: text_surface_database.dfy ===
/** `TextSurfaceDatabase.TryGet`: first-wins, case-insensitive lookup of a text surface by its id.
    One instance of `FirstWinsDatabase.TryGet`, whose contract states the
    lookup once; this copy only names the id field. */
module TextSurfaceDatabase {
  import opened Wrappers
  import opened Text
  import opened LucidDefinitions
  import F = FirstWinsDatabase

  function IdOf(d: TextSurface): string { d.textSurfaceId }

  function TryGet(entries: seq<Option<TextSurface>>, textSurfaceId: string): (r: Option<TextSurface>)
    ensures textSurfaceId == "" ==> r.None?
    ensures r.Some? ==> r.value.textSurfaceId != "" && EqualsIgnoreCase(r.value.textSurfaceId, textSurfaceId)
    ensures r.Some? ==>
      exists j :: 0 <= j < |entries| && entries[j] == Some(r.value)
        && forall i :: 0 <= i < j ==> !F.Matches(entries[i], IdOf, textSurfaceId)
    ensures r.None? && textSurfaceId != "" ==>
      forall j :: 0 <= j < |entries| && entries[j].Some? ==>
        entries[j].value.textSurfaceId == "" || !EqualsIgnoreCase(entries[j].value.textSurfaceId, textSurfaceId)
  {
    F.TryGet(entries, IdOf, textSurfaceId)
  }
}

=== FILE: validate_skills.dfy ===
/** `scripts/skills/validate_skills.py`: every skill directory's `SKILL.md`
    must open with a `---`-delimited YAML block whose `name` and
    `description` are non-blank strings. The YAML parser is a parameter that
    returns an abstract value; reading files and walking the directory are
    inputs (the skill files found, each with its directory name and text). */
module ValidateSkills {
  import opened Wrappers
  import opened Text

  // ---------------------------------------------------------------- lines

  /** `s.split("\n")`: the pieces between newlines. */
  function SplitOn(s: string): (r: seq<string>)
    ensures |r| >= 1
    ensures Join(r, "\n") == s
    ensures forall p :: p in r ==> '\n' !in p
    decreases |s|
  {
    if s == [] then [""]
    else if s[0] == '\n' then
      var rest := SplitOn(s[1..]);
      assert s == "\n" + s[1..];
      [""] + rest
    else
      var rest := SplitOn(s[1..]);
      JoinExtendsFirst([s[0]], rest[0], rest[1..], "\n");
      assert [rest[0]] + rest[1..] == rest;
      [[s[0]] + rest[0]] + rest[1..]
  }

  /** Prepending to the first part prepends to the joined text. */
  lemma JoinExtendsFirst(x: string, y: string, rest: seq<string>, sep: string)
    ensures Join([x + y] + rest, sep) == x + Join([y] + rest, sep)
  {
    if |rest| > 0 {
      assert ([x + y] + rest)[1..] == rest;
      assert ([y] + rest)[1..] == rest;
    }
  }

  /** Splitting a text joined at a newline splits both halves. */
  lemma {:induction false} SplitOnJoin(a: string, b: string)
    ensures SplitOn(a + "\n" + b) == SplitOn(a) + SplitOn(b)
    decreases |a|
  {
    var s := a + "\n" + b;
    if a == [] {
      assert s == "\n" + b;
      assert s[1..] == b;
    } else {
      assert s[1..] == a[1..] + "\n" + b;
      SplitOnJoin(a[1..], b);
    }
  }

  /** A text without newlines is the start of the first piece of anything
      it begins. */
  lemma {:induction false} FirstPieceStartsWith(x: string, y: string)
    requires '\n' !in x
    ensures |SplitOn(x + y)[0]| >= |x| && SplitOn(x + y)[0][..|x|] == x
    decreases |x|
  {
    if x != [] {
      assert (x + y)[1..] == x[1..] + y;
      assert x[0] in x;
      FirstPieceStartsWith(x[1..], y);
    }
  }

  /** `str.splitlines()`, on `'\n'` only: the pieces between newlines,
      a final newline ending the last line rather than starting a new one. */
  function Lines(text: string): (r: seq<string>)
    ensures text == "" ==> r == []
  {
    if text == "" then []
    else if text[|text| - 1] == '\n' then SplitOn(text[..|text| - 1])
    else SplitOn(text)
  }

  // ---------------------------------------------------------- frontmatter

  /** A line that strips to `---` opens or closes the block. */
  predicate IsDelimiter(line: string) {
    Trim(line) == "---"
  }

  /** The first position at or after `from` whose element satisfies `p`. */
  function FirstWhere<T>(xs: seq<T>, p: T -> bool, from: nat): (r: Option<nat>)
    ensures r.Some? ==> from <= r.value < |xs| && p(xs[r.value])
    ensures r.Some? ==> forall j :: from <= j < r.value ==> !p(xs[j])
    ensures r.None? ==> forall j :: from <= j < |xs| ==> !p(xs[j])
    decreases |xs| - from
  {
    if from >= |xs| then None
    else if p(xs[from]) then Some(from)
    else FirstWhere(xs, p, from + 1)
  }

  /** `split_frontmatter`: the block between an opening line that strips to
      `---` and the first later such line, and the text after it; an
      unopened or unclosed block gives no frontmatter and the whole text. */
  function SplitFrontmatter(text: string): (r: (Option<string>, string))
    ensures !StartsWith(text, "---") ==> r == (None, text)
    ensures r.0.None? ==> r.1 == text
    ensures r.0.Some? <==>
      StartsWith(text, "---") && |Lines(text)| > 0 && IsDelimiter(Lines(text)[0])
      && FirstWhere(Lines(text), IsDelimiter, 1).Some?
    ensures r.0.Some? ==> |Lines(text)| > 1
  {
    if !StartsWith(text, "---") then (None, text)
    else
      var lines := Lines(text);
      if |lines| == 0 || !IsDelimiter(lines[0]) then (None, text)
      else
        match FirstWhere(lines, IsDelimiter, 1)
        case Some(idx) => (Some(Join(lines[1..idx], "\n")), Join(lines[idx + 1..], "\n"))
        case None => (None, text)
  }

  /** A four-dash opening line is not a delimiter. */
  lemma FourDashesAreNoDelimiter(rest: string)
    ensures SplitFrontmatter("----" + rest).0.None?
  {
    var text := "----" + rest;
    var cut := if text[|text| - 1] == '\n' then text[..|text| - 1] else text;
    assert |cut| >= 4 && cut[..4] == "----" by {
      if text[|text| - 1] == '\n' {
        assert |text| >= 5;
      }
    }
    assert cut == "----" + cut[4..];
    FirstPieceStartsWith("----", cut[4..]);
    var first := Lines(text)[0];
    assert first[..4] == "----";
    TrimOfDashes(first);
  }

  /** A line starting with four dashes does not strip to three. */
  lemma TrimOfDashes(line: string)
    requires |line| >= 4 && line[..4] == "----"
    ensures !IsDelimiter(line)
  {
    assert line[0] == '-' && line[3] == '-';
    assert TrimStart(line) == line;
    assert !IsWhiteSpace(line[3]);
  }

  /** Writing a block and a body out and splitting them again gives them
      back, provided no line of the block is itself a delimiter and the body
      does not end in a newline (which `splitlines` would drop). */
  lemma FrontmatterRoundTrip(frontmatter: string, body: string)
    requires forall line :: line in SplitOn(frontmatter) ==> !IsDelimiter(line)
    requires body == "" || body[|body| - 1] != '\n'
    ensures SplitFrontmatter("---\n" + frontmatter + "\n---\n" + body) == (Some(frontmatter), body)
  {
    var d := "---";
    assert "---\n" + frontmatter + "\n---\n" + body == d + "\n" + frontmatter + "\n" + d + "\n" + body;
    DashesDelimit();
    DelimitedRoundTrip(d, frontmatter, body);
  }

  /** The three-dash line is a one-line delimiter. */
  lemma DashesDelimit()
    ensures IsDelimiter("---") && SplitOn("---") == ["---"]
  {
    NoNewlineIsOnePiece("---");
    TrimIdentity("---");
  }

  /** The round trip for any delimiter line that starts with and strips to
      `---`. */
  lemma DelimitedRoundTrip(d: string, frontmatter: string, body: string)
    requires IsDelimiter(d) && SplitOn(d) == [d] && |d| >= 3 && d[..3] == "---"
    requires forall line :: line in SplitOn(frontmatter) ==> !IsDelimiter(line)
    requires body == "" || body[|body| - 1] != '\n'
    ensures SplitFrontmatter(d + "\n" + frontmatter + "\n" + d + "\n" + body) == (Some(frontmatter), body)
  {
    var text := d + "\n" + frontmatter + "\n" + d + "\n" + body;
    var rest := if body == "" then [] else SplitOn(body);
    LinesOfDocument(d, frontmatter, body);
    assert StartsWith(text, "---") by {
      assert text[..3] == d[..3];
    }
    SplitKnownLines(text, d, SplitOn(frontmatter), rest);
  }

  /** A text whose lines are a delimiter, a block, the delimiter again and
      a rest splits into the joined block and the joined rest. */
  lemma SplitKnownLines(text: string, d: string, fm: seq<string>, rest: seq<string>)
    requires StartsWith(text, "---") && IsDelimiter(d)
    requires Lines(text) == [d] + fm + [d] + rest
    requires forall line :: line in fm ==> !IsDelimiter(line)
    ensures SplitFrontmatter(text) == (Some(Join(fm, "\n")), Join(rest, "\n"))
  {
    var lines := Lines(text);
    CloseAfterBlock(d, lines, fm, rest, IsDelimiter);
    SlicesOfDocument(d, lines, fm, rest);
    OpenedAndClosed(text, |fm| + 1);
  }

  /** A text that opens a block closed at line `k` splits there. */
  lemma OpenedAndClosed(text: string, k: nat)
    requires StartsWith(text, "---") && |Lines(text)| > 0 && IsDelimiter(Lines(text)[0])
    requires FirstWhere(Lines(text), IsDelimiter, 1) == Some(k)
    ensures SplitFrontmatter(text) == (Some(Join(Lines(text)[1..k], "\n")), Join(Lines(text)[k + 1..], "\n"))
  {
  }

  /** An opening line with no closing line after it: a document that is
      the delimiter and then lines none of which strips to `---` has no
      frontmatter, and the whole text stays the body. */
  lemma UnclosedBlockIsBody(frontmatter: string)
    requires forall line :: line in SplitOn(frontmatter) ==> !IsDelimiter(line)
    requires frontmatter == "" || frontmatter[|frontmatter| - 1] != '\n'
    ensures SplitFrontmatter("---\n" + frontmatter) == (None, "---\n" + frontmatter)
  {
    var text := "---\n" + frontmatter;
    assert text == "---" + "\n" + frontmatter;
    DashesDelimit();
    LinesAfterBlock("---", frontmatter);
    var lines := Lines(text);
    assert forall j :: 1 <= j < |lines| ==> lines[j] in SplitOn(frontmatter);
    NoneWhere(lines, IsDelimiter, 1);
  }

  /** No element from `from` on satisfies `p`: there is no first one. */
  lemma NoneWhere<T>(xs: seq<T>, p: T -> bool, from: nat)
    requires forall j :: from <= j < |xs| ==> !p(xs[j])
    ensures FirstWhere(xs, p, from).None?
  {
  }

  /** A text without newlines is a single piece. */
  lemma {:induction false} NoNewlineIsOnePiece(x: string)
    requires '\n' !in x
    ensures SplitOn(x) == [x]
    decreases |x|
  {
    if x != [] {
      assert x[0] in x;
      assert forall c :: c in x[1..] ==> c in x;
      NoNewlineIsOnePiece(x[1..]);
      assert [x[0]] + x[1..] == x;
    }
  }

  /** In a sequence made of a delimiter, the block's items, the delimiter
      again and the rest, the closing delimiter is the first item after the
      block. */
  lemma CloseAfterBlock<T>(d: T, lines: seq<T>, fm: seq<T>, rest: seq<T>, p: T -> bool)
    requires p(d) && lines == [d] + fm + [d] + rest
    requires forall line :: line in fm ==> !p(line)
    ensures FirstWhere(lines, p, 1) == Some(|fm| + 1)
  {
    var k := |fm| + 1;
    assert lines[k] == d;
    forall j | 1 <= j < k
      ensures !p(lines[j])
    {
      assert lines[j] == fm[j - 1];
    }
  }

  lemma SlicesOfDocument(d: string, lines: seq<string>, fm: seq<string>, rest: seq<string>)
    requires lines == [d] + fm + [d] + rest
    ensures lines[1..|fm| + 1] == fm && lines[|fm| + 2..] == rest
  {
  }

  /** The pieces of a block between two delimiter lines. */
  lemma SplitBlock(d: string, frontmatter: string)
    requires SplitOn(d) == [d]
    ensures SplitOn(d + "\n" + frontmatter + "\n" + d) == [d] + SplitOn(frontmatter) + [d]
  {
    assert d + "\n" + frontmatter + "\n" + d == d + "\n" + (frontmatter + "\n" + d);
    SplitOnJoin(d, frontmatter + "\n" + d);
    SplitOnJoin(frontmatter, d);
  }

  /** The lines of a delimited document. */
  lemma LinesOfDocument(d: string, frontmatter: string, body: string)
    requires SplitOn(d) == [d]
    requires body == "" || body[|body| - 1] != '\n'
    ensures Lines(d + "\n" + frontmatter + "\n" + d + "\n" + body)
      == [d] + SplitOn(frontmatter) + [d] + (if body == "" then [] else SplitOn(body))
  {
    var block := d + "\n" + frontmatter + "\n" + d;
    assert d + "\n" + frontmatter + "\n" + d + "\n" + body == block + "\n" + body;
    SplitBlock(d, frontmatter);
    LinesAfterBlock(block, body);
  }

  /** A final newline ends the block's last line; a body after it adds its
      own lines. */
  lemma LinesAfterBlock(block: string, body: string)
    requires body == "" || body[|body| - 1] != '\n'
    ensures Lines(block + "\n" + body) == SplitOn(block) + (if body == "" then [] else SplitOn(body))
  {
    var text := block + "\n" + body;
    if body == "" {
      assert text[..|text| - 1] == block;
    } else {
      assert text[|text| - 1] == body[|body| - 1];
      SplitOnJoin(block, body);
    }
  }

  // ------------------------------------------------------------- checking

  /** What `yaml.safe_load` returns, as far as the check looks at it. */
  datatype Yaml = Null | Str(s: string) | Mapping(fields: map<string, Yaml>) | Other(truthy: bool)

  datatype Parse = Parsed(value: Yaml) | YamlError(detail: string)

  const MissingFrontmatter := "missing YAML frontmatter block"
  const NotMapping := "frontmatter must be a YAML mapping"
  const BadName := "frontmatter.name must be a non-empty string"
  const BadDescription := "frontmatter.description must be a non-empty string"

  /** `parsed or {}`: Python's falsy values become the empty mapping. */
  function OrEmpty(v: Yaml): Yaml {
    match v
    case Null => Mapping(map[])
    case Str(s) => if s == "" then Mapping(map[]) else v
    case Mapping(m) => if |m| == 0 then Mapping(map[]) else v
    case Other(truthy) => if truthy then v else Mapping(map[])
  }

  /** The field is missing, not a string, or blank after stripping. */
  predicate BadField(m: map<string, Yaml>, key: string) {
    key !in m || !m[key].Str? || IsBlank(m[key].s)
  }

  /** The checks `validate_skill` runs on what `split_frontmatter` found. */
  function CheckBlock(frontmatter: Option<string>, parse: string -> Parse): (errors: seq<string>)
    ensures frontmatter.None? ==> errors == [MissingFrontmatter]
    ensures frontmatter.Some? && parse(frontmatter.value).YamlError? ==>
      errors == ["invalid YAML: " + parse(frontmatter.value).detail]
    ensures frontmatter.Some? && parse(frontmatter.value).Parsed? && !OrEmpty(parse(frontmatter.value).value).Mapping? ==>
      errors == [NotMapping]
    ensures frontmatter.Some? && parse(frontmatter.value).Parsed? && OrEmpty(parse(frontmatter.value).value).Mapping? ==>
      var m := OrEmpty(parse(frontmatter.value).value).fields;
      (BadName in errors <==> BadField(m, "name"))
      && (BadDescription in errors <==> BadField(m, "description"))
      && (forall e :: e in errors ==> e == BadName || e == BadDescription)
      && |errors| <= 2
  {
    if frontmatter.None? then [MissingFrontmatter]
    else
      match parse(frontmatter.value)
      case YamlError(detail) => ["invalid YAML: " + detail]
      case Parsed(value) =>
        var v := OrEmpty(value);
        if !v.Mapping? then [NotMapping]
        else
          (if BadField(v.fields, "name") then [BadName] else [])
          + (if BadField(v.fields, "description") then [BadDescription] else [])
  }

  /** `validate_skill`: the messages for one skill file. */
  function ValidateSkill(text: string, parse: string -> Parse): seq<string> {
    CheckBlock(SplitFrontmatter(text).0, parse)
  }

  /** An empty or null block is read as an empty mapping, so both fields
      are reported, and nothing else. */
  lemma EmptyBlockGivesBothFieldErrors(frontmatter: string, parse: string -> Parse)
    requires parse(frontmatter) == Parsed(Null)
    ensures CheckBlock(Some(frontmatter), parse) == [BadName, BadDescription]
  {
  }

  // ---------------------------------------------------------- directory

  /** A skill file as the glob finds it: `<dirName>/SKILL.md`. */
  datatype SkillFile = SkillFile(dirName: string, text: string)

  /** Code-point order on strings, as Python compares them; for paths
      `<dir>/SKILL.md` the path order is the order of the directory names. */
  predicate LessEq(a: string, b: string)
    decreases |a|
  {
    a == [] || (b != [] && (a[0] < b[0] || (a[0] == b[0] && LessEq(a[1..], b[1..]))))
  }

  lemma {:induction false} LessEqTotal(a: string, b: string)
    ensures LessEq(a, b) || LessEq(b, a)
    decreases |a|
  {
    if a != [] && b != [] && a[0] == b[0] {
      LessEqTotal(a[1..], b[1..]);
    }
  }

  predicate SortedByDir(fs: seq<SkillFile>) {
    forall i :: 0 <= i < |fs| - 1 ==> LessEq(fs[i].dirName, fs[i + 1].dirName)
  }

  function Insert(f: SkillFile, fs: seq<SkillFile>): (r: seq<SkillFile>)
    requires SortedByDir(fs)
    ensures SortedByDir(r) && multiset(r) == multiset(fs) + multiset{f}
    ensures |r| > 0 && (r[0] == f || (|fs| > 0 && r[0] == fs[0]))
  {
    if fs == [] then [f]
    else if LessEq(f.dirName, fs[0].dirName) then [f] + fs
    else
      LessEqTotal(f.dirName, fs[0].dirName);
      var rest := Insert(f, fs[1..]);
      assert fs == [fs[0]] + fs[1..];
      [fs[0]] + rest
  }

  /** `iter_skill_files`: the files in path order. */
  function SortFiles(fs: seq<SkillFile>): (r: seq<SkillFile>)
    ensures SortedByDir(r) && multiset(r) == multiset(fs)
  {
    if fs == [] then []
    else
      assert fs == [fs[0]] + fs[1..];
      Insert(fs[0], SortFiles(fs[1..]))
  }

  /** The messages of a list of files, in order, each with its directory. */
  function AllErrors(fs: seq<SkillFile>, parse: string -> Parse): seq<(string, string)>
  {
    if fs == [] then []
    else
      var own := ValidateSkill(fs[0].text, parse);
      seq(|own|, i requires 0 <= i < |own| => (fs[0].dirName, own[i])) + AllErrors(fs[1..], parse)
  }

  /** A list of files yields messages iff one of them does. */
  lemma {:induction false} AllErrorsEmpty(fs: seq<SkillFile>, parse: string -> Parse)
    ensures AllErrors(fs, parse) == [] <==> forall f :: f in fs ==> ValidateSkill(f.text, parse) == []
  {
    if fs != [] {
      AllErrorsEmpty(fs[1..], parse);
      assert forall f :: f in fs <==> f == fs[0] || f in fs[1..];
    }
  }

  /** `main`: the exit status and the messages printed. A missing skills
      directory fails outright; otherwise every file is checked in path
      order. */
  function RunChecks(dirExists: bool, files: seq<SkillFile>, parse: string -> Parse)
    : (r: (int, seq<(string, string)>))
    ensures !dirExists ==> r == (1, [])
    ensures dirExists ==> r.1 == AllErrors(SortFiles(files), parse)
    ensures r.0 == 1 <==> !dirExists || exists f :: f in files && ValidateSkill(f.text, parse) != []
    ensures r.0 == 0 || r.0 == 1
  {
    if !dirExists then (1, [])
    else
      var sorted := SortFiles(files);
      var errors := AllErrors(sorted, parse);
      AllErrorsEmpty(sorted, parse);
      assert forall f :: f in files <==> f in sorted by {
        assert forall f :: f in files <==> f in multiset(files);
        assert forall f :: f in sorted <==> f in multiset(sorted);
      }
      if errors != [] then (1, errors) else (0, errors)
  }
}

=== FILE: violation_response.dfy ===
/** `ViolationResponseSystem`: turns each `ViolationDetected` record into a
    suspicion increase for every registered witness. Witnesses are handles
    into the store of NPC suspicion components; `None` stands for a null
    list slot, and a handle missing from the store for a destroyed NPC. */
module ViolationResponse {
  import opened Wrappers
  import opened Seqs
  import opened Events
  import S = SuspicionComponent

  type Handle = nat
  type Store = map<Handle, S.Component>

  datatype RuleDelta = RuleDelta(ruleId: string, delta: real)

  datatype Responder = Responder(
    ruleDeltas: seq<RuleDelta>,
    lookup: map<string, real>,
    witnesses: seq<Option<Handle>>,
    defaultSuspicionDelta: real := 20.0,
    useDistanceFalloff: bool := false)

  /** The delta the last configured entry for `ruleId` gives, if any. */
  function LastDelta(entries: seq<RuleDelta>, ruleId: string): (d: Option<real>)
    ensures d.Some? <==> exists i :: 0 <= i < |entries| && entries[i].ruleId == ruleId
    decreases |entries|
  {
    if |entries| == 0 then None
    else if entries[|entries| - 1].ruleId == ruleId then Some(entries[|entries| - 1].delta)
    else
      var d := LastDelta(entries[..|entries| - 1], ruleId);
      assert forall i :: 0 <= i < |entries| - 1 ==> entries[..|entries| - 1][i] == entries[i];
      d
  }

  /** `BuildLookup`: entries in order, skipping empty rule ids, so a later
      entry overrides an earlier one. */
  function BuildLookup(entries: seq<RuleDelta>): (m: map<string, real>)
    ensures "" !in m
    decreases |entries|
  {
    if |entries| == 0 then map[]
    else
      var m := BuildLookup(entries[..|entries| - 1]);
      var e := entries[|entries| - 1];
      if e.ruleId == "" then m else m[e.ruleId := e.delta]
  }

  /** The lookup holds, for each non-empty rule id, the last configured
      delta, and nothing else. */
  lemma {:induction false} BuildLookupIsLast(entries: seq<RuleDelta>, ruleId: string)
    requires ruleId != ""
    ensures ruleId in BuildLookup(entries) <==> LastDelta(entries, ruleId).Some?
    ensures ruleId in BuildLookup(entries) ==> BuildLookup(entries)[ruleId] == LastDelta(entries, ruleId).value
    decreases |entries|
  {
    if |entries| > 0 {
      BuildLookupIsLast(entries[..|entries| - 1], ruleId);
    }
  }

  function NewResponder(entries: seq<RuleDelta>, witnesses: seq<Option<Handle>>): (r: Responder)
    ensures r.lookup == BuildLookup(entries) && r.witnesses == witnesses
    ensures r.defaultSuspicionDelta == 20.0 && !r.useDistanceFalloff
  {
    Responder(entries, BuildLookup(entries), witnesses)
  }

  /** `GetDelta`: the configured delta for a non-empty known rule id, the
      default otherwise. */
  function GetDelta(r: Responder, ruleId: string): (d: real)
    ensures ruleId != "" && ruleId in r.lookup ==> d == r.lookup[ruleId]
    ensures ruleId == "" || ruleId !in r.lookup ==> d == r.defaultSuspicionDelta
  {
    if ruleId != "" && ruleId in r.lookup then r.lookup[ruleId] else r.defaultSuspicionDelta
  }

  /** `ConfigureRuleDelta`: set one rule's delta; an empty id is ignored. */
  function ConfigureRuleDelta(r: Responder, ruleId: string, delta: real): (r': Responder)
    ensures ruleId == "" ==> r' == r
    ensures ruleId != "" ==> GetDelta(r', ruleId) == delta
    ensures forall k :: k != ruleId ==> GetDelta(r', k) == GetDelta(r, k)
    ensures r'.witnesses == r.witnesses && r'.defaultSuspicionDelta == r.defaultSuspicionDelta
  {
    if ruleId == "" then r else r.(lookup := r.lookup[ruleId := delta])
  }

  /** `RegisterWitness`: add a non-null component not yet listed. */
  function RegisterWitness(r: Responder, w: Option<Handle>): (r': Responder)
    ensures w.None? || w in r.witnesses ==> r' == r
    ensures w.Some? && w !in r.witnesses ==> r'.witnesses == r.witnesses + [w]
    ensures NoDuplicates(r.witnesses) ==> NoDuplicates(r'.witnesses)
    ensures r'.lookup == r.lookup
  {
    if w.Some? && w !in r.witnesses then r.(witnesses := r.witnesses + [w]) else r
  }

  /** The delta each witness receives: the rule's delta, scaled by the
      distance factor only when fall-off is enabled. */
  function AppliedDelta(r: Responder, record: EventRecord, distanceFactor: real): (d: real)
    ensures !r.useDistanceFalloff ==> d == GetDelta(r, record.ruleId)
  {
    GetDelta(r, record.ruleId) * (if r.useDistanceFalloff then distanceFactor else 1.0)
  }

  /** What the witnesses' `AddSuspicion` calls produce. */
  datatype Response = Response(store: Store, updates: seq<EventRecord>, filings: seq<S.Filing>)

  /** One witness slot: a null slot or a destroyed NPC is skipped. */
  function Visit(acc: Response, w: Option<Handle>, delta: real, record: EventRecord, now: real): (next: Response)
    ensures next.store.Keys == acc.store.Keys
    ensures forall h :: h in acc.store && w != Some(h) ==> next.store[h] == acc.store[h]
    ensures w.Some? && w.value in acc.store ==>
      next.store[w.value] == S.AddSuspicion(acc.store[w.value], delta, record.ruleId, record.id, now).next
    ensures |acc.updates| <= |next.updates| <= |acc.updates| + 1
    ensures |acc.filings| <= |next.filings| <= |acc.filings| + 1
  {
    if w.None? || w.value !in acc.store then acc
    else
      var o := S.AddSuspicion(acc.store[w.value], delta, record.ruleId, record.id, now);
      Response(acc.store[w.value := o.next],
               acc.updates + (if o.update.Some? then [o.update.value] else []),
               acc.filings + (if o.filing.Some? then [o.filing.value] else []))
  }

  /** The witnesses visited in list order. */
  function VisitAll(acc: Response, ws: seq<Option<Handle>>, delta: real, record: EventRecord, now: real): (next: Response)
    ensures next.store.Keys == acc.store.Keys
    ensures |next.updates| <= |acc.updates| + |ws| && |next.filings| <= |acc.filings| + |ws|
    decreases |ws|
  {
    if |ws| == 0 then acc
    else Visit(VisitAll(acc, ws[..|ws| - 1], delta, record, now), ws[|ws| - 1], delta, record, now)
  }

  /** A violation with a non-empty id raises each witnessed NPC once, even
      when a handle is listed twice (the repeated event id is ignored), and
      leaves every other NPC alone. */
  lemma {:induction false} VisitAllOnce(acc: Response, ws: seq<Option<Handle>>, delta: real, record: EventRecord, now: real, h: Handle)
    requires record.id != "" && h in acc.store
    ensures h in VisitAll(acc, ws, delta, record, now).store
    ensures Some(h) in ws ==>
      VisitAll(acc, ws, delta, record, now).store[h] == S.AddSuspicion(acc.store[h], delta, record.ruleId, record.id, now).next
    ensures Some(h) !in ws ==> VisitAll(acc, ws, delta, record, now).store[h] == acc.store[h]
    decreases |ws|
  {
    if |ws| > 0 {
      var init := ws[..|ws| - 1];
      VisitAllOnce(acc, init, delta, record, now, h);
      assert forall w :: w in ws <==> w in init || w == ws[|ws| - 1];
    }
  }

  /** `HandleViolation`: skip a non-positive delta, otherwise raise every
      listed witness by the applied delta in list order. */
  method HandleViolation(r: Responder, store: Store, record: EventRecord, now: real, distanceFactor: real)
    returns (response: Response)
    ensures response.store.Keys == store.Keys
    ensures GetDelta(r, record.ruleId) <= 0.0 ==>
      response == Response(store, [], [])
    ensures GetDelta(r, record.ruleId) > 0.0 ==>
      response == VisitAll(Response(store, [], []), r.witnesses, AppliedDelta(r, record, distanceFactor), record, now)
    ensures |response.updates| <= |r.witnesses| && |response.filings| <= |r.witnesses|
    ensures forall h :: h in store && Some(h) !in r.witnesses ==> response.store[h] == store[h]
  {
    var delta := GetDelta(r, record.ruleId);
    response := Response(store, [], []);
    if delta <= 0.0 {
      return;
    }
    var applied := AppliedDelta(r, record, distanceFactor);
    var i := 0;
    while i < |r.witnesses|
      invariant 0 <= i <= |r.witnesses|
      invariant response == VisitAll(Response(store, [], []), r.witnesses[..i], applied, record, now)
    {
      assert r.witnesses[..i + 1][..i] == r.witnesses[..i];
      response := Visit(response, r.witnesses[i], applied, record, now);
      i := i + 1;
    }
    assert r.witnesses[..i] == r.witnesses;
    forall h | h in store && Some(h) !in r.witnesses
      ensures response.store[h] == store[h]
    {
      Untouched(Response(store, [], []), r.witnesses, applied, record, now, h);
    }
  }

  /** An NPC that is not a listed witness is never touched. */
  lemma {:induction false} Untouched(acc: Response, ws: seq<Option<Handle>>, delta: real, record: EventRecord, now: real, h: Handle)
    requires h in acc.store && Some(h) !in ws
    ensures h in VisitAll(acc, ws, delta, record, now).store
    ensures VisitAll(acc, ws, delta, record, now).store[h] == acc.store[h]
    decreases |ws|
  {
    if |ws| > 0 {
      Untouched(acc, ws[..|ws| - 1], delta, record, now, h);
    }
  }

  /** `HandleEvent`: only `ViolationDetected` records trigger a response. */
  method HandleEvent(r: Responder, store: Store, record: EventRecord, now: real, distanceFactor: real)
    returns (response: Response)
    ensures !record.eventType.ViolationDetected? ==> response == Response(store, [], [])
    ensures record.eventType.ViolationDetected? && GetDelta(r, record.ruleId) > 0.0 ==>
      response == VisitAll(Response(store, [], []), r.witnesses, AppliedDelta(r, record, distanceFactor), record, now)
  {
    if !record.eventType.ViolationDetected? {
      return Response(store, [], []);
    }
    response := HandleViolation(r, store, record, now, distanceFactor);
  }

  /** Handling the same violation twice changes nothing the second time:
      every witness has already seen its id. */
  lemma {:induction false} RepeatedViolationIgnored(acc: Response, ws: seq<Option<Handle>>, delta: real, record: EventRecord, now: real, h: Handle)
    requires record.id != "" && h in acc.store
    ensures var once := VisitAll(acc, ws, delta, record, now);
      h in once.store && VisitAll(once, ws, delta, record, now).store[h] == once.store[h]
  {
    var once := VisitAll(acc, ws, delta, record, now);
    VisitAllOnce(acc, ws, delta, record, now, h);
    VisitAllOnce(once, ws, delta, record, now, h);
  }
}

=== FILE: world_build_report.dfy ===
/** `WorldBuildReport`: the warnings and errors collected while the city is
    assembled. A null message is modelled as the empty string; writing the
    summary to the console is not modelled. */
module WorldBuildReport {

  datatype Report = Report(warnings: seq<string>, errors: seq<string>)

  const Fresh := Report([], [])

  function WarningCount(r: Report): nat { |r.warnings| }

  function ErrorCount(r: Report): nat { |r.errors| }

  predicate HasErrors(r: Report) { ErrorCount(r) > 0 }

  /** `AddWarning`: an empty message is dropped; otherwise it is appended
      and the errors are untouched. */
  function AddWarning(r: Report, message: string): (r': Report)
    ensures message == "" ==> r' == r
    ensures message != "" ==> r'.warnings == r.warnings + [message] && r'.errors == r.errors
  {
    if message == "" then r else r.(warnings := r.warnings + [message])
  }

  /** `AddError`: an empty message is dropped; otherwise it is appended and
      the warnings are untouched. */
  function AddError(r: Report, message: string): (r': Report)
    ensures message == "" ==> r' == r
    ensures message != "" ==> r'.errors == r.errors + [message] && r'.warnings == r.warnings
    ensures HasErrors(r') <==> HasErrors(r) || message != ""
  {
    if message == "" then r else r.(errors := r.errors + [message])
  }

  /** The non-empty messages of a list, in order. */
  function NonEmpty(ms: seq<string>): (r: seq<string>)
    ensures forall m :: m in r <==> m in ms && m != ""
  {
    if ms == [] then []
    else (if ms[0] != "" then [ms[0]] else []) + NonEmpty(ms[1..])
  }

  /** Reporting a list of errors one by one. */
  function AddErrors(r: Report, ms: seq<string>): Report
    decreases |ms|
  {
    if ms == [] then r else AddErrors(AddError(r, ms[0]), ms[1..])
  }

  /** The errors kept are exactly the non-empty messages, in order; so a
      report has errors afterwards iff it had some or a non-empty message
      was reported. */
  lemma {:induction false} ErrorsAreNonEmptyMessages(r: Report, ms: seq<string>)
    ensures AddErrors(r, ms).errors == r.errors + NonEmpty(ms)
    ensures AddErrors(r, ms).warnings == r.warnings
    ensures HasErrors(AddErrors(r, ms)) <==> HasErrors(r) || exists m :: m in ms && m != ""
    decreases |ms|
  {
    if ms != [] {
      ErrorsAreNonEmptyMessages(AddError(r, ms[0]), ms[1..]);
      assert r.errors + NonEmpty(ms) == AddError(r, ms[0]).errors + NonEmpty(ms[1..]);
    }
    if |NonEmpty(ms)| > 0 {
      assert NonEmpty(ms)[0] in NonEmpty(ms);
    }
  }

  /** The edit-mode test: one warning and one error are each counted once;
      a fresh report has none. */
  lemma OneOfEach()
    ensures var r := AddError(AddWarning(Fresh, "missing anchor"), "missing prefab");
      WarningCount(r) == 1 && ErrorCount(r) == 1 && HasErrors(r)
    ensures WarningCount(Fresh) == 0 && ErrorCount(Fresh) == 0 && !HasErrors(Fresh)
  {
  }
}

=== FILE: world_event_log.dfy ===
/** `WorldEventLog`: the bounded, append-only in-memory event buffer with its
    lifetime counters. `Time.time` and `Guid.NewGuid` are parameters. */
module WorldEventLog {
  import opened Events
  import opened Numeric

  const DefaultBufferSize := 512

  /** `events` is oldest-first; `total` counts every record ever accepted and
      `dropped` those evicted from the front. */
  datatype Log = Log(events: seq<EventRecord>, total: nat, dropped: nat, bufferSize: int := DefaultBufferSize)

  /** How many records the buffer keeps; a negative size keeps none. */
  function Capacity(log: Log): nat {
    if log.bufferSize < 0 then 0 else log.bufferSize
  }

  /** The invariant every reachable log satisfies. */
  predicate Valid(log: Log) {
    |log.events| <= Capacity(log) && log.total == log.dropped + |log.events|
  }

  function EmptyLog(bufferSize: int): (log: Log)
    ensures Valid(log) && log.events == [] && log.total == 0
  {
    Log([], 0, 0, bufferSize)
  }

  /** `InferCategory`: the category is always derived from the type. */
  function InferCategory(t: EventType): (c: EventCategory)
    ensures c == Zone <==> t.EnteredZone? || t.ExitedZone?
    ensures c == Suspicion <==> t.SuspicionUpdated?
    ensures c == Report <==> t.ReportFiled?
    ensures c == Verdict <==> t.InterrogationStarted? || t.VerdictGiven?
    ensures c == Rule <==> !(t.EnteredZone? || t.ExitedZone? || t.SuspicionUpdated? || t.ReportFiled?
                             || t.InterrogationStarted? || t.VerdictGiven?)
  {
    match t
    case EnteredZone => Zone
    case ExitedZone => Zone
    case ViolationDetected => Rule
    case SuspicionUpdated => Suspicion
    case ReportFiled => Report
    case InterrogationStarted => Verdict
    case VerdictGiven => Verdict
    case _ => Rule
  }

  /** The record as the log stores it: id kept or freshly assigned, stamped
      with the current time, category recomputed. */
  function Stamp(record: EventRecord, now: real, freshId: string): (stored: EventRecord)
    requires freshId != ""
    ensures stored.id != ""
    ensures record.id != "" ==> stored.id == record.id
    ensures stored.stamp == now && stored.category == InferCategory(record.eventType)
    ensures stored.(id := record.id, stamp := record.stamp, category := record.category) == record
  {
    record.(id := if record.id == "" then freshId else record.id,
            stamp := now,
            category := InferCategory(record.eventType))
  }

  /** `RecordEvent`: append, count, and evict the oldest when over size. */
  function RecordEvent(log: Log, record: EventRecord, now: real, freshId: string): (result: Log)
    requires freshId != ""
    ensures result.total == log.total + 1
    ensures result.bufferSize == log.bufferSize
    ensures Valid(log) ==> Valid(result)
    ensures Valid(log) && Capacity(log) > 0 ==>
      |result.events| > 0 && result.events[|result.events| - 1] == Stamp(record, now, freshId)
    ensures Valid(log) ==> |result.events| == Min(|log.events| + 1, Capacity(log))
    ensures var grown := log.events + [Stamp(record, now, freshId)];
      Valid(log) ==> result.events == grown[|grown| - |result.events|..]
  {
    var events := log.events + [Stamp(record, now, freshId)];
    if |events| > log.bufferSize then
      Log(events[1..], log.total + 1, log.dropped + 1, log.bufferSize)
    else
      Log(events, log.total + 1, log.dropped, log.bufferSize)
  }

  /** `RecordZoneEvent`: the enter/exit record a zone trigger files. */
  function RecordZoneEvent(log: Log, actorId: string, zoneId: string, zoneTypeName: string,
                           entered: bool, now: real, freshId: string): (result: Log)
    requires freshId != ""
    ensures result.total == log.total + 1
    ensures Valid(log) ==> Valid(result)
    ensures Valid(log) && Capacity(log) > 0 ==>
      |result.events| > 0
      && var last := result.events[|result.events| - 1];
      last.eventType == (if entered then EnteredZone else ExitedZone)
      && last.category == Zone && last.actorId == actorId && last.actorRole == "Unknown"
      && last.zoneId == zoneId && last.note == zoneTypeName
  {
    RecordEvent(log, EventRecord(actorId := actorId, actorRole := "Unknown",
                                 eventType := if entered then EnteredZone else ExitedZone,
                                 zoneId := zoneId, category := Zone, note := zoneTypeName),
                now, freshId)
  }

  /** `GetRecent`: the newest `count` records, oldest first. */
  function GetRecent(log: Log, count: int): (recent: seq<EventRecord>)
    ensures count <= 0 ==> recent == []
    ensures count > 0 ==> |recent| == Min(count, |log.events|)
    ensures recent == log.events[|log.events| - |recent|..]
  {
    if count <= 0 then []
    else log.events[Max(0, |log.events| - count)..]
  }

  /** Recording a violation, as the log's unit test does, assigns an id and
      files it under `Rule`. */
  lemma ViolationGetsIdAndRule(log: Log, now: real, freshId: string)
    requires freshId != "" && Valid(log) && Capacity(log) > 0
    ensures var stored := RecordEvent(log, EventRecord(actorId := "Player", actorRole := "Player",
                                                       eventType := ViolationDetected, ruleId := "R4",
                                                       note := "test"), now, freshId).events;
      stored[|stored| - 1].id != "" && stored[|stored| - 1].category == Rule
  {
  }
}

=== FILE: wrappers.dfy ===
/** Failure-compatible wrappers shared by every module of the model:
    `Option` stands in for C# nullable references and `TryGet` out-parameters,
    `Result` for the `bool Try…(…, out value, out error)` pattern. */
module Wrappers {

  datatype Option<+T> = None | Some(value: T) {

    /** The wrapped value, or `default` when there is none. */
    function GetOr(default: T): T {
      match this
      case Some(v) => v
      case None => default
    }
  }

  datatype Result<+R, +E> = Success(value: R) | Failure(error: E)
}

=== FILE: zone_interactable.dfy ===
/** `ZoneInteractable`: a trigger zone in which the player can press the
    interact key to log a rule event (a violation by default). Physics
    triggers become `Enter`/`Exit` calls that say whether the collider was
    the player; the clock is a parameter; the UI prompt and the static
    enter/exit events are not modelled. */
module ZoneInteractable {
  import opened Wrappers
  import opened Events
  import WorldEventLog

  datatype Interactable = Interactable(
    ruleId: string := "R4",
    eventType: EventType := ViolationDetected,
    eventCategory: EventCategory := Rule,
    promptText: string := "E: Interact",
    hasLog: bool := true,
    zoneId: string := "",
    interactionCooldownSeconds: real := 0.5,
    severity: int := 2,
    note: string := "interact",
    placeIdOverride: string := "",
    topicOverride: string := "",
    lastInteractTime: real := -999.0,
    playerInside: bool := false,
    lastActorId: string := "Player",
    lastActorRole: string := "Player")

  /** `OnTriggerEnter`: only the player counts; it becomes the last actor. */
  function Enter(z: Interactable, isPlayer: bool, objectName: string): (r: Interactable)
    ensures !isPlayer ==> r == z
    ensures isPlayer ==> r == z.(playerInside := true, lastActorId := objectName, lastActorRole := "Player")
  {
    if !isPlayer then z else z.(playerInside := true, lastActorId := objectName, lastActorRole := "Player")
  }

  /** `OnTriggerExit`: only the player counts. */
  function Exit(z: Interactable, isPlayer: bool): (r: Interactable)
    ensures !isPlayer ==> r == z
    ensures isPlayer ==> r == z.(playerInside := false)
  {
    if !isPlayer then z else z.(playerInside := false)
  }

  /** `CanInteract`: the player is inside and the cooldown has elapsed. */
  predicate CanInteract(z: Interactable, now: real) {
    z.playerInside && now - z.lastInteractTime >= z.interactionCooldownSeconds
  }

  /** The place a record names: the override, else the zone. */
  function PlaceId(z: Interactable): string {
    if z.placeIdOverride != "" then z.placeIdOverride else z.zoneId
  }

  /** The topic a record names: the override, else the rule, else the place. */
  function Topic(z: Interactable): (t: string)
    ensures z.topicOverride != "" ==> t == z.topicOverride
    ensures z.topicOverride == "" && z.ruleId != "" ==> t == z.ruleId
    ensures z.topicOverride == "" && z.ruleId == "" ==> t == PlaceId(z)
    ensures t == "" ==> z.topicOverride == "" && z.ruleId == "" && z.placeIdOverride == "" && z.zoneId == ""
  {
    if z.topicOverride != "" then z.topicOverride else if z.ruleId != "" then z.ruleId else PlaceId(z)
  }

  /** `EmitViolation`: the record handed to the log, when there is one. */
  function EmitViolation(z: Interactable): (r: Option<EventRecord>)
    ensures r.Some? <==> z.hasLog
    ensures r.Some? ==>
      r.value.actorId == z.lastActorId && r.value.actorRole == z.lastActorRole
      && r.value.eventType == z.eventType && r.value.category == z.eventCategory
      && r.value.ruleId == z.ruleId && r.value.zoneId == z.zoneId
      && r.value.placeId == PlaceId(z) && r.value.topic == Topic(z)
      && r.value.severity == z.severity && r.value.note == z.note
  {
    if !z.hasLog then None
    else Some(EventRecord(actorId := z.lastActorId, actorRole := z.lastActorRole, eventType := z.eventType,
                          category := z.eventCategory, ruleId := z.ruleId, zoneId := z.zoneId,
                          placeId := PlaceId(z), topic := Topic(z), severity := z.severity, note := z.note))
  }

  /** `Interact`: stamp the time, adopt the context's actor and role unless
      they are empty, and emit. */
  function Interact(z: Interactable, actorId: string, actorRole: string, now: real)
    : (r: (Interactable, Option<EventRecord>))
    ensures r.0.lastInteractTime == now
    ensures r.0.lastActorId == (if actorId == "" then z.lastActorId else actorId)
    ensures r.0.lastActorRole == (if actorRole == "" then z.lastActorRole else actorRole)
    ensures r.0 == z.(lastInteractTime := now, lastActorId := r.0.lastActorId, lastActorRole := r.0.lastActorRole)
    ensures r.1 == EmitViolation(r.0)
  {
    var z' := z.(lastInteractTime := now,
                 lastActorId := if actorId == "" then z.lastActorId else actorId,
                 lastActorRole := if actorRole == "" then z.lastActorRole else actorRole);
    (z', EmitViolation(z'))
  }

  /** `TryInteract`: interact only when allowed. */
  function TryInteract(z: Interactable, actorId: string, actorRole: string, now: real)
    : (r: (Interactable, Option<EventRecord>))
    ensures !CanInteract(z, now) ==> r == (z, None)
    ensures CanInteract(z, now) ==> r == Interact(z, actorId, actorRole, now)
    ensures r.1.Some? <==> CanInteract(z, now) && z.hasLog
  {
    if !CanInteract(z, now) then (z, None) else Interact(z, actorId, actorRole, now)
  }

  /** After a press goes through, another within the cooldown records
      nothing, and one after the cooldown (still inside) records again. */
  lemma CooldownBlocksRepeat(z: Interactable, actorId: string, now: real, later: real)
    requires CanInteract(z, now) && z.hasLog
    ensures var first := TryInteract(z, actorId, "", now).0;
      TryInteract(first, actorId, "", later).1.Some? <==> later - now >= z.interactionCooldownSeconds
  {
    var first := TryInteract(z, actorId, "", now).0;
    assert first.lastInteractTime == now && first.playerInside && first.hasLog;
  }

  /** `Configure`: the log and zone are replaced; empty rule and prompt
      overrides are ignored. */
  function Configure(z: Interactable, hasLog: bool, zoneId: string, ruleOverride: string, promptOverride: string)
    : (r: Interactable)
    ensures r.hasLog == hasLog && r.zoneId == zoneId
    ensures r.ruleId == (if ruleOverride != "" then ruleOverride else z.ruleId)
    ensures r.promptText == (if promptOverride != "" then promptOverride else z.promptText)
    ensures r.(hasLog := z.hasLog, zoneId := z.zoneId, ruleId := z.ruleId, promptText := z.promptText) == z
  {
    z.(hasLog := hasLog, zoneId := zoneId,
       ruleId := if ruleOverride != "" then ruleOverride else z.ruleId,
       promptText := if promptOverride != "" then promptOverride else z.promptText)
  }

  /** `ConfigureEvent`: every event field is replaced, empty or not. */
  function ConfigureEvent(z: Interactable, t: EventType, c: EventCategory, noteOverride: string, severityOverride: int,
                          topicOverrideValue: string, placeOverrideValue: string): (r: Interactable)
    ensures EmitViolation(r).Some? ==>
      var rec := EmitViolation(r).value;
      rec.eventType == t && rec.category == c && rec.note == noteOverride && rec.severity == severityOverride
      && (placeOverrideValue != "" ==> rec.placeId == placeOverrideValue)
      && (topicOverrideValue != "" ==> rec.topic == topicOverrideValue)
    ensures r.ruleId == z.ruleId && r.zoneId == z.zoneId && r.playerInside == z.playerInside
  {
    z.(eventType := t, eventCategory := c, note := noteOverride, severity := severityOverride,
       topicOverride := topicOverrideValue, placeIdOverride := placeOverrideValue)
  }

  /** `GetWorldStateSummary`. */
  function Summary(z: Interactable): (s: string)
    ensures |s| == 11 + |z.zoneId| + |z.ruleId| && s[..5] == "Zone:" && s[5..5 + |z.zoneId|] == z.zoneId
    ensures s[5 + |z.zoneId|..11 + |z.zoneId|] == " Rule:" && s[11 + |z.zoneId|..] == z.ruleId
  {
    "Zone:" + z.zoneId + " Rule:" + z.ruleId
  }

  /** The zone test: with the player inside a "Queue" zone under rule R4, one
      press logs exactly one violation with that rule and zone. */
  lemma PressLogsOneViolation(now: real, freshId: string)
    requires now >= -998.5 && freshId != ""
    ensures var z := Interactable(zoneId := "Queue", playerInside := true);
      var (_, record) := TryInteract(z, "Player", "Player", now);
      record.Some?
      && var log := WorldEventLog.RecordEvent(WorldEventLog.EmptyLog(WorldEventLog.DefaultBufferSize), record.value,
                                              now, freshId);
      |log.events| == 1 && log.events[0].eventType == ViolationDetected
      && log.events[0].ruleId == "R4" && log.events[0].zoneId == "Queue"
  {
    var z := Interactable(zoneId := "Queue", playerInside := true);
    assert CanInteract(z, now);
    var record := TryInteract(z, "Player", "Player", now).1.value;
    var empty := WorldEventLog.EmptyLog(WorldEventLog.DefaultBufferSize);
    var stored := WorldEventLog.Stamp(record, now, freshId);
    assert stored.(id := record.id, stamp := record.stamp, category := record.category) == record;
  }
}
